=== FILE: README.md ===
# bubblyclouds-api in Dafny

A model of the logic in the bubblyclouds-api game backend, with proofs about it. The model covers four parts.

- **The single-table store.** Every entity lives in one DynamoDB table keyed by `(modelId, owner)`. The modules involved:
  - `Keys`: model names and key construction.
  - `SplitIds`: `splitModelId` and `splitSessionId`.
  - `Adapter`, `AdapterQueries` and `AdapterBatch`: the generic `DynamoDBAdapter`. The first holds upsert, point reads and expiry; the second holds query conditions, pagination with bounded retries and the list-read expiry filter; the third holds the chunked batch deletes with their retries.
  - The repositories built on it: `MemberRepository`, `InviteRepository`, `SudokuRepository` and `SudokuBookRepository`.

  The table is a Dafny `map` from key to row. Store responses are oracle sequences: whether a read attempt sees the row, which pages a query returns, and which items a batch write leaves unprocessed.
- **Access rules.**
  - `MembersService`: joining, listing and removing members.
  - `PartyEntity`: the group-size default.
  - `AuthGuard`: bearer tokens and required scopes.
  - `AppConfig`: the configuration merge and the cache that holds a completed fetch.
- **Sudoku utilities.**
  - `Scrambler`: the grid ⇄ string round trip, the geometric transforms, the band, stack, row and column permutations, and digit relabelling. Every random draw is an argument. Every operation, in any order, keeps a puzzle whose rows, columns and boxes repeat no digit free of repeats.
  - `SeedReader`: the tab-separated seed files and the difficulty-weighted selection.
- **The nightly analytics job, pure parts.**
  - `PatternUtils` and `DateUtils`: key recognisers and date text.
  - `AggregatorCore`: the `MetricsAggregator` buckets.
  - `AnalyticsWriter`: the analytics item.
  - `CloudwatchPublisher`: the metric data.
  - `ExportTrigger` and `AggregatorHandler`: environment and event validation and the export window.

Shared helpers:
- `Text`: JavaScript `split`, `join`, `startsWith`, `replace`, `padStart`, `String(n)` and string order.
- `Calendar`: the proleptic Gregorian calendar with `setMonth`, `setDate` and `setUTCFullYear` overflow, and `toISOString` dates.
- `Sorting`: a stable `Array.prototype.sort` by numeric key, and sorted keys.
- `CountMap`: a JavaScript `Map<string, number>` of counts, in insertion order.
- `Wrappers`: `Option` and `Result`.

The clock, random draws and the conversion of epoch text to a `Date` are parameters throughout.

Two places where the model follows the code rather than what its comments say:
- The difficulty table of the seed reader is documented as selecting fifty puzzles. Its counts add up to 55, and `SeedReader.DistributionTotal` states 55.
- The sudoku-book expiry does not always land on the first of the next month. The insert stores the expiry the code computes; the intended one is modelled beside it, see Findings.

## Model

| member | source | states |
|---|---|---|
| Keys.ParseModel | src/types/enums/model.ts:1-9 | The membership test on the enum's values gives back the member with exactly that name, and nothing when no member has it |
| Keys.ParseName | src/types/enums/model.ts:1-9 | Every model name is recognised as its own model |
| Keys.NameSeparator | src/types/enums/model.ts:8 | `sudoku-book` is the only model name that contains the separator |
| Keys.FirstSegment | src/dynamodb/dynamodb-adapter.ts:67 | The first `-` segment of `name-id` is `name` when the name has no separator |
| Keys.ModelIdInjective | src/dynamodb/dynamodb-adapter.ts:67-68 | `name + '-' + id` determines both parts when the names hold no separator |
| Keys.ModelKeysCollide | src/types/enums/model.ts:7-8 | Keys of two models coincide only for the same model and id, or for `sudoku` against `sudoku-book` |
| Keys.SudokuBookCollision | src/types/enums/model.ts:7-8 | The `sudoku` key of id `book-x` is the `sudoku-book` key of id `x`, as partition key and as owner key |
| Keys.SudokuFilterAdmitsSudokuBook | src/dynamodb/dynamodb-adapter.ts:156 | A `type: sudoku` prefix filter without id prefix also matches every `sudoku-book` key |
| Keys.KeyMatchesOwnFilters | src/dynamodb/dynamodb-adapter.ts:177-180 | A row's keys match the prefix filters of their own type, with or without the owner's id |
| SplitIds.SplitModelId | src/utils/splitModelId.ts:3-9 | Throws exactly when the first `-` segment is not a model name; otherwise the type is the model of that name |
| SplitIds.SplitModelIdRecompose | src/utils/splitModelId.ts:4-8 | On success, `type + '-' + id` is the input whenever the input contains a separator (and the type alone is the input otherwise) |
| SplitIds.SplitModelIdOfKey | src/utils/splitModelId.ts:3-9 | Splitting `name-id` for a separator-free model name gives back the model and the whole id, whatever separators the id holds |
| SplitIds.SplitModelIdNeverSudokuBook | src/utils/splitModelId.ts:4-5 | `sudoku-book` is never the type returned |
| SplitIds.SplitSudokuBookId | src/utils/splitModelId.ts:4-8 | A `sudoku-book` resource id is read as a `sudoku` id starting `book-` |
| SplitIds.SplitSessionId | src/utils/splitSessionId.ts:5-16 | On success the app is the first segment and a known app and the session part is non-empty; every failure is a BadRequest |
| SplitIds.SplitSessionIdSpec | src/utils/splitSessionId.ts:8-15 | Success exactly when the first segment is a known app and the rest, re-joined with `-`, is non-empty, and then `app + '-' + appSessionId` is the input |
| SplitIds.SplitSessionIdOfComposed | src/utils/splitSessionId.ts:5-16 | Composing a known separator-free app with a non-empty session part and splitting gives both back |
| Adapter.EpochSeconds | src/dynamodb/dynamodb-adapter.ts:75 | The stored second is the floor of the millisecond clock (`s*1000 <= ms < s*1000 + 1000`), negative clocks included |
| Adapter.ExpiryBoundary | src/dynamodb/dynamodb-adapter.ts:328-333 | A row is still served at the exact instant it expires; an absent or zero `expiresAt` never expires; a non-zero one is withheld exactly when now is past `expiresAt*1000` |
| Adapter.StripSystemFields | src/dynamodb/dynamodb-adapter.ts:76-81 | The written payload keeps every other field with its value and loses exactly `createdAt`, `updatedAt` and `expiresAt` |
| Adapter.Upsert | src/dynamodb/dynamodb-adapter.ts:57-95 | One write at `(modelName-id, type-id)`: every other row is unchanged, `createdAt` comes from the first write, `updatedAt` is now in seconds, `expiresAt` is replaced only when given, a failed send changes nothing, and the returned record is the stored row |
| Adapter.UpsertTwiceKeepsCreatedAt | src/dynamodb/dynamodb-adapter.ts:70-81 | Two upserts of a new key keep the first `createdAt` and the second payload, and `updatedAt` advances once the clock has moved a second |
| Adapter.UpsertExpiry | src/dynamodb/dynamodb-adapter.ts:82-84 | An upsert without an expiry keeps the stored one; an upsert with one stores it in whole seconds |
| Adapter.Destroy | src/dynamodb/dynamodb-adapter.ts:188-200 | Fails exactly when the delete send fails, and then the table is as it was; otherwise exactly the addressed key is gone and every other row is unchanged, deleting a missing key changing nothing |
| Adapter.FirstVisible | src/dynamodb/dynamodb-adapter.ts:125-131 | The attempt that succeeds is the first allowed one that sees the row, every earlier attempt missed, and no answer means every allowed attempt missed |
| Adapter.FindByIdAndOwner | src/dynamodb/dynamodb-adapter.ts:97-139 | At most 5 attempts, or 1 with backoff disabled; a record exactly when the key is stored, some allowed attempt sees it and it has not expired (never a throw), and then it is the stored row |
| Adapter.UpsertThenFind | src/dynamodb/dynamodb-adapter.ts:57-139 | A read that sees an upsert at once returns the record the upsert returned, unless it has already expired |
| Adapter.PrefixIsolation | src/dynamodb/dynamodb-adapter.ts:105-110 | A row written under one separator-free model name is never found under another |
| AdapterQueries.ModelIdQuery | src/dynamodb/dynamodb-adapter.ts:141-164 | The table query is on `modelName-id`, with an owner prefix `type-` plus the id prefix (or nothing) exactly when a filter is given |
| AdapterQueries.OwnerQuery | src/dynamodb/dynamodb-adapter.ts:166-186 | The index query is on `type-id` of the owner, with a model-id prefix `type-` plus the id prefix (or nothing) exactly when a filter is given |
| AdapterQueries.OwnerIndexSymmetry | src/dynamodb/dynamodb-adapter.ts:141-186 | A row written with owner `o` is matched by the owner query of `o` (with or without its model as filter) and by its model-id query (with or without `o`'s type and id as filter) |
| AdapterQueries.GetPage | src/dynamodb/dynamodb-adapter.ts:279-309 | A page has rows exactly when some allowed attempt returned a non-empty page; a page without rows has no continuation key |
| AdapterQueries.CollectPages | src/dynamodb/dynamodb-adapter.ts:311-325 | The page loop requests between one and ten pages |
| AdapterQueries.GetPageFirstHit | src/dynamodb/dynamodb-adapter.ts:279-309 | The page `getPage` returns is the first non-empty response among the allowed attempts, with that response's continuation |
| AdapterQueries.CollectPagesContinued | src/dynamodb/dynamodb-adapter.ts:311-325 | Every page the loop requested before the last came with a continuation key |
| AdapterQueries.CollectPagesLast | src/dynamodb/dynamodb-adapter.ts:311-325 | The last page requested came without a continuation key, unless the loop stopped at ten pages |
| AdapterQueries.CollectPagesRows | src/dynamodb/dynamodb-adapter.ts:311-325 | The rows collected are the requested pages' rows concatenated in page order |
| AdapterQueries.LiveRecords | src/dynamodb/dynamodb-adapter.ts:327-334 | Every record a list read returns is the converted form of a fetched row that has not expired, and every fetched row that has not expired gives a record |
| AdapterQueries.LiveRecordsAppend | src/dynamodb/dynamodb-adapter.ts:327-334 | The filter keeps order: filtering a concatenation concatenates the filtered parts, and a single row gives its record exactly when it has not expired |
| AdapterQueries.GetResults | src/dynamodb/dynamodb-adapter.ts:275-335 | The loop requests at most ten pages and returns the live rows of exactly the pages the reference definition collects |
| AdapterQueries.ListReadSound | src/dynamodb/dynamodb-adapter.ts:275-335 | When the store only serves rows that match the query, every record returned is a stored, matching, unexpired row |
| AdapterQueries.ListReadComplete | src/dynamodb/dynamodb-adapter.ts:275-335 | Every unexpired row on a page the loop requested comes back as a record |
| AdapterQueries.CollectedRowsContain | src/dynamodb/dynamodb-adapter.ts:311-325 | Every row of a page the loop requested is among the rows it collects |
| AdapterQueries.FindAllByModelId | src/dynamodb/dynamodb-adapter.ts:141-164 | Sends the model-id condition and returns the paged, expiry-filtered rows, honouring `disableBackoff` |
| AdapterQueries.FindAllByOwner | src/dynamodb/dynamodb-adapter.ts:166-186 | Sends the owner-index condition and returns the paged, expiry-filtered rows, always with backoff |
| AdapterBatch.Batches | src/dynamodb/dynamodb-adapter.ts:242-246 | `ceil(n/25)` chunks, each holding between 1 and 25 items |
| AdapterBatch.BatchCount | src/dynamodb/dynamodb-adapter.ts:244 | The chunk count is the least number of 25-item chunks that covers the input |
| AdapterBatch.BatchesConcat | src/dynamodb/dynamodb-adapter.ts:244-246 | The chunks, concatenated in order, are the input |
| AdapterBatch.DoBatchWrite | src/dynamodb/dynamodb-adapter.ts:202-232 | It throws once `attempt > 5`, so a chunk gets at most six rounds; it succeeds exactly when the rounds it may still take leave no key unprocessed, and then stops after the first round that does; a key of the chunk is deleted exactly when some round it took processed it, every other row is untouched; a failed send counts as everything unprocessed |
| AdapterBatch.LeftShifts | src/dynamodb/dynamodb-adapter.ts:226-229 | Resubmitting the unprocessed keys is the same as continuing the round sequence: `n + 1` rounds from the chunk equal `n` rounds from what the first round left |
| AdapterBatch.DoBatchWriteMinimal | src/dynamodb/dynamodb-adapter.ts:222-230 | A recursion that stops at the first emptying round of the remainder stops at the first emptying round of the whole chunk |
| AdapterBatch.DoBatchWriteFirstRound | src/dynamodb/dynamodb-adapter.ts:222-225 | A chunk processed in full by the first round takes one round and succeeds |
| AdapterBatch.DoBatchWriteGivesUp | src/dynamodb/dynamodb-adapter.ts:207-209 | A store that never processes anything makes the chunk fail |
| AdapterBatch.KeysOfItems | src/dynamodb/dynamodb-adapter.ts:252-261 | The delete requests address exactly the items' keys |
| AdapterBatch.BatchDestroy | src/dynamodb/dynamodb-adapter.ts:234-273 | Every chunk of 25 is attempted; the failure count is the number of chunks whose own rounds leave a key unprocessed, independent of the table; it throws exactly when that count is positive, with the count in the message; only the items' keys are removed, every chunk that succeeded is fully removed, and all items on success |
| AdapterBatch.FailedChunksNone | src/dynamodb/dynamodb-adapter.ts:248-272 | No chunk is counted as failed exactly when every chunk's write succeeds |
| AdapterBatch.DestroyChunks | src/dynamodb/dynamodb-adapter.ts:248-268 | The loop over the chunks removes only the items' keys, counts exactly the failing chunks, and leaves every successful chunk cleared |
| AdapterBatch.DestroyChunk | src/dynamodb/dynamodb-adapter.ts:249-267 | One pass writes chunk `i`, catches and counts its failure, and keeps the earlier chunks' results |
| AdapterBatch.ChunkStaysCleared | src/dynamodb/dynamodb-adapter.ts:248-268 | A chunk that was removed stays removed while later chunks are written, and the current chunk is removed when its write succeeds |
| AdapterBatch.ChunkKeeps | src/dynamodb/dynamodb-adapter.ts:250-262 | A chunk's delete requests only touch keys of the items passed in |
| AdapterBatch.ChunksCleared | src/dynamodb/dynamodb-adapter.ts:244-246 | When every chunk is cleared, every item's key is gone |
| MemberRepository.ResourceOwner | src/members/repository/member.repository.ts:20-26 | The owner is the type and id `splitModelId` reads from the resource id, and it fails exactly when that split fails |
| MemberRepository.MemberKey | src/members/repository/member.repository.ts:20-26 | A membership lives at `member-user-<userId>` under the resource's owner, and has no key when the resource type is unsupported |
| MemberRepository.Insert | src/members/repository/member.repository.ts:17-28 | It succeeds exactly when the resource type is supported and the send succeeds, and an unsupported type throws before anything is written; on success the payload is stored at the membership key, returned, and every other row is unchanged |
| MemberRepository.DestroyItemIsInsertKey | src/members/repository/member.repository.ts:74-82 | `batchDestroy` builds, for every member, exactly the key `insert` wrote |
| MemberRepository.DestroyItems | src/members/repository/member.repository.ts:76-80 | The items are built one per member, in order, and the mapping throws when any resource id is unsupported |
| MemberRepository.BatchDestroy | src/members/repository/member.repository.ts:74-82 | An unsupported resource id throws before any delete; otherwise it throws exactly when some chunk of the adapter's batch delete failed, with the failed-chunk count in the message; on success none of the memberships remains; every row that is not one of the members' keys stays, and no row is changed |
| MemberRepository.FindAllMembersForResource | src/members/repository/member.repository.ts:30-45 | Queries the owner index of the resource filtered on type `member`, and returns a permutation of the live rows sorted oldest `createdAt` first, rows with equal `createdAt` keeping the order the query returned them in |
| MemberRepository.FindAllForUser | src/members/repository/member.repository.ts:47-59 | Queries the table on `user-<userId>` with the optional resource filter, and returns a permutation of the live rows sorted newest `createdAt` first, rows with equal `createdAt` keeping the order the query returned them in |
| MemberRepository.FindForUser | src/members/repository/member.repository.ts:61-72 | Returns a membership exactly when the adapter's point read of `user-<userId>` under the given resource does |
| MemberRepository.InsertedMemberIsListed | src/members/repository/member.repository.ts:17-59 | An inserted membership matches the resource's member listing and the user's listings, with or without the resource-type filter |
| MemberRepository.InsertThenFindForUser | src/members/repository/member.repository.ts:17-72 | A membership inserted and then read by `findForUser` with the same user and resource is found, unless it has expired |
| InviteRepository.InviteOwner | src/invites/repository/invite.repository.ts:21-24 | Throws `Unsupported resourceId` exactly when the first `-` segment is not a model name; the owner's id is the second segment alone, so it never contains a separator |
| InviteRepository.Insert | src/invites/repository/invite.repository.ts:16-31 | It succeeds exactly when the resource type is supported and the send succeeds; an unsupported resource id throws; on success the row at `invite-<inviteId>` holds `inviteId` equal to its key id and the resource id, and the invite's expiry is forwarded unchanged (kept when absent) |
| InviteRepository.InviteOwnerOneSeparator | src/invites/repository/invite.repository.ts:21 | With exactly one separator the invite's owner is what `splitModelId` would give |
| InviteRepository.InviteOwnerDropsSegments | src/invites/repository/invite.repository.ts:21 | With a further separator the two readings differ: `party-a-b` gives owner id `a` here but `a-b` to `splitModelId` |
| InviteRepository.InviteOwnerUndefined | src/invites/repository/invite.repository.ts:21-28 | A resource id that is a bare model name gives the owner id `undefined` |
| InviteRepository.Find | src/invites/repository/invite.repository.ts:33-38 | Queries the table on the invite id and returns an entity exactly when one live record comes back, and then that record |
| InviteRepository.InsertedInviteIsFound | src/invites/repository/invite.repository.ts:25-34 | The key an insert writes is matched by `find`'s query for the same invite id |
| SudokuRepository.SudokuOfTheDayId | src/sudoku/repository/sudoku.repository.ts:17-21 | For four-digit years the id is `oftheday-` then the UTC date as `YYYYMMDD` (the ISO date with its dashes removed), a dash and the difficulty |
| SudokuRepository.ExpiryOfTheDay | src/sudoku/repository/sudoku.repository.ts:27-28 | The expiry is the same UTC day and time one year on, except that 29 February rolls over to 1 March when the next year is not a leap year |
| SudokuRepository.ExpiryIsOneYear | src/sudoku/repository/sudoku.repository.ts:27-28 | The expiry is 365 or 366 days after now, and at least 365 days of milliseconds |
| SudokuRepository.InsertSudokuOfTheDay | src/sudoku/repository/sudoku.repository.ts:23-37 | Writes at today's id for the payload's own difficulty under owner `sudoku-oftheday`, stores `sudokuId` equal to the key id, and stores the one-year expiry in seconds; a failed send is the only error |
| SudokuRepository.FindSudokuOfTheDay | src/sudoku/repository/sudoku.repository.ts:39-47 | Returns only the row at today's id under owner `sudoku-oftheday`, and only while it has not expired |
| SudokuRepository.InsertThenFindSameDay | src/sudoku/repository/sudoku.repository.ts:26-46 | An insert and a later find on the same UTC day for the payload's difficulty address the same key, and a visible read returns what was inserted |
| SudokuRepository.DayIdsDiffer | src/sudoku/repository/sudoku.repository.ts:17-21 | Different days (four-digit years) give different ids, so a find never returns another day's sudoku |
| SudokuBookRepository.IdInstant | src/sudoku/repository/sudoku-book.repository.ts:16-20 | Without the flag the id is taken from now; with it, from now moved on one month with the day of month kept (up to the 28th, the same day of the next month) |
| SudokuBookRepository.SudokuBookOfTheMonthId | src/sudoku/repository/sudoku-book.repository.ts:16-23 | For four-digit years the id is `ofthemonth-` and the full `YYYYMMDD` of that instant, day included |
| SudokuBookRepository.ExpiryAsWritten | src/sudoku/repository/sudoku-book.repository.ts:33-35 | The expiry as the code computes it: the month moved on first, then the day set to 1; always the first of some month |
| SudokuBookRepository.ExpiryOfTheMonth | src/sudoku/repository/sudoku-book.repository.ts:33-35 | The expiry as intended: the first of the month one (or, with the flag, two) months after now's month, years carried |
| SudokuBookRepository.ExpiryOfTheMonthSteps | src/sudoku/repository/sudoku-book.repository.ts:34-35 | The intended expiry is the first of the next month, or of the month after next with the flag |
| SudokuBookRepository.ExpiryAgreesEarlyInMonth | src/sudoku/repository/sudoku-book.repository.ts:33-35 | The code's expiry and the intended one agree whenever today's day of month exists in the target month |
| SudokuBookRepository.ExpiryAsWrittenOverflows | src/sudoku/repository/sudoku-book.repository.ts:33-35 | On 31 January 2025 the code's expiry is 1 March instead of 1 February |
| SudokuBookRepository.AddDaysMonthNotEarlier | src/sudoku/repository/sudoku-book.repository.ts:34 | Moving a date on by whole days (the overflow of `setMonth`) never lands in an earlier month |
| SudokuBookRepository.ExpiryAsWrittenNotEarlier | src/sudoku/repository/sudoku-book.repository.ts:33-35 | The code's expiry is the first of the intended month or of a later one, never earlier |
| SudokuBookRepository.NextMonthIdOverflows | src/sudoku/repository/sudoku-book.repository.ts:18-22 | On 31 January 2025 the next-month id is taken from 3 March, not from a February day |
| SudokuBookRepository.ExpiryAfterToday | src/sudoku/repository/sudoku-book.repository.ts:33-35 | The intended expiry lies at least one day after today |
| SudokuBookRepository.InsertSudokuBookOfTheMonth | src/sudoku/repository/sudoku-book.repository.ts:25-44 | Writes at the month id under owner `sudoku-book-ofthemonth`, stores `sudokuBookId` equal to the key id and the expiry in seconds as the code computes it (month moved first, then the day set to 1); a failed send is the only error |
| SudokuBookRepository.FindSudokuBookOfTheMonth | src/sudoku/repository/sudoku-book.repository.ts:46-54 | Returns only the row at the month id under owner `sudoku-book-ofthemonth`, and only while it has not expired |
| SudokuBookRepository.InsertThenFindSameDay | src/sudoku/repository/sudoku-book.repository.ts:32-53 | An insert and a later find on the same UTC day with the same flag address the same key, and a visible read returns what was inserted |
| SudokuBookRepository.MonthIdsDifferByDay | src/sudoku/repository/sudoku-book.repository.ts:21-22 | The id carries the day: a find on another day of the same month addresses a different key from the insert |
| MembersService.FindResource | src/members/members.service.ts:23-31 | A malformed resource id throws; only a party id is looked up (with the optional creator), every other kind of resource is never found |
| MembersService.OnlyPartiesAreResources | src/members/members.service.ts:27-30 | A well-formed id of a session or any non-party kind resolves to no resource, whatever the party store holds |
| MembersService.Create | src/members/members.service.ts:33-46 | A failing invite lookup fails the call with its error; it succeeds exactly when the invite resolves to a resource of a supported type and the write is sent; on success the membership key of the caller and the invite's resource is in the store, with the caller's id, the invite's resource id and the requested nickname, and every other row is unchanged |
| MembersService.FindAll | src/members/members.service.ts:48-60 | A missing resource is Forbidden("Resource not found"); otherwise the caller must be among the live members (else NotFound), and the result is every live membership of the resource, oldest first, and contains the caller |
| MembersService.MemberInPermutation | src/members/members.service.ts:56 | Whether the requester is among the members does not depend on the order they are listed in |
| MembersService.DeleteForUser | src/members/members.service.ts:62-88 | Removing someone else needs a party the requester created, else Forbidden; then the member must be visible, else NotFound("Member not found"); a failed delete send throws; success, exactly when the member is visible and the send goes through, removes exactly that membership key and changes nothing else |
| MembersService.DestroyMembership | src/members/members.service.ts:76-87 | Fails exactly when the resource id does not parse, the member's row is not visible, or the delete send fails, the last with the send's error |
| MembersService.SelfDeleteIgnoresResource | src/members/members.service.ts:69-74 | Removing oneself never consults the resource: the outcome is the same whatever the party store holds |
| MembersService.CreateThenLeave | src/members/members.service.ts:33-88 | Joining through an invite and then leaving while the row is visible succeeds and gives back the store as it was before joining |
| PartyEntity.NewEntity | src/parties/entities/party.entity.ts:17-33 | Every field is copied; a falsy `maxSize` (absent or 0) becomes 5, any other is kept, so the group size is never 0 |
| PartyEntity.NewEntityIdempotent | src/parties/entities/party.entity.ts:30 | Building an entity from an entity's own fields changes nothing |
| PartyEntity.FalsyMaxSizesAgree | src/parties/entities/party.entity.ts:30 | An absent and a zero `maxSize` give the same entity, with the default size 5 |
| PartyEntity.MembersResourceId | src/parties/entities/party.entity.ts:38-40 | The resource id reads back, through `splitModelId`, as this party |
| PartyEntity.FindMembers | src/parties/entities/party.entity.ts:35-41 | Queries the party's owner key for member rows, and returns every live membership, oldest first |
| AuthGuard.ExtractTokenFromHeader | src/guards/auth.guard.ts:74-77 | A token is returned only when the header's first space-separated word is exactly `Bearer`, and it never contains a space |
| AuthGuard.BearerRoundTrip | src/guards/auth.guard.ts:74-77 | A header written as `Bearer <token>` gives back exactly that token, for any token without a space |
| AuthGuard.OtherSchemesGiveNoToken | src/guards/auth.guard.ts:75-76 | Any other first word, and a lone `Bearer`, give no token |
| AuthGuard.CanActivate | src/guards/auth.guard.ts:25-72 | A public route passes with no user; otherwise a missing or empty token is Unauthorized("Missing token"); the request passes exactly when the token verifies and, when permissions are required, the payload has a scope and each permission is one of its words (a payload without a scope fails any permission list, even an empty one), and then the user is the verified payload; every later failure is a bare Unauthorized |
| AuthGuard.MorePermissionsAdmitLess | src/guards/auth.guard.ts:52-61 | A request that passes with more required permissions passes with fewer |
| AuthGuard.ScopeIgnoredWithoutPermissions | src/guards/auth.guard.ts:52 | Without required permissions the scope plays no part in the decision |
| AuthGuard.ScopeWordGranted | src/guards/auth.guard.ts:53-57 | A permission that appears as a whole word of the scope, anywhere in it, is granted |
| AppConfig.Overide | src/utils/fetchAppConfig.ts:5-20 | Keeps the configuration's fields and API keys, and adds (or replaces) the key of the environment's username with its password only when both variables are non-empty; no other key changes |
| AppConfig.OverideIdempotent | src/utils/fetchAppConfig.ts:5-20 | Merging an already merged configuration changes nothing |
| AppConfig.FetchAppConfig | src/utils/fetchAppConfig.ts:22-46 | A cached config is returned without a request; otherwise, with a prefetch path the extension URL on localhost:2772 is fetched, a failure is thrown and nothing is cached, a success is merged and cached; without a path the merge of nothing is cached; whatever is returned is what is cached |
| AppConfig.FetchOnce | src/utils/fetchAppConfig.ts:23-45 | After one successful load every later call returns the same configuration without fetching, whatever the environment or response |
| AppConfig.FailedFetchRetried | src/utils/fetchAppConfig.ts:28-36 | A failed fetch leaves nothing cached, so the next call fetches again |
| Scrambler.ParseString | src/utils/scrambleSudoku.ts:11-24 | Anything but 81 characters throws the length message; otherwise cell (i, j) is character 9i + j |
| Scrambler.GridToString | src/utils/scrambleSudoku.ts:29-31 | A filled grid prints as 81 characters with cell (i, j) at position 9i + j |
| Scrambler.ParseThenPrint | src/utils/scrambleSudoku.ts:11-31 | Parsing an 81-character string and printing the grid gives the string back |
| Scrambler.PrintThenParse | src/utils/scrambleSudoku.ts:11-31 | Printing a filled grid and parsing the text gives the grid back |
| Scrambler.Rotate90 | src/utils/scrambleSudoku.ts:55-65 | The cell at (i, j) moves to (j, 8 - i) |
| Scrambler.Rotate90FourTimes | src/utils/scrambleSudoku.ts:55-65 | Four quarter turns give the original grid |
| Scrambler.Rotate90IsMirroredTranspose | src/utils/scrambleSudoku.ts:55-96 | A quarter turn equals a transpose followed by a left-right mirror |
| Scrambler.Rotate90Bag | src/utils/scrambleSudoku.ts:55-65 | A quarter turn keeps every cell, with multiplicity |
| Scrambler.MirrorHorizontal | src/utils/scrambleSudoku.ts:70-74 | Cell (i, j) takes the value of (i, 8 - j) |
| Scrambler.MirrorHorizontalInvolution | src/utils/scrambleSudoku.ts:70-74 | Mirroring left-right twice gives the original grid |
| Scrambler.MirrorHorizontalBag | src/utils/scrambleSudoku.ts:70-74 | Mirroring left-right keeps every cell |
| Scrambler.MirrorVertical | src/utils/scrambleSudoku.ts:79-81 | Cell (i, j) takes the value of (8 - i, j) |
| Scrambler.MirrorVerticalInvolution | src/utils/scrambleSudoku.ts:79-81 | Mirroring top-bottom twice gives the original grid |
| Scrambler.Transpose | src/utils/scrambleSudoku.ts:86-96 | The cell at (i, j) moves to (j, i) |
| Scrambler.TransposeInvolution | src/utils/scrambleSudoku.ts:86-96 | Transposing twice gives the original grid |
| Scrambler.TransposeBag | src/utils/scrambleSudoku.ts:86-96 | Transposing keeps every cell, with multiplicity |
| Scrambler.Shuffle | src/utils/scrambleSudoku.ts:43-50 | For any draws in the ranges the Fisher-Yates loop uses, the result is a rearrangement of the input |
| Scrambler.ShuffleIdentity | src/utils/scrambleSudoku.ts:43-50 | Drawing each index itself leaves the list as it was |
| Scrambler.Perm3From | src/utils/scrambleSudoku.ts:124-125 | Shuffling `[0, 1, 2]` always yields an arrangement of the three indices |
| Scrambler.BandSwaps | src/utils/scrambleSudoku.ts:123-134 | Band i of the result is band p[i] of the grid, and every cell is kept |
| Scrambler.StackSwaps | src/utils/scrambleSudoku.ts:139-152 | In every row, stack j of the result is stack p[j] of the grid, and every cell is kept |
| Scrambler.RowSwapsInBands | src/utils/scrambleSudoku.ts:157-172 | Each band's rows are rearranged by that band's own shuffle, and every cell is kept |
| Scrambler.ColumnSwapsInStacks | src/utils/scrambleSudoku.ts:177-197 | On a filled grid each stack's columns are rearranged by that stack's own shuffle and every cell is kept; the result is always filled |
| Scrambler.RelabelCell | src/utils/scrambleSudoku.ts:213-219 | `.` stays, digit k becomes the k-th shuffled digit, and any other character becomes `undefined` |
| Scrambler.Relabel | src/utils/scrambleSudoku.ts:202-220 | Every cell is relabelled through the digit mapping |
| Scrambler.RelabelBijective | src/utils/scrambleSudoku.ts:202-220 | With a shuffle of 1..9 the mapping sends puzzle cells to puzzle cells, `.` only to `.`, and distinct cells to distinct cells |
| Scrambler.RelabelIdentity | src/utils/scrambleSudoku.ts:203-210 | The digits in their own order relabel nothing |
| Scrambler.RelabelPuzzle | src/utils/scrambleSudoku.ts:202-220 | Relabelling a puzzle gives a puzzle with as many blanks |
| Scrambler.Apply | src/utils/scrambleSudoku.ts:101-229 | Each operation gives a 9x9 grid; all but the column swap and the relabelling keep every cell |
| Scrambler.ApplyPuzzle | src/utils/scrambleSudoku.ts:101-229 | Each of the eight operations turns a puzzle into a puzzle with as many blanks |
| Scrambler.ApplyAllPuzzle | src/utils/scrambleSudoku.ts:248-249 | Running any list of operations in turn keeps a puzzle a puzzle with as many blanks |
| Scrambler.Scramble | src/utils/scrambleSudoku.ts:234-263 | Fails, with the length message, exactly when the input is not 81 characters long |
| Scrambler.ScramblePuzzle | src/utils/scrambleSudoku.ts:234-263 | Scrambling an 81-character puzzle of `.` and digits never fails, and yields such a puzzle with as many blanks |
| Scrambler.ScrambleKeepsUnits | src/utils/scrambleSudoku.ts:234-263 | Scrambling a puzzle in which no row, column or box repeats a digit never fails, and yields such a puzzle again: the logical structure the scrambler promises to keep |
| Scrambler.ApplyNoClash | src/utils/scrambleSudoku.ts:101-229 | Each of the eight operations keeps every row, column and box of a puzzle free of repeated digits |
| Scrambler.ApplyAllNoClash | src/utils/scrambleSudoku.ts:248-249 | Running the operations in any order keeps every row, column and box free of repeated digits |
| Scrambler.MovedNoClash | src/utils/scrambleSudoku.ts:55-197 | A grid made by sending rows and columns through line tables that keep bands and stacks together (and possibly exchanging rows with columns) keeps every unit free of repeats |
| Scrambler.LinesMap | src/utils/scrambleSudoku.ts:123-197 | Rearranging the three blocks and, inside each, its three lines gives a table of the nine lines that is one-to-one and keeps each block's lines together |
| Scrambler.Rotate90Moves | src/utils/scrambleSudoku.ts:55-65 | After a quarter turn, cell (i, j) holds the old cell (8 - j, i) |
| Scrambler.Rotate90NoClash | src/utils/scrambleSudoku.ts:55-65 | A quarter turn keeps every unit free of repeats |
| Scrambler.RotateTimesNoClash | src/utils/scrambleSudoku.ts:101-106 | Any number of quarter turns keeps every unit free of repeats |
| Scrambler.MirrorNoClash | src/utils/scrambleSudoku.ts:111-118 | Either mirror, or both, keeps every unit free of repeats |
| Scrambler.TransposeNoClash | src/utils/scrambleSudoku.ts:86-96 | A transpose keeps every unit free of repeats |
| Scrambler.BandSwapsMove | src/utils/scrambleSudoku.ts:123-134 | After the band swaps, row 3b + k holds the old row 3p[b] + k |
| Scrambler.BandSwapsNoClash | src/utils/scrambleSudoku.ts:123-134 | Swapping bands keeps every unit free of repeats |
| Scrambler.StackSwapsMove | src/utils/scrambleSudoku.ts:139-152 | After the stack swaps, column 3s + k holds the old column 3p[s] + k |
| Scrambler.StackSwapsNoClash | src/utils/scrambleSudoku.ts:139-152 | Swapping stacks keeps every unit free of repeats |
| Scrambler.RowSwapsMove | src/utils/scrambleSudoku.ts:157-172 | After the row swaps, row 3b + k holds the old row 3b + ps[b][k] |
| Scrambler.RowSwapsNoClash | src/utils/scrambleSudoku.ts:157-172 | Swapping rows inside bands keeps every unit free of repeats |
| Scrambler.ColumnSwapsMove | src/utils/scrambleSudoku.ts:177-197 | On a filled grid, after the column swaps, column 3s + k holds the old column 3s + ps[s][k] |
| Scrambler.ColumnSwapsNoClash | src/utils/scrambleSudoku.ts:177-197 | Swapping columns inside stacks keeps every unit of a filled grid free of repeats |
| Scrambler.RelabelNoClash | src/utils/scrambleSudoku.ts:202-220 | Relabelling through a shuffle of the nine digits keeps every unit free of repeats |
| SeedReader.FieldsUpToKeys | src/utils/sudoku-seed-reader.ts:54-56 | After n headers the object has exactly those headers as keys |
| SeedReader.FieldAt | src/utils/sudoku-seed-reader.ts:54-56 | A header not repeated later holds the value at its own position, or the empty string past the end of the values |
| SeedReader.ParseRow | src/utils/sudoku-seed-reader.ts:50-59 | The parsed row has exactly the headers as keys |
| SeedReader.ParseRowValue | src/utils/sudoku-seed-reader.ts:50-59 | Each header holds the tab-separated value in its column, the last column when a header repeats |
| SeedReader.ExtraValuesIgnored | src/utils/sudoku-seed-reader.ts:51-56 | Values beyond the last header do not change the parsed row |
| SeedReader.MissingValuesEmpty | src/utils/sudoku-seed-reader.ts:55 | A row too short to reach a header's column gives that header the empty string |
| SeedReader.MapDifficulty | src/utils/sudoku-seed-reader.ts:64-80 | Each of the eleven labels reads as its difficulty; a missing column, and any text that is not a label, reads as MODERATE |
| SeedReader.MapDifficultyRoundTrip | src/utils/sudoku-seed-reader.ts:64-80 | Reading a difficulty's label gives that difficulty back |
| SeedReader.MapRowToPuzzle | src/utils/sudoku-seed-reader.ts:85-90 | The puzzle's initial and final grids are the `Sudoku` and `Solution` columns, empty when absent; a missing `Difficulty` is MODERATE |
| SeedReader.NonBlank | src/utils/sudoku-seed-reader.ts:190 | The filter never grows the list and keeps only lines that are not all white space |
| SeedReader.NonBlankMembers | src/utils/sudoku-seed-reader.ts:190 | Every kept line was in the input, and every non-blank input line is kept |
| SeedReader.ReadSeedContent | src/utils/sudoku-seed-reader.ts:189-211 | Fewer than two non-blank lines throw the header-and-data message; otherwise there is one puzzle per non-blank line after the header |
| SeedReader.SeedFileRoundTrip | src/utils/sudoku-seed-reader.ts:182-212 | A file written as a header line and tab-separated rows, each row with at least one non-blank cell, reads back one puzzle per row, each holding that row's `Sudoku` and `Solution` values |
| SeedReader.DistributionTotal | src/utils/sudoku-seed-reader.ts:13-25 | The difficulty table has eleven entries whose counts add up to 55 |
| SeedReader.FirstOccurrences | src/utils/sudoku-seed-reader.ts:36-41 | The indices a set-guarded push keeps: no index twice, and every drawn index among them |
| SeedReader.SelectRandomPuzzles | src/utils/sudoku-seed-reader.ts:30-45 | A count at least the length copies the list; otherwise the result is the items at the drawn indices in the order each was first drawn, each index once, exactly `count` of them, and the draws run out exactly when they hold fewer than `count` distinct indices |
| SeedReader.GenerateSudokuSelection | src/utils/sudoku-seed-reader.ts:217-236 | Each difficulty contributes its count (or its whole file when smaller, or nothing when the file fails); every selected puzzle comes from one of the files; with every file failing the selection is empty |
| SeedReader.SelectionSize | src/utils/sudoku-seed-reader.ts:11-25 | The selection holds at most 55 puzzles, and exactly 55 when every file has enough |
| Text.Split | src/utils/splitModelId.ts:4 | Splitting on a character always gives at least one segment, and no segment contains the separator |
| Text.JoinSplit | src/utils/splitModelId.ts:4-8 | Joining the segments of a split with the same character gives the input back |
| Text.SplitJoin | src/utils/splitSessionId.ts:8-9 | Joining separator-free segments and splitting again gives the segments back |
| Text.SplitManyIffContains | src/utils/splitModelId.ts:4-5 | A string splits into two or more segments exactly when it contains the separator |
| Text.RemoveAll | src/sudoku/repository/sudoku.repository.ts:19 | Removing a character leaves no occurrence of it and never lengthens the text |
| Text.LexLeTotal | deploy/lib/analytics-lambda/shared/date-utils.ts:27-33 | Any two strings are comparable in the string order |
| Text.LexLeAntisymmetric | deploy/lib/analytics-lambda/shared/date-utils.ts:27-33 | Strings each at most the other are equal |
| Text.LexLeTransitive | deploy/lib/analytics-lambda/shared/date-utils.ts:27-33 | The string order is transitive |
| Text.ValueOfNatToString | deploy/lib/analytics-lambda/analytics-writer.ts:17-70 | A count written with `toString` reads back as that count |
| Text.NatToStringInjective | deploy/lib/analytics-lambda/analytics-writer.ts:17-70 | Different counts are written differently |
| Text.IntToStringInjective | deploy/lib/analytics-lambda/export-trigger.ts:30-68 | Different integers, of any sign, are written differently |
| Text.DigitsOrder | deploy/lib/analytics-lambda/shared/date-utils.ts:1-6 | On zero-padded numbers of one width the string order is the numeric order |
| Text.PadTwoDigits | deploy/lib/analytics-lambda/shared/date-utils.ts:3-4 | A number below 100 padded to two characters with `0` is its two-digit rendering |
| Calendar.DaysInMonth | src/sudoku/repository/sudoku-book.repository.ts:34-35 | Every month has 28 to 31 days |
| Calendar.NextPrev | deploy/lib/analytics-lambda/shared/date-utils.ts:8-12 | The day after the day before is the same day, and the other way round |
| Calendar.MakeDayFirst | src/sudoku/repository/sudoku-book.repository.ts:34-35 | The first of a month index that runs past December is the first of the right month of a later year |
| Calendar.SetMonth | src/sudoku/repository/sudoku-book.repository.ts:19 | Setting the month keeps the time of day and gives a valid date, overflowing days carrying into the next month |
| Calendar.SetDate | src/sudoku/repository/sudoku-book.repository.ts:35 | Setting the day of month keeps the time of day and gives a valid date |
| Calendar.SetUtcFullYear | src/sudoku/repository/sudoku.repository.ts:28 | Setting the year keeps the time of day and gives a valid date |
| Calendar.NextDayEpoch | deploy/lib/analytics-lambda/shared/date-utils.ts:8-12 | Consecutive civil days are consecutive days since the epoch |
| Calendar.AddDaysEpoch | src/sudoku/repository/sudoku.repository.ts:27-28 | Moving a date on by k days moves its epoch day by exactly k |
| Calendar.SameDayNextYear | src/sudoku/repository/sudoku.repository.ts:27-28 | The same month and day a year later is 365 or 366 days on |
| Calendar.CompactDate | src/sudoku/repository/sudoku.repository.ts:19 | The ISO date with its dashes removed contains no dash |
| Calendar.CompactDateDigits | src/sudoku/repository/sudoku.repository.ts:19 | For four-digit years the ISO date is `YYYY-MM-DD` and its compact form `YYYYMMDD` |
| Calendar.CompactDateInjective | src/sudoku/repository/sudoku.repository.ts:19 | Different four-digit-year dates have different compact forms |
| Sorting.SortBy | src/members/repository/member.repository.ts:43 | The result is a rearrangement of the input, in ascending key order, and stable: the elements with any one key keep their input order (the comparator sort is stable, as ECMAScript requires) |
| Sorting.SortBySorted | src/members/repository/member.repository.ts:43 | A list already in key order is left exactly as it is |
| Sorting.SortByIdempotent | src/members/repository/member.repository.ts:43 | Sorting a sorted list changes nothing |
| Sorting.SortedKeys | deploy/lib/analytics-lambda/aggregator-core.ts:193-195 | The keys of a map, each once, in strictly ascending string order |
| CountMap.Get | deploy/lib/analytics-lambda/aggregator-core.ts:83 | A count is found exactly for a key the map holds |
| CountMap.Set | deploy/lib/analytics-lambda/aggregator-core.ts:84 | The key then holds the new value; an existing key keeps its place and a new one goes last; the total changes by the difference |
| CountMap.SetOthers | deploy/lib/analytics-lambda/aggregator-core.ts:84 | Setting one key changes no other key's value |
| CountMap.SetDistinct | deploy/lib/analytics-lambda/aggregator-core.ts:84 | Setting keeps every key distinct |
| CountMap.Increment | deploy/lib/analytics-lambda/aggregator-core.ts:83-84 | The key's count goes up by one from its value or 0, and the total by one |
| CountMap.IncrementOthers | deploy/lib/analytics-lambda/aggregator-core.ts:83-84 | Counting one key changes no other key's count |
| CountMap.CountAllCounts | deploy/lib/analytics-lambda/aggregator-core.ts:83-84 | Counting a list one key at a time gives each key its number of occurrences, and a total equal to the length of the list |
| CountMap.CountAllDistinct | deploy/lib/analytics-lambda/aggregator-core.ts:83-84 | Counting a list never records a key twice |
| CountMap.TotalAtLeastSize | deploy/lib/analytics-lambda/analytics-writer.ts:17-70 | With every count at least one, the total is at least the number of keys |
| PatternUtils.ExtractAppFromModelId | deploy/lib/analytics-lambda/shared/pattern-utils.ts:3-9 | An app, when there is one, contains no `-` |
| PatternUtils.AppFromModelIdOfParts | deploy/lib/analytics-lambda/shared/pattern-utils.ts:3-9 | A key with a separator-free first segment and a separator-free second segment followed by `-` names that second segment as its app |
| PatternUtils.NoAppFromModelIdWithOneSeparator | deploy/lib/analytics-lambda/shared/pattern-utils.ts:5-7 | A key with fewer than two separators names no app |
| PatternUtils.SessionModelIdApp | deploy/lib/analytics-lambda/shared/pattern-utils.ts:3-9 | The app of a session row's key is the app part of its session id |
| PatternUtils.ExtractAppFromOwner | deploy/lib/analytics-lambda/shared/pattern-utils.ts:11-20 | Only an owner starting `party-` can name an app, and the app contains no `-` |
| PatternUtils.AppFromOwnerAgrees | deploy/lib/analytics-lambda/shared/pattern-utils.ts:11-20 | On a `party-` owner it agrees with the model-id recogniser; on any other owner it names no app |
| PatternUtils.AppFromPartyOwner | deploy/lib/analytics-lambda/shared/pattern-utils.ts:11-20 | The owner key of a party `<app>-<rest>` names that app |
| PatternUtils.ExtractUserIdFromOwner | deploy/lib/analytics-lambda/shared/pattern-utils.ts:22-27 | A user id is found exactly for owners starting `user-`, and `user-` followed by it is the owner |
| PatternUtils.UserIdOfOwnerKey | deploy/lib/analytics-lambda/shared/pattern-utils.ts:22-27 | A user's owner key gives that user id back, even one that itself contains `user-` |
| PatternUtils.GetRecordType | deploy/lib/analytics-lambda/shared/pattern-utils.ts:29-40 | A key is a session, a party or a member row exactly when it starts `session-`, `party-` or `member-user-` |
| PatternUtils.PrefixesDisjoint | deploy/lib/analytics-lambda/shared/pattern-utils.ts:29-40 | No key starts with two of the three prefixes, so the order of the tests does not matter |
| PatternUtils.RecordTypeMatchesPattern | deploy/lib/analytics-lambda/shared/pattern-utils.ts:58-63 | A recognised key matches the pattern of its own kind |
| PatternUtils.MemberPatternIsWeaker | deploy/lib/analytics-lambda/shared/pattern-utils.ts:36-38 | `member-x` matches the member pattern but is not counted as a member row |
| PatternUtils.MemberRowsAreMembers | deploy/lib/analytics-lambda/shared/pattern-utils.ts:36-38 | Every membership row's key is recognised as a member row |
| PatternUtils.ModelRowsAreRecognised | deploy/lib/analytics-lambda/shared/pattern-utils.ts:30-35 | Every session and party row's key is recognised as its kind |
| PatternUtils.GetTimestampField | deploy/lib/analytics-lambda/shared/pattern-utils.ts:42-44 | Only sessions are dated by `updatedAt` |
| PatternUtils.ExtractTimestamp | deploy/lib/analytics-lambda/shared/pattern-utils.ts:46-56 | An unrecognised row has no timestamp; a session row's is its `updatedAt`, any other recognised row's its `createdAt` |
| PatternUtils.TimestampIgnoresOtherField | deploy/lib/analytics-lambda/shared/pattern-utils.ts:46-56 | The other timestamp attribute and the owner play no part |
| DateUtils.IsValidDateString | deploy/lib/analytics-lambda/shared/date-utils.ts:18-25 | Only strings of the `YYYY-MM-DD` digit shape can be accepted |
| DateUtils.InRangeInclusive | deploy/lib/analytics-lambda/shared/date-utils.ts:27-33 | The range test holds exactly when the start is at most the date and the date at most the end, both ends included |
| DateUtils.FormatDateDigits | deploy/lib/analytics-lambda/shared/date-utils.ts:1-6 | For four-digit years the date renders as fixed-width `YYYY-MM-DD` |
| DateUtils.FormatDateIsIso | deploy/lib/analytics-lambda/shared/date-utils.ts:1-6 | For four-digit years the rendering is the date part of the ISO string |
| DateUtils.FormatDateShape | deploy/lib/analytics-lambda/shared/date-utils.ts:1-6 | The rendering has the `YYYY-MM-DD` shape exactly when the year has four digits |
| DateUtils.FormatDateOrder | deploy/lib/analytics-lambda/shared/date-utils.ts:1-6 | For four-digit years the string order of renderings is the calendar order of the dates |
| DateUtils.FormatDateInjective | deploy/lib/analytics-lambda/shared/date-utils.ts:1-6 | Different four-digit-year dates render differently |
| DateUtils.InRangeOfDates | deploy/lib/analytics-lambda/shared/date-utils.ts:27-33 | A rendered date is in a rendered range exactly when it lies between the ends in calendar order |
| DateUtils.YesterdayBeforeToday | deploy/lib/analytics-lambda/shared/date-utils.ts:8-12 | Yesterday's text sorts strictly before today's |
| AggregatorCore.GetMetricsForDateAndApp | deploy/lib/analytics-lambda/aggregator-core.ts:186-188 | A bucket is found exactly when both the day and the app have been bucketed |
| AggregatorCore.GetMetricsForDate | deploy/lib/analytics-lambda/aggregator-core.ts:179-181 | A day's apps are found exactly for a bucketed day, and each is that day's bucket for the app |
| AggregatorCore.GetOrCreateMetrics | deploy/lib/analytics-lambda/aggregator-core.ts:144-167 | Afterwards the bucket of the day and app exists and is the one returned; an existing bucket is returned unchanged, otherwise a fresh empty one; the day is bucketed and no other bucket changes |
| AggregatorCore.AddGame | deploy/lib/analytics-lambda/aggregator-core.ts:79-84 | The user becomes active and has one more game; the games total rises by one; the other counters are untouched |
| AggregatorCore.AddGameWellFormed | deploy/lib/analytics-lambda/aggregator-core.ts:79-84 | After a game the active users are still exactly the users with games |
| AggregatorCore.ActiveUsersAtMostGames | deploy/lib/analytics-lambda/aggregator-core.ts:79-84 | A bucket never has more active users than games played |
| AggregatorCore.AddPartyCreated | deploy/lib/analytics-lambda/aggregator-core.ts:103-105 | The user has one more party created and the total rises by one; nothing else changes |
| AggregatorCore.AddPartyJoined | deploy/lib/analytics-lambda/aggregator-core.ts:119-120 | The parties-joined counter rises by one; the day, the app, the active users and both per-user count maps are unchanged, so a well-formed bucket stays well-formed |
| AggregatorCore.GetOrCreateWellFormed | deploy/lib/analytics-lambda/aggregator-core.ts:144-167 | Creating or fetching a bucket keeps every bucket under its own day and app |
| AggregatorCore.PutWellFormed | deploy/lib/analytics-lambda/aggregator-core.ts:144-167 | Storing a well-formed bucket under its own day and app keeps the state well-formed |
| AggregatorCore.ProcessSessionRecord | deploy/lib/analytics-lambda/aggregator-core.ts:66-85 | Adds no day but the row's, and keeps the state well-formed |
| AggregatorCore.SessionRecordEffect | deploy/lib/analytics-lambda/aggregator-core.ts:66-85 | Without an app in the key or a user in the owner nothing changes; otherwise exactly the day and app's bucket gains the user as active with one more game |
| AggregatorCore.ProcessPartyRecord | deploy/lib/analytics-lambda/aggregator-core.ts:90-106 | Adds no day but the row's, and keeps the state well-formed |
| AggregatorCore.PartyRecordEffect | deploy/lib/analytics-lambda/aggregator-core.ts:90-106 | Without an app or a user nothing changes; otherwise exactly that bucket gains one party created by the user |
| AggregatorCore.ProcessMemberRecord | deploy/lib/analytics-lambda/aggregator-core.ts:111-121 | Adds no day but the row's, and keeps the state well-formed |
| AggregatorCore.MemberRecordEffect | deploy/lib/analytics-lambda/aggregator-core.ts:111-121 | Without an app in the party owner nothing changes; otherwise exactly that bucket gains one party joined |
| AggregatorCore.ShouldIncludeDate | deploy/lib/analytics-lambda/aggregator-core.ts:126-139 | Incremental runs take exactly yesterday's date; any other mode throws without a start date and otherwise takes the dates from the start to yesterday inclusive |
| AggregatorCore.ProcessItem | deploy/lib/analytics-lambda/aggregator-core.ts:20-61 | Unknown kinds and rows without a timestamp change nothing; a change means the row's day is included; at most the row's day is added; the state stays well-formed |
| AggregatorCore.ProcessItemSkips | deploy/lib/analytics-lambda/aggregator-core.ts:20-43 | A row with an unknown kind, no timestamp, or a day the event does not include (a thrown backfill check included) changes nothing |
| AggregatorCore.ProcessItemCounted | deploy/lib/analytics-lambda/aggregator-core.ts:37-52 | A row that passes every check goes to its kind's processor on the day its timestamp formats to |
| AggregatorCore.ProcessItemSession | deploy/lib/analytics-lambda/aggregator-core.ts:20-85 | A counted session row of app `a` by user `u` on day `d` makes `u` active in bucket (`d`, `a`) with its game count raised by one and the games total by one; the bucket's party counters stay, and every other bucket is unchanged |
| AggregatorCore.ProcessItemParty | deploy/lib/analytics-lambda/aggregator-core.ts:20-106 | A counted party row raises its user's parties-created count and that total by one in bucket (`d`, `a`); games and active users stay, and every other bucket is unchanged |
| AggregatorCore.ProcessItemMember | deploy/lib/analytics-lambda/aggregator-core.ts:20-121 | A counted member row raises parties joined by one in the bucket of its day and the app named by its party owner; the other counters stay, and every other bucket is unchanged |
| AggregatorCore.ProcessItemIncomplete | deploy/lib/analytics-lambda/aggregator-core.ts:66-115 | A counted row whose key lacks the app or user its kind needs changes nothing |
| AggregatorCore.SessionBucket | deploy/lib/analytics-lambda/aggregator-core.ts:66-85 | The bucket a session lands in gains the user as active and one more game for them; its party counters stay |
| AggregatorCore.PartyBucket | deploy/lib/analytics-lambda/aggregator-core.ts:90-106 | The bucket a party lands in gains one more party created by its user; games and active users stay |
| AggregatorCore.ProcessAllInvariant | deploy/lib/analytics-lambda/aggregator-core.ts:20-61 | Over any rows the state stays well-formed and every day bucketed was there before or passes the day filter |
| AggregatorCore.IncrementalOnlyYesterday | deploy/lib/analytics-lambda/aggregator-core.ts:127-130 | An incremental run only ever buckets yesterday |
| AggregatorCore.BackfillWithinRange | deploy/lib/analytics-lambda/aggregator-core.ts:131-138 | A backfill only buckets days from its start date to yesterday, in string order |
| AggregatorCore.BackfillWithoutStartCountsNothing | deploy/lib/analytics-lambda/aggregator-core.ts:133-135 | A backfill without a start date counts nothing at all, every row's error being swallowed |
| AggregatorCore.GetDates | deploy/lib/analytics-lambda/aggregator-core.ts:193-195 | Every bucketed day exactly once, in ascending string order |
| AggregatorCore.GetAppsForDate | deploy/lib/analytics-lambda/aggregator-core.ts:200-203 | The apps bucketed on a day, each once, sorted; none for a day never bucketed |
| AggregatorCore.Clear | deploy/lib/analytics-lambda/aggregator-core.ts:208-210 | Afterwards no day or app has a bucket |
| AnalyticsWriter.CalculateTtl | deploy/lib/analytics-lambda/analytics-writer.ts:10-12 | The expiry is the clock's whole second plus 455 days of seconds (39,312,000) |
| AnalyticsWriter.CountsToAttributes | deploy/lib/analytics-lambda/analytics-writer.ts:37-45 | The map attribute has an entry exactly for each user in the per-user counts |
| AnalyticsWriter.CountsToAttributesValues | deploy/lib/analytics-lambda/analytics-writer.ts:37-45 | Each user's entry holds that user's count |
| AnalyticsWriter.BuildAnalyticsRecord | deploy/lib/analytics-lambda/analytics-writer.ts:17-70 | The record carries the date and app; the active-user set is present exactly when non-empty, and then is the bucket's set |
| AnalyticsWriter.NumberOf | deploy/lib/analytics-lambda/analytics-writer.ts:39 | A number attribute reads as a count exactly when its text is all digits |
| AnalyticsWriter.NumberOfNum | deploy/lib/analytics-lambda/analytics-writer.ts:39 | A count written as a number attribute reads back as that count |
| AnalyticsWriter.NumInjective | deploy/lib/analytics-lambda/analytics-writer.ts:39 | Different counts are written differently |
| AnalyticsWriter.RecordSummary | deploy/lib/analytics-lambda/analytics-writer.ts:26-34 | The summary reads back as the number of active users, the games and parties-created totals and the parties joined, and the top-level parties joined agrees |
| AnalyticsWriter.RecordPerUser | deploy/lib/analytics-lambda/analytics-writer.ts:37-51 | Each per-user map has an entry exactly for each counted user, reading back as that user's count |
| AnalyticsWriter.RecordExpiry | deploy/lib/analytics-lambda/analytics-writer.ts:23 | For a clock after the epoch, `expiresAt` reads back as the clock's second plus 39,312,000 |
| AnalyticsWriter.RecordActiveUsersAtMostGames | deploy/lib/analytics-lambda/analytics-writer.ts:26-30 | In a record built from an aggregated bucket, active users never exceed games played |
| CloudwatchPublisher.BuildMetricData | deploy/lib/analytics-lambda/cloudwatch-publisher.ts:15-84 | Four data, named ActiveUsers, GamesPlayed, PartiesCreated and PartiesJoined in that order, each at the day's UTC midnight, in the unit Count, with the single dimension App set to the app |
| CloudwatchPublisher.MetricsMatchRecord | deploy/lib/analytics-lambda/cloudwatch-publisher.ts:24-32 | The four metric values are exactly the four summary numbers the record for the same bucket stores |
| CloudwatchPublisher.ActiveUsersAtMostGamesPlayed | deploy/lib/analytics-lambda/cloudwatch-publisher.ts:24-28 | For an aggregated bucket the ActiveUsers value never exceeds the GamesPlayed value |
| ExportTrigger.ValidateEnvironment | deploy/lib/analytics-lambda/export-trigger.ts:12-28 | Succeeds exactly when the table name and bucket are set and non-empty, naming the table first when both are missing; the prefix defaults to `exports` |
| ExportTrigger.BuildExportParams | deploy/lib/analytics-lambda/export-trigger.ts:30-68 | Table and bucket are copied, the S3 prefix is `<prefix>/<epoch ms>/` of the clock reading, the format is DYNAMODB_JSON, and only mode `incremental` makes an incremental export, the only kind with a window: yesterday's UTC midnight to today's |
| ExportTrigger.ExportsDoNotShareAPrefix | deploy/lib/analytics-lambda/export-trigger.ts:31-32 | The `s3Prefix` field that `BuildExportParams` puts in the export request differs for exports started at different milliseconds, whatever the environment |
| ExportTrigger.IncrementalWindow | deploy/lib/analytics-lambda/export-trigger.ts:52-65 | The window is exactly one day long and ends at the midnight starting the clock's day, so the clock lies less than a day after its end |
| ExportTrigger.ExportPrefixInjective | deploy/lib/analytics-lambda/export-trigger.ts:31-32 | The prefix function `ExportPrefix` alone is injective: different milliseconds under the same configured prefix give different prefix strings |
| ExportTrigger.Handler | deploy/lib/analytics-lambda/export-trigger.ts:70-109 | The environment is checked first, then the mode, then a backfill's start date, whose absence throws the backfill-start message; the export is requested exactly when all pass, with the parameters built from the validated environment |
| AggregatorHandler.Missing | deploy/lib/analytics-lambda/aggregator.ts:12 | Exactly the listed variables that are unset or empty |
| AggregatorHandler.ValidateEnvironment | deploy/lib/analytics-lambda/aggregator.ts:10-19 | Succeeds exactly when both variables are set and non-empty; otherwise the message names the missing ones, comma-separated, in the listed order |
| AggregatorHandler.EnvironmentMessages | deploy/lib/analytics-lambda/aggregator.ts:10-19 | The three possible messages, for either or both variables missing |
| AggregatorHandler.ValidateEvent | deploy/lib/analytics-lambda/aggregator.ts:24-44 | Accepts exactly an event with one of the two modes, a start date for a backfill and a `YYYY-MM-DD`-shaped start date whenever one is given; the mode error comes first, then the missing start, then the format |
| AggregatorHandler.ValidatedEventNeverThrows | deploy/lib/analytics-lambda/aggregator.ts:24-44 | An accepted event never makes the day filter throw |
| AggregatorHandler.ValidatedBackfillRange | deploy/lib/analytics-lambda/aggregator.ts:24-44 | An accepted backfill has a `YYYY-MM-DD`-shaped start and counts exactly the days from it to yesterday in string order |

## Left out

- I/O and SDK calls are left out: the DynamoDB client `send`, S3 reads (`s3-reader.ts`), CloudWatch `PutMetricData`, `fetch`, file-system reads, and `console` logging. Their outcomes enter as parameters or oracle sequences.
- `publishMetrics`, `publishAllMetrics` and `writeAllAnalyticsRecords` are left out. They are loops of SDK sends with `Promise.all`; only the builders they call are modelled.
- The main flow of the aggregator handler is left out: finding the latest export, reading the manifest and data files, then writing and publishing. Its fold over rows is `AggregatorCore.ProcessAll`.
- Retry delays and jitter are not modelled. Only the attempt counts are.
- AppConfig.FetchAppConfig: calls are modelled one at a time. The source caches the resolved configuration, not the pending promise (fetchAppConfig.ts:23-38). So calls that start before the first fetch resolves each see an empty cache and each fetch, and the last to resolve overwrites the cache. `FetchOnce` holds only for calls made after a load has completed.
- Dates are civil UTC dates plus milliseconds of the day. `setMonth`/`setDate` on the sudoku-book repository act on local time in the source; the model takes the process time zone to be UTC.
- JavaScript `Date` range limits and invalid-date arithmetic are not modelled. An invalid `Date` appears only as the `NaN-NaN-NaN` text that `formatDate` gives it.
- `toMidnightUTC` is left out: it is only date parsing.
- The date-parser half of `isValidDateString` is a boolean parameter. Only the regular-expression half is modelled.
- Converting the epoch text of a row to a `Date` (`new Date(timestampStr)`) is the uninterpreted parameter `toDate`.
- The export trigger reads the clock twice (`Date.now()` and `new Date()`). The model uses a single `now` for both.
- SudokuRepository.InsertSudokuOfTheDay: the source reads `new Date()` once for the id and again for the expiry (sudoku.repository.ts lines 18 and 27). The model takes one `now` for both, so an insert whose two reads fall on either side of midnight is not modelled.
- SudokuBookRepository.InsertSudokuBookOfTheMonth: likewise, one `now` serves the id and the expiry, which the source reads separately (sudoku-book.repository.ts lines 17 and 33).
- AggregatorCore.ProcessAll: one `today` serves the whole run. In the source `shouldIncludeDate` calls `getYesterday()` again for every row, so a run that crosses midnight UTC can change its window part-way; that is not modelled.
- Scrambler.ParseString: the length check counts Dafny characters. The source's `length !== 81` counts UTF-16 code units, so a string with characters outside the Basic Multilingual Plane is measured differently. Every valid puzzle is plain ASCII, where the two counts agree.
- DynamoDB attribute marshalling is simplified:
  - the `S`/`N`/`M`/`SS` wrappers are named fields of a datatype rather than a map of attribute values;
  - a string set is a Dafny `set`, which has no order.
- String order is code-point order. JavaScript compares UTF-16 code units, which differs only outside the Basic Multilingual Plane.
- Object keys such as `__proto__` are not modelled: plain objects are treated as maps.
- SeedReader.MapDifficulty: a text that names an `Object.prototype` member (such as `constructor`) is read as MODERATE, whereas the source's object lookup would return that member.
- SeedReader.MapRowToPuzzle: the numeric fields read with `parseInt`/`parseFloat` (difficulty scores and technique counts) are not modelled. Only the two grids and the coach difficulty are.
- SeedReader.SelectRandomPuzzles: the source draws until it has enough distinct indices. The model takes a finite list of draws and returns `None` when the list runs out first. The source's function is generic over the element type; the model fixes it to `Puzzle`, the only type it is called with (sudoku-seed-reader.ts:228).
- `readAllSudokuSeeds` is left out: a directory listing wrapped around `readSeedFile`.
- `readSeedFile`'s missing-file check is left out: file-system state.
- `MemberRepository.destroy` is called by the members service but is not in the repository source. It is modelled as the adapter's delete of the membership key, including a failed delete send.
- `PartyRepository.find` is the parameter `PartyLookup`, because it calls an adapter method that does not exist.
- `InvitesService.findPublicInvite` is a parameter: its result, or the error it throws.
- Token verification (`fetchPublicKey`, `verifyAsync` with RS256, audience and issuer) is the parameter `Verifier`.
- Id generation (`nanoid`) is a parameter.
- The `Reflector` metadata lookups of the guard are the parameters `isPublic` and `requirePermissions`.
- The top-level example in `scrambleSudoku.ts`, which prints on import, is left out.
- NestJS wiring, controllers, DTO validation, the CDK stack, the agent and RevenueCat clients, and the session and party services are left out. They are framework glue and stubs.

## Findings

| source | as written | input that shows it | evidently intended | confidence | as-written member | corrected member |
|---|---|---|---|---|---|---|
| src/sudoku/repository/sudoku-book.repository.ts:33-35 | `setMonth(getMonth() + 1)` runs before `setDate(1)`, so a day of month missing from the target month overflows into the month after | now = 31 January 2025, `isNextMonth` false: the month moves to "31 February", which becomes 3 March, and the expiry is 1 March 2025 | the first of the month after the current one (1 February 2025), or of the month after that with `isNextMonth` | not executed | SudokuBookRepository.ExpiryAsWritten (counterexample lemma SudokuBookRepository.ExpiryAsWrittenOverflows) | SudokuBookRepository.ExpiryOfTheMonth |

=== FILE: adapter.dfy ===
/** The single-table store adapter (`DynamoDBAdapter`). The table is a map
    from `(modelId, owner)` to a stored row; what the store answers to a
    read, a query page or a batch write is an oracle argument, so retries,
    read-after-write lag and pagination are all explicit. Time is the
    caller's `nowMs` (JavaScript epoch milliseconds). */
module Adapter {
  import opened Wrappers
  import opened Text
  import opened Keys

  const MaxRetries: nat := 5
  const MaxPages: nat := 10
  const BatchSize: nat := 25

  /** An entity's domain fields (values kept opaque as strings). */
  type Payload = map<string, string>

  /** Attributes the adapter manages itself and strips from payloads. */
  const SystemFields: set<string> := {"createdAt", "updatedAt", "expiresAt"}

  /** A stored row; the three timestamps are epoch seconds. */
  datatype Row = Row(payload: Payload, createdAt: int, updatedAt: int, expiresAt: Option<int>)

  /** What callers receive: the payload fields plus the timestamps as
      JavaScript dates (epoch milliseconds). */
  datatype Record = Record(fields: Payload, expiresAt: Option<int>, createdAt: int, updatedAt: int)

  type Store = map<Key, Row>

  /** `Math.floor(ms / 1000)`. */
  function EpochSeconds(ms: int): (s: int)
    ensures s * 1000 <= ms < s * 1000 + 1000
  {
    ms / 1000
  }

  /** `resultToRecord`: seconds become dates; a zero or absent expiry
      becomes `undefined`. */
  function ResultToRecord(row: Row): Record {
    Record(
      row.payload,
      if row.expiresAt.Some? && row.expiresAt.value != 0 then Some(row.expiresAt.value * 1000) else None,
      row.createdAt * 1000,
      row.updatedAt * 1000)
  }

  /** The read-side expiry check: `expiresAt && Date.now() > expiresAt * 1000`. */
  predicate IsExpired(row: Row, nowMs: int) {
    row.expiresAt.Some? && row.expiresAt.value != 0 && nowMs > row.expiresAt.value * 1000
  }

  /** A row is still served at the exact instant it expires, and a row
      without a (truthy) expiry never expires. */
  lemma ExpiryBoundary(row: Row, nowMs: int)
    ensures row.expiresAt.Some? && nowMs == row.expiresAt.value * 1000 ==> !IsExpired(row, nowMs)
    ensures (row.expiresAt.None? || row.expiresAt == Some(0)) ==> !IsExpired(row, nowMs)
    ensures row.expiresAt.Some? && row.expiresAt.value != 0 ==>
      (IsExpired(row, nowMs) <==> nowMs > row.expiresAt.value * 1000)
  {
  }

  // ---------------------------------------------------------------------
  // upsert

  /** The payload as written: `{...payload, createdAt: undefined, ...}`
      with undefined values removed by the marshaller. */
  function StripSystemFields(p: Payload): (r: Payload)
    ensures r.Keys == p.Keys - SystemFields
    ensures forall f :: f in r ==> r[f] == p[f]
  {
    p - SystemFields
  }

  /** The row `upsert`'s update expression leaves at its key: payload
      overwritten, `createdAt` only if absent, `updatedAt` always, and
      `expiresAt` only when one is supplied. */
  function UpsertRow(prev: Option<Row>, payload: Payload, expiresAtMs: Option<int>, nowMs: int): Row {
    var now := EpochSeconds(nowMs);
    Row(
      StripSystemFields(payload),
      if prev.Some? then prev.value.createdAt else now,
      now,
      if expiresAtMs.Some? then Some(EpochSeconds(expiresAtMs.value))
      else if prev.Some? then prev.value.expiresAt
      else None)
  }

  function Lookup(store: Store, k: Key): Option<Row> {
    if k in store then Some(store[k]) else None
  }

  /** `upsert`: one conditional update at the composite key, no retry; a
      failed send propagates and leaves the table as it was. */
  function Upsert(store: Store, modelName: string, id: string, payload: Payload, owner: Owner,
                  expiresAtMs: Option<int>, nowMs: int, sendFails: bool)
    : (r: Result<(Store, Record), Failure>)
    ensures r.Err? <==> sendFails
    ensures r.Ok? ==>
      var (s', rec) := r.value;
      var k := KeyOf(modelName, id, owner);
      && s'.Keys == store.Keys + {k}
      && (forall k' :: k' in store && k' != k ==> s'[k'] == store[k'])
      && s'[k].payload == StripSystemFields(payload)
      && s'[k].createdAt == (if k in store then store[k].createdAt else EpochSeconds(nowMs))
      && s'[k].updatedAt == EpochSeconds(nowMs)
      && s'[k].expiresAt == (if expiresAtMs.Some? then Some(EpochSeconds(expiresAtMs.value))
                             else if k in store then store[k].expiresAt else None)
      && rec == ResultToRecord(s'[k])
  {
    if sendFails then Err(Thrown("update failed"))
    else
      var k := KeyOf(modelName, id, owner);
      var row := UpsertRow(Lookup(store, k), payload, expiresAtMs, nowMs);
      Ok((store[k := row], ResultToRecord(row)))
  }

  /** Idempotent create: a second upsert of the same key keeps the first
      `createdAt`, takes the second payload and refreshes `updatedAt`. */
  lemma UpsertTwiceKeepsCreatedAt(store: Store, modelName: string, id: string, owner: Owner,
                                  p1: Payload, p2: Payload, e1: Option<int>, e2: Option<int>, t1: int, t2: int)
    requires KeyOf(modelName, id, owner) !in store
    ensures
      var first := Upsert(store, modelName, id, p1, owner, e1, t1, false).value.0;
      var second := Upsert(first, modelName, id, p2, owner, e2, t2, false).value.0;
      var k := KeyOf(modelName, id, owner);
      && second[k].createdAt == EpochSeconds(t1)
      && second[k].updatedAt == EpochSeconds(t2)
      && second[k].payload == StripSystemFields(p2)
      && (t1 + 1000 <= t2 ==> second[k].updatedAt > first[k].updatedAt)
  {
  }

  /** An upsert without an expiry keeps a stored expiry; with one it stores
      the expiry in whole seconds. */
  lemma UpsertExpiry(store: Store, modelName: string, id: string, owner: Owner, p: Payload,
                     e: Option<int>, t: int)
    ensures
      var s' := Upsert(store, modelName, id, p, owner, e, t, false).value.0;
      var k := KeyOf(modelName, id, owner);
      && (e.None? && k in store ==> s'[k].expiresAt == store[k].expiresAt)
      && (e.Some? ==> s'[k].expiresAt == Some(EpochSeconds(e.value)))
  {
  }

  /** `destroy`: an unconditional delete of the exact key, deleting a
      missing key being a no-op; a failed send propagates and leaves the
      table as it was. */
  function Destroy(store: Store, modelName: string, id: string, owner: Owner, sendFails: bool)
    : (r: Result<Store, Failure>)
    ensures r.Err? <==> sendFails
    ensures r.Ok? ==> KeyOf(modelName, id, owner) !in r.value
    ensures r.Ok? ==> r.value.Keys == store.Keys - {KeyOf(modelName, id, owner)}
    ensures r.Ok? ==> forall k :: k in r.value ==> r.value[k] == store[k]
  {
    if sendFails then Err(Thrown("delete failed"))
    else Ok(store - {KeyOf(modelName, id, owner)})
  }

  // ---------------------------------------------------------------------
  // findByIdAndOwner

  /** `numOfAttempts: disableBackoff ? 1 : MAX_RETRIES`. */
  function Attempts(disableBackoff: bool): nat {
    if disableBackoff then 1 else MaxRetries
  }

  /** The first of the first `limit` read attempts that sees the row;
      `seen[j]` says whether attempt `j` observed the committed row (a
      missing entry is a miss). */
  function FirstVisible(seen: seq<bool>, limit: nat): (r: Option<nat>)
    ensures r.Some? ==> r.value < limit && r.value < |seen| && seen[r.value]
    ensures r.Some? ==> forall j :: 0 <= j < r.value ==> !seen[j]
    ensures r.None? ==> forall j :: 0 <= j < limit && j < |seen| ==> !seen[j]
  {
    if limit == 0 || |seen| == 0 then None
    else if seen[0] then Some(0)
    else
      var r := FirstVisible(seen[1..], limit - 1);
      if r.Some? then Some(r.value + 1) else None
  }

  datatype PointRead = PointRead(record: Option<Record>, attemptsMade: nat)

  /** `findByIdAndOwner`: retries a miss with backoff (5 attempts, or 1
      when backoff is disabled), maps exhaustion to `undefined` instead of
      throwing, and withholds an expired row. */
  function FindByIdAndOwner(store: Store, modelName: string, id: string, owner: Owner,
                            disableBackoff: bool, seen: seq<bool>, nowMs: int): (r: PointRead)
    ensures 1 <= r.attemptsMade <= Attempts(disableBackoff)
    ensures var k := KeyOf(modelName, id, owner);
      r.record.Some? <==>
        k in store && FirstVisible(seen, Attempts(disableBackoff)).Some? && !IsExpired(store[k], nowMs)
    ensures var k := KeyOf(modelName, id, owner);
      r.record.Some? ==> r.record.value == ResultToRecord(store[k])
  {
    var k := KeyOf(modelName, id, owner);
    var limit := Attempts(disableBackoff);
    var hit := if k in store then FirstVisible(seen, limit) else None;
    var made := if hit.Some? then hit.value + 1 else limit;
    if hit.None? || IsExpired(store[k], nowMs) then PointRead(None, made)
    else PointRead(Some(ResultToRecord(store[k])), made)
  }

  /** A read of the same key that sees the write gives back exactly the
      record the upsert returned, unless it has already expired. */
  lemma UpsertThenFind(store: Store, modelName: string, id: string, owner: Owner, p: Payload,
                       e: Option<int>, t: int, seen: seq<bool>, disableBackoff: bool, now: int)
    requires |seen| > 0 && seen[0]
    ensures
      var (s', rec) := Upsert(store, modelName, id, p, owner, e, t, false).value;
      var found := FindByIdAndOwner(s', modelName, id, owner, disableBackoff, seen, now);
      && found.attemptsMade == 1
      && (found.record.Some? <==> !IsExpired(s'[KeyOf(modelName, id, owner)], now))
      && (found.record.Some? ==> found.record.value == rec)
  {
  }

  /** Prefix isolation: a key written under one model name is never found
      under another separator-free model name, whatever the raw id. */
  lemma PrefixIsolation(store: Store, n1: string, n2: string, id: string, owner: Owner, p: Payload,
                        e: Option<int>, t: int, seen: seq<bool>, disableBackoff: bool, now: int)
    requires Sep !in n1 && Sep !in n2 && n1 != n2
    requires KeyOf(n2, id, owner) !in store
    ensures
      var s' := Upsert(store, n1, id, p, owner, e, t, false).value.0;
      FindByIdAndOwner(s', n2, id, owner, disableBackoff, seen, now).record.None?
  {
    if KeyOf(n1, id, owner) == KeyOf(n2, id, owner) {
      ModelIdInjective(n1, id, n2, id);
    }
  }
}

=== FILE: adapter_batch.dfy ===
/** Batched deletes on the single-table store: `batchDestroy` splits the
    keys into chunks of 25 and hands each to `doBatchWrite`, which retries
    the unprocessed requests. */
module AdapterBatch {
  import opened Wrappers
  import opened Text
  import opened Keys
  import opened Adapter

  function Min(a: int, b: int): int { if a <= b then a else b }

  /** `Math.ceil(n / 25)` batches, the `i`-th being `items.slice(25 i, 25 (i + 1))`. */
  function Batches<T>(items: seq<T>): (bs: seq<seq<T>>)
    ensures |bs| == (|items| + BatchSize - 1) / BatchSize
    ensures forall i :: 0 <= i < |bs| ==> 1 <= |bs[i]| <= BatchSize
  {
    var count := (|items| + BatchSize - 1) / BatchSize;
    seq(count, i requires 0 <= i < count => items[i * BatchSize .. Min((i + 1) * BatchSize, |items|)])
  }

  /** The number of batches is the ceiling of `n / 25`. */
  lemma BatchCount<T>(items: seq<T>)
    ensures |Batches(items)| * BatchSize >= |items|
    ensures |Batches(items)| > 0 ==> (|Batches(items)| - 1) * BatchSize < |items|
  {
  }

  function Concat<T>(bs: seq<seq<T>>): seq<T> {
    if |bs| == 0 then [] else bs[0] + Concat(bs[1..])
  }

  lemma BatchesCons<T>(items: seq<T>)
    requires |items| > 0
    ensures Batches(items) == [items[..Min(BatchSize, |items|)]] + Batches(items[Min(BatchSize, |items|)..])
  {
    var bs := Batches(items);
    var m := Min(BatchSize, |items|);
    var tail := Batches(items[m..]);
    assert |bs| == 1 + |tail|;
    forall i | 0 <= i < |tail|
      ensures bs[i + 1] == tail[i]
    {
      assert items[m..][i * BatchSize .. Min((i + 1) * BatchSize, |items[m..]|)]
          == items[(i + 1) * BatchSize .. Min((i + 2) * BatchSize, |items|)];
    }
  }

  /** The batches, in order, concatenate to the input. */
  lemma {:induction false} BatchesConcat<T>(items: seq<T>)
    ensures Concat(Batches(items)) == items
    decreases |items|
  {
    if |items| > 0 {
      var m := Min(BatchSize, |items|);
      BatchesCons(items);
      assert Batches(items)[1..] == Batches(items[m..]);
      BatchesConcat(items[m..]);
      assert items[..m] + items[m..] == items;
    }
  }

  /** The store's answer to one batch-write round: some subset left
      unprocessed, or a send that failed after its own backoff (which the
      adapter treats as everything unprocessed). */
  datatype Round = Processed(unprocessed: set<Key>) | SendFailed

  datatype BatchWrite = BatchWrite(store: Store, rounds: nat, ok: bool)

  /** The store's answer to round `i`; a round the store never answers is
      a failed send. */
  function RoundAt(rounds: seq<Round>, i: nat): Round {
    if i < |rounds| then rounds[i] else SendFailed
  }

  function Tail(rounds: seq<Round>): seq<Round> {
    if |rounds| > 0 then rounds[1..] else []
  }

  /** The keys of `pending` still undeleted after the first `n` rounds: those
      every processed round among them reported unprocessed. */
  function Left(pending: set<Key>, rounds: seq<Round>, n: nat): set<Key> {
    set k | k in pending && forall i :: 0 <= i < n && RoundAt(rounds, i).Processed? ==> k in RoundAt(rounds, i).unprocessed
  }

  /** The table after the delete requests for `gone` went through. */
  function Without(store: Store, gone: set<Key>): (s: Store)
    ensures s.Keys == store.Keys - gone
    ensures forall k :: k in s ==> s[k] == store[k]
  {
    map k | k in store && k !in gone :: store[k]
  }

  /** `doBatchWrite`: resubmits only the unprocessed delete requests, and
      throws once `attempt > MAX_RETRIES`. It succeeds exactly when the
      rounds it may still take leave nothing pending, and then after the
      first round that does; it deletes exactly the pending keys processed
      in the rounds it took. */
  function DoBatchWrite(store: Store, pending: set<Key>, attempt: nat, rounds: seq<Round>): (r: BatchWrite)
    ensures attempt <= MaxRetries ==> 1 <= r.rounds <= MaxRetries + 1 - attempt
    ensures attempt > MaxRetries ==> r.rounds == 0 && !r.ok
    ensures !r.ok ==> r.rounds == if attempt <= MaxRetries then MaxRetries + 1 - attempt else 0
    ensures r.ok <==> attempt <= MaxRetries && Left(pending, rounds, MaxRetries + 1 - attempt) == {}
    ensures r.ok ==> Left(pending, rounds, r.rounds) == {} && forall n :: 1 <= n < r.rounds ==> Left(pending, rounds, n) != {}
    ensures r.ok ==> forall k :: k in pending ==> k !in r.store
    ensures r.store.Keys <= store.Keys
    ensures forall k :: k in r.store ==> r.store[k] == store[k]
    ensures forall k :: k in store && k !in pending ==> k in r.store
    ensures forall k :: k in store && k in pending ==> (k in r.store <==> k in Left(pending, rounds, r.rounds))
    decreases MaxRetries + 1 - attempt
  {
    if attempt > MaxRetries then
      LeftNone(pending, rounds);
      BatchWrite(store, 0, false)
    else
      var outcome := if |rounds| > 0 then rounds[0] else SendFailed;
      var left := if outcome.SendFailed? then pending else pending * outcome.unprocessed;
      var afterRound := Without(store, pending - left);
      LeftFirst(pending, rounds);
      if left != {} then
        var rest := DoBatchWrite(afterRound, left, attempt + 1, Tail(rounds));
        LeftShifts(pending, rounds, MaxRetries - attempt);
        LeftShifts(pending, rounds, rest.rounds);
        LeftShrinks(pending, rounds, 1, rest.rounds + 1);
        DoBatchWriteMinimal(pending, rounds, left, rest.rounds);
        BatchWrite(rest.store, rest.rounds + 1, rest.ok)
      else
        LeftShrinks(pending, rounds, 1, MaxRetries + 1 - attempt);
        BatchWrite(afterRound, 1, true)
  }

  /** After no round every key is still pending. */
  lemma LeftNone(pending: set<Key>, rounds: seq<Round>)
    ensures Left(pending, rounds, 0) == pending
  {
  }

  /** The first round leaves everything after a failed send, and the
      unprocessed keys otherwise. */
  lemma LeftFirst(pending: set<Key>, rounds: seq<Round>)
    ensures Left(pending, rounds, 1) == if RoundAt(rounds, 0).SendFailed? then pending else pending * RoundAt(rounds, 0).unprocessed
  {
  }

  /** Later rounds only ever remove keys. */
  lemma LeftShrinks(pending: set<Key>, rounds: seq<Round>, a: nat, b: nat)
    requires a <= b
    ensures Left(pending, rounds, b) <= Left(pending, rounds, a)
  {
  }

  /** `n + 1` rounds are the first round followed by `n` rounds of the rest. */
  lemma LeftShifts(pending: set<Key>, rounds: seq<Round>, n: nat)
    ensures Left(pending, rounds, n + 1) == Left(Left(pending, rounds, 1), Tail(rounds), n)
  {
    assert forall i :: 0 <= i ==> RoundAt(Tail(rounds), i) == RoundAt(rounds, i + 1);
    var l1 := Left(pending, rounds, 1);
    forall k | k in Left(pending, rounds, n + 1)
      ensures k in Left(l1, Tail(rounds), n)
    {
      forall i | 0 <= i < n && RoundAt(Tail(rounds), i).Processed?
        ensures k in RoundAt(Tail(rounds), i).unprocessed
      {
        assert RoundAt(Tail(rounds), i) == RoundAt(rounds, i + 1);
      }
    }
    forall k | k in Left(l1, Tail(rounds), n)
      ensures k in Left(pending, rounds, n + 1)
    {
      forall i | 0 <= i < n + 1 && RoundAt(rounds, i).Processed?
        ensures k in RoundAt(rounds, i).unprocessed
      {
        if i > 0 {
          assert RoundAt(Tail(rounds), i - 1) == RoundAt(rounds, i);
        }
      }
    }
  }

  /** The recursive step keeps the round count the first that empties the
      pending keys. */
  lemma DoBatchWriteMinimal(pending: set<Key>, rounds: seq<Round>, left: set<Key>, m: nat)
    requires left == Left(pending, rounds, 1) && left != {}
    requires forall n :: 1 <= n < m ==> Left(left, Tail(rounds), n) != {}
    ensures forall n :: 1 <= n < m + 1 ==> Left(pending, rounds, n) != {}
  {
    forall n | 1 <= n < m + 1
      ensures Left(pending, rounds, n) != {}
    {
      if n > 1 {
        LeftShifts(pending, rounds, n - 1);
      }
    }
  }

  /** A chunk the store processes in full on the first round is written in one round. */
  lemma DoBatchWriteFirstRound(store: Store, pending: set<Key>, rest: seq<Round>)
    ensures DoBatchWrite(store, pending, 0, [Processed({})] + rest).ok
    ensures DoBatchWrite(store, pending, 0, [Processed({})] + rest).rounds == 1
  {
  }

  /** A store that never processes anything exhausts all six rounds and the chunk fails. */
  lemma {:induction false} DoBatchWriteGivesUp(store: Store, pending: set<Key>, attempt: nat)
    requires pending != {}
    ensures !DoBatchWrite(store, pending, attempt, []).ok
    decreases MaxRetries + 1 - attempt
  {
    if attempt <= MaxRetries {
      var afterRound := Without(store, pending - pending);
      DoBatchWriteGivesUp(afterRound, pending, attempt + 1);
    }
  }

  /** The keys the delete requests of a chunk address. */
  function KeysOf(modelName: string, items: seq<(string, Owner)>): set<Key>
  {
    set i | 0 <= i < |items| :: KeyOf(modelName, items[i].0, items[i].1)
  }

  /** The delete requests address exactly the items' keys. */
  lemma KeysOfItems(modelName: string, items: seq<(string, Owner)>)
    ensures forall i :: 0 <= i < |items| ==> KeyOf(modelName, items[i].0, items[i].1) in KeysOf(modelName, items)
    ensures forall k :: k in KeysOf(modelName, items) ==>
      exists i :: 0 <= i < |items| && k == KeyOf(modelName, items[i].0, items[i].1)
  {
  }

  function RoundsFor(oracle: seq<seq<Round>>, i: nat): seq<Round> {
    if i < |oracle| then oracle[i] else []
  }

  /** Whether the write of chunk `batch` with these rounds succeeds; by
      `DoBatchWrite`'s contract this does not depend on the store. */
  predicate ChunkOk(modelName: string, batch: seq<(string, Owner)>, rounds: seq<Round>) {
    Left(KeysOf(modelName, batch), rounds, MaxRetries + 1) == {}
  }

  /** How many of the first `n` chunks fail. */
  function FailedChunks(modelName: string, batches: seq<seq<(string, Owner)>>, oracle: seq<seq<Round>>, n: nat): (f: nat)
    requires n <= |batches|
    ensures f <= n
  {
    if n == 0 then 0
    else FailedChunks(modelName, batches, oracle, n - 1) + if ChunkOk(modelName, batches[n - 1], RoundsFor(oracle, n - 1)) then 0 else 1
  }

  /** No chunk failed exactly when every chunk's write succeeded. */
  lemma {:induction false} FailedChunksNone(modelName: string, batches: seq<seq<(string, Owner)>>, oracle: seq<seq<Round>>, n: nat)
    requires n <= |batches|
    ensures FailedChunks(modelName, batches, oracle, n) == 0 <==> forall j :: 0 <= j < n ==> ChunkOk(modelName, batches[j], RoundsFor(oracle, j))
    decreases n
  {
    if n > 0 {
      FailedChunksNone(modelName, batches, oracle, n - 1);
    }
  }

  datatype BatchDestroyed = BatchDestroyed(store: Store, attempted: nat, failed: nat, outcome: Result<(), Failure>)

  /** `batchDestroy`: every chunk of 25 is attempted in order, failures are
      collected, and the call throws once at the end iff some chunk failed;
      chunks that succeeded stay deleted. */
  method BatchDestroy(store: Store, modelName: string, items: seq<(string, Owner)>, oracle: seq<seq<Round>>)
    returns (r: BatchDestroyed)
    ensures r.attempted == |Batches(items)|
    ensures r.failed <= r.attempted
    ensures r.outcome.Err? <==> r.failed > 0
    ensures r.outcome.Err? ==> r.outcome.error == Thrown("batchDestroy had " + NatToString(r.failed) + " failed batches")
    ensures r.store.Keys <= store.Keys
    ensures forall k :: k in r.store ==> r.store[k] == store[k]
    ensures forall k :: k in store && k !in KeysOf(modelName, items) ==> k in r.store
    ensures r.outcome.Ok? ==> forall i :: 0 <= i < |items| ==> KeyOf(modelName, items[i].0, items[i].1) !in r.store
    ensures r.failed == FailedChunks(modelName, Batches(items), oracle, |Batches(items)|)
    ensures forall i :: 0 <= i < |Batches(items)| && ChunkOk(modelName, Batches(items)[i], RoundsFor(oracle, i)) ==>
      Cleared(r.store, KeysOf(modelName, Batches(items)[i]))
  {
    var batches := Batches(items);
    BatchesConcat(items);
    var s, failed := DestroyChunks(store, modelName, items, batches, oracle);
    if failed > 0 {
      r := BatchDestroyed(s, |Batches(items)|, failed, Err(Thrown("batchDestroy had " + NatToString(failed) + " failed batches")));
    } else {
      r := BatchDestroyed(s, |Batches(items)|, failed, Ok(()));
    }
  }

  /** `s` is `store` with some of `keys` deleted and nothing else changed. */
  predicate Shrunk(store: Store, s: Store, keys: set<Key>) {
    && s.Keys <= store.Keys
    && (forall k :: k in s ==> s[k] == store[k])
    && (forall k :: k in store && k !in keys ==> k in s)
  }

  /** None of `keys` is left in `s`. */
  predicate Cleared(s: Store, keys: set<Key>) {
    forall k :: k in keys ==> k !in s
  }

  /** The state after the first `i` chunks: only the items' keys have gone,
      `failed` chunks failed, and every chunk written in full is cleared. */
  predicate ChunksDone(store: Store, s: Store, modelName: string, items: seq<(string, Owner)>,
                       batches: seq<seq<(string, Owner)>>, oracle: seq<seq<Round>>, i: nat, failed: nat) {
    && i <= |batches|
    && Shrunk(store, s, KeysOf(modelName, items))
    && failed == FailedChunks(modelName, batches, oracle, i)
    && forall j :: 0 <= j < i && ChunkOk(modelName, batches[j], RoundsFor(oracle, j)) ==>
         Cleared(s, KeysOf(modelName, batches[j]))
  }

  /** The loop of `batchDestroy` over the chunks: the store after every
      chunk has had its rounds, and how many chunks failed. */
  method DestroyChunks(store: Store, modelName: string, items: seq<(string, Owner)>,
                       batches: seq<seq<(string, Owner)>>, oracle: seq<seq<Round>>)
    returns (s: Store, failed: nat)
    requires Concat(batches) == items
    ensures Shrunk(store, s, KeysOf(modelName, items))
    ensures failed == 0 ==> Cleared(s, KeysOf(modelName, items))
    ensures failed == FailedChunks(modelName, batches, oracle, |batches|)
    ensures forall i :: 0 <= i < |batches| && ChunkOk(modelName, batches[i], RoundsFor(oracle, i)) ==>
      Cleared(s, KeysOf(modelName, batches[i]))
  {
    s := store;
    failed := 0;
    var i := 0;
    while i < |batches|
      invariant ChunksDone(store, s, modelName, items, batches, oracle, i, failed)
    {
      s, failed := DestroyChunk(store, s, modelName, items, batches, oracle, i, failed);
      i := i + 1;
    }
    if failed == 0 {
      forall j | 0 <= j < |batches|
        ensures Cleared(s, KeysOf(modelName, batches[j]))
      {
        FailedChunksNone(modelName, batches, oracle, |batches|);
        assert ChunkOk(modelName, batches[j], RoundsFor(oracle, j));
      }
      ChunksCleared(s, modelName, batches);
    }
  }

  /** One pass of the loop: `doBatchWrite` on chunk `i`, a failure caught
      and counted. */
  method DestroyChunk(store: Store, s: Store, modelName: string, items: seq<(string, Owner)>,
                      batches: seq<seq<(string, Owner)>>, oracle: seq<seq<Round>>, i: nat, failed: nat)
    returns (s': Store, failed': nat)
    requires i < |batches| && Concat(batches) == items
    ensures ChunksDone(store, s, modelName, items, batches, oracle, i, failed) ==>
      ChunksDone(store, s', modelName, items, batches, oracle, i + 1, failed')
  {
    var w := DoBatchWrite(s, KeysOf(modelName, batches[i]), 0, RoundsFor(oracle, i));
    s' := w.store;
    failed' := if w.ok then failed else failed + 1;
    if ChunksDone(store, s, modelName, items, batches, oracle, i, failed) {
      ChunkCounted(s, modelName, batches, oracle, i, failed);
      ChunkStaysCleared(s, modelName, batches, oracle, i);
      ChunkKeeps(store, s, modelName, items, batches, i, RoundsFor(oracle, i));
    }
  }

  /** When every chunk is cleared, so are all the items' keys. */
  lemma {:induction false} ChunksCleared(s: Store, modelName: string, batches: seq<seq<(string, Owner)>>)
    requires forall j :: 0 <= j < |batches| ==> Cleared(s, KeysOf(modelName, batches[j]))
    ensures Cleared(s, KeysOf(modelName, Concat(batches)))
    decreases |batches|
  {
    if |batches| > 0 {
      ChunksCleared(s, modelName, batches[1..]);
      KeysOfAppend(modelName, batches[0], Concat(batches[1..]));
    }
  }

  /** One more chunk counts as failed exactly when its write fails. */
  lemma ChunkCounted(s: Store, modelName: string, batches: seq<seq<(string, Owner)>>, oracle: seq<seq<Round>>,
                     i: nat, failed: nat)
    requires i < |batches|
    requires failed == FailedChunks(modelName, batches, oracle, i)
    ensures var w := DoBatchWrite(s, KeysOf(modelName, batches[i]), 0, RoundsFor(oracle, i));
      (if w.ok then failed else failed + 1) == FailedChunks(modelName, batches, oracle, i + 1)
  {
  }

  /** Chunks written in full so far stay cleared after one more chunk, and
      so does that chunk when its write succeeds. */
  lemma ChunkStaysCleared(s: Store, modelName: string, batches: seq<seq<(string, Owner)>>, oracle: seq<seq<Round>>, i: nat)
    requires i < |batches|
    requires forall j :: 0 <= j < i && ChunkOk(modelName, batches[j], RoundsFor(oracle, j)) ==>
      Cleared(s, KeysOf(modelName, batches[j]))
    ensures var w := DoBatchWrite(s, KeysOf(modelName, batches[i]), 0, RoundsFor(oracle, i));
      forall j :: 0 <= j < i + 1 && ChunkOk(modelName, batches[j], RoundsFor(oracle, j)) ==>
        Cleared(w.store, KeysOf(modelName, batches[j]))
  {
    var w := DoBatchWrite(s, KeysOf(modelName, batches[i]), 0, RoundsFor(oracle, i));
    assert w.store.Keys <= s.Keys;
    forall j | 0 <= j < i + 1 && ChunkOk(modelName, batches[j], RoundsFor(oracle, j))
      ensures Cleared(w.store, KeysOf(modelName, batches[j]))
    {
      if j == i {
        assert w.ok;
      } else {
        assert Cleared(s, KeysOf(modelName, batches[j]));
      }
    }
  }

  /** A chunk's round deletes only keys of that chunk, which are keys of the items. */
  lemma ChunkKeeps(store: Store, s: Store, modelName: string, items: seq<(string, Owner)>,
                   batches: seq<seq<(string, Owner)>>, i: nat, rounds: seq<Round>)
    requires i < |batches| && Concat(batches) == items
    requires Shrunk(store, s, KeysOf(modelName, items))
    ensures Shrunk(store, DoBatchWrite(s, KeysOf(modelName, batches[i]), 0, rounds).store, KeysOf(modelName, items))
  {
    ConcatSnoc(batches, i);
    KeysOfAppend(modelName, Concat(batches[..i]), batches[i]);
    KeysOfConcatSub(modelName, batches, i + 1, items);
  }

  lemma ConcatSnoc<T>(bs: seq<seq<T>>, i: nat)
    requires i < |bs|
    ensures Concat(bs[..i + 1]) == Concat(bs[..i]) + bs[i]
    decreases i
  {
    if i == 0 {
      assert bs[..1] == [bs[0]];
      assert bs[..1][1..] == [];
    } else {
      assert bs[..i + 1][1..] == bs[1..][..i];
      assert bs[..i][1..] == bs[1..][..i - 1];
      ConcatSnoc(bs[1..], i - 1);
    }
  }

  lemma KeysOfAppend(modelName: string, a: seq<(string, Owner)>, b: seq<(string, Owner)>)
    ensures KeysOf(modelName, a + b) == KeysOf(modelName, a) + KeysOf(modelName, b)
  {
    forall k | k in KeysOf(modelName, a + b)
      ensures k in KeysOf(modelName, a) + KeysOf(modelName, b)
    {
      var i :| 0 <= i < |a + b| && k == KeyOf(modelName, (a + b)[i].0, (a + b)[i].1);
      if i >= |a| {
        assert (a + b)[i] == b[i - |a|];
        assert k in KeysOf(modelName, b);
      } else {
        assert (a + b)[i] == a[i];
        assert k in KeysOf(modelName, a);
      }
    }
    forall k | k in KeysOf(modelName, a)
      ensures k in KeysOf(modelName, a + b)
    {
      var i :| 0 <= i < |a| && k == KeyOf(modelName, a[i].0, a[i].1);
      assert (a + b)[i] == a[i];
    }
    forall k | k in KeysOf(modelName, b)
      ensures k in KeysOf(modelName, a + b)
    {
      var i :| 0 <= i < |b| && k == KeyOf(modelName, b[i].0, b[i].1);
      assert (a + b)[|a| + i] == b[i];
    }
  }

  lemma ConcatPrefixKeys(modelName: string, bs: seq<seq<(string, Owner)>>, i: nat)
    requires i <= |bs|
    ensures KeysOf(modelName, Concat(bs[..i])) <= KeysOf(modelName, Concat(bs))
  {
    ConcatSplit(bs, i);
    KeysOfAppend(modelName, Concat(bs[..i]), Concat(bs[i..]));
  }

  lemma ConcatSplit<T>(bs: seq<seq<T>>, i: nat)
    requires i <= |bs|
    ensures Concat(bs) == Concat(bs[..i]) + Concat(bs[i..])
    decreases i
  {
    if i == 0 {
      assert bs[..0] == [];
      assert bs[0..] == bs;
    } else {
      ConcatSplit(bs[1..], i - 1);
      assert bs[1..][..i - 1] == bs[..i][1..];
      assert bs[1..][i - 1..] == bs[i..];
    }
  }

  lemma KeysOfConcatSub(modelName: string, bs: seq<seq<(string, Owner)>>, i: nat, items: seq<(string, Owner)>)
    requires i <= |bs| && Concat(bs) == items
    ensures KeysOf(modelName, Concat(bs[..i])) <= KeysOf(modelName, items)
  {
    ConcatPrefixKeys(modelName, bs, i);
  }
}

=== FILE: adapter_queries.dfy ===
/** Queries on the single-table store: the key conditions of the table
    and owner-index queries, the page loop of `getResults` with its
    retries, and the expiry filter applied to every list read. */
module AdapterQueries {
  import opened Wrappers
  import opened Text
  import opened Keys
  import opened Adapter

  /** The key condition of a query: on the table by `modelId` with an
      optional owner prefix, or on the owner index with an optional
      `modelId` prefix. */
  datatype KeyCondition =
    | ByModelId(modelId: string, ownerPrefix: Option<string>)
    | ByOwner(owner: string, modelIdPrefix: Option<string>)

  predicate Matches(cond: KeyCondition, k: Key) {
    match cond
    case ByModelId(m, p) => k.0 == m && (p.None? || StartsWith(k.1, p.value))
    case ByOwner(o, p) => k.1 == o && (p.None? || StartsWith(k.0, p.value))
  }

  /** A `{ type, idPrefix? }` list filter. */
  datatype TypeFilter = TypeFilter(kind: Model, idPrefix: Option<string>)

  /** The key condition `findAllByModelId` sends. */
  function ModelIdQuery(modelName: string, id: string, ownerFilter: Option<TypeFilter>): (c: KeyCondition)
    ensures c.ByModelId? && c.modelId == ModelId(modelName, id)
    ensures c.ownerPrefix.Some? <==> ownerFilter.Some?
    ensures ownerFilter.Some? ==>
      c.ownerPrefix.value == PrefixFilter(ownerFilter.value.kind, ownerFilter.value.idPrefix)
  {
    ByModelId(ModelId(modelName, id),
      if ownerFilter.Some? then Some(PrefixFilter(ownerFilter.value.kind, ownerFilter.value.idPrefix)) else None)
  }

  /** The key condition `findAllByOwner` sends to the owner index. */
  function OwnerQuery(owner: Owner, typeFilter: Option<TypeFilter>): (c: KeyCondition)
    ensures c.ByOwner? && c.owner == OwnerKey(owner)
    ensures c.modelIdPrefix.Some? <==> typeFilter.Some?
    ensures typeFilter.Some? ==>
      c.modelIdPrefix.value == PrefixFilter(typeFilter.value.kind, typeFilter.value.idPrefix)
  {
    ByOwner(OwnerKey(owner),
      if typeFilter.Some? then Some(PrefixFilter(typeFilter.value.kind, typeFilter.value.idPrefix)) else None)
  }

  /** Owner-index symmetry: a row written with owner `o` is matched by the
      owner-index query for `o` filtered on its model, and by the table
      query for its id filtered on `o`'s type, with or without `o`'s id. */
  lemma OwnerIndexSymmetry(m: Model, id: string, o: Owner, idPrefix: Option<string>)
    requires idPrefix.None? || idPrefix == Some(o.id)
    ensures Matches(OwnerQuery(o, None), KeyOf(Name(m), id, o))
    ensures Matches(OwnerQuery(o, Some(TypeFilter(m, None))), KeyOf(Name(m), id, o))
    ensures Matches(ModelIdQuery(Name(m), id, None), KeyOf(Name(m), id, o))
    ensures Matches(ModelIdQuery(Name(m), id, Some(TypeFilter(o.kind, idPrefix))), KeyOf(Name(m), id, o))
  {
    KeyMatchesOwnFilters(m, id, o);
  }

  /** One response of the store to a query request: a page of rows and
      whether a continuation key came with it, or a failed send. */
  datatype QueryResponse = Page(items: seq<Row>, hasMore: bool) | SendError

  predicate Hit(resp: QueryResponse) {
    resp.Page? && |resp.items| > 0
  }

  /** Attempt `h` is the first of the first `limit` attempts to return a
      non-empty page. */
  predicate FirstHitAt(attempts: seq<QueryResponse>, limit: nat, h: nat) {
    && h < limit && h < |attempts| && Hit(attempts[h])
    && forall j :: 0 <= j < h ==> !Hit(attempts[j])
  }

  /** `getPage`: an empty page counts as not found and is retried; after
      `limit` failed attempts the page is empty with no continuation. */
  function GetPage(attempts: seq<QueryResponse>, limit: nat): (p: (seq<Row>, bool))
    ensures |p.0| > 0 <==> exists j :: 0 <= j < limit && j < |attempts| && Hit(attempts[j])
    ensures |p.0| == 0 ==> !p.1
    ensures p.1 ==> exists j :: 0 <= j < limit && j < |attempts| && Hit(attempts[j]) && attempts[j].hasMore
  {
    if limit == 0 || |attempts| == 0 then ([], false)
    else if Hit(attempts[0]) then (attempts[0].items, attempts[0].hasMore)
    else
      var p := GetPage(attempts[1..], limit - 1);
      assert forall j :: 0 <= j < limit - 1 && j < |attempts| - 1 ==> attempts[1..][j] == attempts[j + 1];
      p
  }

  /** The page `getPage` returns is the first non-empty one among the
      allowed attempts, with that attempt's continuation. */
  lemma {:induction false} GetPageFirstHit(attempts: seq<QueryResponse>, limit: nat)
    ensures var p := GetPage(attempts, limit);
      |p.0| > 0 ==> exists h: nat :: FirstHitAt(attempts, limit, h) && p == (attempts[h].items, attempts[h].hasMore)
    decreases limit
  {
    if limit == 0 || |attempts| == 0 {
    } else if Hit(attempts[0]) {
      assert FirstHitAt(attempts, limit, 0);
    } else {
      GetPageFirstHit(attempts[1..], limit - 1);
      FirstHitShift(attempts, limit, GetPage(attempts, limit));
    }
  }

  /** A first hit among the attempts after a miss is the first hit of all
      of them, one place later. */
  lemma FirstHitShift(attempts: seq<QueryResponse>, limit: nat, p: (seq<Row>, bool))
    requires limit > 0 && |attempts| > 0 && !Hit(attempts[0])
    requires |p.0| > 0 ==> exists h: nat :: FirstHitAt(attempts[1..], limit - 1, h) && p == (attempts[1..][h].items, attempts[1..][h].hasMore)
    ensures |p.0| > 0 ==> exists h: nat :: FirstHitAt(attempts, limit, h) && p == (attempts[h].items, attempts[h].hasMore)
  {
    if |p.0| > 0 {
      var h: nat :| FirstHitAt(attempts[1..], limit - 1, h) && p == (attempts[1..][h].items, attempts[1..][h].hasMore);
      forall j | 0 <= j < h + 1
        ensures !Hit(attempts[j])
      {
        if j > 0 {
          assert attempts[j] == attempts[1..][j - 1];
        }
      }
      assert attempts[h + 1] == attempts[1..][h];
      assert FirstHitAt(attempts, limit, h + 1);
    }
  }

  /** The responses available to the `n`-th page request. */
  function PageAt(pages: seq<seq<QueryResponse>>, n: nat): seq<QueryResponse> {
    if n < |pages| then pages[n] else []
  }

  datatype Collected = Collected(rows: seq<Row>, count: nat)

  /** The rows of pages `lo` up to (not including) `hi`, in page order. */
  function PagesRows(pages: seq<seq<QueryResponse>>, limit: nat, lo: nat, hi: int): seq<Row>
    decreases hi - lo
  {
    if lo >= hi then [] else GetPage(PageAt(pages, lo), limit).0 + PagesRows(pages, limit, lo + 1, hi)
  }

  lemma PagesRowsStep(pages: seq<seq<QueryResponse>>, limit: nat, lo: nat, hi: int)
    requires lo < hi
    ensures PagesRows(pages, limit, lo, hi) == GetPage(PageAt(pages, lo), limit).0 + PagesRows(pages, limit, lo + 1, hi)
  {
  }

  /** Reference definition of the page loop from page `n` on: the rows
      collected and the number of pages requested. */
  function CollectPages(pages: seq<seq<QueryResponse>>, limit: nat, n: nat): (c: Collected)
    ensures n < MaxPages ==> 1 <= c.count <= MaxPages - n
    ensures n >= MaxPages ==> c == Collected([], 0)
    decreases MaxPages - n
  {
    if n >= MaxPages then Collected([], 0)
    else
      var page := GetPage(PageAt(pages, n), limit);
      if !page.1 then Collected(page.0, 1)
      else
        var rest := CollectPages(pages, limit, n + 1);
        Collected(page.0 + rest.rows, rest.count + 1)
  }

  /** Every page the loop requested but the last came with a continuation
      key. */
  lemma {:induction false} CollectPagesContinued(pages: seq<seq<QueryResponse>>, limit: nat, n: nat)
    ensures var c := CollectPages(pages, limit, n);
      forall m :: n <= m < n + c.count - 1 ==> GetPage(PageAt(pages, m), limit).1
    decreases MaxPages - n
  {
    if n < MaxPages && GetPage(PageAt(pages, n), limit).1 {
      CollectPagesContinued(pages, limit, n + 1);
    }
  }

  /** The last page the loop requested came without a continuation key,
      unless the loop stopped at `MAX_PAGES`. */
  lemma {:induction false} CollectPagesLast(pages: seq<seq<QueryResponse>>, limit: nat, n: nat)
    ensures var c := CollectPages(pages, limit, n);
      0 < c.count && n + c.count < MaxPages ==> !GetPage(PageAt(pages, n + c.count - 1), limit).1
    decreases MaxPages - n
  {
    if n < MaxPages && GetPage(PageAt(pages, n), limit).1 {
      CollectPagesLast(pages, limit, n + 1);
    }
  }

  /** The rows the loop collects are the rows of the pages it requested, in
      page order. */
  lemma {:induction false} CollectPagesRows(pages: seq<seq<QueryResponse>>, limit: nat, n: nat)
    ensures CollectPages(pages, limit, n).rows == PagesRows(pages, limit, n, n + CollectPages(pages, limit, n).count)
    decreases MaxPages - n
  {
    if n < MaxPages {
      var page := GetPage(PageAt(pages, n), limit);
      if !page.1 {
        assert PagesRows(pages, limit, n + 1, n + 1) == [];
        assert page.0 + [] == page.0;
      } else {
        var rest := CollectPages(pages, limit, n + 1);
        CollectPagesRows(pages, limit, n + 1);
        PagesRowsStep(pages, limit, n, n + 1 + rest.count);
      }
    }
  }

  /** `r` is the record of an unexpired row of `rows`. */
  predicate FromLiveRow(r: Record, rows: seq<Row>, nowMs: int) {
    exists j :: 0 <= j < |rows| && !IsExpired(rows[j], nowMs) && r == ResultToRecord(rows[j])
  }

  /** Every record of `rs` is the record of an unexpired row of `rows`. */
  predicate FromLiveRows(rs: seq<Record>, rows: seq<Row>, nowMs: int) {
    forall i :: 0 <= i < |rs| ==> FromLiveRow(rs[i], rows, nowMs)
  }

  /** Every unexpired row of `rows` gives a record of `rs`. */
  predicate KeepsLiveRows(rs: seq<Record>, rows: seq<Row>, nowMs: int) {
    forall j :: 0 <= j < |rows| && !IsExpired(rows[j], nowMs) ==> ResultToRecord(rows[j]) in rs
  }

  /** The expiry filter every list read applies after paging: every record
      comes from an unexpired row, and every unexpired row gives one. */
  function LiveRecords(rows: seq<Row>, nowMs: int): (rs: seq<Record>)
    ensures |rs| <= |rows|
    ensures FromLiveRows(rs, rows, nowMs)
    ensures KeepsLiveRows(rs, rows, nowMs)
  {
    if |rows| == 0 then []
    else
      var rest := LiveRecords(rows[1..], nowMs);
      var rs := if IsExpired(rows[0], nowMs) then rest else [ResultToRecord(rows[0])] + rest;
      LiveRecordsCons(rows, nowMs, rest, rs);
      rs
  }

  /** Putting a row in front keeps both halves of the filter's contract. */
  lemma LiveRecordsCons(rows: seq<Row>, nowMs: int, rest: seq<Record>, rs: seq<Record>)
    requires |rows| > 0
    requires FromLiveRows(rest, rows[1..], nowMs) && KeepsLiveRows(rest, rows[1..], nowMs)
    requires rs == if IsExpired(rows[0], nowMs) then rest else [ResultToRecord(rows[0])] + rest
    ensures FromLiveRows(rs, rows, nowMs) && KeepsLiveRows(rs, rows, nowMs)
  {
    LiveRecordsConsFrom(rows, nowMs, rest, rs);
    forall j | 0 <= j < |rows| && !IsExpired(rows[j], nowMs)
      ensures ResultToRecord(rows[j]) in rs
    {
      if j > 0 {
        assert rows[j] == rows[1..][j - 1];
        assert ResultToRecord(rows[j]) in rest;
      }
    }
  }

  /** The soundness half of `LiveRecordsCons`. */
  lemma LiveRecordsConsFrom(rows: seq<Row>, nowMs: int, rest: seq<Record>, rs: seq<Record>)
    requires |rows| > 0
    requires FromLiveRows(rest, rows[1..], nowMs)
    requires rs == if IsExpired(rows[0], nowMs) then rest else [ResultToRecord(rows[0])] + rest
    ensures FromLiveRows(rs, rows, nowMs)
  {
    forall i | 0 <= i < |rs|
      ensures FromLiveRow(rs[i], rows, nowMs)
    {
      if !IsExpired(rows[0], nowMs) && i == 0 {
        assert rs[0] == ResultToRecord(rows[0]);
      } else {
        var i' := if IsExpired(rows[0], nowMs) then i else i - 1;
        assert rs[i] == rest[i'];
        assert FromLiveRow(rest[i'], rows[1..], nowMs);
        var j :| 0 <= j < |rows[1..]| && !IsExpired(rows[1..][j], nowMs) && rest[i'] == ResultToRecord(rows[1..][j]);
        assert rows[1..][j] == rows[j + 1];
        assert 0 <= j + 1 < |rows| && !IsExpired(rows[j + 1], nowMs) && rs[i] == ResultToRecord(rows[j + 1]);
      }
    }
  }

  /** The filter keeps order: filtering a concatenation is concatenating
      the filtered parts, and one row gives its record exactly when it has
      not expired. */
  lemma {:induction false} LiveRecordsAppend(a: seq<Row>, b: seq<Row>, nowMs: int)
    ensures LiveRecords(a + b, nowMs) == LiveRecords(a, nowMs) + LiveRecords(b, nowMs)
    ensures |a| == 1 ==> LiveRecords(a, nowMs) == if IsExpired(a[0], nowMs) then [] else [ResultToRecord(a[0])]
    decreases |a|
  {
    if |a| > 0 {
      assert (a + b)[1..] == a[1..] + b;
      LiveRecordsAppend(a[1..], b, nowMs);
      if |a| == 1 {
        assert LiveRecords(a[1..], nowMs) == [];
      }
    } else {
      assert a + b == b;
    }
  }

  /** One unfolding of the page loop. */
  lemma CollectStep(pages: seq<seq<QueryResponse>>, limit: nat, n: nat)
    requires n < MaxPages
    ensures var page := GetPage(PageAt(pages, n), limit);
      CollectPages(pages, limit, n) ==
        if page.1 then Collected(page.0 + CollectPages(pages, limit, n + 1).rows, CollectPages(pages, limit, n + 1).count + 1)
        else Collected(page.0, 1)
  {
  }

  datatype ListRead = ListRead(records: seq<Record>, pagesRequested: nat)

  /** What is still to be collected: the rest of the loop while a
      continuation is pending, nothing once it stopped. */
  function Remaining(pages: seq<seq<QueryResponse>>, limit: nat, n: nat, more: bool): Collected {
    if more then CollectPages(pages, limit, n) else Collected([], 0)
  }

  /** The loop body keeps `collected so far + remaining == whole`. */
  lemma {:induction false} LoopStep(pages: seq<seq<QueryResponse>>, limit: nat, n: nat, rows: seq<Row>)
    requires n < MaxPages
    ensures var page := GetPage(PageAt(pages, n), limit);
      var before := Remaining(pages, limit, n, true);
      var after := Remaining(pages, limit, n + 1, page.1);
      && rows + before.rows == (rows + page.0) + after.rows
      && n + before.count == (n + 1) + after.count
  {
    var page := GetPage(PageAt(pages, n), limit);
    CollectStep(pages, limit, n);
    if page.1 {
      var next := CollectPages(pages, limit, n + 1);
      assert rows + (page.0 + next.rows) == (rows + page.0) + next.rows;
    } else {
      assert (rows + page.0) + [] == rows + page.0;
    }
  }

  /** `getResults`: requests pages while a continuation key comes back, at
      most `MAX_PAGES` of them, then drops expired rows. */
  method GetResults(pages: seq<seq<QueryResponse>>, disableBackoff: bool, nowMs: int) returns (r: ListRead)
    ensures 1 <= r.pagesRequested <= MaxPages
    ensures r.records == LiveRecords(CollectPages(pages, Attempts(disableBackoff), 0).rows, nowMs)
    ensures r.pagesRequested == CollectPages(pages, Attempts(disableBackoff), 0).count
  {
    var limit := Attempts(disableBackoff);
    ghost var whole := CollectPages(pages, limit, 0);
    var rows: seq<Row> := [];
    var n := 0;
    var more := true;
    assert rows + whole.rows == whole.rows;
    while more && n < MaxPages
      invariant 0 <= n <= MaxPages
      invariant rows + Remaining(pages, limit, n, more).rows == whole.rows
      invariant n + Remaining(pages, limit, n, more).count == whole.count
      decreases MaxPages - n
    {
      var page := GetPage(PageAt(pages, n), limit);
      LoopStep(pages, limit, n, rows);
      rows := rows + page.0;
      more := page.1;
      n := n + 1;
    }
    assert Remaining(pages, limit, n, more) == Collected([], 0);
    assert rows + [] == rows;
    r := ListRead(LiveRecords(rows, nowMs), n);
  }

  /** `row` is the row of some key the condition matches. */
  ghost predicate Served(store: Store, cond: KeyCondition, row: Row) {
    exists k :: k in store && Matches(cond, k) && store[k] == row
  }

  ghost predicate AllServed(store: Store, cond: KeyCondition, rows: seq<Row>) {
    forall i :: 0 <= i < |rows| ==> Served(store, cond, rows[i])
  }

  /** The store answered a query honestly: every row on every page is the
      row of some key the condition matches. */
  ghost predicate PagesFrom(store: Store, cond: KeyCondition, pages: seq<seq<QueryResponse>>) {
    forall n, j :: 0 <= n < |pages| && 0 <= j < |pages[n]| && pages[n][j].Page? ==>
      AllServed(store, cond, pages[n][j].items)
  }

  lemma {:induction false} GetPageServed(store: Store, cond: KeyCondition, attempts: seq<QueryResponse>, limit: nat)
    requires forall j :: 0 <= j < |attempts| && attempts[j].Page? ==> AllServed(store, cond, attempts[j].items)
    ensures AllServed(store, cond, GetPage(attempts, limit).0)
    decreases limit
  {
    if limit == 0 || |attempts| == 0 {
    } else if Hit(attempts[0]) {
    } else {
      assert forall j :: 0 <= j < |attempts[1..]| ==> attempts[1..][j] == attempts[j + 1];
      GetPageServed(store, cond, attempts[1..], limit - 1);
    }
  }

  lemma AllServedAppend(store: Store, cond: KeyCondition, a: seq<Row>, b: seq<Row>)
    requires AllServed(store, cond, a) && AllServed(store, cond, b)
    ensures AllServed(store, cond, a + b)
  {
    forall i | 0 <= i < |a + b|
      ensures Served(store, cond, (a + b)[i])
    {
      if i < |a| {
        assert (a + b)[i] == a[i];
      } else {
        assert (a + b)[i] == b[i - |a|];
      }
    }
  }

  lemma {:induction false} CollectPagesServed(store: Store, cond: KeyCondition, pages: seq<seq<QueryResponse>>, limit: nat, n: nat)
    requires PagesFrom(store, cond, pages)
    ensures AllServed(store, cond, CollectPages(pages, limit, n).rows)
    decreases MaxPages - n
  {
    if n < MaxPages {
      var page := GetPage(PageAt(pages, n), limit);
      GetPageServed(store, cond, PageAt(pages, n), limit);
      if page.1 {
        CollectPagesServed(store, cond, pages, limit, n + 1);
        AllServedAppend(store, cond, page.0, CollectPages(pages, limit, n + 1).rows);
      }
    }
  }

  /** List reads are sound: with an honest store, every record returned is
      an unexpired row of a key the query condition matches. */
  lemma ListReadSound(store: Store, cond: KeyCondition, pages: seq<seq<QueryResponse>>, limit: nat, nowMs: int)
    requires PagesFrom(store, cond, pages)
    ensures var recs := LiveRecords(CollectPages(pages, limit, 0).rows, nowMs);
      forall i :: 0 <= i < |recs| ==>
        exists k :: k in store && Matches(cond, k) && !IsExpired(store[k], nowMs) && recs[i] == ResultToRecord(store[k])
  {
    var rows := CollectPages(pages, limit, 0).rows;
    CollectPagesServed(store, cond, pages, limit, 0);
    var recs := LiveRecords(rows, nowMs);
    forall i | 0 <= i < |recs|
      ensures exists k :: k in store && Matches(cond, k) && !IsExpired(store[k], nowMs) && recs[i] == ResultToRecord(store[k])
    {
      var j :| 0 <= j < |rows| && !IsExpired(rows[j], nowMs) && recs[i] == ResultToRecord(rows[j]);
      assert Served(store, cond, rows[j]);
      var k :| k in store && Matches(cond, k) && store[k] == rows[j];
    }
  }

  /** List reads are complete: every unexpired row on a page the loop
      requested comes back as a record. */
  lemma ListReadComplete(pages: seq<seq<QueryResponse>>, limit: nat, nowMs: int, m: nat, j: nat)
    requires m < CollectPages(pages, limit, 0).count
    requires j < |GetPage(PageAt(pages, m), limit).0|
    requires !IsExpired(GetPage(PageAt(pages, m), limit).0[j], nowMs)
    ensures ResultToRecord(GetPage(PageAt(pages, m), limit).0[j]) in LiveRecords(CollectPages(pages, limit, 0).rows, nowMs)
  {
    var c := CollectPages(pages, limit, 0);
    var row := GetPage(PageAt(pages, m), limit).0[j];
    CollectedRowsContain(pages, limit, 0, m, j);
    LiveRecordsContain(c.rows, nowMs, row);
  }

  /** Every row of a page the loop requested is among the rows it collects. */
  lemma {:induction false} CollectedRowsContain(pages: seq<seq<QueryResponse>>, limit: nat, n: nat, m: nat, j: nat)
    requires n <= m < n + CollectPages(pages, limit, n).count
    requires j < |GetPage(PageAt(pages, m), limit).0|
    ensures GetPage(PageAt(pages, m), limit).0[j] in CollectPages(pages, limit, n).rows
    decreases MaxPages - n
  {
    var page := GetPage(PageAt(pages, n), limit);
    if page.1 {
      var rest := CollectPages(pages, limit, n + 1);
      assert CollectPages(pages, limit, n).rows == page.0 + rest.rows;
      if m == n {
        assert (page.0 + rest.rows)[j] == page.0[j];
      } else {
        CollectedRowsContain(pages, limit, n + 1, m, j);
      }
    }
  }

  lemma LiveRecordsContain(rows: seq<Row>, nowMs: int, row: Row)
    requires row in rows && !IsExpired(row, nowMs)
    ensures ResultToRecord(row) in LiveRecords(rows, nowMs)
  {
    var i :| 0 <= i < |rows| && rows[i] == row;
  }

  /** `findAllByModelId`: the table query for one model id, optionally
      restricted to an owner type and id prefix. */
  method FindAllByModelId(modelName: string, id: string, ownerFilter: Option<TypeFilter>,
                          disableBackoff: bool, pages: seq<seq<QueryResponse>>, nowMs: int)
    returns (cond: KeyCondition, r: ListRead)
    ensures cond == ModelIdQuery(modelName, id, ownerFilter)
    ensures 1 <= r.pagesRequested <= MaxPages
    ensures r.records == LiveRecords(CollectPages(pages, Attempts(disableBackoff), 0).rows, nowMs)
  {
    cond := ModelIdQuery(modelName, id, ownerFilter);
    r := GetResults(pages, disableBackoff, nowMs);
  }

  /** `findAllByOwner`: the owner-index query, always with backoff. */
  method FindAllByOwner(owner: Owner, typeFilter: Option<TypeFilter>, pages: seq<seq<QueryResponse>>, nowMs: int)
    returns (cond: KeyCondition, r: ListRead)
    ensures cond == OwnerQuery(owner, typeFilter)
    ensures 1 <= r.pagesRequested <= MaxPages
    ensures r.records == LiveRecords(CollectPages(pages, MaxRetries, 0).rows, nowMs)
  {
    cond := OwnerQuery(owner, typeFilter);
    r := GetResults(pages, false, nowMs);
  }
}

=== FILE: aggregator_core.dfy ===
/** `MetricsAggregator`: folds exported table rows into per-day, per-app
    counters. A session row counts a game for its user, a party row a
    party created by its user, a member row a party joined. The clock's
    UTC date and the conversion of a timestamp's text to a date are
    parameters. */
module AggregatorCore {
  import opened Wrappers
  import opened Calendar
  import opened CountMap
  import opened Sorting
  import opened PatternUtils
  import opened DateUtils

  /** The event as received: a mode and an optional first backfill day. */
  datatype AggregatorEvent = AggregatorEvent(mode: Option<string>, backfillStartDate: Option<string>)

  const IncrementalMode: string := "incremental"
  const BackfillMode: string := "backfill"

  /** The counters of one app on one day. `activeUserIds` is a JavaScript
      `Set`, whose order no consumer observes. */
  datatype DailyMetrics = DailyMetrics(date: string, app: string, activeUserIds: set<string>,
                                       gamesPerUser: Counts, partiesCreatedPerUser: Counts,
                                       partiesJoined: nat)

  /** `metricsByDateAndApp`: date, then app, to that day's counters. */
  type Metrics = map<string, map<string, DailyMetrics>>

  function NewMetrics(date: string, app: string): (b: DailyMetrics)
  {
    DailyMetrics(date, app, {}, [], [], 0)
  }

  /** Every user with a game is active and every active user has a game,
      neither map repeats a user, and every stored count is at least one. */
  predicate WellFormedBucket(b: DailyMetrics) {
    && (forall u :: u in b.activeUserIds ==> u in KeyList(b.gamesPerUser))
    && (forall u :: u in KeyList(b.gamesPerUser) ==> u in b.activeUserIds)
    && DistinctKeys(b.gamesPerUser) && Positive(b.gamesPerUser)
    && DistinctKeys(b.partiesCreatedPerUser) && Positive(b.partiesCreatedPerUser)
  }

  /** Each bucket sits under its own date and app. */
  predicate WellFormed(m: Metrics) {
    forall date :: date in m ==>
      forall app :: app in m[date] ==>
        m[date][app].date == date && m[date][app].app == app && WellFormedBucket(m[date][app])
  }

  // ---------------------------------------------------------------------
  // Buckets

  /** `getMetricsForDateAndApp`. */
  function GetMetricsForDateAndApp(m: Metrics, date: string, app: string): (b: Option<DailyMetrics>)
    ensures b.Some? <==> date in m && app in m[date]
  {
    if date in m && app in m[date] then Some(m[date][app]) else None
  }

  /** `getMetricsForDate`. */
  function GetMetricsForDate(m: Metrics, date: string): (apps: Option<map<string, DailyMetrics>>)
    ensures apps.Some? <==> date in m
    ensures apps.Some? ==> forall app :: app in apps.value ==> GetMetricsForDateAndApp(m, date, app) == Some(apps.value[app])
  {
    if date in m then Some(m[date]) else None
  }

  /** `getOrCreateMetrics`: the existing bucket, or a fresh empty one
      registered under the date and app; no other bucket changes. */
  function GetOrCreateMetrics(m: Metrics, date: string, app: string): (r: (Metrics, DailyMetrics))
    ensures GetMetricsForDateAndApp(r.0, date, app) == Some(r.1)
    ensures GetMetricsForDateAndApp(m, date, app).Some? ==> r.0 == m && r.1 == m[date][app]
    ensures GetMetricsForDateAndApp(m, date, app).None? ==> r.1 == NewMetrics(date, app)
    ensures r.0.Keys == m.Keys + {date}
    ensures forall d, a :: (d != date || a != app) ==>
      GetMetricsForDateAndApp(r.0, d, a) == GetMetricsForDateAndApp(m, d, a)
  {
    var apps := if date in m then m[date] else map[];
    var m1 := m[date := apps];
    if app in apps then (m1, apps[app])
    else
      var b := NewMetrics(date, app);
      (m1[date := apps[app := b]], b)
  }

  /** Writing a bucket back after mutating it. */
  function Put(m: Metrics, date: string, app: string, b: DailyMetrics): (r: Metrics)
    requires date in m
    ensures GetMetricsForDateAndApp(r, date, app) == Some(b)
    ensures r.Keys == m.Keys
    ensures forall d, a :: (d != date || a != app) ==>
      GetMetricsForDateAndApp(r, d, a) == GetMetricsForDateAndApp(m, d, a)
  {
    m[date := m[date][app := b]]
  }

  /** `activeUserIds.add(user)` and one more game for `user`. */
  function AddGame(b: DailyMetrics, user: string): (r: DailyMetrics)
    ensures r.date == b.date && r.app == b.app
    ensures r.partiesCreatedPerUser == b.partiesCreatedPerUser && r.partiesJoined == b.partiesJoined
    ensures r.activeUserIds == b.activeUserIds + {user}
    ensures Get(r.gamesPerUser, user) == Some(Get(b.gamesPerUser, user).GetOr(0) + 1)
    ensures Total(r.gamesPerUser) == Total(b.gamesPerUser) + 1
  {
    b.(activeUserIds := b.activeUserIds + {user}, gamesPerUser := Increment(b.gamesPerUser, user))
  }

  /** A game keeps the active users equal to the users with games. */
  lemma AddGameWellFormed(b: DailyMetrics, user: string)
    requires WellFormedBucket(b)
    ensures WellFormedBucket(AddGame(b, user))
  {
    var r := AddGame(b, user);
    var v := Get(b.gamesPerUser, user).GetOr(0) + 1;
    assert r.gamesPerUser == Set(b.gamesPerUser, user, v);
    assert DistinctKeys(r.gamesPerUser) && Positive(r.gamesPerUser) by {
      SetDistinct(b.gamesPerUser, user, v);
      SetPositive(b.gamesPerUser, user, v);
    }
    assert forall u :: u in KeyList(r.gamesPerUser) <==> u in r.activeUserIds by {
      IncrementKeys(b.gamesPerUser, user);
    }
  }

  /** In a well-formed bucket there are never more active users than
      games: each active user has played at least once. */
  lemma ActiveUsersAtMostGames(b: DailyMetrics)
    requires WellFormedBucket(b)
    ensures |b.activeUserIds| <= Total(b.gamesPerUser)
  {
    SetSizeOfKeys(b.activeUserIds, b.gamesPerUser);
    TotalAtLeastSize(b.gamesPerUser);
  }

  /** One more party created by `user`. */
  function AddPartyCreated(b: DailyMetrics, user: string): (r: DailyMetrics)
    ensures r.date == b.date && r.app == b.app
    ensures r.activeUserIds == b.activeUserIds && r.gamesPerUser == b.gamesPerUser
    ensures r.partiesJoined == b.partiesJoined
    ensures Get(r.partiesCreatedPerUser, user) == Some(Get(b.partiesCreatedPerUser, user).GetOr(0) + 1)
    ensures Total(r.partiesCreatedPerUser) == Total(b.partiesCreatedPerUser) + 1
    ensures WellFormedBucket(b) ==> WellFormedBucket(r)
  {
    var c := Increment(b.partiesCreatedPerUser, user);
    assert DistinctKeys(b.partiesCreatedPerUser) ==> DistinctKeys(c) by {
      SetDistinct(b.partiesCreatedPerUser, user, Get(b.partiesCreatedPerUser, user).GetOr(0) + 1);
    }
    assert Positive(b.partiesCreatedPerUser) ==> Positive(c) by {
      SetPositive(b.partiesCreatedPerUser, user, Get(b.partiesCreatedPerUser, user).GetOr(0) + 1);
    }
    b.(partiesCreatedPerUser := c)
  }

  /** One more party joined. */
  function AddPartyJoined(b: DailyMetrics): (r: DailyMetrics)
    ensures r.partiesJoined == b.partiesJoined + 1
    ensures r.date == b.date && r.app == b.app
    ensures r.activeUserIds == b.activeUserIds && r.gamesPerUser == b.gamesPerUser
    ensures r.partiesCreatedPerUser == b.partiesCreatedPerUser
    ensures WellFormedBucket(b) ==> WellFormedBucket(r)
  {
    b.(partiesJoined := b.partiesJoined + 1)
  }

  // ---------------------------------------------------------------------
  // Per-kind processors

  /** The bucket `getOrCreateMetrics` would hand out. */
  function BucketOf(m: Metrics, date: string, app: string): DailyMetrics {
    if date in m && app in m[date] then m[date][app] else NewMetrics(date, app)
  }

  /** A fresh or existing bucket keeps the state well-formed. */
  lemma GetOrCreateWellFormed(m: Metrics, date: string, app: string)
    requires WellFormed(m)
    ensures var (m1, b) := GetOrCreateMetrics(m, date, app);
      WellFormed(m1) && b.date == date && b.app == app && WellFormedBucket(b)
  {
    var (m1, b) := GetOrCreateMetrics(m, date, app);
    forall d, a | d in m1 && a in m1[d]
      ensures m1[d][a].date == d && m1[d][a].app == a && WellFormedBucket(m1[d][a])
    {
      assert GetMetricsForDateAndApp(m1, d, a).Some?;
      if d != date || a != app {
        assert GetMetricsForDateAndApp(m, d, a) == Some(m1[d][a]);
      }
    }
  }

  /** Writing back a well-formed bucket under its own key keeps the state well-formed. */
  lemma PutWellFormed(m: Metrics, date: string, app: string, b: DailyMetrics)
    requires WellFormed(m) && date in m
    requires b.date == date && b.app == app && WellFormedBucket(b)
    ensures WellFormed(Put(m, date, app, b))
  {
    var r: Metrics := Put(m, date, app, b);
    forall d, a | d in r && a in r[d]
      ensures r[d][a].date == d && r[d][a].app == a && WellFormedBucket(r[d][a])
    {
      assert GetMetricsForDateAndApp(r, d, a).Some?;
      if d != date || a != app {
        assert GetMetricsForDateAndApp(m, d, a) == Some(r[d][a]);
      }
    }
  }

  /** `processSessionRecord`: needs a non-empty app from the model id and
      a non-empty user from the owner. */
  function ProcessSessionRecord(m: Metrics, modelId: string, owner: string, date: string): (r: Metrics)
    ensures r.Keys <= m.Keys + {date}
    ensures WellFormed(m) ==> WellFormed(r)
  {
    var app := ExtractAppFromModelId(modelId);
    var user := ExtractUserIdFromOwner(owner);
    if !Truthy(app) || !Truthy(user) then m
    else
      var (m1, b) := GetOrCreateMetrics(m, date, app.value);
      if WellFormed(m) then
        GetOrCreateWellFormed(m, date, app.value);
        AddGameWellFormed(b, user.value);
        PutWellFormed(m1, date, app.value, AddGame(b, user.value));
        Put(m1, date, app.value, AddGame(b, user.value))
      else Put(m1, date, app.value, AddGame(b, user.value))
  }

  /** `processPartyRecord`: the same guards; counts a party created. */
  function ProcessPartyRecord(m: Metrics, modelId: string, owner: string, date: string): (r: Metrics)
    ensures r.Keys <= m.Keys + {date}
    ensures WellFormed(m) ==> WellFormed(r)
  {
    var app := ExtractAppFromModelId(modelId);
    var user := ExtractUserIdFromOwner(owner);
    if !Truthy(app) || !Truthy(user) then m
    else
      var (m1, b) := GetOrCreateMetrics(m, date, app.value);
      if WellFormed(m) then
        GetOrCreateWellFormed(m, date, app.value);
        PutWellFormed(m1, date, app.value, AddPartyCreated(b, user.value));
        Put(m1, date, app.value, AddPartyCreated(b, user.value))
      else Put(m1, date, app.value, AddPartyCreated(b, user.value))
  }

  /** `processMemberRecord`: the app comes from the (party) owner. */
  function ProcessMemberRecord(m: Metrics, modelId: string, owner: string, date: string): (r: Metrics)
    ensures r.Keys <= m.Keys + {date}
    ensures WellFormed(m) ==> WellFormed(r)
  {
    var app := ExtractAppFromOwner(owner);
    if !Truthy(app) then m
    else
      var (m1, b) := GetOrCreateMetrics(m, date, app.value);
      if WellFormed(m) then
        GetOrCreateWellFormed(m, date, app.value);
        PutWellFormed(m1, date, app.value, AddPartyJoined(b));
        Put(m1, date, app.value, AddPartyJoined(b))
      else Put(m1, date, app.value, AddPartyJoined(b))
  }

  /** A counted session changes exactly the bucket of its day and app:
      the user becomes active with one more game. */
  lemma SessionRecordEffect(m: Metrics, modelId: string, owner: string, date: string)
    ensures var app := ExtractAppFromModelId(modelId);
      var user := ExtractUserIdFromOwner(owner);
      var r := ProcessSessionRecord(m, modelId, owner, date);
      && (!Truthy(app) || !Truthy(user) ==> r == m)
      && (Truthy(app) && Truthy(user) ==>
            && GetMetricsForDateAndApp(r, date, app.value) == Some(AddGame(BucketOf(m, date, app.value), user.value))
            && r.Keys == m.Keys + {date}
            && forall d, a :: (d != date || a != app.value) ==>
                 GetMetricsForDateAndApp(r, d, a) == GetMetricsForDateAndApp(m, d, a))
  {
  }

  /** A counted party changes exactly its bucket: one more party created by its user. */
  lemma PartyRecordEffect(m: Metrics, modelId: string, owner: string, date: string)
    ensures var app := ExtractAppFromModelId(modelId);
      var user := ExtractUserIdFromOwner(owner);
      var r := ProcessPartyRecord(m, modelId, owner, date);
      && (!Truthy(app) || !Truthy(user) ==> r == m)
      && (Truthy(app) && Truthy(user) ==>
            && GetMetricsForDateAndApp(r, date, app.value) == Some(AddPartyCreated(BucketOf(m, date, app.value), user.value))
            && r.Keys == m.Keys + {date}
            && forall d, a :: (d != date || a != app.value) ==>
                 GetMetricsForDateAndApp(r, d, a) == GetMetricsForDateAndApp(m, d, a))
  {
  }

  /** A counted membership changes exactly its bucket: one more party joined. */
  lemma MemberRecordEffect(m: Metrics, modelId: string, owner: string, date: string)
    ensures var app := ExtractAppFromOwner(owner);
      var r := ProcessMemberRecord(m, modelId, owner, date);
      && (!Truthy(app) ==> r == m)
      && (Truthy(app) ==>
            && GetMetricsForDateAndApp(r, date, app.value) == Some(AddPartyJoined(BucketOf(m, date, app.value)))
            && r.Keys == m.Keys + {date}
            && forall d, a :: (d != date || a != app.value) ==>
                 GetMetricsForDateAndApp(r, d, a) == GetMetricsForDateAndApp(m, d, a))
  {
  }

  // ---------------------------------------------------------------------
  // Items

  /** `formatDate` of a possibly invalid `Date`: every getter of an
      invalid date is `NaN`, which renders as `NaN`. */
  function FormatJsDate(jd: Option<Date>): (s: string)
  {
    if jd.Some? && Valid(jd.value) then FormatDate(jd.value) else "NaN-NaN-NaN"
  }

  /** `shouldIncludeDate`: incremental runs take only yesterday; any other
      mode is a backfill from its start date to yesterday, and throws
      without a start date. */
  function ShouldIncludeDate(date: string, event: AggregatorEvent, today: Date): (r: Result<bool, Failure>)
    requires Valid(today)
    ensures event.mode == Some(IncrementalMode) ==> r == Ok(date == GetYesterday(today))
    ensures event.mode != Some(IncrementalMode) ==>
      (r.Err? <==> !Truthy(event.backfillStartDate)) &&
      (r.Ok? ==> (r.value <==> IsDateInRange(date, event.backfillStartDate.value, GetYesterday(today))))
  {
    if event.mode == Some(IncrementalMode) then Ok(date == GetYesterday(today))
    else if !Truthy(event.backfillStartDate) then Err(Thrown("backfillStartDate is required for backfill mode"))
    else Ok(IsDateInRange(date, event.backfillStartDate.value, GetYesterday(today)))
  }

  /** Whether a row's day is counted at all (a throw counts as no). */
  predicate Included(date: string, event: AggregatorEvent, today: Date)
    requires Valid(today)
  {
    ShouldIncludeDate(date, event, today) == Ok(true)
  }

  /** The day a row's timestamp falls on, through the date conversion. */
  function ItemDate(timestamp: string, toDate: string -> Option<Date>): string {
    FormatJsDate(toDate(timestamp))
  }

  /** `processItem`: skips unknown kinds, rows without a (non-empty)
      timestamp, and rows whose day is not included; the exception of a
      backfill without start date is caught and the row skipped. */
  function ProcessItem(m: Metrics, item: Item, event: AggregatorEvent, today: Date,
                       toDate: string -> Option<Date>): (r: Metrics)
    requires Valid(today)
    ensures GetRecordType(item.modelId).None? ==> r == m
    ensures !Truthy(ExtractTimestamp(item)) ==> r == m
    ensures r != m ==> Truthy(ExtractTimestamp(item)) && Included(ItemDate(ExtractTimestamp(item).value, toDate), event, today)
    ensures r.Keys <= m.Keys + {if Truthy(ExtractTimestamp(item)) then ItemDate(ExtractTimestamp(item).value, toDate) else ""}
    ensures WellFormed(m) ==> WellFormed(r)
  {
    match GetRecordType(item.modelId)
    case None => m
    case Some(kind) =>
      var ts := ExtractTimestamp(item);
      if !Truthy(ts) then m
      else
        var date := ItemDate(ts.value, toDate);
        match ShouldIncludeDate(date, event, today)
        case Err(_) => m
        case Ok(counted) =>
          if !counted then m
          else
            ProcessKind(m, kind, item.modelId, item.owner, date)
  }

  /** The processor for a row's kind. */
  function ProcessKind(m: Metrics, kind: RecordType, modelId: string, owner: string, date: string): (r: Metrics)
    ensures r.Keys <= m.Keys + {date}
    ensures WellFormed(m) ==> WellFormed(r)
  {
    match kind
    case SessionRecord => ProcessSessionRecord(m, modelId, owner, date)
    case PartyRecord => ProcessPartyRecord(m, modelId, owner, date)
    case MemberRecord => ProcessMemberRecord(m, modelId, owner, date)
  }

  /** Whether `processItem` hands a row to its kind's processor: a known
      kind, a non-empty timestamp, and a day the event includes. */
  predicate Counted(item: Item, event: AggregatorEvent, today: Date, toDate: string -> Option<Date>)
    requires Valid(today)
  {
    && GetRecordType(item.modelId).Some?
    && Truthy(ExtractTimestamp(item))
    && Included(ItemDate(ExtractTimestamp(item).value, toDate), event, today)
  }

  /** A row that is not counted changes nothing, whatever the reason. */
  lemma ProcessItemSkips(m: Metrics, item: Item, event: AggregatorEvent, today: Date, toDate: string -> Option<Date>)
    requires Valid(today)
    requires !Counted(item, event, today, toDate)
    ensures ProcessItem(m, item, event, today, toDate) == m
  {
    if GetRecordType(item.modelId).Some? && Truthy(ExtractTimestamp(item)) {
      var date := ItemDate(ExtractTimestamp(item).value, toDate);
      assert ShouldIncludeDate(date, event, today) != Ok(true);
    }
  }

  /** A counted row goes to its kind's processor on the row's day. */
  lemma ProcessItemCounted(m: Metrics, item: Item, event: AggregatorEvent, today: Date, toDate: string -> Option<Date>)
    requires Valid(today)
    requires Counted(item, event, today, toDate)
    ensures ProcessItem(m, item, event, today, toDate) ==
      ProcessKind(m, GetRecordType(item.modelId).value, item.modelId, item.owner, ItemDate(ExtractTimestamp(item).value, toDate))
  {
  }

  /** `after` is `before` with user `u` active and one more game for `u`;
      the parties counters are untouched. */
  predicate GameAdded(before: DailyMetrics, after: DailyMetrics, u: string) {
    && Get(after.gamesPerUser, u) == Some(Get(before.gamesPerUser, u).GetOr(0) + 1)
    && Total(after.gamesPerUser) == Total(before.gamesPerUser) + 1
    && after.activeUserIds == before.activeUserIds + {u}
    && after.partiesCreatedPerUser == before.partiesCreatedPerUser
    && after.partiesJoined == before.partiesJoined
  }

  /** `after` is `before` with one more party created by `u`; the games and
      active users are untouched. */
  predicate PartyCreatedAdded(before: DailyMetrics, after: DailyMetrics, u: string) {
    && Get(after.partiesCreatedPerUser, u) == Some(Get(before.partiesCreatedPerUser, u).GetOr(0) + 1)
    && Total(after.partiesCreatedPerUser) == Total(before.partiesCreatedPerUser) + 1
    && after.activeUserIds == before.activeUserIds
    && after.gamesPerUser == before.gamesPerUser
    && after.partiesJoined == before.partiesJoined
  }

  /** `AddGame` is a game added, in the observable terms above. */
  lemma AddGameCounts(b: DailyMetrics, u: string)
    ensures GameAdded(b, AddGame(b, u), u)
  {
  }

  /** `AddPartyCreated` is a party created, in the observable terms above. */
  lemma AddPartyCreatedCounts(b: DailyMetrics, u: string)
    ensures PartyCreatedAdded(b, AddPartyCreated(b, u), u)
  {
  }

  /** The bucket a session lands in: the user becomes active with one more
      game, and the bucket's other counters stay. */
  lemma {:induction false} SessionBucket(m: Metrics, modelId: string, owner: string, d: string)
    requires Truthy(ExtractAppFromModelId(modelId)) && Truthy(ExtractUserIdFromOwner(owner))
    ensures var a := ExtractAppFromModelId(modelId).value;
      var u := ExtractUserIdFromOwner(owner).value;
      var r := ProcessSessionRecord(m, modelId, owner, d);
      var before := BucketOf(m, d, a);
      && d in r && a in r[d]
      && GameAdded(before, r[d][a], u)
  {
    var a := ExtractAppFromModelId(modelId).value;
    var u := ExtractUserIdFromOwner(owner).value;
    var r := ProcessSessionRecord(m, modelId, owner, d);
    SessionRecordEffect(m, modelId, owner, d);
    var after := AddGame(BucketOf(m, d, a), u);
    assert GetMetricsForDateAndApp(r, d, a) == Some(after);
    AddGameCounts(BucketOf(m, d, a), u);
  }

  /** A counted session row of app `a` by user `u` on day `d`: `u` becomes
      active in that bucket with one more game, its other counters stay,
      and every other bucket is unchanged. */
  lemma {:induction false} ProcessItemSession(m: Metrics, item: Item, event: AggregatorEvent, today: Date,
                                              toDate: string -> Option<Date>)
    requires Valid(today)
    requires GetRecordType(item.modelId) == Some(SessionRecord) && Counted(item, event, today, toDate)
    requires Truthy(ExtractAppFromModelId(item.modelId)) && Truthy(ExtractUserIdFromOwner(item.owner))
    ensures var d := ItemDate(ExtractTimestamp(item).value, toDate);
      var a := ExtractAppFromModelId(item.modelId).value;
      var u := ExtractUserIdFromOwner(item.owner).value;
      var r := ProcessItem(m, item, event, today, toDate);
      var before := BucketOf(m, d, a);
      && d in r && a in r[d]
      && GameAdded(before, r[d][a], u)
      && forall d', a' :: (d' != d || a' != a) ==> GetMetricsForDateAndApp(r, d', a') == GetMetricsForDateAndApp(m, d', a')
  {
    var d := ItemDate(ExtractTimestamp(item).value, toDate);
    ProcessItemCounted(m, item, event, today, toDate);
    var r := ProcessItem(m, item, event, today, toDate);
    assert r == ProcessSessionRecord(m, item.modelId, item.owner, d);
    SessionRecordEffect(m, item.modelId, item.owner, d);
    SessionBucket(m, item.modelId, item.owner, d);
  }

  /** The bucket a party lands in: one more party created by its user, and
      the bucket's other counters stay. */
  lemma {:induction false} PartyBucket(m: Metrics, modelId: string, owner: string, d: string)
    requires Truthy(ExtractAppFromModelId(modelId)) && Truthy(ExtractUserIdFromOwner(owner))
    ensures var a := ExtractAppFromModelId(modelId).value;
      var u := ExtractUserIdFromOwner(owner).value;
      var r := ProcessPartyRecord(m, modelId, owner, d);
      var before := BucketOf(m, d, a);
      && d in r && a in r[d]
      && PartyCreatedAdded(before, r[d][a], u)
  {
    var a := ExtractAppFromModelId(modelId).value;
    var u := ExtractUserIdFromOwner(owner).value;
    var r := ProcessPartyRecord(m, modelId, owner, d);
    PartyRecordEffect(m, modelId, owner, d);
    var after := AddPartyCreated(BucketOf(m, d, a), u);
    assert GetMetricsForDateAndApp(r, d, a) == Some(after);
    AddPartyCreatedCounts(BucketOf(m, d, a), u);
  }

  /** A counted party row of app `a` by user `u` on day `d`: one more party
      created by `u` in that bucket, nothing else changes. */
  lemma {:induction false} ProcessItemParty(m: Metrics, item: Item, event: AggregatorEvent, today: Date,
                                            toDate: string -> Option<Date>)
    requires Valid(today)
    requires GetRecordType(item.modelId) == Some(PartyRecord) && Counted(item, event, today, toDate)
    requires Truthy(ExtractAppFromModelId(item.modelId)) && Truthy(ExtractUserIdFromOwner(item.owner))
    ensures var d := ItemDate(ExtractTimestamp(item).value, toDate);
      var a := ExtractAppFromModelId(item.modelId).value;
      var u := ExtractUserIdFromOwner(item.owner).value;
      var r := ProcessItem(m, item, event, today, toDate);
      var before := BucketOf(m, d, a);
      && d in r && a in r[d]
      && PartyCreatedAdded(before, r[d][a], u)
      && forall d', a' :: (d' != d || a' != a) ==> GetMetricsForDateAndApp(r, d', a') == GetMetricsForDateAndApp(m, d', a')
  {
    var d := ItemDate(ExtractTimestamp(item).value, toDate);
    ProcessItemCounted(m, item, event, today, toDate);
    var r := ProcessItem(m, item, event, today, toDate);
    assert r == ProcessPartyRecord(m, item.modelId, item.owner, d);
    PartyRecordEffect(m, item.modelId, item.owner, d);
    PartyBucket(m, item.modelId, item.owner, d);
  }

  /** A counted member row whose party owner names app `a`, on day `d`: one
      more party joined in that bucket, nothing else changes. */
  lemma {:induction false} ProcessItemMember(m: Metrics, item: Item, event: AggregatorEvent, today: Date,
                                             toDate: string -> Option<Date>)
    requires Valid(today)
    requires GetRecordType(item.modelId) == Some(MemberRecord) && Counted(item, event, today, toDate)
    requires Truthy(ExtractAppFromOwner(item.owner))
    ensures var d := ItemDate(ExtractTimestamp(item).value, toDate);
      var a := ExtractAppFromOwner(item.owner).value;
      var r := ProcessItem(m, item, event, today, toDate);
      var before := BucketOf(m, d, a);
      && d in r && a in r[d]
      && r[d][a].partiesJoined == before.partiesJoined + 1
      && r[d][a].activeUserIds == before.activeUserIds
      && r[d][a].gamesPerUser == before.gamesPerUser
      && r[d][a].partiesCreatedPerUser == before.partiesCreatedPerUser
      && forall d', a' :: (d' != d || a' != a) ==> GetMetricsForDateAndApp(r, d', a') == GetMetricsForDateAndApp(m, d', a')
  {
    var d := ItemDate(ExtractTimestamp(item).value, toDate);
    ProcessItemCounted(m, item, event, today, toDate);
    MemberRecordEffect(m, item.modelId, item.owner, d);
    var a := ExtractAppFromOwner(item.owner).value;
    var r := ProcessItem(m, item, event, today, toDate);
    assert GetMetricsForDateAndApp(r, d, a) == Some(r[d][a]);
    assert r[d][a] == AddPartyJoined(BucketOf(m, d, a));
  }

  /** A counted row whose key lacks the app or user its kind needs changes
      nothing. */
  lemma ProcessItemIncomplete(m: Metrics, item: Item, event: AggregatorEvent, today: Date,
                              toDate: string -> Option<Date>)
    requires Valid(today)
    requires Counted(item, event, today, toDate)
    requires match GetRecordType(item.modelId).value
      case MemberRecord => !Truthy(ExtractAppFromOwner(item.owner))
      case _ => !Truthy(ExtractAppFromModelId(item.modelId)) || !Truthy(ExtractUserIdFromOwner(item.owner))
    ensures ProcessItem(m, item, event, today, toDate) == m
  {
    var d := ItemDate(ExtractTimestamp(item).value, toDate);
    SessionRecordEffect(m, item.modelId, item.owner, d);
    PartyRecordEffect(m, item.modelId, item.owner, d);
    MemberRecordEffect(m, item.modelId, item.owner, d);
  }

  /** The handler's loop: every row of every data file, in order. */
  function ProcessAll(m: Metrics, items: seq<Item>, event: AggregatorEvent, today: Date,
                      toDate: string -> Option<Date>): Metrics
    requires Valid(today)
    decreases |items|
  {
    if |items| == 0 then m else ProcessAll(ProcessItem(m, items[0], event, today, toDate), items[1..], event, today, toDate)
  }

  /** Starting from a well-formed state, every day bucketed is either
      bucketed already or included by the event; and the state stays
      well-formed. */
  lemma {:induction false} ProcessAllInvariant(m: Metrics, items: seq<Item>, event: AggregatorEvent, today: Date,
                                               toDate: string -> Option<Date>)
    requires Valid(today)
    requires WellFormed(m)
    ensures WellFormed(ProcessAll(m, items, event, today, toDate))
    ensures forall d :: d in ProcessAll(m, items, event, today, toDate) ==> d in m || Included(d, event, today)
    decreases |items|
  {
    if |items| > 0 {
      var m1 := ProcessItem(m, items[0], event, today, toDate);
      ProcessAllInvariant(m1, items[1..], event, today, toDate);
      forall d | d in m1
        ensures d in m || Included(d, event, today)
      {
        if d !in m {
          assert m1 != m;
        }
      }
    }
  }

  /** An incremental run only ever buckets yesterday. */
  lemma IncrementalOnlyYesterday(items: seq<Item>, mode: Option<string>, start: Option<string>,
                                 today: Date, toDate: string -> Option<Date>)
    requires Valid(today) && mode == Some(IncrementalMode)
    ensures var m := ProcessAll(map[], items, AggregatorEvent(mode, start), today, toDate);
      forall d :: d in m ==> d == GetYesterday(today)
  {
    ProcessAllInvariant(map[], items, AggregatorEvent(mode, start), today, toDate);
  }

  /** A backfill only buckets days from its start date to yesterday,
      compared as strings. */
  lemma BackfillWithinRange(items: seq<Item>, start: string, today: Date, toDate: string -> Option<Date>)
    requires Valid(today)
    ensures var m := ProcessAll(map[], items, AggregatorEvent(Some(BackfillMode), Some(start)), today, toDate);
      forall d :: d in m ==> IsDateInRange(d, start, GetYesterday(today))
  {
    ProcessAllInvariant(map[], items, AggregatorEvent(Some(BackfillMode), Some(start)), today, toDate);
  }

  /** A backfill without a start date counts nothing. */
  lemma BackfillWithoutStartCountsNothing(items: seq<Item>, start: Option<string>, today: Date,
                                          toDate: string -> Option<Date>)
    requires Valid(today) && !Truthy(start)
    ensures ProcessAll(map[], items, AggregatorEvent(Some(BackfillMode), start), today, toDate) == map[]
  {
    ProcessAllInvariant(map[], items, AggregatorEvent(Some(BackfillMode), start), today, toDate);
  }

  // ---------------------------------------------------------------------
  // Getters

  /** `getDates`: every bucketed day, once, in ascending string order. */
  method GetDates(m: Metrics) returns (dates: seq<string>)
    ensures StrictlySorted(dates)
    ensures forall d :: d in dates <==> d in m
    ensures |dates| == |m|
  {
    dates := SortedKeys(m);
  }

  /** `getAppsForDate`: the apps bucketed on a day, sorted; none for an
      unknown day. */
  method GetAppsForDate(m: Metrics, date: string) returns (apps: seq<string>)
    ensures date !in m ==> apps == []
    ensures StrictlySorted(apps)
    ensures forall a :: a in apps <==> GetMetricsForDateAndApp(m, date, a).Some?
  {
    if date in m {
      apps := SortedKeys(m[date]);
    } else {
      apps := [];
    }
  }

  /** `clear`: nothing is bucketed afterwards. */
  function Clear(m: Metrics): (r: Metrics)
    ensures forall d, a :: GetMetricsForDateAndApp(r, d, a).None?
    ensures WellFormed(r)
  {
    map[]
  }
}

=== FILE: aggregator_handler.dfy ===
/** The checks the aggregator job makes before it reads anything: the
    environment it needs and the shape of the event that started it. */
module AggregatorHandler {
  import opened Wrappers
  import opened Text
  import opened Calendar
  import opened DateUtils
  import opened AggregatorCore

  /** `process.env[key]`: `undefined` for an unset variable. */
  function Lookup(env: map<string, string>, key: string): Option<string> {
    if key in env then Some(env[key]) else None
  }

  const Required: seq<string> := ["EXPORT_BUCKET", "ANALYTICS_TABLE"]
  const MissingPrefix: string := "Missing required environment variables: "

  /** `keys.filter((key) => !process.env[key])`. */
  function Missing(keys: seq<string>, env: map<string, string>): (missing: seq<string>)
    ensures forall k :: k in missing <==> k in keys && !Truthy(Lookup(env, k))
    ensures |missing| <= |keys|
  {
    if |keys| == 0 then []
    else (if Truthy(Lookup(env, keys[0])) then [] else [keys[0]]) + Missing(keys[1..], env)
  }

  /** `validateEnvironment`: throws, naming the unset or empty variables in
      the order listed, when there is any. */
  function ValidateEnvironment(env: map<string, string>): (r: Result<(), Failure>)
    ensures r.Ok? <==> forall k :: k in Required ==> Truthy(Lookup(env, k))
    ensures r.Err? ==> r.error == Thrown(MissingPrefix + JoinWith(Missing(Required, env), ", "))
  {
    var missing := Missing(Required, env);
    assert |missing| > 0 ==> missing[0] in missing;
    if |missing| > 0 then Err(Thrown(MissingPrefix + JoinWith(missing, ", "))) else Ok(())
  }

  /** The three messages it can throw. */
  lemma EnvironmentMessages(env: map<string, string>)
    ensures var bucket, table := Truthy(Lookup(env, "EXPORT_BUCKET")), Truthy(Lookup(env, "ANALYTICS_TABLE"));
      var r := ValidateEnvironment(env);
      && (!bucket && !table ==> r == Err(Thrown(MissingPrefix + "EXPORT_BUCKET, ANALYTICS_TABLE")))
      && (!bucket && table ==> r == Err(Thrown(MissingPrefix + "EXPORT_BUCKET")))
      && (bucket && !table ==> r == Err(Thrown(MissingPrefix + "ANALYTICS_TABLE")))
      && (bucket && table ==> r == Ok(()))
  {
    var bucket, table := Truthy(Lookup(env, "EXPORT_BUCKET")), Truthy(Lookup(env, "ANALYTICS_TABLE"));
    var m := Missing(Required, env);
    assert m == (if bucket then [] else ["EXPORT_BUCKET"]) + (if table then [] else ["ANALYTICS_TABLE"]) by {
      assert Required[1..] == ["ANALYTICS_TABLE"];
      assert Required[1..][1..] == [];
      assert Missing(Required[1..], env) == (if table then [] else ["ANALYTICS_TABLE"]) + [];
    }
    if !bucket && !table {
      BothMissingMessage();
    } else if !bucket {
      assert m == ["EXPORT_BUCKET"];
    } else if !table {
      assert m == ["ANALYTICS_TABLE"];
    }
  }

  lemma BothMissingMessage()
    ensures JoinWith(["EXPORT_BUCKET", "ANALYTICS_TABLE"], ", ") == "EXPORT_BUCKET, ANALYTICS_TABLE"
  {
    var both := ["EXPORT_BUCKET", "ANALYTICS_TABLE"];
    assert both[1..] == ["ANALYTICS_TABLE"];
    assert JoinWith(both, ", ") == "EXPORT_BUCKET" + ", " + "ANALYTICS_TABLE";
  }

  // ---------------------------------------------------------------------
  // The event

  /** A template literal's rendering of an optional string. */
  function Rendered(s: Option<string>): string {
    if s.Some? then s.value else "undefined"
  }

  function InvalidModeMessage(mode: Option<string>): string {
    "Invalid mode: " + Rendered(mode) + ". Must be \"incremental\" or \"backfill\""
  }

  function InvalidStartMessage(start: string): string {
    "Invalid backfillStartDate format: " + start + ". Expected YYYY-MM-DD"
  }

  const BackfillStartRequired: string := "backfillStartDate is required for backfill mode"

  /** What a well-formed event is: one of the two modes, a start date for
      a backfill, and any start date given (in either mode) of the
      `YYYY-MM-DD` shape. */
  predicate WellFormedEvent(event: AggregatorEvent) {
    && (event.mode == Some(IncrementalMode) || event.mode == Some(BackfillMode))
    && (event.mode == Some(BackfillMode) ==> Truthy(event.backfillStartDate))
    && (Truthy(event.backfillStartDate) ==> DateShape(event.backfillStartDate.value))
  }

  /** `validateEvent`: the mode, then the backfill start date's presence,
      then its shape. */
  function ValidateEvent(event: AggregatorEvent): (r: Result<(), Failure>)
    ensures r.Ok? <==> WellFormedEvent(event)
    ensures event.mode != Some(IncrementalMode) && event.mode != Some(BackfillMode) ==>
      r == Err(Thrown(InvalidModeMessage(event.mode)))
    ensures event.mode == Some(BackfillMode) && !Truthy(event.backfillStartDate) ==>
      r == Err(Thrown(BackfillStartRequired))
    ensures ((event.mode == Some(IncrementalMode) || event.mode == Some(BackfillMode))
             && (event.mode == Some(BackfillMode) ==> Truthy(event.backfillStartDate))
             && Truthy(event.backfillStartDate) && !DateShape(event.backfillStartDate.value)) ==>
      r == Err(Thrown(InvalidStartMessage(event.backfillStartDate.value)))
  {
    if !Truthy(event.mode) || (event.mode.value != IncrementalMode && event.mode.value != BackfillMode) then
      Err(Thrown(InvalidModeMessage(event.mode)))
    else if event.mode.value == BackfillMode && !Truthy(event.backfillStartDate) then
      Err(Thrown(BackfillStartRequired))
    else if Truthy(event.backfillStartDate) && !DateShape(event.backfillStartDate.value) then
      Err(Thrown(InvalidStartMessage(event.backfillStartDate.value)))
    else
      Ok(())
  }

  /** An event the handler accepts never makes the day filter throw, so
      the aggregation it runs skips no row for that reason. */
  lemma ValidatedEventNeverThrows(event: AggregatorEvent, date: string, today: Date)
    requires Valid(today) && ValidateEvent(event).Ok?
    ensures ShouldIncludeDate(date, event, today).Ok?
  {
  }

  /** An accepted backfill counts exactly the days from its start date to
      yesterday, with a start date of the `YYYY-MM-DD` shape. */
  lemma ValidatedBackfillRange(event: AggregatorEvent, date: string, today: Date)
    requires Valid(today) && ValidateEvent(event).Ok? && event.mode == Some(BackfillMode)
    ensures DateShape(event.backfillStartDate.value)
    ensures Included(date, event, today) <==> LexLe(event.backfillStartDate.value, date) && LexLe(date, GetYesterday(today))
  {
    InRangeInclusive(date, event.backfillStartDate.value, GetYesterday(today));
  }
}

=== FILE: analytics_writer.dfy ===
/** `buildAnalyticsRecord` and `calculateTTL`: one day's counters of one
    app as a DynamoDB item, numbers written as decimal text. The clock
    (`Date.now()`, in milliseconds) is a parameter. */
module AnalyticsWriter {
  import opened Wrappers
  import opened Text
  import opened CountMap
  import opened AggregatorCore

  /** A DynamoDB number attribute (`{ N: text }`): decimal text. */
  datatype Number = N(text: string)

  /** The `summary` map attribute. */
  datatype Summary = Summary(activeUsers: Number, gamesPlayed: Number, partiesCreated: Number, partiesJoined: Number)

  /** The item `buildAnalyticsRecord` returns, one field per attribute
      name; `activeUserIds` (a string set) is present or absent. */
  datatype AnalyticsRecord = AnalyticsRecord(
    date: string,
    app: string,
    activeUserIds: Option<set<string>>,
    gamesPerUser: map<string, Number>,
    partiesCreatedPerUser: map<string, Number>,
    partiesJoined: Number,
    summary: Summary,
    expiresAt: Number)

  const TtlDays: nat := 455
  const TtlSeconds: nat := TtlDays * 24 * 60 * 60

  /** `Math.floor(now / 1000) + TTL_SECONDS`: the epoch second 455 days on. */
  function CalculateTtl(nowMs: int): (t: int)
    ensures (t - TtlSeconds) * 1000 <= nowMs < (t - TtlSeconds + 1) * 1000
    ensures TtlSeconds == 39_312_000
  {
    nowMs / 1000 + TtlSeconds
  }

  /** `count.toString()` for a count. */
  function Num(n: nat): Number {
    N(NatToString(n))
  }

  /** The per-user map attribute: a plain object filled in the map's
      order, so a later entry for the same user would win. */
  function CountsToAttributes(c: Counts): (r: map<string, Number>)
    ensures forall u :: u in r <==> u in KeyList(c)
  {
    if |c| == 0 then map[]
    else
      var prefix, last := c[..|c| - 1], c[|c| - 1];
      GetSnoc(prefix, last.0, last.1, last.0);
      assert prefix + [last] == c;
      CountsToAttributes(prefix)[last.0 := Num(last.1)]
  }

  /** Each user's attribute holds that user's count. */
  lemma {:induction false} CountsToAttributesValues(c: Counts, u: string)
    requires DistinctKeys(c)
    ensures u in CountsToAttributes(c) ==> CountsToAttributes(c)[u] == Num(Get(c, u).value)
  {
    if |c| > 0 {
      var prefix, last := c[..|c| - 1], c[|c| - 1];
      assert prefix + [last] == c;
      GetSnoc(prefix, last.0, last.1, u);
      CountsToAttributesValues(prefix, u);
      if u != last.0 && u in KeyList(prefix) {
      } else if u == last.0 {
        assert last.0 !in KeyList(prefix) by {
          forall j | 0 <= j < |prefix|
            ensures KeyList(prefix)[j] != last.0
          {
            KeyListAt(prefix, j);
            assert prefix[j] == c[j];
          }
        }
      }
    }
  }

  /** `buildAnalyticsRecord`. The `activeUserIds` string set is added only
      when non-empty (DynamoDB rejects empty string sets). */
  function BuildAnalyticsRecord(date: string, app: string, metrics: DailyMetrics, nowMs: int): (r: AnalyticsRecord)
    ensures r.date == date && r.app == app
    ensures r.activeUserIds.Some? <==> |metrics.activeUserIds| > 0
    ensures r.activeUserIds.Some? ==> r.activeUserIds.value == metrics.activeUserIds
  {
    var activeUsersCount := |metrics.activeUserIds|;
    var gamesPlayedCount := Total(metrics.gamesPerUser);
    var partiesCreatedCount := Total(metrics.partiesCreatedPerUser);
    AnalyticsRecord(
      date, app,
      if activeUsersCount > 0 then Some(metrics.activeUserIds) else None,
      CountsToAttributes(metrics.gamesPerUser),
      CountsToAttributes(metrics.partiesCreatedPerUser),
      Num(metrics.partiesJoined),
      Summary(Num(activeUsersCount), Num(gamesPlayedCount), Num(partiesCreatedCount), Num(metrics.partiesJoined)),
      N(IntToString(CalculateTtl(nowMs))))
  }

  // ---------------------------------------------------------------------
  // Reading the record back

  /** The number a number attribute holds, if its text is all digits. */
  function NumberOf(v: Number): (n: Option<nat>)
    ensures n.Some? <==> forall i :: 0 <= i < |v.text| ==> IsDigit(v.text[i])
  {
    if forall i :: 0 <= i < |v.text| ==> IsDigit(v.text[i]) then Some(ValueOf(v.text)) else None
  }

  /** A count written as a number attribute reads back as that count. */
  lemma NumberOfNum(n: nat)
    ensures NumberOf(Num(n)) == Some(n)
  {
    ValueOfNatToString(n);
  }

  /** Different counts are written differently. */
  lemma NumInjective(n: nat, m: nat)
    ensures Num(n) == Num(m) ==> n == m
  {
    NumberOfNum(n);
    NumberOfNum(m);
  }

  /** The summary is the number of active users, the totals of the two
      per-user counts and the parties joined; the top-level
      `partiesJoined` reads the same as the summary's. */
  lemma RecordSummary(date: string, app: string, metrics: DailyMetrics, nowMs: int)
    ensures var r := BuildAnalyticsRecord(date, app, metrics, nowMs);
      && NumberOf(r.summary.activeUsers) == Some(|metrics.activeUserIds|)
      && NumberOf(r.summary.gamesPlayed) == Some(Total(metrics.gamesPerUser))
      && NumberOf(r.summary.partiesCreated) == Some(Total(metrics.partiesCreatedPerUser))
      && NumberOf(r.summary.partiesJoined) == Some(metrics.partiesJoined)
      && NumberOf(r.partiesJoined) == Some(metrics.partiesJoined)
  {
    var r := BuildAnalyticsRecord(date, app, metrics, nowMs);
    NumberOfNum(|metrics.activeUserIds|);
    NumberOfNum(Total(metrics.gamesPerUser));
    NumberOfNum(Total(metrics.partiesCreatedPerUser));
    NumberOfNum(metrics.partiesJoined);
  }

  /** The per-user maps have one entry per user, holding that user's count. */
  lemma RecordPerUser(date: string, app: string, metrics: DailyMetrics, nowMs: int, u: string)
    requires DistinctKeys(metrics.gamesPerUser) && DistinctKeys(metrics.partiesCreatedPerUser)
    ensures var r := BuildAnalyticsRecord(date, app, metrics, nowMs);
      && (u in r.gamesPerUser <==> Get(metrics.gamesPerUser, u).Some?)
      && (u in r.gamesPerUser ==> NumberOf(r.gamesPerUser[u]) == Some(Get(metrics.gamesPerUser, u).value))
      && (u in r.partiesCreatedPerUser <==> Get(metrics.partiesCreatedPerUser, u).Some?)
      && (u in r.partiesCreatedPerUser ==> NumberOf(r.partiesCreatedPerUser[u]) == Some(Get(metrics.partiesCreatedPerUser, u).value))
  {
    var r := BuildAnalyticsRecord(date, app, metrics, nowMs);
    CountsToAttributesValues(metrics.gamesPerUser, u);
    CountsToAttributesValues(metrics.partiesCreatedPerUser, u);
    if Get(metrics.gamesPerUser, u).Some? {
      NumberOfNum(Get(metrics.gamesPerUser, u).value);
    }
    if Get(metrics.partiesCreatedPerUser, u).Some? {
      NumberOfNum(Get(metrics.partiesCreatedPerUser, u).value);
    }
  }

  /** For a clock at or after the epoch, `expiresAt` reads back as the
      epoch second 455 days after the clock's second. */
  lemma RecordExpiry(date: string, app: string, metrics: DailyMetrics, nowMs: int)
    requires nowMs >= 0
    ensures var r := BuildAnalyticsRecord(date, app, metrics, nowMs);
      NumberOf(r.expiresAt) == Some(nowMs / 1000 + 39_312_000)
  {
    NumberOfNum(CalculateTtl(nowMs));
  }

  /** A bucket the aggregator built reports no more active users than games. */
  lemma RecordActiveUsersAtMostGames(date: string, app: string, metrics: DailyMetrics, nowMs: int)
    requires WellFormedBucket(metrics)
    ensures var r := BuildAnalyticsRecord(date, app, metrics, nowMs);
      NumberOf(r.summary.activeUsers).Some? && NumberOf(r.summary.gamesPlayed).Some?
      && NumberOf(r.summary.activeUsers).value <= NumberOf(r.summary.gamesPlayed).value
  {
    RecordSummary(date, app, metrics, nowMs);
    ActiveUsersAtMostGames(metrics);
  }
}

=== FILE: app_config.dfy ===
/** `fetchAppConfig`: the application configuration, fetched from the
    AppConfig extension (when a prefetch path is configured), merged with
    an API key taken from the environment, and cached once a fetch has
    completed. The environment, the fetch response and the module-level
    cache are parameters; calls are taken one at a time. */
module AppConfig {
  import opened Wrappers

  /** A configuration object: `apiKeys` (username to `{ password }` or
      `undefined`) and every other top-level field, kept opaque. */
  datatype Config = Config(fields: map<string, string>, apiKeys: Option<map<string, Option<string>>>)

  /** The environment variables the module reads. */
  datatype Env = Env(username: Option<string>, password: Option<string>, prefetchList: Option<string>)

  /** The API keys of a possibly absent configuration (`appConfig?.apiKeys`). */
  function KeysOf(c: Option<Config>): map<string, Option<string>> {
    if c.Some? && c.value.apiKeys.Some? then c.value.apiKeys.value else map[]
  }

  /** `overide`: the configuration's own fields and API keys, plus
      `apiKeys[username] = { password }` when both variables are set and
      non-empty. */
  function Overide(c: Option<Config>, env: Env): (r: Config)
    ensures c.Some? ==> r.fields == c.value.fields
    ensures c.None? ==> r.fields == map[]
    ensures r.apiKeys.Some?
    ensures Truthy(env.username) && Truthy(env.password) ==>
      r.apiKeys.value.Keys == KeysOf(c).Keys + {env.username.value} &&
      r.apiKeys.value[env.username.value] == Some(env.password.value)
    ensures !(Truthy(env.username) && Truthy(env.password)) ==> r.apiKeys.value == KeysOf(c)
    ensures forall u :: u in KeysOf(c) && !(Truthy(env.username) && u == env.username.value) ==>
      u in r.apiKeys.value && r.apiKeys.value[u] == KeysOf(c)[u]
  {
    var added := if Truthy(env.username) && Truthy(env.password)
                 then map[env.username.value := Some(env.password.value)] else map[];
    Config(if c.Some? then c.value.fields else map[], Some(KeysOf(c) + added))
  }

  /** Merging twice is merging once. */
  lemma OverideIdempotent(c: Option<Config>, env: Env)
    ensures Overide(Some(Overide(c, env)), env) == Overide(c, env)
  {
    var once := Overide(c, env);
    var twice := Overide(Some(once), env);
    assert twice.apiKeys.value == once.apiKeys.value;
  }

  /** What a call leaves behind: the cache, its result, and the URL it fetched (if any). */
  datatype Outcome = Outcome(cache: Option<Config>, result: Result<Config, Failure>, fetchedUrl: Option<string>)

  const ExtensionUrl: string := "http://localhost:2772"

  /** `fetchAppConfig`. With a cached config it returns it and makes no
      request. Otherwise, with a prefetch path it fetches
      `http://localhost:2772<path>`: a failed response throws and leaves
      the cache empty, a good one is merged and cached; without a path it
      caches the merge of nothing. */
  function FetchAppConfig(cache: Option<Config>, env: Env, response: Result<Config, Failure>): (o: Outcome)
    ensures cache.Some? ==> o == Outcome(cache, Ok(cache.value), None)
    ensures cache.None? && !Truthy(env.prefetchList) ==>
      o.fetchedUrl.None? && o.result == Ok(Overide(None, env)) && o.cache == Some(o.result.value)
    ensures cache.None? && Truthy(env.prefetchList) ==>
      o.fetchedUrl == Some(ExtensionUrl + env.prefetchList.value) &&
      (response.Err? ==> o.result == response && o.cache.None?) &&
      (response.Ok? ==> o.result == Ok(Overide(Some(response.value), env)) && o.cache == Some(o.result.value))
    ensures o.result.Ok? ==> o.cache == Some(o.result.value)
  {
    if cache.Some? then Outcome(cache, Ok(cache.value), None)
    else if Truthy(env.prefetchList) then
      var url := Some(ExtensionUrl + env.prefetchList.value);
      match response
      case Err(e) => Outcome(None, Err(e), url)
      case Ok(body) =>
        var merged := Overide(Some(body), env);
        Outcome(Some(merged), Ok(merged), url)
    else
      var merged := Overide(None, env);
      Outcome(Some(merged), Ok(merged), None)
  }

  /** After a successful load, every later call (whatever the response
      would have been) returns the same config without fetching. */
  lemma FetchOnce(env: Env, first: Result<Config, Failure>, later: Result<Config, Failure>, env2: Env)
    requires FetchAppConfig(None, env, first).result.Ok?
    ensures var o1 := FetchAppConfig(None, env, first);
      var o2 := FetchAppConfig(o1.cache, env2, later);
      o2.result == o1.result && o2.fetchedUrl.None? && o2.cache == o1.cache
  {
  }

  /** A failed fetch is retried on the next call. */
  lemma FailedFetchRetried(env: Env, err: Failure, later: Result<Config, Failure>)
    requires Truthy(env.prefetchList)
    ensures var o1 := FetchAppConfig(None, env, Err(err));
      FetchAppConfig(o1.cache, env, later).fetchedUrl.Some?
  {
  }
}

=== FILE: auth_guard.dfy ===
/** `AuthGuard`: lets a request through when the route is public, or when
    it carries a bearer token that verifies and grants every permission
    the route requires. Verification (public key fetch and JWT checks) is
    a parameter: a function from the token to the payload or a failure. */
module AuthGuard {
  import opened Wrappers
  import opened Text

  /** The verified payload; only the fields the guard reads are kept. A
      token may carry no `scope` claim at all. */
  datatype User = User(sub: string, scope: Option<string>)

  type Verifier = string -> Result<User, Failure>

  const Space: char := ' '

  /** `extractTokenFromHeader`: split the `authorization` header on single
      spaces; the second word is the token when the first is exactly
      `Bearer`. A missing header or a missing second word is `undefined`. */
  function ExtractTokenFromHeader(authorization: Option<string>): (t: Option<string>)
    ensures t.Some? ==> authorization.Some? && Split(authorization.value, Space)[0] == "Bearer"
    ensures t.Some? ==> Space !in t.value
    ensures authorization.Some? && Split(authorization.value, Space)[0] != "Bearer" ==> t.None?
  {
    match authorization
    case None => None
    case Some(h) =>
      var words := Split(h, Space);
      if words[0] == "Bearer" && |words| >= 2 then Some(words[1]) else None
  }

  /** A header built as `Bearer <token>` gives the token back, for any
      token without a space. */
  lemma {:induction false} BearerRoundTrip(token: string)
    requires Space !in token
    ensures ExtractTokenFromHeader(Some("Bearer " + token)) == Some(token)
  {
    SplitAtFirst("Bearer", token, Space);
    SplitNoSeparator("Bearer", Space);
    SplitNoSeparator(token, Space);
    assert "Bearer " + token == "Bearer" + [Space] + token;
  }

  /** Any other scheme word yields no token, and so does a lone `Bearer`. */
  lemma OtherSchemesGiveNoToken(scheme: string, rest: string)
    requires Space !in scheme && scheme != "Bearer"
    ensures ExtractTokenFromHeader(Some(scheme + " " + rest)) == None
    ensures ExtractTokenFromHeader(Some("Bearer")) == None
  {
    SplitAtFirst(scheme, rest, Space);
    SplitNoSeparator(scheme, Space);
    assert scheme + " " + rest == scheme + [Space] + rest;
    SplitNoSeparator("Bearer", Space);
  }

  /** `requirePermissions.some((p) => !scopes.includes(p))` negated: every
      required permission is one of the space-separated scopes. */
  predicate Granted(required: seq<string>, scope: string) {
    forall i :: 0 <= i < |required| ==> required[i] in Split(scope, Space)
  }

  /** The permission check on a payload: with no `scope` claim,
      `payload.scope.split` throws and the request is refused, even when
      the list of required permissions is empty. */
  predicate ScopeGrants(required: seq<string>, scope: Option<string>) {
    scope.Some? && Granted(required, scope.value)
  }

  /** `canActivate`. `Ok(None)` is a public route (no user attached),
      `Ok(Some(u))` a verified request with `request.user = u`. A missing
      or empty token throws `Missing token`; every later failure becomes
      a bare Unauthorized. */
  function CanActivate(isPublic: bool, requirePermissions: Option<seq<string>>,
                       authorization: Option<string>, verify: Verifier): (r: Result<Option<User>, Failure>)
    ensures isPublic ==> r == Ok(None)
    ensures !isPublic && !Truthy(ExtractTokenFromHeader(authorization)) ==> r == Err(Unauthorized("Missing token"))
    ensures !isPublic && r.Ok? ==>
      var token := ExtractTokenFromHeader(authorization);
      && Truthy(token)
      && verify(token.value).Ok?
      && r.value == Some(verify(token.value).value)
      && (requirePermissions.Some? ==> ScopeGrants(requirePermissions.value, verify(token.value).value.scope))
    ensures !isPublic && Truthy(ExtractTokenFromHeader(authorization)) ==>
      var v := verify(ExtractTokenFromHeader(authorization).value);
      (r.Ok? <==> v.Ok? && (requirePermissions.None? || ScopeGrants(requirePermissions.value, v.value.scope))) &&
      (r.Err? ==> r.error == Unauthorized("Unauthorized"))
  {
    if isPublic then Ok(None)
    else
      var token := ExtractTokenFromHeader(authorization);
      if !Truthy(token) then Err(Unauthorized("Missing token"))
      else match verify(token.value)
        case Err(_) => Err(Unauthorized("Unauthorized"))
        case Ok(payload) =>
          if requirePermissions.Some? && !ScopeGrants(requirePermissions.value, payload.scope)
          then Err(Unauthorized("Unauthorized"))
          else Ok(Some(payload))
  }

  /** Requiring more permissions never admits more requests. */
  lemma MorePermissionsAdmitLess(required: seq<string>, extra: seq<string>,
                                 authorization: Option<string>, verify: Verifier)
    requires CanActivate(false, Some(required + extra), authorization, verify).Ok?
    ensures CanActivate(false, Some(required), authorization, verify).Ok?
  {
    var token := ExtractTokenFromHeader(authorization);
    var scope := verify(token.value).value.scope;
    assert forall i :: 0 <= i < |required| ==> (required + extra)[i] == required[i];
  }

  /** Without required permissions the scope is never looked at: two
      verifiers that agree except on scopes admit the same requests. */
  lemma ScopeIgnoredWithoutPermissions(authorization: Option<string>, v1: Verifier, v2: Verifier)
    requires forall t :: v1(t).Ok? == v2(t).Ok?
    requires forall t :: v1(t).Ok? ==> v1(t).value.sub == v2(t).value.sub
    ensures CanActivate(false, None, authorization, v1).Ok? == CanActivate(false, None, authorization, v2).Ok?
  {
  }

  /** A payload without a scope passes no route that lists permissions,
      not even one whose list is empty; without a list it passes. */
  lemma MissingScopeRefused(required: seq<string>, authorization: Option<string>, verify: Verifier)
    requires Truthy(ExtractTokenFromHeader(authorization))
    requires verify(ExtractTokenFromHeader(authorization).value).Ok?
    requires verify(ExtractTokenFromHeader(authorization).value).value.scope.None?
    ensures CanActivate(false, Some(required), authorization, verify) == Err(Unauthorized("Unauthorized"))
    ensures CanActivate(false, None, authorization, verify).Ok?
  {
  }

  /** The scope check splits on single spaces, so a permission is granted
      when it is one of the words. */
  lemma {:induction false} ScopeWordGranted(before: string, p: string, after: string)
    requires Space !in before && Space !in p
    ensures Granted([p], before + " " + p + " " + after)
    ensures Granted([p], p)
  {
    var s := before + " " + p + " " + after;
    assert s == before + [Space] + (p + " " + after);
    SplitAtFirst(before, p + " " + after, Space);
    assert p + " " + after == p + [Space] + after;
    SplitAtFirst(p, after, Space);
    SplitNoSeparator(p, Space);
    assert Split(s, Space)[1] == p;
  }
}

=== FILE: calendar.dfy ===
/** The proleptic Gregorian calendar as JavaScript's `Date` uses it: civil
    dates, `MakeDay`'s overflow of out-of-range months and days into later
    ones, epoch-millisecond conversion and `toISOString`'s date part. The
    host time zone is taken to be UTC, so local and UTC getters agree. */
module Calendar {
  import opened Text

  predicate IsLeap(y: int) {
    y % 4 == 0 && (y % 100 != 0 || y % 400 == 0)
  }

  function DaysInMonth(y: int, m: int): (n: int)
    requires 1 <= m <= 12
    ensures 28 <= n <= 31
  {
    if m == 2 then (if IsLeap(y) then 29 else 28)
    else if m == 4 || m == 6 || m == 9 || m == 11 then 30
    else 31
  }

  /** A civil date: 1-based month and day of month. */
  datatype Date = Date(year: int, month: int, day: int)

  predicate Valid(d: Date) {
    1 <= d.month <= 12 && 1 <= d.day <= DaysInMonth(d.year, d.month)
  }

  const MsPerDay: int := 86_400_000

  /** A UTC instant split into its civil date and the milliseconds elapsed
      since that day's midnight. */
  datatype DateTime = DateTime(date: Date, msOfDay: int)

  predicate ValidDateTime(t: DateTime) {
    Valid(t.date) && 0 <= t.msOfDay < MsPerDay
  }

  function FirstOfNextMonth(d: Date): (r: Date)
    requires Valid(d)
    ensures Valid(r) && r.day == 1
  {
    if d.month == 12 then Date(d.year + 1, 1, 1) else Date(d.year, d.month + 1, 1)
  }

  /** The following day. */
  function NextDay(d: Date): (r: Date)
    requires Valid(d)
    ensures Valid(r)
  {
    if d.day < DaysInMonth(d.year, d.month) then Date(d.year, d.month, d.day + 1)
    else FirstOfNextMonth(d)
  }

  /** The preceding day (`setUTCDate(getUTCDate() - 1)`). */
  function PrevDay(d: Date): (r: Date)
    requires Valid(d)
    ensures Valid(r)
  {
    if d.day > 1 then Date(d.year, d.month, d.day - 1)
    else if d.month == 1 then Date(d.year - 1, 12, 31)
    else Date(d.year, d.month - 1, DaysInMonth(d.year, d.month - 1))
  }

  lemma NextPrev(d: Date)
    requires Valid(d)
    ensures NextDay(PrevDay(d)) == d
    ensures PrevDay(NextDay(d)) == d
  {
  }

  /** `k` days after `d`, a month at a time. */
  function AddDays(d: Date, k: nat): (r: Date)
    requires Valid(d)
    ensures Valid(r)
    decreases k
  {
    var dim := DaysInMonth(d.year, d.month);
    if d.day + k <= dim then Date(d.year, d.month, d.day + k)
    else AddDays(FirstOfNextMonth(d), k - (dim - d.day + 1))
  }

  /** ECMAScript `MakeDay(year, monthIndex, day)` read back as a civil date:
      the 0-based month index carries into the year, and the day of month
      counts on from the first of that month, spilling into later months. */
  function MakeDay(year: int, monthIndex: int, day: int): (r: Date)
    requires day >= 1
    ensures Valid(r)
  {
    AddDays(Date(year + monthIndex / 12, monthIndex % 12 + 1, 1), day - 1)
  }

  /** An in-range day of an in-range month is taken as is. */
  lemma MakeDayInRange(year: int, monthIndex: int, day: int)
    requires 0 <= monthIndex < 12 && 1 <= day <= DaysInMonth(year, monthIndex + 1)
    ensures MakeDay(year, monthIndex, day) == Date(year, monthIndex + 1, day)
  {
  }

  /** The first of a month is always in range, whatever month index carries. */
  lemma MakeDayFirst(year: int, monthIndex: int)
    ensures MakeDay(year, monthIndex, 1) == Date(year + monthIndex / 12, monthIndex % 12 + 1, 1)
  {
  }

  /** `Date.prototype.setMonth(monthIndex)` (and `setUTCMonth`): keeps the
      day of month and the time, normalising through `MakeDay`. */
  function SetMonth(t: DateTime, monthIndex: int): (r: DateTime)
    requires Valid(t.date)
    ensures Valid(r.date) && r.msOfDay == t.msOfDay
  {
    DateTime(MakeDay(t.date.year, monthIndex, t.date.day), t.msOfDay)
  }

  /** `Date.prototype.setDate(day)`: keeps year, month and time. */
  function SetDate(t: DateTime, day: int): (r: DateTime)
    requires Valid(t.date) && day >= 1
    ensures Valid(r.date) && r.msOfDay == t.msOfDay
  {
    DateTime(MakeDay(t.date.year, t.date.month - 1, day), t.msOfDay)
  }

  /** `Date.prototype.setUTCFullYear(year)`: keeps month, day and time. */
  function SetUtcFullYear(t: DateTime, year: int): (r: DateTime)
    requires Valid(t.date)
    ensures Valid(r.date) && r.msOfDay == t.msOfDay
  {
    DateTime(MakeDay(year, t.date.month - 1, t.date.day), t.msOfDay)
  }

  // ---------------------------------------------------------------------
  // Epoch days

  /** Days from 1 March to the first of month `m`, counting the year from March. */
  function MarchOffset(m: int): (n: int)
    requires 1 <= m <= 12
    ensures 0 <= n <= 337
  {
    match m
    case 3 => 0
    case 4 => 31
    case 5 => 61
    case 6 => 92
    case 7 => 122
    case 8 => 153
    case 9 => 184
    case 10 => 214
    case 11 => 245
    case 12 => 275
    case 1 => 306
    case _ => 337
  }

  /** Days from 1970-01-01 to 1 March of year `y`, by 400-year eras. */
  function MarchFirst(y: int): int {
    var era := y / 400;
    var yoe := y - era * 400;
    era * 146097 + yoe * 365 + yoe / 4 - yoe / 100 - 719468
  }

  /** Days from 1970-01-01 to a civil date (negative before it). */
  function EpochDay(d: Date): int
    requires 1 <= d.month <= 12
  {
    MarchFirst(if d.month <= 2 then d.year - 1 else d.year) + MarchOffset(d.month) + d.day - 1
  }

  /** The epoch milliseconds of a UTC date-time (`Date.prototype.getTime`). */
  function EpochMs(t: DateTime): int
    requires 1 <= t.date.month <= 12
  {
    EpochDay(t.date) * MsPerDay + t.msOfDay
  }

  lemma EpochOrigin()
    ensures EpochDay(Date(1970, 1, 1)) == 0
  {
  }

  /** Division and remainder of `q * 400 + r` for `0 <= r < 400`. */
  lemma EraDivMod(q: int, r: int)
    requires 0 <= r < 400
    ensures (q * 400 + r) / 400 == q
    ensures (q * 400 + r) % 4 == r % 4
    ensures (q * 400 + r) % 100 == r % 100
    ensures (q * 400 + r) % 400 == r
  {
    ShiftMod(q, r, 400);
    ShiftMod(q * 100, r, 4);
    ShiftMod(q * 4, r, 100);
  }

  /** Adding a multiple of a positive modulus changes the quotient by the
      multiple and leaves the remainder alone. */
  lemma ShiftMod(t: int, r: int, c: int)
    requires c > 0
    ensures (t * c + r) / c == t + r / c
    ensures (t * c + r) % c == r % c
  {
    var y := t * c + r;
    var qy, ry, qr, rr := y / c, y % c, r / c, r % c;
    assert y == qy * c + ry && 0 <= ry < c;
    assert r == qr * c + rr && 0 <= rr < c;
    MultipleBounds(qy - t - qr, c);
    assert (qy - t - qr) * c == rr - ry;
  }

  /** A nonzero multiple of a positive number is at least that number in size. */
  lemma MultipleBounds(k: int, c: int)
    requires c > 0
    ensures k >= 1 ==> k * c >= c
    ensures k <= -1 ==> k * c <= -c
  {
    if k >= 1 {
      assert k * c == c + (k - 1) * c;
    } else if k <= -1 {
      assert k * c == -c + (k + 1) * c;
    }
  }

  /** A March-to-February year has 366 days exactly when the February it
      ends in is a leap February. */
  lemma MarchYearLength(y: int)
    ensures MarchFirst(y + 1) == MarchFirst(y) + (if IsLeap(y + 1) then 366 else 365)
  {
    var era := y / 400;
    var yoe := y - era * 400;
    assert 0 <= yoe < 400;
    if yoe < 399 {
      assert y + 1 == era * 400 + (yoe + 1);
      EraDivMod(era, yoe + 1);
      assert MarchFirst(y + 1) == era * 146097 + YearOfEraDays(yoe + 1) - 719468;
      assert MarchFirst(y) == era * 146097 + YearOfEraDays(yoe) - 719468;
      YearOfEraStep(yoe);
    } else {
      assert y + 1 == (era + 1) * 400 + 0;
      EraDivMod(era + 1, 0);
      assert MarchFirst(y + 1) == (era + 1) * 146097 - 719468;
      assert MarchFirst(y) == era * 146097 + YearOfEraDays(399) - 719468;
    }
  }

  /** Days from the start of an era to March 1st of its year `yoe`. */
  function YearOfEraDays(yoe: int): int {
    yoe * 365 + yoe / 4 - yoe / 100
  }

  /** Within an era, a March-to-February year is one day longer exactly
      when the February it ends in is a leap February. */
  lemma YearOfEraStep(yoe: int)
    requires 0 <= yoe < 399
    ensures YearOfEraDays(yoe + 1) - YearOfEraDays(yoe) ==
      if (yoe + 1) % 4 == 0 && (yoe + 1) % 100 != 0 then 366 else 365
  {
    DivStep4(yoe);
    DivStep100(yoe);
    if (yoe + 1) % 100 == 0 {
      assert (yoe + 1) % 4 == 0 by {
        assert yoe + 1 == ((yoe + 1) / 100) * 100;
      }
    }
  }

  lemma DivStep4(n: int)
    requires n >= 0
    ensures (n + 1) / 4 == n / 4 + (if (n + 1) % 4 == 0 then 1 else 0)
  {
  }

  lemma DivStep100(n: int)
    requires n >= 0
    ensures (n + 1) / 100 == n / 100 + (if (n + 1) % 100 == 0 then 1 else 0)
  {
  }

  /** Consecutive days have consecutive epoch days. */
  lemma NextDayEpoch(d: Date)
    requires Valid(d)
    ensures EpochDay(NextDay(d)) == EpochDay(d) + 1
  {
    var y, m := d.year, d.month;
    if d.day < DaysInMonth(y, m) {
      assert NextDay(d) == Date(y, m, d.day + 1);
    } else if m == 2 {
      assert NextDay(d) == Date(y, 3, 1);
      assert EpochDay(d) == MarchFirst(y - 1) + 337 + d.day - 1;
      assert EpochDay(Date(y, 3, 1)) == MarchFirst(y);
      MarchYearLength(y - 1);
    } else if m == 12 {
      assert NextDay(d) == Date(y + 1, 1, 1);
      assert EpochDay(Date(y + 1, 1, 1)) == MarchFirst(y) + 306;
    } else {
      assert NextDay(d) == Date(y, m + 1, 1);
      assert MarchOffset(m + 1) == MarchOffset(m) + DaysInMonth(y, m);
    }
  }

  /** Within a month the epoch day moves with the day of month. */
  lemma SameMonthEpoch(y: int, m: int, d1: int, d2: int)
    requires 1 <= m <= 12
    ensures EpochDay(Date(y, m, d2)) == EpochDay(Date(y, m, d1)) + (d2 - d1)
  {
  }

  /** `AddDays` moves the epoch day by exactly `k`. */
  lemma {:induction false} AddDaysEpoch(d: Date, k: nat)
    requires Valid(d)
    ensures EpochDay(AddDays(d, k)) == EpochDay(d) + k
    decreases k
  {
    var dim := DaysInMonth(d.year, d.month);
    if d.day + k <= dim {
      SameMonthEpoch(d.year, d.month, d.day, d.day + k);
    } else {
      var last := Date(d.year, d.month, dim);
      var next := FirstOfNextMonth(d);
      NextDayEpoch(last);
      assert NextDay(last) == next;
      SameMonthEpoch(d.year, d.month, d.day, dim);
      assert EpochDay(next) == EpochDay(d) + (dim - d.day + 1);
      AddDaysEpoch(next, k - (dim - d.day + 1));
    }
  }

  /** The same month and day one year on is 365 or 366 days later. */
  lemma SameDayNextYear(y: int, m: int, d: int)
    requires 1 <= m <= 12
    ensures var days := EpochDay(Date(y + 1, m, d)) - EpochDay(Date(y, m, d));
      days == 365 || days == 366
  {
    if m <= 2 {
      MarchYearLength(y - 1);
    } else {
      MarchYearLength(y);
    }
  }

  /** A leap day followed by a common year: 1 March of that year is 366 days later. */
  lemma LeapDayNextYear(y: int)
    requires IsLeap(y) && !IsLeap(y + 1)
    ensures EpochDay(Date(y + 1, 3, 1)) - EpochDay(Date(y, 2, 29)) == 366
  {
    MarchYearLength(y - 1);
    MarchYearLength(y);
  }

  /** At equal times of day, instants differ by whole days. */
  lemma EpochMsSameTime(a: DateTime, b: DateTime)
    requires 1 <= a.date.month <= 12 && 1 <= b.date.month <= 12
    requires a.msOfDay == b.msOfDay
    ensures EpochMs(a) - EpochMs(b) == (EpochDay(a.date) - EpochDay(b.date)) * MsPerDay
  {
  }

  // ---------------------------------------------------------------------
  // ISO 8601 date text

  /** The year part of `toISOString()`: four digits for years 0 to 9999,
      otherwise a sign and six digits. */
  function IsoYear(y: int): (s: string)
  {
    if 0 <= y <= 9999 then Digits(y, 4)
    else if y < 0 then "-" + Digits(-y, 6)
    else "+" + Digits(y, 6)
  }

  /** The date part of `toISOString()`: year, month and day joined by `-`. */
  function IsoDatePart(d: Date): (s: string)
    requires Valid(d)
    ensures |s| >= 10
  {
    IsoYear(d.year) + "-" + Digits(d.month, 2) + "-" + Digits(d.day, 2)
  }

  /** `toISOString().slice(0, 10)`: the whole date for four-digit years,
      and only the signed year and month for the extended years. */
  function IsoDate(d: Date): (s: string)
    requires Valid(d)
    ensures |s| == 10
  {
    IsoDatePart(d)[..10]
  }

  /** `toISOString().slice(0, 10).replaceAll('-', '')`. */
  function CompactDate(d: Date): (s: string)
    requires Valid(d)
    ensures '-' !in s
  {
    RemoveAll(IsoDate(d), '-')
  }

  predicate FourDigitYear(d: Date) {
    0 <= d.year <= 9999
  }

  lemma DigitsHaveNoDash(n: nat, k: nat)
    ensures '-' !in Digits(n, k)
  {
  }

  lemma RemoveAround(a: string, b: string, c: char)
    requires c !in a && c !in b
    ensures RemoveAll(a + [c] + b, c) == a + b
  {
    assert RemoveAll([c], c) == [] by {
      assert [c][1..] == [];
    }
    RemoveAllConcat(a, [c], c);
    RemoveAllAbsent(a, c);
    assert RemoveAll(a + [c], c) == a;
    RemoveAllConcat(a + [c], b, c);
    RemoveAllAbsent(b, c);
  }

  /** For four-digit years the ISO date is `YYYY-MM-DD` and its compact
      form is `YYYYMMDD`. */
  lemma CompactDateDigits(d: Date)
    requires Valid(d) && FourDigitYear(d)
    ensures IsoDate(d) == Digits(d.year, 4) + "-" + Digits(d.month, 2) + "-" + Digits(d.day, 2)
    ensures CompactDate(d) == Digits(d.year, 4) + Digits(d.month, 2) + Digits(d.day, 2)
  {
    var y, m, dd := Digits(d.year, 4), Digits(d.month, 2), Digits(d.day, 2);
    assert IsoDatePart(d) == y + "-" + m + "-" + dd;
    assert IsoDate(d) == y + "-" + m + "-" + dd;
    DigitsHaveNoDash(d.year, 4);
    DigitsHaveNoDash(d.month, 2);
    DigitsHaveNoDash(d.day, 2);
    RemoveAround(y, m, '-');
    assert '-' !in y + m;
    RemoveAllConcat(y + "-" + m, "-" + dd, '-');
    RemoveAllConcat("-", dd, '-');
    assert RemoveAll("-", '-') == "";
    RemoveAllAbsent(dd, '-');
    assert y + "-" + m + "-" + dd == (y + "-" + m) + ("-" + dd);
  }

  /** `CompactDateDigits` for any valid date, conditioned on the year. */
  lemma CompactDateShape(d: Date)
    requires Valid(d)
    ensures FourDigitYear(d) ==> CompactDate(d) == Digits(d.year, 4) + Digits(d.month, 2) + Digits(d.day, 2)
  {
    if FourDigitYear(d) {
      CompactDateDigits(d);
    }
  }

  /** Different four-digit-year dates have different compact forms, so a
      key built from the compact date names exactly one day. */
  lemma CompactDateInjective(d1: Date, d2: Date)
    requires Valid(d1) && Valid(d2) && FourDigitYear(d1) && FourDigitYear(d2)
    requires CompactDate(d1) == CompactDate(d2)
    ensures d1 == d2
  {
    CompactDateDigits(d1);
    CompactDateDigits(d2);
    var a := CompactDate(d1);
    assert a[..4] == Digits(d1.year, 4) && a[..4] == Digits(d2.year, 4);
    assert a[4..6] == Digits(d1.month, 2) && a[4..6] == Digits(d2.month, 2);
    assert a[6..] == Digits(d1.day, 2) && a[6..] == Digits(d2.day, 2);
    DigitsInjective(d1.year, d2.year, 4);
    DigitsInjective(d1.month, d2.month, 2);
    DigitsInjective(d1.day, d2.day, 2);
  }
}

=== FILE: cloudwatch_publisher.dfy ===
/** `buildMetricData`: the four CloudWatch data points the analytics job
    publishes for one day and one app, each a count at the day's UTC
    midnight with the app as its only dimension. Sending them is not part
    of this model. */
module CloudwatchPublisher {
  import opened Wrappers
  import opened CountMap
  import opened AggregatorCore
  import opened AnalyticsWriter

  const Namespace: string := "BubblyClouds/Analytics"
  const MidnightSuffix: string := "T00:00:00.000Z"

  datatype Dimension = Dimension(name: string, value: string)

  /** One data point; `timestamp` is the text the point's date is parsed
      from. */
  datatype MetricDatum = MetricDatum(
    metricName: string,
    value: nat,
    timestamp: string,
    unit: string,
    dimensions: seq<Dimension>)

  const MetricNames: seq<string> := ["ActiveUsers", "GamesPlayed", "PartiesCreated", "PartiesJoined"]

  /** A count of the app, on the day. */
  function Datum(date: string, app: string, name: string, value: nat): MetricDatum {
    MetricDatum(name, value, date + MidnightSuffix, "Count", [Dimension("App", app)])
  }

  /** The four data points, in the order active users, games played,
      parties created, parties joined. */
  function BuildMetricData(date: string, app: string, metrics: DailyMetrics): (data: seq<MetricDatum>)
    ensures |data| == |MetricNames|
    ensures forall i :: 0 <= i < |data| ==>
      && data[i].metricName == MetricNames[i]
      && data[i].timestamp == date + MidnightSuffix
      && data[i].unit == "Count"
      && data[i].dimensions == [Dimension("App", app)]
  {
    var activeUsersCount := |metrics.activeUserIds|;
    var gamesPlayedCount := Total(metrics.gamesPerUser);
    var partiesCreatedCount := Total(metrics.partiesCreatedPerUser);
    [
      Datum(date, app, "ActiveUsers", activeUsersCount),
      Datum(date, app, "GamesPlayed", gamesPlayedCount),
      Datum(date, app, "PartiesCreated", partiesCreatedCount),
      Datum(date, app, "PartiesJoined", metrics.partiesJoined)
    ]
  }

  /** The summary attribute of the stored record, read back field by
      field. */
  function SummaryNumbers(r: AnalyticsRecord): seq<Option<nat>> {
    [NumberOf(r.summary.activeUsers), NumberOf(r.summary.gamesPlayed),
     NumberOf(r.summary.partiesCreated), NumberOf(r.summary.partiesJoined)]
  }

  /** CloudWatch and the analytics table agree: each published value is
      the number the stored record's summary holds for the same metric,
      whatever the clock. */
  lemma MetricsMatchRecord(date: string, app: string, metrics: DailyMetrics, nowMs: int)
    ensures var data := BuildMetricData(date, app, metrics);
      var summary := SummaryNumbers(BuildAnalyticsRecord(date, app, metrics, nowMs));
      forall i :: 0 <= i < |data| ==> summary[i] == Some(data[i].value)
  {
    RecordSummary(date, app, metrics, nowMs);
  }

  /** For a bucket the aggregator built, no more users are active than
      games were played. */
  lemma ActiveUsersAtMostGamesPlayed(date: string, app: string, metrics: DailyMetrics)
    requires WellFormedBucket(metrics)
    ensures var data := BuildMetricData(date, app, metrics);
      data[0].value <= data[1].value
  {
    ActiveUsersAtMostGames(metrics);
  }
}

=== FILE: count_map.dfy ===
/** A JavaScript `Map<string, number>` of per-user counts: entries in
    insertion order, `get`, `set` (which replaces in place or appends),
    the `get(k) || 0` increment the aggregator performs, and the sum of
    the values that `Array.from(map.values()).reduce(+, 0)` computes. */
module CountMap {
  import opened Wrappers

  type Counts = seq<(string, nat)>

  /** The keys, in insertion order. */
  function KeyList(c: Counts): (ks: seq<string>)
    ensures |ks| == |c|
  {
    if |c| == 0 then [] else [c[0].0] + KeyList(c[1..])
  }

  lemma {:induction false} KeyListAt(c: Counts, i: nat)
    requires i < |c|
    ensures KeyList(c)[i] == c[i].0
  {
    if i > 0 {
      KeyListAt(c[1..], i - 1);
    }
  }

  /** A map never holds a key twice. */
  predicate DistinctKeys(c: Counts) {
    forall i, j :: 0 <= i < j < |c| ==> c[i].0 != c[j].0
  }

  /** `map.get(k)`. */
  function Get(c: Counts, k: string): (v: Option<nat>)
    ensures v.Some? <==> k in KeyList(c)
  {
    if |c| == 0 then None
    else if c[0].0 == k then Some(c[0].1)
    else Get(c[1..], k)
  }

  /** `map.set(k, v)`: an existing key keeps its place, a new key goes last. */
  function Set(c: Counts, k: string, v: nat): (r: Counts)
    ensures Get(r, k) == Some(v)
    ensures KeyList(r) == if k in KeyList(c) then KeyList(c) else KeyList(c) + [k]
    ensures Total(r) + Get(c, k).GetOr(0) == Total(c) + v
  {
    if |c| == 0 then [(k, v)]
    else if c[0].0 == k then
      assert ([(k, v)] + c[1..])[1..] == c[1..];
      [(k, v)] + c[1..]
    else
      var rest := Set(c[1..], k, v);
      assert ([c[0]] + rest)[1..] == rest;
      [c[0]] + rest
  }

  /** `set` leaves every other key's value alone. */
  lemma {:induction false} SetOthers(c: Counts, k: string, v: nat, other: string)
    requires other != k
    ensures Get(Set(c, k, v), other) == Get(c, other)
  {
    if |c| > 0 && c[0].0 != k {
      SetOthers(c[1..], k, v, other);
      assert Set(c, k, v)[1..] == Set(c[1..], k, v);
    } else if |c| > 0 {
      assert Set(c, k, v)[1..] == c[1..];
    }
  }

  /** `set` keeps the keys distinct. */
  lemma SetDistinct(c: Counts, k: string, v: nat)
    ensures DistinctKeys(c) ==> DistinctKeys(Set(c, k, v))
  {
    if DistinctKeys(c) {
      var r := Set(c, k, v);
      forall i, j | 0 <= i < j < |r|
        ensures r[i].0 != r[j].0
      {
        KeyListAt(r, i);
        KeyListAt(r, j);
        KeyListAt(c, i);
        if j < |c| {
          KeyListAt(c, j);
        }
      }
    }
  }

  /** `reduce((sum, count) => sum + count, 0)` over the values. */
  function Total(c: Counts): (t: nat)
  {
    if |c| == 0 then 0 else c[0].1 + Total(c[1..])
  }

  /** `map.set(k, (map.get(k) || 0) + 1)`. */
  function Increment(c: Counts, k: string): (r: Counts)
    ensures Get(r, k) == Some(Get(c, k).GetOr(0) + 1)
    ensures Total(r) == Total(c) + 1
    ensures KeyList(r) == if k in KeyList(c) then KeyList(c) else KeyList(c) + [k]
  {
    Set(c, k, Get(c, k).GetOr(0) + 1)
  }

  /** Counting an occurrence of `k` adds `k` to the keys and no other. */
  lemma IncrementKeys(c: Counts, k: string)
    ensures forall u :: u in KeyList(Increment(c, k)) <==> u in KeyList(c) || u == k
  {
    var before := KeyList(c);
    assert KeyList(Increment(c, k)) == if k in before then before else before + [k];
  }

  /** Counting an occurrence of one key changes no other count. */
  lemma IncrementOthers(c: Counts, k: string, other: string)
    requires other != k
    ensures Get(Increment(c, k), other) == Get(c, other)
  {
    SetOthers(c, k, Get(c, k).GetOr(0) + 1, other);
  }

  /** Counting `n` occurrences, one at a time, from an empty map. */
  function CountAll(ks: seq<string>): Counts
  {
    if |ks| == 0 then [] else Increment(CountAll(ks[..|ks| - 1]), ks[|ks| - 1])
  }

  /** The occurrences of `k` in a list. */
  function Occurrences(ks: seq<string>, k: string): nat
  {
    if |ks| == 0 then 0 else Occurrences(ks[..|ks| - 1], k) + (if ks[|ks| - 1] == k then 1 else 0)
  }

  /** Counting a list one key at a time gives, for every key, its number
      of occurrences, and a total equal to the length of the list. */
  lemma {:induction false} CountAllCounts(ks: seq<string>, k: string)
    ensures Get(CountAll(ks), k).GetOr(0) == Occurrences(ks, k)
    ensures Total(CountAll(ks)) == |ks|
  {
    if |ks| > 0 {
      var prefix, last := ks[..|ks| - 1], ks[|ks| - 1];
      assert CountAll(ks) == Increment(CountAll(prefix), last);
      CountAllCounts(prefix, k);
      if last != k {
        IncrementOthers(CountAll(prefix), last, k);
      }
    }
  }

  /** ... and never the same key twice. */
  lemma {:induction false} CountAllDistinct(ks: seq<string>)
    ensures DistinctKeys(CountAll(ks))
  {
    if |ks| > 0 {
      var prefix, last := ks[..|ks| - 1], ks[|ks| - 1];
      CountAllDistinct(prefix);
      SetDistinct(CountAll(prefix), last, Get(CountAll(prefix), last).GetOr(0) + 1);
    }
  }

  /** Appending an entry for a new key: it is found last. */
  lemma {:induction false} GetSnoc(c: Counts, k: string, v: nat, u: string)
    ensures KeyList(c + [(k, v)]) == KeyList(c) + [k]
    ensures Get(c + [(k, v)], u) == if u in KeyList(c) then Get(c, u) else if u == k then Some(v) else None
  {
    if |c| > 0 {
      assert (c + [(k, v)])[1..] == c[1..] + [(k, v)];
      GetSnoc(c[1..], k, v, u);
    }
  }

  /** Every stored count is at least one. */
  predicate Positive(c: Counts) {
    forall i :: 0 <= i < |c| ==> c[i].1 >= 1
  }

  lemma {:induction false} SetPositive(c: Counts, k: string, v: nat)
    requires v >= 1
    ensures Positive(c) ==> Positive(Set(c, k, v))
  {
    if |c| > 0 && c[0].0 != k {
      SetPositive(c[1..], k, v);
    }
  }

  /** With positive counts, the total is at least the number of keys. */
  lemma {:induction false} TotalAtLeastSize(c: Counts)
    requires Positive(c)
    ensures |c| <= Total(c)
  {
    if |c| > 0 {
      TotalAtLeastSize(c[1..]);
    }
  }

  /** A set with exactly the members of a repetition-free key list has as
      many elements as the list. */
  lemma {:induction false} SetSizeOfKeys(s: set<string>, c: Counts)
    requires DistinctKeys(c)
    requires forall u :: u in s <==> u in KeyList(c)
    ensures |s| == |c|
  {
    if |c| > 0 {
      var rest := c[1..];
      assert KeyList(c) == [c[0].0] + KeyList(rest);
      forall j | 0 <= j < |rest|
        ensures KeyList(rest)[j] != c[0].0
      {
        KeyListAt(rest, j);
        assert rest[j] == c[j + 1];
      }
      SetSizeOfKeys(s - {c[0].0}, rest);
    }
  }
}

=== FILE: date_utils.dfy ===
/** Date text for the analytics job: `YYYY-MM-DD` rendering of a UTC
    date, the day before the clock's date, the inclusive range test on
    date strings, and the shape check on date strings. */
module DateUtils {
  import opened Text
  import opened Calendar

  const Dash: char := '-'

  /** `formatDate`: the UTC year as `String` renders it (no padding), then
      the 1-based month and the day of month padded to two digits. */
  function FormatDate(d: Date): (s: string)
    requires Valid(d)
  {
    IntToString(d.year) + [Dash] + PadStart(NatToString(d.month), 2, '0') + [Dash]
      + PadStart(NatToString(d.day), 2, '0')
  }

  /** `getYesterday`, with the clock's UTC date as a parameter: the date
      one day back (`setUTCDate(getUTCDate() - 1)`), formatted. */
  function GetYesterday(today: Date): (s: string)
    requires Valid(today)
  {
    FormatDate(PrevDay(today))
  }

  /** The years `formatDate` renders with exactly four digits. */
  predicate FourDigits(d: Date) {
    1000 <= d.year <= 9999
  }

  /** `/^\d{4}-\d{2}-\d{2}$/`: ten characters, dashes at positions 4 and
      7, ASCII digits everywhere else. */
  predicate DateShape(s: string) {
    && |s| == 10 && s[4] == Dash && s[7] == Dash
    && forall i :: 0 <= i < 10 && i != 4 && i != 7 ==> IsDigit(s[i])
  }

  /** `isValidDateString`: the shape check, then whether the engine's
      date parser accepts the string (a parameter: the parser is not part
      of this model). */
  function IsValidDateString(s: string, parserAccepts: bool): (ok: bool)
    ensures ok ==> DateShape(s)
    ensures !DateShape(s) ==> !ok
  {
    DateShape(s) && parserAccepts
  }

  /** `date >= startDate && date <= endDate`, where `a >= b` is `!(a < b)`
      on strings. */
  predicate IsDateInRange(date: string, startDate: string, endDate: string) {
    !LexLt(date, startDate) && !LexLt(endDate, date)
  }

  /** The range test is inclusive at both ends in the string order. */
  lemma InRangeInclusive(date: string, startDate: string, endDate: string)
    ensures IsDateInRange(date, startDate, endDate) <==> LexLe(startDate, date) && LexLe(date, endDate)
  {
    LexLeTotal(date, startDate);
    LexLeTotal(endDate, date);
    if LexLe(startDate, date) && LexLe(date, startDate) {
      LexLeAntisymmetric(startDate, date);
    }
    if LexLe(date, endDate) && LexLe(endDate, date) {
      LexLeAntisymmetric(date, endDate);
    }
  }

  // ---------------------------------------------------------------------
  // Four-digit years

  /** For four-digit years the rendering is fixed-width. */
  lemma FormatDateDigits(d: Date)
    requires Valid(d) && FourDigits(d)
    ensures FormatDate(d) == Digits(d.year, 4) + [Dash] + Digits(d.month, 2) + [Dash] + Digits(d.day, 2)
  {
    NatToStringIsDigits(d.year, 4);
    PadTwoDigits(d.month);
    PadTwoDigits(d.day);
  }

  /** ... and it is the date part of `toISOString()`. */
  lemma FormatDateIsIso(d: Date)
    requires Valid(d) && FourDigits(d)
    ensures FormatDate(d) == IsoDate(d)
  {
    FormatDateDigits(d);
    CompactDateDigits(d);
  }

  /** `String(n)` has at most `k` characters below `10^k`, and more at or above it. */
  lemma {:induction false} NatToStringLength(n: nat, k: nat)
    requires k >= 1
    ensures n < Pow10(k) ==> |NatToString(n)| <= k
    ensures n >= Pow10(k) ==> |NatToString(n)| > k
    decreases n
  {
    if n >= 10 {
      assert |NatToString(n)| == |NatToString(n / 10)| + 1;
      if k > 1 {
        NatToStringLength(n / 10, k - 1);
      }
    }
  }

  /** The rendering has the date shape exactly for four-digit years. */
  lemma {:induction false} FormatDateShape(d: Date)
    requires Valid(d)
    ensures DateShape(FormatDate(d)) <==> FourDigits(d)
  {
    var s := FormatDate(d);
    var m, dd := PadStart(NatToString(d.month), 2, '0'), PadStart(NatToString(d.day), 2, '0');
    PadTwoDigits(d.month);
    PadTwoDigits(d.day);
    if FourDigits(d) {
      FormatDateDigits(d);
      assert s[4] == Dash && s[7] == Dash;
      forall i | 0 <= i < 10 && i != 4 && i != 7
        ensures IsDigit(s[i])
      {
        if i < 4 {
          assert s[i] == Digits(d.year, 4)[i];
        } else if i < 7 {
          assert s[i] == Digits(d.month, 2)[i - 5];
        } else {
          assert s[i] == Digits(d.day, 2)[i - 8];
        }
      }
    } else if d.year < 0 {
      assert s[0] == '-';
    } else {
      var y := NatToString(d.year);
      assert s == y + [Dash] + m + [Dash] + dd;
      assert |s| == |y| + 6;
      if d.year < 1000 {
        NatToStringLength(d.year, 3);
      } else {
        NatToStringLength(d.year, 4);
      }
    }
  }

  /** Calendar order on dates: by year, then month, then day. */
  predicate DateLe(a: Date, b: Date) {
    a.year < b.year || (a.year == b.year && (a.month < b.month || (a.month == b.month && a.day <= b.day)))
  }

  /** For four-digit years the string order of the renderings is the
      calendar order of the dates. */
  lemma FormatDateOrder(a: Date, b: Date)
    requires Valid(a) && Valid(b) && FourDigits(a) && FourDigits(b)
    ensures LexLe(FormatDate(a), FormatDate(b)) <==> DateLe(a, b)
  {
    var ya, ma, da := Digits(a.year, 4), Digits(a.month, 2), Digits(a.day, 2);
    var yb, mb, db := Digits(b.year, 4), Digits(b.month, 2), Digits(b.day, 2);
    assert FormatDate(a) == ya + ([Dash] + (ma + ([Dash] + da))) by {
      FormatDateDigits(a);
      DateParts(ya, ma, da);
    }
    assert FormatDate(b) == yb + ([Dash] + (mb + ([Dash] + db))) by {
      FormatDateDigits(b);
      DateParts(yb, mb, db);
    }
    LexLeConcat(ya, [Dash] + (ma + ([Dash] + da)), yb, [Dash] + (mb + ([Dash] + db)));
    LexLeConcat([Dash], ma + ([Dash] + da), [Dash], mb + ([Dash] + db));
    LexLeConcat(ma, [Dash] + da, mb, [Dash] + db);
    LexLeConcat([Dash], da, [Dash], db);
    DigitsOrder(a.year, b.year, 4);
    DigitsOrder(a.month, b.month, 2);
    DigitsOrder(a.day, b.day, 2);
    DigitsOrder(b.year, a.year, 4);
    DigitsOrder(b.month, a.month, 2);
    if ya == yb { DigitsInjective(a.year, b.year, 4); }
    if ma == mb { DigitsInjective(a.month, b.month, 2); }
    assert LexLt([Dash], [Dash]) == false;
  }

  /** The rendering regrouped from the right, for comparing it part by part. */
  lemma DateParts(y: string, m: string, d: string)
    ensures y + [Dash] + m + [Dash] + d == y + ([Dash] + (m + ([Dash] + d)))
  {
    SeqAssoc(y + [Dash] + m, [Dash], d);
    SeqAssoc(y + [Dash], m, [Dash] + d);
    SeqAssoc(y, [Dash], m + ([Dash] + d));
  }

  /** Different four-digit-year dates render differently. */
  lemma FormatDateInjective(a: Date, b: Date)
    requires Valid(a) && Valid(b) && FourDigits(a) && FourDigits(b)
    requires FormatDate(a) == FormatDate(b)
    ensures a == b
  {
    LexLeReflexive(FormatDate(a));
    FormatDateOrder(a, b);
    FormatDateOrder(b, a);
  }

  /** A rendered date is in a rendered range exactly when the date lies
      between the ends in calendar order. */
  lemma InRangeOfDates(d: Date, first: Date, last: Date)
    requires Valid(d) && Valid(first) && Valid(last)
    requires FourDigits(d) && FourDigits(first) && FourDigits(last)
    ensures IsDateInRange(FormatDate(d), FormatDate(first), FormatDate(last)) <==> DateLe(first, d) && DateLe(d, last)
  {
    InRangeInclusive(FormatDate(d), FormatDate(first), FormatDate(last));
    FormatDateOrder(first, d);
    FormatDateOrder(d, last);
  }

  /** Yesterday's text sorts strictly before today's. */
  lemma YesterdayBeforeToday(today: Date)
    requires Valid(today) && FourDigits(today) && FourDigits(PrevDay(today))
    ensures LexLt(GetYesterday(today), FormatDate(today))
  {
    FormatDateOrder(PrevDay(today), today);
    if GetYesterday(today) == FormatDate(today) {
      FormatDateInjective(PrevDay(today), today);
    }
  }
}

=== FILE: export_trigger.dfy ===
/** The export trigger: checks its environment and request, then asks
    DynamoDB for a point-in-time export of the table to S3 — incremental
    (yesterday's UTC day) or full. The clock is a parameter; the export
    call itself is not part of this model. */
module ExportTrigger {
  import opened Wrappers
  import opened Text
  import opened Calendar

  /** The variables the trigger reads (`undefined` is `None`). */
  datatype ProcessEnv = ProcessEnv(tableName: Option<string>, exportBucket: Option<string>, s3Prefix: Option<string>)

  /** The checked environment. */
  datatype Environment = Environment(tableName: string, exportBucket: string, s3Prefix: string)

  /** The request: `mode` is `undefined` when absent. */
  datatype ExportRequest = ExportRequest(mode: Option<string>, backfillStartDate: Option<string>)

  const IncrementalMode: string := "incremental"
  const BackfillMode: string := "backfill"
  const DefaultS3Prefix: string := "exports"
  const TableNameRequired: string := "TABLE_NAME environment variable is required"
  const ExportBucketRequired: string := "EXPORT_BUCKET environment variable is required"
  const InvalidMode: string := "Invalid mode. Must be \"incremental\" or \"backfill\""
  const BackfillStartRequired: string := "backfillStartDate is required for backfill mode"

  /** `validateEnvironment`: the table name, then the bucket, must be set
      and non-empty; an unset or empty prefix becomes `exports`. */
  function ValidateEnvironment(penv: ProcessEnv): (r: Result<Environment, Failure>)
    ensures r.Ok? <==> Truthy(penv.tableName) && Truthy(penv.exportBucket)
    ensures !Truthy(penv.tableName) ==> r == Err(Thrown(TableNameRequired))
    ensures Truthy(penv.tableName) && !Truthy(penv.exportBucket) ==> r == Err(Thrown(ExportBucketRequired))
    ensures r.Ok? ==>
      && r.value.tableName == penv.tableName.value
      && r.value.exportBucket == penv.exportBucket.value
      && |r.value.s3Prefix| > 0
      && (Truthy(penv.s3Prefix) ==> r.value.s3Prefix == penv.s3Prefix.value)
      && (!Truthy(penv.s3Prefix) ==> r.value.s3Prefix == DefaultS3Prefix)
  {
    if !Truthy(penv.tableName) then Err(Thrown(TableNameRequired))
    else if !Truthy(penv.exportBucket) then Err(Thrown(ExportBucketRequired))
    else Ok(Environment(penv.tableName.value, penv.exportBucket.value,
                        if Truthy(penv.s3Prefix) then penv.s3Prefix.value else DefaultS3Prefix))
  }

  datatype ExportType = IncrementalExport | FullExport

  /** The request sent to DynamoDB; `window` is the incremental export
      specification (from, to), when there is one. */
  datatype ExportParams = ExportParams(
    tableArn: string,
    s3Bucket: string,
    s3Prefix: string,
    exportFormat: string,
    exportType: ExportType,
    window: Option<(DateTime, DateTime)>)

  /** The S3 key prefix of an export started at epoch millisecond `ms`. */
  function ExportPrefix(prefix: string, ms: int): string {
    prefix + "/" + IntToString(ms) + "/"
  }

  /** `buildExportParams`, with the clock reading `now`. Only the mode
      `incremental` makes an incremental export, over the previous UTC
      day: from yesterday's midnight to today's. */
  function BuildExportParams(event: ExportRequest, env: Environment, now: DateTime): (p: ExportParams)
    requires ValidDateTime(now)
    ensures p.tableArn == env.tableName && p.s3Bucket == env.exportBucket
    ensures p.s3Prefix == env.s3Prefix + "/" + IntToString(EpochMs(now)) + "/"
    ensures p.exportFormat == "DYNAMODB_JSON"
    ensures p.exportType == IncrementalExport <==> event.mode == Some(IncrementalMode)
    ensures p.window.Some? <==> p.exportType == IncrementalExport
    ensures p.window.Some? ==> p.window.value == (DateTime(PrevDay(now.date), 0), DateTime(now.date, 0))
  {
    var incremental := event.mode == Some(IncrementalMode);
    ExportParams(
      env.tableName, env.exportBucket, ExportPrefix(env.s3Prefix, EpochMs(now)), "DYNAMODB_JSON",
      if incremental then IncrementalExport else FullExport,
      if incremental then Some((DateTime(PrevDay(now.date), 0), DateTime(now.date, 0))) else None)
  }

  /** The incremental window is exactly one day long and ends at the
      midnight that starts the clock's day, so the clock lies within a day
      after its end. */
  lemma IncrementalWindow(event: ExportRequest, env: Environment, now: DateTime)
    requires ValidDateTime(now) && event.mode == Some(IncrementalMode)
    ensures var p := BuildExportParams(event, env, now);
      var (from, to) := p.window.value;
      && EpochMs(to) - EpochMs(from) == MsPerDay
      && EpochMs(to) <= EpochMs(now) < EpochMs(to) + MsPerDay
  {
    NextDayEpoch(PrevDay(now.date));
    NextPrev(now.date);
  }

  /** Exports started at different milliseconds go to different S3
      prefixes. */
  lemma ExportPrefixInjective(prefix: string, ms1: int, ms2: int)
    requires ExportPrefix(prefix, ms1) == ExportPrefix(prefix, ms2)
    ensures ms1 == ms2
  {
    var a, b := IntToString(ms1), IntToString(ms2);
    var n := |prefix| + 1;
    assert |a| == |b|;
    assert a == ExportPrefix(prefix, ms1)[n..n + |a|];
    assert b == ExportPrefix(prefix, ms2)[n..n + |b|];
    IntToStringInjective(ms1, ms2);
  }

  /** Two exports of the same table started at different milliseconds
      write under different S3 prefixes. */
  lemma ExportsDoNotShareAPrefix(event1: ExportRequest, event2: ExportRequest, env: Environment, now1: DateTime, now2: DateTime)
    requires ValidDateTime(now1) && ValidDateTime(now2) && EpochMs(now1) != EpochMs(now2)
    ensures BuildExportParams(event1, env, now1).s3Prefix != BuildExportParams(event2, env, now2).s3Prefix
  {
    if BuildExportParams(event1, env, now1).s3Prefix == BuildExportParams(event2, env, now2).s3Prefix {
      ExportPrefixInjective(env.s3Prefix, EpochMs(now1), EpochMs(now2));
    }
  }

  /** `handler`: the environment, then the mode (set, and one of the two),
      then the backfill start date, and only then the export request. */
  function Handler(event: ExportRequest, penv: ProcessEnv, now: DateTime): (r: Result<ExportParams, Failure>)
    requires ValidDateTime(now)
    ensures ValidateEnvironment(penv).Err? ==> r == Err(ValidateEnvironment(penv).error)
    ensures ValidateEnvironment(penv).Ok? && event.mode != Some(IncrementalMode) && event.mode != Some(BackfillMode) ==>
      r == Err(Thrown(InvalidMode))
    ensures ValidateEnvironment(penv).Ok? && event.mode == Some(BackfillMode) && !Truthy(event.backfillStartDate) ==>
      r == Err(Thrown(BackfillStartRequired))
    ensures r.Ok? <==>
      && ValidateEnvironment(penv).Ok?
      && (event.mode == Some(IncrementalMode) || (event.mode == Some(BackfillMode) && Truthy(event.backfillStartDate)))
    ensures r.Ok? ==> r.value == BuildExportParams(event, ValidateEnvironment(penv).value, now)
  {
    var env :- ValidateEnvironment(penv);
    if !Truthy(event.mode) || (event.mode.value != IncrementalMode && event.mode.value != BackfillMode) then
      Err(Thrown(InvalidMode))
    else if event.mode.value == BackfillMode && !Truthy(event.backfillStartDate) then
      Err(Thrown(BackfillStartRequired))
    else
      Ok(BuildExportParams(event, env, now))
  }
}

=== FILE: invite_repository.dfy ===
/** `InviteRepository`: invites stored under the `invite` model, owned by
    the resource they invite to. The invite id is a fresh random string,
    passed in here. */
module InviteRepository {
  import opened Wrappers
  import opened Text
  import opened Keys
  import opened SplitIds
  import opened Adapter
  import opened AdapterQueries
  import opened AdapterBatch

  const InviteModel: string := Name(Invite)

  /** The owner `insert` derives: `const [ownerType, ownerId] =
      resourceId.split('-')`, so only the second segment is the id, and a
      missing one renders as `undefined` in the owner key. */
  function InviteOwner(resourceId: string): (r: Result<Owner, Failure>)
    ensures r.Err? <==> ParseModel(Split(resourceId, Sep)[0]).None?
    ensures r.Err? ==> r.error == Thrown("Unsupported resourceId")
    ensures r.Ok? ==> Name(r.value.kind) == Split(resourceId, Sep)[0]
    ensures r.Ok? ==> Sep !in r.value.id
  {
    var parts := Split(resourceId, Sep);
    match ParseModel(parts[0])
    case None => Err(Thrown("Unsupported resourceId"))
    case Some(t) => Ok(Owner(t, if |parts| >= 2 then parts[1] else "undefined"))
  }

  /** The stored payload: the caller's fields plus `resourceId` and the
      generated `inviteId`. */
  function InvitePayload(fields: Payload, resourceId: string, inviteId: string): Payload {
    fields["resourceId" := resourceId]["inviteId" := inviteId]
  }

  /** `insert`: validates the resource type, then one upsert at
      `invite-<inviteId>` that forwards the invite's expiry unchanged. */
  function Insert(store: Store, inviteId: string, fields: Payload, resourceId: string,
                  expiresAtMs: Option<int>, nowMs: int, sendFails: bool)
    : (r: Result<(Store, Record), Failure>)
    ensures InviteOwner(resourceId).Err? ==> r == Err(Thrown("Unsupported resourceId"))
    ensures r.Ok? <==> InviteOwner(resourceId).Ok? && !sendFails
    ensures r.Ok? ==>
      var k := KeyOf(InviteModel, inviteId, InviteOwner(resourceId).value);
      && k in r.value.0
      && "inviteId" in r.value.0[k].payload && "resourceId" in r.value.0[k].payload
      && r.value.0[k].payload["inviteId"] == inviteId
      && r.value.0[k].payload["resourceId"] == resourceId
      && (expiresAtMs.Some? ==> r.value.0[k].expiresAt == Some(EpochSeconds(expiresAtMs.value)))
      && (expiresAtMs.None? && k in store ==> r.value.0[k].expiresAt == store[k].expiresAt)
  {
    var owner :- InviteOwner(resourceId);
    assert "inviteId" !in SystemFields && "resourceId" !in SystemFields;
    Upsert(store, InviteModel, inviteId, InvitePayload(fields, resourceId, inviteId), owner, expiresAtMs, nowMs, sendFails)
  }

  /** With exactly one separator in the resource id, the invite's owner is
      the owner `splitModelId` gives (the one memberships use). */
  lemma InviteOwnerOneSeparator(resourceId: string)
    requires |Split(resourceId, Sep)| == 2
    requires InviteOwner(resourceId).Ok?
    ensures SplitModelId(resourceId).Ok?
    ensures InviteOwner(resourceId).value == Owner(SplitModelId(resourceId).value.0, SplitModelId(resourceId).value.1)
  {
    var parts := Split(resourceId, Sep);
    assert parts[1..] == [parts[1]];
  }

  /** With a further separator the two derivations part: an invite to
      `party-a-b` is owned by party `a`, its memberships by party `a-b`. */
  lemma InviteOwnerDropsSegments()
    ensures InviteOwner("party-a-b") == Ok(Owner(Party, "a"))
    ensures SplitModelId("party-a-b") == Ok((Party, "a-b"))
  {
    SplitAtFirst("party", "a-b", Sep);
    SplitAtFirst("a", "b", Sep);
    SplitNoSeparator("b", Sep);
    assert "party-a-b" == "party" + [Sep] + "a-b";
    assert "a-b" == "a" + [Sep] + "b";
    JoinSplit("a-b", Sep);
  }

  /** A resource id without separator yields the owner id `undefined`. */
  lemma InviteOwnerUndefined(resourceId: string)
    requires Sep !in resourceId && ParseModel(resourceId).Some?
    ensures InviteOwner(resourceId) == Ok(Owner(ParseModel(resourceId).value, "undefined"))
  {
    SplitNoSeparator(resourceId, Sep);
  }

  /** `find`: the table query on the invite id; an entity only when exactly
      one live record comes back. */
  method Find(inviteId: string, pages: seq<seq<QueryResponse>>, nowMs: int) returns (cond: KeyCondition, r: Option<Record>)
    ensures cond == ModelIdQuery(InviteModel, inviteId, None)
    ensures var recs := LiveRecords(CollectPages(pages, MaxRetries, 0).rows, nowMs);
      (r.Some? <==> |recs| == 1) && (r.Some? ==> r.value == recs[0])
  {
    var read;
    cond, read := FindAllByModelId(InviteModel, inviteId, None, false, pages, nowMs);
    if |read.records| == 1 {
      r := Some(read.records[0]);
    } else {
      r := None;
    }
  }

  /** An inserted invite is matched by `find`'s query for its id. */
  lemma InsertedInviteIsFound(inviteId: string, resourceId: string)
    requires InviteOwner(resourceId).Ok?
    ensures Matches(ModelIdQuery(InviteModel, inviteId, None), KeyOf(InviteModel, inviteId, InviteOwner(resourceId).value))
  {
  }
}

=== FILE: keys.dfy ===
/** The single-table key conventions: the `Model` names that prefix every
    key, and how the adapter composes `modelId`, `owner` and the
    `begins_with` filters from them. */
module Keys {
  import opened Wrappers
  import opened Text

  /** The registered model names; `SudokuBook` is the one whose name
      itself contains the separator. */
  datatype Model = User | Party | Invite | Member | Session | Sudoku | SudokuBook

  const Sep: char := '-'

  function Name(m: Model): string {
    match m
    case User => "user"
    case Party => "party"
    case Invite => "invite"
    case Member => "member"
    case Session => "session"
    case Sudoku => "sudoku"
    case SudokuBook => "sudoku-book"
  }

  /** `Object.values(Model).includes(s)`, returning the member found. */
  function ParseModel(s: string): (r: Option<Model>)
    ensures r.Some? ==> Name(r.value) == s
    ensures r.None? ==> forall m: Model :: Name(m) != s
  {
    if s == "user" then Some(User)
    else if s == "party" then Some(Party)
    else if s == "invite" then Some(Invite)
    else if s == "member" then Some(Member)
    else if s == "session" then Some(Session)
    else if s == "sudoku" then Some(Sudoku)
    else if s == "sudoku-book" then Some(SudokuBook)
    else None
  }

  lemma ParseName(m: Model)
    ensures ParseModel(Name(m)) == Some(m)
  {
  }

  /** Every model name except `sudoku-book` is free of the separator. */
  lemma NameSeparator(m: Model)
    ensures Sep in Name(m) <==> m == SudokuBook
  {
    assert Name(SudokuBook)[6] == Sep;
  }

  /** `{ type, id }`: who or what a row belongs to. */
  datatype Owner = Owner(kind: Model, id: string)

  /** The partition key: `modelName + '-' + id`. */
  function ModelId(modelName: string, id: string): string {
    modelName + [Sep] + id
  }

  /** The sort key: `${owner.type}-${owner.id}`. */
  function OwnerKey(o: Owner): string {
    Name(o.kind) + [Sep] + o.id
  }

  type Key = (string, string)

  /** The composite primary key every single-row operation builds. */
  function KeyOf(modelName: string, id: string, owner: Owner): Key {
    (ModelId(modelName, id), OwnerKey(owner))
  }

  /** `${type}-${idPrefix !== undefined ? idPrefix : ''}`, the `begins_with`
      operand of the list filters. */
  function PrefixFilter(kind: Model, idPrefix: Option<string>): string {
    Name(kind) + [Sep] + idPrefix.GetOr("")
  }

  /** The first separator-delimited segment of a composed key is the name
      it was composed from, provided the name holds no separator. */
  lemma FirstSegment(name: string, id: string)
    requires Sep !in name
    ensures Split(ModelId(name, id), Sep)[0] == name
  {
    SplitAtFirst(name, id, Sep);
  }

  /** Key composition is injective when the names hold no separator. */
  lemma ModelIdInjective(n1: string, i1: string, n2: string, i2: string)
    requires Sep !in n1 && Sep !in n2
    requires ModelId(n1, i1) == ModelId(n2, i2)
    ensures n1 == n2 && i1 == i2
  {
    FirstSegment(n1, i1);
    FirstSegment(n2, i2);
    var s := ModelId(n1, i1);
    assert i1 == s[|n1| + 1..];
    assert i2 == ModelId(n2, i2)[|n2| + 1..];
  }

  /** Two models' keys coincide only for equal models and ids, except for
      the `sudoku` / `sudoku-book` pair. */
  lemma {:induction false} ModelKeysCollide(m1: Model, i1: string, m2: Model, i2: string)
    requires ModelId(Name(m1), i1) == ModelId(Name(m2), i2)
    ensures (m1 == m2 && i1 == i2) || {m1, m2} == {Sudoku, SudokuBook}
  {
    if m1 != SudokuBook && m2 != SudokuBook {
      NameSeparator(m1);
      NameSeparator(m2);
      ModelIdInjective(Name(m1), i1, Name(m2), i2);
    } else if m1 == SudokuBook && m2 != SudokuBook {
      BookKeyOtherModel(i1, m2, i2);
      assert {m1, m2} == {Sudoku, SudokuBook};
    } else if m2 == SudokuBook && m1 != SudokuBook {
      BookKeyOtherModel(i2, m1, i1);
      assert {m1, m2} == {Sudoku, SudokuBook};
    } else {
      assert i1 == ModelId(Name(m1), i1)[12..];
      assert i2 == ModelId(Name(m2), i2)[12..];
    }
  }

  /** A `sudoku-book` key equal to another model's key is a `sudoku` key. */
  lemma BookKeyOtherModel(i1: string, m: Model, i2: string)
    requires m != SudokuBook && ModelId(Name(SudokuBook), i1) == ModelId(Name(m), i2)
    ensures m == Sudoku
  {
    NameSeparator(m);
    assert ModelId(Name(SudokuBook), i1) == ModelId("sudoku", "book-" + i1);
    FirstSegment("sudoku", "book-" + i1);
    FirstSegment(Name(m), i2);
    ParseName(m);
  }

  /** The collision is real: a `sudoku` key with an id starting `book-`
      equals a `sudoku-book` key. */
  lemma SudokuBookCollision(id: string)
    ensures ModelId(Name(Sudoku), "book-" + id) == ModelId(Name(SudokuBook), id)
    ensures OwnerKey(Owner(Sudoku, "book-" + id)) == OwnerKey(Owner(SudokuBook, id))
  {
  }

  /** A `type: sudoku` list filter also admits every `sudoku-book` key. */
  lemma SudokuFilterAdmitsSudokuBook(id: string)
    ensures StartsWith(OwnerKey(Owner(SudokuBook, id)), PrefixFilter(Sudoku, None))
    ensures StartsWith(ModelId(Name(SudokuBook), id), PrefixFilter(Sudoku, None))
  {
    assert OwnerKey(Owner(SudokuBook, id)) == "sudoku-" + ("book-" + id);
    StartsWithConcat("sudoku-", "book-" + id);
  }

  /** Owner-index symmetry: a row's owner key matches the owner-type filter
      with and without its own id as prefix, and its model id matches the
      model-type filter. */
  lemma KeyMatchesOwnFilters(modelKind: Model, id: string, owner: Owner)
    ensures StartsWith(OwnerKey(owner), PrefixFilter(owner.kind, None))
    ensures StartsWith(OwnerKey(owner), PrefixFilter(owner.kind, Some(owner.id)))
    ensures StartsWith(ModelId(Name(modelKind), id), PrefixFilter(modelKind, None))
  {
    StartsWithConcat(Name(owner.kind) + [Sep], owner.id);
    StartsWithConcat(Name(modelKind) + [Sep], id);
    assert OwnerKey(owner) == Name(owner.kind) + [Sep] + owner.id + "";
  }
}

=== FILE: member_repository.dfy ===
/** `MemberRepository`: memberships stored under the `member` model with
    id `user-<userId>` and the joined resource as owner, so the owner
    index lists a resource's members and the table lists a user's
    memberships. */
module MemberRepository {
  import opened Wrappers
  import opened Text
  import opened Keys
  import opened SplitIds
  import opened Adapter
  import opened AdapterQueries
  import opened AdapterBatch
  import opened Sorting

  /** The model name the member adapter is created with. */
  const MemberModel: string := Name(Member)

  /** The identifying part of a member: who joined what. */
  datatype MemberRef = MemberRef(userId: string, resourceId: string)

  /** `${Model.USER}-${userId}`: the entity id of a user's membership. */
  function MemberId(userId: string): string {
    ModelId(Name(User), userId)
  }

  /** The owner a resource id designates, via `splitModelId`. */
  function ResourceOwner(resourceId: string): (r: Result<Owner, Failure>)
    ensures r.Ok? <==> SplitModelId(resourceId).Ok?
    ensures r.Ok? ==> r.value == Owner(SplitModelId(resourceId).value.0, SplitModelId(resourceId).value.1)
  {
    var (t, id) :- SplitModelId(resourceId);
    Ok(Owner(t, id))
  }

  /** The composite key a membership lives at. */
  function MemberKey(m: MemberRef): (r: Result<Key, Failure>)
    ensures r.Ok? <==> SplitModelId(m.resourceId).Ok?
  {
    var owner :- ResourceOwner(m.resourceId);
    Ok(KeyOf(MemberModel, MemberId(m.userId), owner))
  }

  function MemberPayload(m: MemberRef, nickname: string): Payload {
    map["userId" := m.userId, "resourceId" := m.resourceId, "memberNickname" := nickname]
  }

  /** `insert`: an unsupported resource type throws before anything is
      written; otherwise one upsert at the membership key. */
  function Insert(store: Store, m: MemberRef, nickname: string, nowMs: int, sendFails: bool)
    : (r: Result<(Store, Record), Failure>)
    ensures r.Ok? <==> MemberKey(m).Ok? && !sendFails
    ensures r.Ok? ==> MemberKey(m).value in r.value.0
    ensures r.Ok? ==> r.value.0[MemberKey(m).value].payload == MemberPayload(m, nickname)
    ensures r.Ok? ==> r.value.1.fields == MemberPayload(m, nickname)
    ensures r.Ok? ==> forall k :: k in store && k != MemberKey(m).value ==> k in r.value.0 && r.value.0[k] == store[k]
  {
    var owner :- ResourceOwner(m.resourceId);
    Upsert(store, MemberModel, MemberId(m.userId), MemberPayload(m, nickname), owner, None, nowMs, sendFails)
  }

  /** The `{ id, owner }` item `batchDestroy` builds for one member. */
  function DestroyItem(m: MemberRef): Result<(string, Owner), Failure> {
    var owner :- ResourceOwner(m.resourceId);
    Ok((MemberId(m.userId), owner))
  }

  /** `batchDestroy` targets exactly the key `insert` wrote. */
  lemma DestroyItemIsInsertKey(m: MemberRef)
    ensures DestroyItem(m).Ok? <==> MemberKey(m).Ok?
    ensures DestroyItem(m).Ok? ==>
      KeyOf(MemberModel, DestroyItem(m).value.0, DestroyItem(m).value.1) == MemberKey(m).value
  {
  }

  /** Maps every member to its item; the first unsupported resource id throws. */
  function DestroyItems(ms: seq<MemberRef>): (r: Result<seq<(string, Owner)>, Failure>)
    ensures r.Ok? <==> forall i :: 0 <= i < |ms| ==> MemberKey(ms[i]).Ok?
    ensures r.Ok? ==> |r.value| == |ms|
    ensures r.Ok? ==> forall i :: 0 <= i < |ms| ==>
      KeyOf(MemberModel, r.value[i].0, r.value[i].1) == MemberKey(ms[i]).value
  {
    if |ms| == 0 then Ok([])
    else
      match DestroyItem(ms[0])
      case Err(e) => Err(e)
      case Ok(item) =>
        match DestroyItems(ms[1..])
        case Err(e) =>
          assert !MemberKey(ms[1..][0]).Ok? || exists i :: 0 <= i < |ms[1..]| && !MemberKey(ms[1..][i]).Ok?;
          Err(e)
        case Ok(rest) => Ok([item] + rest)
  }

  /** `batchDestroy`: when it returns normally, none of the members'
      keys is left in the table. */
  method BatchDestroy(store: Store, ms: seq<MemberRef>, oracle: seq<seq<Round>>) returns (s': Store, r: Result<(), Failure>)
    ensures DestroyItems(ms).Err? ==> r.Err? && s' == store
    ensures DestroyItems(ms).Ok? ==>
      var batches := Batches(DestroyItems(ms).value);
      var failed := FailedChunks(MemberModel, batches, oracle, |batches|);
      && (r.Err? <==> failed > 0)
      && (r.Err? ==> r.error == Thrown("batchDestroy had " + NatToString(failed) + " failed batches"))
    ensures r.Ok? ==> forall i :: 0 <= i < |ms| ==> MemberKey(ms[i]).Ok? && MemberKey(ms[i]).value !in s'
    ensures forall k :: k in s' ==> k in store && s'[k] == store[k]
    ensures forall k :: k in store && (forall i :: 0 <= i < |ms| ==> MemberKey(ms[i]) != Ok(k)) ==> k in s'
  {
    var items := DestroyItems(ms);
    if items.Err? {
      return store, Err(items.error);
    }
    KeysOfItems(MemberModel, items.value);
    var d := AdapterBatch.BatchDestroy(store, MemberModel, items.value, oracle);
    s' := d.store;
    r := d.outcome;
  }

  /** `createdAt` as a sort key, oldest first and newest first. */
  function CreatedAt(rec: Record): int { rec.createdAt }
  function NewestFirst(rec: Record): int { -rec.createdAt }

  /** `findAllMembersForResource`: the owner-index query for the resource
      filtered on `member` rows, oldest first. */
  method FindAllMembersForResource(resourceId: string, pages: seq<seq<QueryResponse>>, nowMs: int)
    returns (cond: Option<KeyCondition>, r: Result<seq<Record>, Failure>)
    ensures r.Err? <==> SplitModelId(resourceId).Err?
    ensures r.Ok? ==> cond == Some(OwnerQuery(ResourceOwner(resourceId).value, Some(TypeFilter(Member, None))))
    ensures r.Ok? ==> SortedBy(r.value, CreatedAt)
    ensures r.Ok? ==> multiset(r.value) == multiset(LiveRecords(CollectPages(pages, MaxRetries, 0).rows, nowMs))
    ensures r.Ok? ==> forall t :: WithKey(r.value, CreatedAt, t) == WithKey(LiveRecords(CollectPages(pages, MaxRetries, 0).rows, nowMs), CreatedAt, t)
  {
    var owner := ResourceOwner(resourceId);
    if owner.Err? {
      return None, Err(owner.error);
    }
    var c, read := FindAllByOwner(owner.value, Some(TypeFilter(Member, None)), pages, nowMs);
    cond := Some(c);
    r := Ok(SortBy(read.records, CreatedAt));
  }

  /** `findAllForUser`: the table query on the user's member id, optionally
      filtered by resource type and id prefix, newest first. */
  method FindAllForUser(userId: string, resource: Option<TypeFilter>, pages: seq<seq<QueryResponse>>, nowMs: int)
    returns (cond: KeyCondition, r: seq<Record>)
    ensures cond == ModelIdQuery(MemberModel, MemberId(userId), resource)
    ensures forall i, j :: 0 <= i < j < |r| ==> r[i].createdAt >= r[j].createdAt
    ensures multiset(r) == multiset(LiveRecords(CollectPages(pages, MaxRetries, 0).rows, nowMs))
    ensures forall t :: WithKey(r, NewestFirst, t) == WithKey(LiveRecords(CollectPages(pages, MaxRetries, 0).rows, nowMs), NewestFirst, t)
  {
    var read;
    cond, read := FindAllByModelId(MemberModel, MemberId(userId), resource, false, pages, nowMs);
    r := SortBy(read.records, NewestFirst);
    assert SortedBy(r, NewestFirst);
  }

  /** `findForUser`: the point read of one membership. */
  function FindForUser(store: Store, userId: string, resourceType: Model, resourceId: string,
                       seen: seq<bool>, nowMs: int): (r: Option<Record>)
    ensures var k := KeyOf(MemberModel, MemberId(userId), Owner(resourceType, resourceId));
      r.Some? ==> k in store && r.value == ResultToRecord(store[k])
    ensures var k := KeyOf(MemberModel, MemberId(userId), Owner(resourceType, resourceId));
      r.None? <==> k !in store || FirstVisible(seen, MaxRetries).None? || IsExpired(store[k], nowMs)
  {
    FindByIdAndOwner(store, MemberModel, MemberId(userId), Owner(resourceType, resourceId), false, seen, nowMs).record
  }

  /** Every membership is visible to both list reads: the owner-index
      query of its resource and the table query of its user. */
  lemma InsertedMemberIsListed(m: MemberRef)
    requires MemberKey(m).Ok?
    ensures Matches(OwnerQuery(ResourceOwner(m.resourceId).value, Some(TypeFilter(Member, None))), MemberKey(m).value)
    ensures Matches(ModelIdQuery(MemberModel, MemberId(m.userId), None), MemberKey(m).value)
    ensures Matches(ModelIdQuery(MemberModel, MemberId(m.userId), Some(TypeFilter(ResourceOwner(m.resourceId).value.kind, None))), MemberKey(m).value)
  {
    OwnerIndexSymmetry(Member, MemberId(m.userId), ResourceOwner(m.resourceId).value, None);
  }

  /** A new member inserted and then read back by `findForUser` with the
      parts of its resource id (as `deleteForUser` does) is found: inserts
      carry no expiry. */
  lemma InsertThenFindForUser(store: Store, m: MemberRef, nickname: string, t: int, seen: seq<bool>, now: int)
    requires MemberKey(m).Ok? && MemberKey(m).value !in store
    requires |seen| > 0 && seen[0]
    ensures
      var (s', rec) := Insert(store, m, nickname, t, false).value;
      var (kind, id) := SplitModelId(m.resourceId).value;
      FindForUser(s', m.userId, kind, id, seen, now) == Some(rec)
  {
    var owner := ResourceOwner(m.resourceId).value;
    UpsertThenFind(store, MemberModel, MemberId(m.userId), owner, MemberPayload(m, nickname), None, t, seen, false, now);
  }
}

=== FILE: members_service.dfy ===
/** `MembersService`: who may list and remove the members of a resource.
    The party lookup and the public-invite lookup are services outside
    this model; their answers are parameters. */
module MembersService {
  import opened Wrappers
  import opened Keys
  import opened SplitIds
  import opened Adapter
  import opened AdapterQueries
  import opened AdapterBatch
  import opened MemberRepository
  import opened PartyEntity

  /** `partyRepository.find(id, createdBy)`: the party with that id
      (created by `createdBy`, when given), if any. */
  type PartyLookup = (string, Option<string>) -> Option<Entity>

  /** `findResource`: an unsupported type throws (from `splitModelId`);
      only a party id consults the party lookup, any other type is
      `undefined`. */
  function FindResource(resourceId: string, createdBy: Option<string>, parties: PartyLookup)
    : (r: Result<Option<Entity>, Failure>)
    ensures r.Err? <==> SplitModelId(resourceId).Err?
    ensures r.Ok? && SplitModelId(resourceId).value.0 != Party ==> r.value.None?
    ensures r.Ok? && SplitModelId(resourceId).value.0 == Party ==>
      r.value == parties(SplitModelId(resourceId).value.1, createdBy)
  {
    var (kind, id) :- SplitModelId(resourceId);
    if kind == Party then Ok(parties(id, createdBy)) else Ok(None)
  }

  /** A non-party resource is never found, whatever the party lookup says. */
  lemma OnlyPartiesAreResources(m: Model, id: string, createdBy: Option<string>, parties: PartyLookup)
    requires m != Party && m != SudokuBook
    ensures FindResource(ModelId(Name(m), id), createdBy, parties) == Ok(None)
  {
    SplitModelIdOfKey(m, id);
  }

  /** The invite `findPublicInvite` resolves (or the error it throws). */
  datatype PublicInvite = PublicInvite(resourceId: string)

  /** `create`: joins the caller to the invite's resource under the
      requested nickname. */
  function Create(store: Store, userId: string, nickname: string, invite: Result<PublicInvite, Failure>,
                  nowMs: int, sendFails: bool): (r: Result<(Store, Record), Failure>)
    ensures invite.Err? ==> r == Err(invite.error)
    ensures r.Ok? ==> invite.Ok?
    ensures r.Ok? ==>
      && "userId" in r.value.1.fields && r.value.1.fields["userId"] == userId
      && "resourceId" in r.value.1.fields && r.value.1.fields["resourceId"] == invite.value.resourceId
      && "memberNickname" in r.value.1.fields && r.value.1.fields["memberNickname"] == nickname
    ensures r.Ok? ==> var k := MemberKey(MemberRef(userId, invite.value.resourceId));
      k.Ok? && k.value in r.value.0
    ensures r.Ok? <==> invite.Ok? && MemberKey(MemberRef(userId, invite.value.resourceId)).Ok? && !sendFails
    ensures r.Ok? ==> var k := MemberKey(MemberRef(userId, invite.value.resourceId)).value;
      forall k' :: k' in store && k' != k ==> k' in r.value.0 && r.value.0[k'] == store[k']
  {
    var inv :- invite;
    Insert(store, MemberRef(userId, inv.resourceId), nickname, nowMs, sendFails)
  }

  /** Whether some listed member has the given `userId`
      (`members.find((member) => member.userId === requestedBy)`). */
  predicate HasMember(members: seq<Record>, userId: string) {
    exists i :: 0 <= i < |members| && IsMember(members[i], userId)
  }

  predicate IsMember(rec: Record, userId: string) {
    "userId" in rec.fields && rec.fields["userId"] == userId
  }

  /** `findAll`: Forbidden when the resource is gone, NotFound when the
      requester is not among its members, otherwise every member, oldest
      first. */
  method FindAll(resourceId: string, requestedBy: string, parties: PartyLookup,
                 pages: seq<seq<QueryResponse>>, nowMs: int) returns (r: Result<seq<Record>, Failure>)
    ensures SplitModelId(resourceId).Err? ==> r.Err? && r.error.Thrown?
    ensures FindResource(resourceId, None, parties) == Ok(None) ==> r == Err(Forbidden("Resource not found"))
    ensures var listed := LiveRecords(CollectPages(pages, MaxRetries, 0).rows, nowMs);
      FindResource(resourceId, None, parties).Ok? && FindResource(resourceId, None, parties).value.Some? ==>
        (r.Ok? <==> exists i :: 0 <= i < |listed| && IsMember(listed[i], requestedBy))
    ensures r.Ok? ==> HasMember(r.value, requestedBy)
    ensures r.Ok? ==> multiset(r.value) == multiset(LiveRecords(CollectPages(pages, MaxRetries, 0).rows, nowMs))
    ensures r.Ok? ==> forall i, j :: 0 <= i < j < |r.value| ==> r.value[i].createdAt <= r.value[j].createdAt
    ensures r.Err? && !r.error.Thrown? && r.error != Forbidden("Resource not found") ==>
      r == Err(NotFound("Resource not found"))
  {
    var resource := FindResource(resourceId, None, parties);
    if resource.Err? {
      return Err(resource.error);
    }
    if resource.value.None? {
      return Err(Forbidden("Resource not found"));
    }
    var cond, members := FindAllMembersForResource(resourceId, pages, nowMs);
    var listed := LiveRecords(CollectPages(pages, MaxRetries, 0).rows, nowMs);
    if exists i :: 0 <= i < |members.value| && IsMember(members.value[i], requestedBy) {
      MemberInPermutation(members.value, listed, requestedBy);
      r := members;
    } else {
      if exists i :: 0 <= i < |listed| && IsMember(listed[i], requestedBy) {
        MemberInPermutation(listed, members.value, requestedBy);
      }
      r := Err(NotFound("Resource not found"));
    }
  }

  /** Membership of a user is a property of the multiset of records. */
  lemma MemberInPermutation(a: seq<Record>, b: seq<Record>, userId: string)
    requires multiset(a) == multiset(b)
    requires exists i :: 0 <= i < |a| && IsMember(a[i], userId)
    ensures exists j :: 0 <= j < |b| && IsMember(b[j], userId)
  {
    var i :| 0 <= i < |a| && IsMember(a[i], userId);
    assert a[i] in multiset(b);
    var j :| 0 <= j < |b| && b[j] == a[i];
  }

  /** `deleteForUser`. Removing someone else needs a resource created by
      the requester (Forbidden otherwise); removing oneself skips that
      check. The target must then be a member (NotFound otherwise), and
      exactly that membership is destroyed, unless the delete send fails. */
  function DeleteForUser(store: Store, requestedBy: string, resourceId: string, userToDelete: string,
                         parties: PartyLookup, seen: seq<bool>, nowMs: int, sendFails: bool)
    : (r: Result<Store, Failure>)
    ensures SplitModelId(resourceId).Err? ==> r.Err? && r.error.Thrown?
    ensures requestedBy != userToDelete && FindResource(resourceId, Some(requestedBy), parties) == Ok(None) ==>
      r == Err(Forbidden("Not allowed to delete other member"))
    ensures r.Ok? ==> requestedBy == userToDelete || FindResource(resourceId, Some(requestedBy), parties).value.Some?
    ensures r.Ok? ==>
      var (kind, id) := SplitModelId(resourceId).value;
      var k := KeyOf(MemberModel, MemberId(userToDelete), Owner(kind, id));
      && FindForUser(store, userToDelete, kind, id, seen, nowMs).Some?
      && r.value.Keys == store.Keys - {k}
      && forall k' :: k' in r.value ==> r.value[k'] == store[k']
    ensures SplitModelId(resourceId).Ok? &&
            (requestedBy == userToDelete || FindResource(resourceId, Some(requestedBy), parties).value.Some?) ==>
      var (kind, id) := SplitModelId(resourceId).value;
      (r.Ok? <==> FindForUser(store, userToDelete, kind, id, seen, nowMs).Some? && !sendFails) &&
      (FindForUser(store, userToDelete, kind, id, seen, nowMs).None? ==> r == Err(NotFound("Member not found")))
    ensures SplitModelId(resourceId).Ok? &&
            (requestedBy == userToDelete || FindResource(resourceId, Some(requestedBy), parties).value.Some?) ==>
      var (kind, id) := SplitModelId(resourceId).value;
      FindForUser(store, userToDelete, kind, id, seen, nowMs).Some? && sendFails ==> r == Err(Thrown("delete failed"))
  {
    if requestedBy != userToDelete then
      var resource :- FindResource(resourceId, Some(requestedBy), parties);
      if resource.None? then Err(Forbidden("Not allowed to delete other member"))
      else DestroyMembership(store, resourceId, userToDelete, seen, nowMs, sendFails)
    else
      DestroyMembership(store, resourceId, userToDelete, seen, nowMs, sendFails)
  }

  /** The part of `deleteForUser` after the permission check: look the
      membership up by the parts of the resource id, then destroy it
      (the repository's `destroy` is taken to delete that key). */
  function DestroyMembership(store: Store, resourceId: string, userToDelete: string, seen: seq<bool>, nowMs: int,
                             sendFails: bool)
    : (r: Result<Store, Failure>)
    ensures r.Err? <==> (SplitModelId(resourceId).Err? ||
      FindForUser(store, userToDelete, SplitModelId(resourceId).value.0, SplitModelId(resourceId).value.1, seen, nowMs).None? ||
      sendFails)
    ensures SplitModelId(resourceId).Ok? && sendFails &&
            FindForUser(store, userToDelete, SplitModelId(resourceId).value.0, SplitModelId(resourceId).value.1, seen, nowMs).Some?
      ==> r == Err(Thrown("delete failed"))
  {
    var (kind, id) :- SplitModelId(resourceId);
    match FindForUser(store, userToDelete, kind, id, seen, nowMs)
    case None => Err(NotFound("Member not found"))
    case Some(_) => Destroy(store, MemberModel, MemberId(userToDelete), Owner(kind, id), sendFails)
  }

  /** Removing oneself never depends on the party lookup. */
  lemma SelfDeleteIgnoresResource(store: Store, userId: string, resourceId: string,
                                  p1: PartyLookup, p2: PartyLookup, seen: seq<bool>, nowMs: int, sendFails: bool)
    ensures DeleteForUser(store, userId, resourceId, userId, p1, seen, nowMs, sendFails)
         == DeleteForUser(store, userId, resourceId, userId, p2, seen, nowMs, sendFails)
  {
  }

  /** A member who joined through `create` can remove themselves while the
      membership is visible, and that removes exactly their key. */
  lemma CreateThenLeave(store: Store, userId: string, nickname: string, resourceId: string,
                        parties: PartyLookup, t: int, seen: seq<bool>, now: int)
    requires MemberKey(MemberRef(userId, resourceId)).Ok?
    requires MemberKey(MemberRef(userId, resourceId)).value !in store
    requires |seen| > 0 && seen[0]
    ensures var (s', _) := Create(store, userId, nickname, Ok(PublicInvite(resourceId)), t, false).value;
      var r := DeleteForUser(s', userId, resourceId, userId, parties, seen, now, false);
      r.Ok? && r.value == store
  {
    var m := MemberRef(userId, resourceId);
    InsertThenFindForUser(store, m, nickname, t, seen, now);
    var s' := Create(store, userId, nickname, Ok(PublicInvite(resourceId)), t, false).value.0;
    var k := MemberKey(m).value;
    var r := DeleteForUser(s', userId, resourceId, userId, parties, seen, now, false);
    assert r.value.Keys == store.Keys;
  }
}

=== FILE: party_entity.dfy ===
/** `PartyEntity`: a party as the service hands it out, with the group
    size defaulted, and the resource id its memberships hang off. */
module PartyEntity {
  import opened Wrappers
  import opened Keys
  import opened SplitIds
  import opened Adapter
  import opened AdapterQueries
  import opened AdapterBatch
  import MemberRepository

  /** `DEFAULT_MAX_SIZE`. */
  const DefaultMaxSize: int := 5

  /** The `Party` fields the constructor receives; `maxSize` is optional.
      Dates are epoch milliseconds. */
  datatype PartyFields = PartyFields(partyId: string, appId: string, partyName: string, createdBy: string,
                         maxSize: Option<int>, createdAt: int, updatedAt: int)

  datatype Entity = Entity(partyId: string, appId: string, partyName: string, createdBy: string,
                           maxSize: int, createdAt: int, updatedAt: int)

  /** JavaScript truthiness of an optional number (`NaN` is not modelled). */
  predicate TruthyNumber(n: Option<int>) {
    n.Some? && n.value != 0
  }

  /** The constructor: every field copied, `maxSize || DEFAULT_MAX_SIZE`. */
  function NewEntity(p: PartyFields): (e: Entity)
    ensures TruthyNumber(p.maxSize) ==> e.maxSize == p.maxSize.value
    ensures !TruthyNumber(p.maxSize) ==> e.maxSize == DefaultMaxSize
    ensures e.maxSize != 0
    ensures e.partyId == p.partyId && e.appId == p.appId && e.partyName == p.partyName
    ensures e.createdBy == p.createdBy && e.createdAt == p.createdAt && e.updatedAt == p.updatedAt
  {
    Entity(p.partyId, p.appId, p.partyName, p.createdBy,
           if TruthyNumber(p.maxSize) then p.maxSize.value else DefaultMaxSize,
           p.createdAt, p.updatedAt)
  }

  /** The fields of an entity read back as `Party` fields. */
  function AsParty(e: Entity): PartyFields {
    PartyFields(e.partyId, e.appId, e.partyName, e.createdBy, Some(e.maxSize), e.createdAt, e.updatedAt)
  }

  /** Constructing from an entity's own fields changes nothing: the
      default is applied once and the result is already normal. */
  lemma NewEntityIdempotent(p: PartyFields)
    ensures NewEntity(AsParty(NewEntity(p))) == NewEntity(p)
  {
  }

  /** Two inputs that differ only in a falsy `maxSize` (absent or 0) give
      the same entity. */
  lemma FalsyMaxSizesAgree(p: PartyFields)
    ensures NewEntity(p.(maxSize := None)) == NewEntity(p.(maxSize := Some(0)))
    ensures NewEntity(p.(maxSize := None)).maxSize == DefaultMaxSize
  {
  }

  /** The resource id `findMembers` queries: `party-<partyId>`, which
      `splitModelId` reads back as this party. */
  function MembersResourceId(e: Entity): (id: string)
    ensures SplitModelId(id) == Ok((Party, e.partyId))
  {
    SplitModelIdOfKey(Party, e.partyId);
    ModelId(Name(Party), e.partyId)
  }

  /** `findMembers`: the party's memberships, oldest first; the resource
      id always parses, so the listing never throws. */
  method FindMembers(e: Entity, pages: seq<seq<QueryResponse>>, nowMs: int)
    returns (cond: Option<KeyCondition>, r: seq<Record>)
    ensures cond == Some(OwnerQuery(Owner(Party, e.partyId), Some(TypeFilter(Member, None))))
    ensures multiset(r) == multiset(LiveRecords(CollectPages(pages, MaxRetries, 0).rows, nowMs))
    ensures forall i, j :: 0 <= i < j < |r| ==> r[i].createdAt <= r[j].createdAt
  {
    var res;
    cond, res := MemberRepository.FindAllMembersForResource(MembersResourceId(e), pages, nowMs);
    r := res.value;
  }
}

=== FILE: pattern_utils.dfy ===
/** Recognisers for the keys of exported table rows, as the nightly
    analytics job reads them: which kind of record a `modelId` names,
    which app and user a key mentions, and which timestamp attribute
    dates the record. */
module PatternUtils {
  import opened Wrappers
  import opened Text
  import opened Keys

  /** The record kinds the analytics job counts. */
  datatype RecordType = SessionRecord | PartyRecord | MemberRecord

  function PatternName(t: RecordType): string {
    match t
    case SessionRecord => "session"
    case PartyRecord => "party"
    case MemberRecord => "member"
  }

  /** A row of the export: the two keys and the optional numeric
      timestamps, each kept as the decimal text the export holds. */
  datatype Item = Item(modelId: string, owner: string, updatedAt: Option<string>, createdAt: Option<string>)

  // ---------------------------------------------------------------------
  // Apps and users named by keys

  /** `extractAppFromModelId`: the second `-` segment, provided there are
      at least three. */
  function ExtractAppFromModelId(modelId: string): (app: Option<string>)
    ensures app.Some? ==> Sep !in app.value
  {
    var parts := Split(modelId, Sep);
    if |parts| < 3 then None else Some(parts[1])
  }

  /** A key with two separators around a separator-free middle segment
      names that segment as its app. */
  lemma AppFromModelIdOfParts(kind: string, app: string, rest: string)
    requires Sep !in kind && Sep !in app
    ensures ExtractAppFromModelId(kind + [Sep] + app + [Sep] + rest) == Some(app)
  {
    assert kind + [Sep] + app + [Sep] + rest == kind + [Sep] + (app + [Sep] + rest);
    SplitAtFirst(kind, app + [Sep] + rest, Sep);
    SplitAtFirst(app, rest, Sep);
  }

  /** A key with fewer than two separators names no app. */
  lemma NoAppFromModelIdWithOneSeparator(kind: string, rest: string)
    requires Sep !in kind && Sep !in rest
    ensures ExtractAppFromModelId(kind) == None
    ensures ExtractAppFromModelId(kind + [Sep] + rest) == None
  {
    SplitNoSeparator(kind, Sep);
    SplitAtFirst(kind, rest, Sep);
    SplitNoSeparator(rest, Sep);
  }

  /** The app of a session's partition key is the app part of its
      session id (`<app>-<appSessionId>`). */
  lemma SessionModelIdApp(app: string, appSessionId: string)
    requires Sep !in app
    ensures ExtractAppFromModelId(ModelId(Name(Session), app + [Sep] + appSessionId)) == Some(app)
  {
    assert ModelId(Name(Session), app + [Sep] + appSessionId) == Name(Session) + [Sep] + app + [Sep] + appSessionId;
    AppFromModelIdOfParts(Name(Session), app, appSessionId);
  }

  const PartyPrefix: string := "party-"

  /** `extractAppFromOwner`: only a `party-` owner with at least three
      segments names an app, its second segment. */
  function ExtractAppFromOwner(owner: string): (app: Option<string>)
    ensures app.Some? ==> StartsWith(owner, PartyPrefix) && Sep !in app.value
    ensures !StartsWith(owner, PartyPrefix) ==> app.None?
  {
    if !StartsWith(owner, PartyPrefix) then None
    else
      var parts := Split(owner, Sep);
      if |parts| < 3 then None else Some(parts[1])
  }

  /** On a `party-` owner it agrees with the model-id recogniser; any
      other owner names no app. */
  lemma AppFromOwnerAgrees(owner: string)
    ensures StartsWith(owner, PartyPrefix) ==> ExtractAppFromOwner(owner) == ExtractAppFromModelId(owner)
    ensures !StartsWith(owner, PartyPrefix) ==> ExtractAppFromOwner(owner) == None
  {
  }

  /** A party owner `party-<app>-<rest>` names `app`. */
  lemma AppFromPartyOwner(app: string, rest: string)
    requires Sep !in app
    ensures ExtractAppFromOwner(OwnerKey(Owner(Party, app + [Sep] + rest))) == Some(app)
  {
    var o := OwnerKey(Owner(Party, app + [Sep] + rest));
    assert o == PartyPrefix + (app + [Sep] + rest);
    StartsWithConcat(PartyPrefix, app + [Sep] + rest);
    assert o == Name(Party) + [Sep] + app + [Sep] + rest;
    AppFromModelIdOfParts(Name(Party), app, rest);
  }

  const UserPrefix: string := "user-"

  /** `extractUserIdFromOwner`: a `user-` owner with its first `user-`
      removed. */
  function ExtractUserIdFromOwner(owner: string): (u: Option<string>)
    ensures u.Some? <==> StartsWith(owner, UserPrefix)
    ensures u.Some? ==> UserPrefix + u.value == owner
  {
    if !StartsWith(owner, UserPrefix) then None
    else Some(ReplaceFirst(owner, UserPrefix, ""))
  }

  /** A user's owner key gives the user id back, whatever it contains. */
  lemma UserIdOfOwnerKey(userId: string)
    ensures ExtractUserIdFromOwner(OwnerKey(Owner(User, userId))) == Some(userId)
  {
    var o := OwnerKey(Owner(User, userId));
    assert o == UserPrefix + userId;
    StartsWithConcat(UserPrefix, userId);
  }

  // ---------------------------------------------------------------------
  // Record kinds

  const SessionPrefix: string := "session-"
  const MemberUserPrefix: string := "member-user-"

  /** `getRecordType`: `session-`, then `party-`, then `member-user-`;
      anything else is not counted. */
  function GetRecordType(modelId: string): (t: Option<RecordType>)
    ensures t == Some(SessionRecord) <==> StartsWith(modelId, SessionPrefix)
    ensures t == Some(PartyRecord) <==> StartsWith(modelId, PartyPrefix)
    ensures t == Some(MemberRecord) <==> StartsWith(modelId, MemberUserPrefix)
  {
    PrefixesDisjoint(modelId);
    if StartsWith(modelId, SessionPrefix) then Some(SessionRecord)
    else if StartsWith(modelId, PartyPrefix) then Some(PartyRecord)
    else if StartsWith(modelId, MemberUserPrefix) then Some(MemberRecord)
    else None
  }

  /** The three recognised prefixes differ in their first character, so
      at most one of them starts any key and their order does not matter. */
  lemma PrefixesDisjoint(modelId: string)
    ensures !(StartsWith(modelId, SessionPrefix) && StartsWith(modelId, PartyPrefix))
    ensures !(StartsWith(modelId, SessionPrefix) && StartsWith(modelId, MemberUserPrefix))
    ensures !(StartsWith(modelId, PartyPrefix) && StartsWith(modelId, MemberUserPrefix))
  {
    if StartsWith(modelId, SessionPrefix) {
      assert modelId[0] == 's';
    }
    if StartsWith(modelId, PartyPrefix) {
      assert modelId[0] == 'p';
    }
  }

  /** `matchesPattern`: the key starts with the pattern and a separator. */
  predicate MatchesPattern(modelId: string, pattern: RecordType) {
    StartsWith(modelId, PatternName(pattern) + [Sep])
  }

  /** A recognised key matches the pattern of its kind. */
  lemma RecordTypeMatchesPattern(modelId: string)
    ensures GetRecordType(modelId).Some? ==> MatchesPattern(modelId, GetRecordType(modelId).value)
  {
    if GetRecordType(modelId) == Some(MemberRecord) {
      assert modelId[..|MemberUserPrefix|][..7] == modelId[..7];
      assert MemberUserPrefix[..7] == "member-";
    }
  }

  /** Matching the member pattern is not enough to be counted as a
      member: only `member-user-` keys are. */
  lemma MemberPatternIsWeaker()
    ensures MatchesPattern("member-x", MemberRecord)
    ensures GetRecordType("member-x") == None
  {
    var k := "member-x";
    assert k[..7] == "member-";
    assert k[..8][0] == 'm' != SessionPrefix[0];
    assert k[..6][0] == 'm' != PartyPrefix[0];
    assert |k| < |MemberUserPrefix|;
  }

  /** Exactly the keys a member row gets: `member-user-<userId>`. */
  lemma MemberRowsAreMembers(userId: string)
    ensures GetRecordType(ModelId(Name(Member), UserPrefix + userId)) == Some(MemberRecord)
  {
    var m := ModelId(Name(Member), UserPrefix + userId);
    assert m == MemberUserPrefix + userId;
    StartsWithConcat(MemberUserPrefix, userId);
  }

  /** Session and party rows are recognised by their model names. */
  lemma ModelRowsAreRecognised(id: string)
    ensures GetRecordType(ModelId(Name(Session), id)) == Some(SessionRecord)
    ensures GetRecordType(ModelId(Name(Party), id)) == Some(PartyRecord)
  {
    assert ModelId(Name(Session), id) == SessionPrefix + id;
    StartsWithConcat(SessionPrefix, id);
    assert ModelId(Name(Party), id) == PartyPrefix + id;
    StartsWithConcat(PartyPrefix, id);
  }

  // ---------------------------------------------------------------------
  // Timestamps

  datatype TimestampField = UpdatedAt | CreatedAt

  /** `getTimestampField`: sessions are dated by their last update, the
      other kinds by their creation. */
  function GetTimestampField(t: RecordType): (f: TimestampField)
    ensures f == UpdatedAt <==> t == SessionRecord
  {
    if t == SessionRecord then UpdatedAt else CreatedAt
  }

  function FieldOf(item: Item, f: TimestampField): Option<string> {
    match f
    case UpdatedAt => item.updatedAt
    case CreatedAt => item.createdAt
  }

  /** `extractTimestamp`: the text of the dating attribute of a recognised
      row, or nothing. */
  function ExtractTimestamp(item: Item): (ts: Option<string>)
    ensures GetRecordType(item.modelId).None? ==> ts.None?
    ensures GetRecordType(item.modelId) == Some(SessionRecord) ==> ts == item.updatedAt
    ensures GetRecordType(item.modelId).Some? && GetRecordType(item.modelId) != Some(SessionRecord) ==>
      ts == item.createdAt
  {
    match GetRecordType(item.modelId)
    case None => None
    case Some(t) => FieldOf(item, GetTimestampField(t))
  }

  /** Only the dating attribute matters: the other one, and the owner,
      can change freely. */
  lemma TimestampIgnoresOtherField(item: Item, owner: string, other: Option<string>)
    ensures GetRecordType(item.modelId) == Some(SessionRecord) ==>
      ExtractTimestamp(item.(createdAt := other, owner := owner)) == ExtractTimestamp(item)
    ensures GetRecordType(item.modelId) != Some(SessionRecord) ==>
      ExtractTimestamp(item.(updatedAt := other, owner := owner)) == ExtractTimestamp(item)
  {
  }
}

=== FILE: scrambler.dfy ===
/** `SudokuScrambler`: a 9x9 grid read from an 81-character string,
    reshuffled by symmetry operations that keep a puzzle a puzzle, and
    written back as a string. Every random choice (`Math.random`) is an
    argument: the shuffled index lists and the coin flips. */
module Scrambler {
  import opened Wrappers

  /** A grid cell. Relabelling a cell that is neither `.` nor a digit looks
      it up in the digit mapping and stores `undefined`. */
  datatype Cell = Ch(c: char) | Undefined

  type Grid = seq<seq<Cell>>

  predicate IsGrid(g: Grid) {
    |g| == 9 && forall i :: 0 <= i < 9 ==> |g[i]| == 9
  }

  /** Every cell holds a character (no `undefined`). */
  predicate Filled(g: Grid)
    requires IsGrid(g)
  {
    forall i, j :: 0 <= i < 9 && 0 <= j < 9 ==> g[i][j].Ch?
  }

  function CellsOf(s: string): (r: seq<Cell>)
    ensures |r| == |s| && forall k :: 0 <= k < |s| ==> r[k] == Ch(s[k])
  {
    seq(|s|, k requires 0 <= k < |s| => Ch(s[k]))
  }

  // ---------------------------------------------------------------------
  // parseString / gridToString

  /** `parseString`: exactly 81 characters, row by row. */
  function ParseString(s: string): (r: Result<Grid, Failure>)
    ensures r.Err? <==> |s| != 81
    ensures r.Err? ==> r.error == Thrown("Sudoku string must be exactly 81 characters long")
    ensures r.Ok? ==> IsGrid(r.value) && Filled(r.value)
    ensures r.Ok? ==> forall i, j :: 0 <= i < 9 && 0 <= j < 9 ==> r.value[i][j] == Ch(s[i * 9 + j])
  {
    if |s| != 81 then Err(Thrown("Sudoku string must be exactly 81 characters long"))
    else Ok(seq(9, i requires 0 <= i < 9 => CellsOf(s[i * 9..i * 9 + 9])))
  }

  function Flatten<T>(g: seq<seq<T>>): seq<T> {
    if |g| == 0 then [] else g[0] + Flatten(g[1..])
  }

  lemma {:induction false} FlattenConcat<T>(a: seq<seq<T>>, b: seq<seq<T>>)
    ensures Flatten(a + b) == Flatten(a) + Flatten(b)
    decreases |a|
  {
    if |a| == 0 {
      assert a + b == b;
    } else {
      assert (a + b)[0] == a[0];
      assert (a + b)[1..] == a[1..] + b;
      FlattenConcat(a[1..], b);
    }
  }

  /** Rows of nine flatten row-major. */
  lemma {:induction false} FlattenIndex<T>(g: seq<seq<T>>)
    requires forall i :: 0 <= i < |g| ==> |g[i]| == 9
    ensures |Flatten(g)| == 9 * |g|
    ensures forall i, j :: 0 <= i < |g| && 0 <= j < 9 ==> Flatten(g)[i * 9 + j] == g[i][j]
    decreases |g|
  {
    if |g| > 0 {
      FlattenIndex(g[1..]);
      forall i, j | 0 <= i < |g| && 0 <= j < 9
        ensures Flatten(g)[i * 9 + j] == g[i][j]
      {
        if i > 0 {
          assert i * 9 + j == 9 + ((i - 1) * 9 + j);
          assert g[1..][i - 1] == g[i];
        }
      }
    }
  }

  /** `Array.prototype.join('')` text of a cell: `undefined` joins as empty. */
  function JoinText(x: Cell): string {
    match x
    case Ch(c) => [c]
    case Undefined => ""
  }

  function Render(cells: seq<Cell>): string {
    if |cells| == 0 then "" else JoinText(cells[0]) + Render(cells[1..])
  }

  predicate AllChars(x: seq<Cell>) {
    forall k :: 0 <= k < |x| ==> x[k].Ch?
  }

  lemma {:induction false} RenderChars(x: seq<Cell>)
    requires AllChars(x)
    ensures |Render(x)| == |x|
    ensures forall k :: 0 <= k < |x| ==> Render(x)[k] == x[k].c
    decreases |x|
  {
    if |x| > 0 {
      assert AllChars(x[1..]);
      RenderChars(x[1..]);
      forall k | 0 < k < |x|
        ensures Render(x)[k] == x[k].c
      {
        assert x[1..][k - 1] == x[k];
      }
    }
  }

  /** `gridToString`: rows joined, then joined again. */
  function GridToString(g: Grid): (s: string)
    ensures IsGrid(g) && Filled(g) ==> |s| == 81
    ensures IsGrid(g) && Filled(g) ==> forall i, j :: 0 <= i < 9 && 0 <= j < 9 ==> s[i * 9 + j] == g[i][j].c
  {
    var cells := Flatten(g);
    if IsGrid(g) && Filled(g) then
      FlattenIndex(g);
      assert AllChars(cells) by {
        forall k | 0 <= k < |cells|
          ensures cells[k].Ch?
        {
          var i, j := k / 9, k % 9;
          assert k == i * 9 + j;
          assert cells[i * 9 + j] == g[i][j];
        }
      }
      RenderChars(cells);
      Render(cells)
    else Render(cells)
  }

  /** Parsing then printing gives the string back. */
  lemma ParseThenPrint(s: string)
    requires |s| == 81
    ensures GridToString(ParseString(s).value) == s
  {
    var g := ParseString(s).value;
    var t := GridToString(g);
    forall k | 0 <= k < 81
      ensures t[k] == s[k]
    {
      var i, j := k / 9, k % 9;
      assert k == i * 9 + j;
      assert t[i * 9 + j] == g[i][j].c;
    }
  }

  /** Printing then parsing gives the grid back. */
  lemma PrintThenParse(g: Grid)
    requires IsGrid(g) && Filled(g)
    ensures ParseString(GridToString(g)) == Ok(g)
  {
    var s := GridToString(g);
    var h := ParseString(s).value;
    forall i, j | 0 <= i < 9 && 0 <= j < 9
      ensures h[i][j] == g[i][j]
    {
      assert h[i][j] == Ch(s[i * 9 + j]);
      assert s[i * 9 + j] == g[i][j].c;
    }
    GridExt(h, g);
  }

  // ---------------------------------------------------------------------
  // Geometric transforms

  function Reverse<T>(x: seq<T>): (r: seq<T>)
    ensures |r| == |x| && forall k :: 0 <= k < |x| ==> r[k] == x[|x| - 1 - k]
  {
    seq(|x|, k requires 0 <= k < |x| => x[|x| - 1 - k])
  }

  /** `rotate90`: clockwise, the cell at (i, j) moves to (j, 8 - i). */
  function Rotate90(g: Grid): (r: Grid)
    requires IsGrid(g)
    ensures IsGrid(r)
    ensures forall i, j :: 0 <= i < 9 && 0 <= j < 9 ==> r[i][j] == g[8 - j][i]
  {
    seq(9, a requires 0 <= a < 9 => seq(9, b requires 0 <= b < 9 => g[8 - b][a]))
  }

  /** `mirrorHorizontal`: every row reversed. */
  function MirrorHorizontal(g: Grid): (r: Grid)
    requires IsGrid(g)
    ensures IsGrid(r)
    ensures forall i, j :: 0 <= i < 9 && 0 <= j < 9 ==> r[i][j] == g[i][8 - j]
  {
    seq(9, i requires 0 <= i < 9 => Reverse(g[i]))
  }

  /** `mirrorVertical`: the rows in reverse order. */
  function MirrorVertical(g: Grid): (r: Grid)
    requires IsGrid(g)
    ensures IsGrid(r)
    ensures forall i, j :: 0 <= i < 9 && 0 <= j < 9 ==> r[i][j] == g[8 - i][j]
  {
    Reverse(g)
  }

  /** `transpose`: the cell at (i, j) moves to (j, i). */
  function Transpose(g: Grid): (r: Grid)
    requires IsGrid(g)
    ensures IsGrid(r)
    ensures forall i, j :: 0 <= i < 9 && 0 <= j < 9 ==> r[j][i] == g[i][j]
  {
    seq(9, a requires 0 <= a < 9 => seq(9, b requires 0 <= b < 9 => g[b][a]))
  }

  /** Two grids are equal when they agree cell by cell. */
  lemma GridExt(g: Grid, h: Grid)
    requires IsGrid(g) && IsGrid(h)
    requires forall i, j :: 0 <= i < 9 && 0 <= j < 9 ==> g[i][j] == h[i][j]
    ensures g == h
  {
    forall i | 0 <= i < 9
      ensures g[i] == h[i]
    {
      assert forall j :: 0 <= j < 9 ==> g[i][j] == h[i][j];
    }
  }

  /** Four quarter turns are the identity. */
  lemma Rotate90FourTimes(g: Grid)
    requires IsGrid(g)
    ensures Rotate90(Rotate90(Rotate90(Rotate90(g)))) == g
  {
    var r1 := Rotate90(g);
    var r2 := Rotate90(r1);
    var r3 := Rotate90(r2);
    var r4 := Rotate90(r3);
    forall i, j | 0 <= i < 9 && 0 <= j < 9
      ensures r4[i][j] == g[i][j]
    {
      assert r1[j][8 - i] == g[i][j];
      assert r2[8 - i][8 - j] == r1[j][8 - i];
      assert r3[8 - j][i] == r2[8 - i][8 - j];
      assert r4[i][j] == r3[8 - j][i];
    }
    GridExt(r4, g);
  }

  lemma MirrorHorizontalInvolution(g: Grid)
    requires IsGrid(g)
    ensures MirrorHorizontal(MirrorHorizontal(g)) == g
  {
    GridExt(MirrorHorizontal(MirrorHorizontal(g)), g);
  }

  lemma MirrorVerticalInvolution(g: Grid)
    requires IsGrid(g)
    ensures MirrorVertical(MirrorVertical(g)) == g
  {
    GridExt(MirrorVertical(MirrorVertical(g)), g);
  }

  lemma TransposeInvolution(g: Grid)
    requires IsGrid(g)
    ensures Transpose(Transpose(g)) == g
  {
    var t := Transpose(g);
    var tt := Transpose(t);
    forall i, j | 0 <= i < 9 && 0 <= j < 9
      ensures tt[i][j] == g[i][j]
    {
      assert t[j][i] == g[i][j];
    }
    GridExt(tt, g);
  }

  /** A quarter turn is a transpose followed by a left-right mirror. */
  lemma Rotate90IsMirroredTranspose(g: Grid)
    requires IsGrid(g)
    ensures Rotate90(g) == MirrorHorizontal(Transpose(g))
  {
    var r := Rotate90(g);
    var t := Transpose(g);
    var m := MirrorHorizontal(t);
    forall i, j | 0 <= i < 9 && 0 <= j < 9
      ensures r[i][j] == m[i][j]
    {
      assert r[i][8 - (8 - j)] == g[8 - j][i];
      assert t[i][8 - j] == g[8 - j][i];
    }
    GridExt(r, m);
  }

  // ---------------------------------------------------------------------
  // The cells of a grid as a multiset

  function Bag(g: Grid): multiset<Cell> {
    multiset(Flatten(g))
  }

  lemma FlattenSingle<T>(x: seq<T>)
    ensures Flatten([x]) == x
  {
    assert [x][1..] == [];
  }

  /** Replacing every row by one with the same cells keeps the bag. */
  lemma {:induction false} RowwiseBag(g: Grid, h: Grid)
    requires |g| == |h|
    requires forall i :: 0 <= i < |g| ==> multiset(g[i]) == multiset(h[i])
    ensures Bag(g) == Bag(h)
    decreases |g|
  {
    if |g| > 0 {
      RowwiseBag(g[1..], h[1..]);
    }
  }

  lemma {:induction false} ReverseMultiset<T>(x: seq<T>)
    ensures multiset(Reverse(x)) == multiset(x)
    decreases |x|
  {
    if |x| > 0 {
      var n := |x|;
      assert Reverse(x) == Reverse(x[1..]) + [x[0]];
      ReverseMultiset(x[1..]);
      assert x == [x[0]] + x[1..];
    }
  }

  lemma {:induction false} ReverseRowsBag(g: Grid)
    ensures Bag(Reverse(g)) == Bag(g)
    decreases |g|
  {
    if |g| > 0 {
      assert Reverse(g) == Reverse(g[1..]) + [g[0]];
      FlattenConcat(Reverse(g[1..]), [g[0]]);
      FlattenSingle(g[0]);
      ReverseRowsBag(g[1..]);
    }
  }

  /** The first `c` cells of row `r`, one at a time. */
  function RowPart(g: Grid, r: nat, c: nat): multiset<Cell>
    requires r < |g| && c <= |g[r]|
  {
    if c == 0 then multiset{} else RowPart(g, r, c - 1) + multiset{g[r][c - 1]}
  }

  /** The first `r` cells of column `c`. */
  function ColPart(g: Grid, c: nat, r: nat): multiset<Cell>
    requires r <= |g| && forall i :: 0 <= i < r ==> c < |g[i]|
  {
    if r == 0 then multiset{} else ColPart(g, c, r - 1) + multiset{g[r - 1][c]}
  }

  /** The `rows` x `cols` corner, summed row by row. */
  function ByRows(g: Grid, rows: nat, cols: nat): multiset<Cell>
    requires IsGrid(g) && rows <= 9 && cols <= 9
  {
    if rows == 0 then multiset{} else ByRows(g, rows - 1, cols) + RowPart(g, rows - 1, cols)
  }

  /** The same corner, summed column by column. */
  function ByCols(g: Grid, rows: nat, cols: nat): multiset<Cell>
    requires IsGrid(g) && rows <= 9 && cols <= 9
  {
    if cols == 0 then multiset{} else ByCols(g, rows, cols - 1) + ColPart(g, cols - 1, rows)
  }

  lemma {:induction false} ByColsNextRow(g: Grid, rows: nat, cols: nat)
    requires IsGrid(g) && rows < 9 && cols <= 9
    ensures ByCols(g, rows + 1, cols) == ByCols(g, rows, cols) + RowPart(g, rows, cols)
    decreases cols
  {
    if cols > 0 {
      ByColsNextRow(g, rows, cols - 1);
      var a, b := ByCols(g, rows, cols - 1), RowPart(g, rows, cols - 1);
      var c, x := ColPart(g, cols - 1, rows), multiset{g[rows][cols - 1]};
      assert ByCols(g, rows + 1, cols) == (a + b) + (c + x) by {
        assert ColPart(g, cols - 1, rows + 1) == c + x;
      }
      assert ByCols(g, rows, cols) + RowPart(g, rows, cols) == (a + c) + (b + x) by {
        assert RowPart(g, rows, cols) == b + x;
      }
      Interchange(a, b, c, x);
    }
  }

  lemma Interchange(a: multiset<Cell>, b: multiset<Cell>, c: multiset<Cell>, x: multiset<Cell>)
    ensures (a + b) + (c + x) == (a + c) + (b + x)
  {
  }

  /** Summing a rectangle by rows or by columns gives the same cells. */
  lemma {:induction false} Fubini(g: Grid, rows: nat, cols: nat)
    requires IsGrid(g) && rows <= 9 && cols <= 9
    ensures ByRows(g, rows, cols) == ByCols(g, rows, cols)
    decreases rows
  {
    if rows == 0 {
      ByColsEmpty(g, cols);
    } else {
      Fubini(g, rows - 1, cols);
      ByColsNextRow(g, rows - 1, cols);
    }
  }

  lemma {:induction false} ByColsEmpty(g: Grid, cols: nat)
    requires IsGrid(g) && cols <= 9
    ensures ByCols(g, 0, cols) == multiset{}
    decreases cols
  {
    if cols > 0 {
      ByColsEmpty(g, cols - 1);
    }
  }

  lemma {:induction false} RowPartIsRow(g: Grid, r: nat, c: nat)
    requires r < |g| && c <= |g[r]|
    ensures RowPart(g, r, c) == multiset(g[r][..c])
    decreases c
  {
    if c > 0 {
      RowPartIsRow(g, r, c - 1);
      assert g[r][..c] == g[r][..c - 1] + [g[r][c - 1]];
    }
  }

  lemma {:induction false} ByRowsIsBag(g: Grid, rows: nat)
    requires IsGrid(g) && rows <= 9
    ensures ByRows(g, rows, 9) == Bag(g[..rows])
    decreases rows
  {
    if rows > 0 {
      var prefix, row := g[..rows - 1], g[rows - 1];
      ByRowsIsBag(g, rows - 1);
      RowPartIsRow(g, rows - 1, 9);
      assert row[..9] == row;
      assert g[..rows] == prefix + [row];
      FlattenConcat(prefix, [row]);
      FlattenSingle(row);
      assert Flatten(g[..rows]) == Flatten(prefix) + row;
      assert Bag(g[..rows]) == Bag(prefix) + multiset(row);
    }
  }

  lemma {:induction false} TransposedRow(g: Grid, c: nat, r: nat)
    requires IsGrid(g) && c < 9 && r <= 9
    ensures RowPart(Transpose(g), c, r) == ColPart(g, c, r)
    decreases r
  {
    if r > 0 {
      TransposedRow(g, c, r - 1);
      assert Transpose(g)[c][r - 1] == g[r - 1][c];
    }
  }

  lemma {:induction false} TransposedRows(g: Grid, cols: nat)
    requires IsGrid(g) && cols <= 9
    ensures ByRows(Transpose(g), cols, 9) == ByCols(g, 9, cols)
    decreases cols
  {
    if cols > 0 {
      TransposedRows(g, cols - 1);
      TransposedRow(g, cols - 1, 9);
    }
  }

  /** Transposing keeps every cell. */
  lemma TransposeBag(g: Grid)
    requires IsGrid(g)
    ensures Bag(Transpose(g)) == Bag(g)
  {
    var t := Transpose(g);
    ByRowsIsBag(t, 9);
    ByRowsIsBag(g, 9);
    assert t[..9] == t && g[..9] == g;
    TransposedRows(g, 9);
    Fubini(g, 9, 9);
  }

  lemma MirrorHorizontalBag(g: Grid)
    requires IsGrid(g)
    ensures Bag(MirrorHorizontal(g)) == Bag(g)
  {
    var m := MirrorHorizontal(g);
    forall i | 0 <= i < 9
      ensures multiset(m[i]) == multiset(g[i])
    {
      ReverseMultiset(g[i]);
    }
    RowwiseBag(m, g);
  }

  lemma Rotate90Bag(g: Grid)
    requires IsGrid(g)
    ensures Bag(Rotate90(g)) == Bag(g)
  {
    Rotate90IsMirroredTranspose(g);
    MirrorHorizontalBag(Transpose(g));
    TransposeBag(g);
  }

  // ---------------------------------------------------------------------
  // Shuffled index lists

  /** An arrangement of `[0, 1, 2]`: three distinct entries below three. */
  predicate IsPerm3(p: seq<nat>) {
    && |p| == 3
    && (forall i :: 0 <= i < 3 ==> p[i] < 3)
    && p[0] != p[1] && p[0] != p[2] && p[1] != p[2]
  }

  /** Anything with the elements of `[0, 1, 2]` is an arrangement of it. */
  lemma Perm3OfMultiset(p: seq<nat>)
    requires |p| == 3 && multiset(p) == multiset{0, 1, 2}
    ensures IsPerm3(p)
  {
    assert p == [p[0], p[1], p[2]];
    assert multiset(p) == multiset{p[0], p[1], p[2]};
    assert p[0] in multiset(p) && p[1] in multiset(p) && p[2] in multiset(p);
  }

  function Pick<U>(k: nat, a: U, b: U, c: U): U {
    if k == 0 then a else if k == 1 then b else c
  }

  /** Three parts added in a shuffled order add up to the same whole. */
  lemma PermSum<U>(p: seq<nat>, a: multiset<U>, b: multiset<U>, c: multiset<U>)
    requires IsPerm3(p)
    ensures Pick(p[0], a, b, c) + Pick(p[1], a, b, c) + Pick(p[2], a, b, c) == a + b + c
  {
  }

  /** The `k`-th block of three. */
  function Block<T>(x: seq<T>, k: nat): (r: seq<T>)
    requires |x| == 9 && k < 3
    ensures |r| == 3 && forall j :: 0 <= j < 3 ==> r[j] == x[k * 3 + j]
  {
    x[k * 3..k * 3 + 3]
  }

  lemma Blocks<T>(x: seq<T>)
    requires |x| == 9
    ensures x == Block(x, 0) + Block(x, 1) + Block(x, 2)
  {
  }

  /** The blocks of three concatenated triples are the triples. */
  lemma Concat3Blocks<T>(a: seq<T>, b: seq<T>, c: seq<T>)
    requires |a| == 3 && |b| == 3 && |c| == 3
    ensures Block(a + b + c, 0) == a && Block(a + b + c, 1) == b && Block(a + b + c, 2) == c
  {
    assert (a + b + c)[0..3] == a;
    assert (a + b + c)[3..6] == b;
    assert (a + b + c)[6..9] == c;
  }

  lemma Multiset3<T>(a: seq<T>, b: seq<T>, c: seq<T>)
    ensures multiset(a + b + c) == multiset(a) + multiset(b) + multiset(c)
  {
  }

  /** Three triples of full-width rows form a grid. */
  lemma Concat3Grid(a: Grid, b: Grid, c: Grid)
    requires |a| == 3 && |b| == 3 && |c| == 3
    requires forall i :: 0 <= i < 3 ==> |a[i]| == 9 && |b[i]| == 9 && |c[i]| == 9
    ensures IsGrid(a + b + c)
  {
    var r := a + b + c;
    forall i | 0 <= i < 9
      ensures |r[i]| == 9
    {
      if i < 3 { assert r[i] == a[i]; }
      else if i < 6 { assert r[i] == b[i - 3]; }
      else { assert r[i] == c[i - 6]; }
    }
  }

  /** Row `i` of block `k` of a grid is a full-width row. */
  lemma BlockRows(g: Grid, k: nat)
    requires IsGrid(g) && k < 3
    ensures forall i :: 0 <= i < 3 ==> |Block(g, k)[i]| == 9
  {
  }

  /** The three blocks in the order `p` lists them. */
  function PermuteBlocks<T>(x: seq<T>, p: seq<nat>): (r: seq<T>)
    requires |x| == 9 && IsPerm3(p)
    ensures |r| == 9
    ensures Block(r, 0) == Block(x, p[0]) && Block(r, 1) == Block(x, p[1]) && Block(r, 2) == Block(x, p[2])
  {
    var a, b, c := Block(x, p[0]), Block(x, p[1]), Block(x, p[2]);
    Concat3Blocks(a, b, c);
    a + b + c
  }

  lemma PermuteBlocksAt<T>(x: seq<T>, p: seq<nat>, j: nat)
    requires |x| == 9 && IsPerm3(p) && j < 3
    ensures Block(PermuteBlocks(x, p), j) == Block(x, p[j])
  {
    if j == 0 {
    } else if j == 1 {
    } else {
    }
  }

  /** `[x[p[0]], x[p[1]], x[p[2]]]`. */
  function Permute3<T>(x: seq<T>, p: seq<nat>): (r: seq<T>)
    requires |x| == 3 && IsPerm3(p)
    ensures |r| == 3 && forall i :: 0 <= i < 3 ==> r[i] == x[p[i]]
  {
    [x[p[0]], x[p[1]], x[p[2]]]
  }

  lemma Permute3Multiset<T>(x: seq<T>, p: seq<nat>)
    requires |x| == 3 && IsPerm3(p)
    ensures multiset(Permute3(x, p)) == multiset(x)
  {
    var m0, m1, m2 := multiset{x[0]}, multiset{x[1]}, multiset{x[2]};
    assert multiset(x) == m0 + m1 + m2 by {
      assert x == [x[0]] + [x[1]] + [x[2]];
    }
    assert multiset(Permute3(x, p)) == Pick(p[0], m0, m1, m2) + Pick(p[1], m0, m1, m2) + Pick(p[2], m0, m1, m2) by {
      assert Permute3(x, p) == [x[p[0]]] + [x[p[1]]] + [x[p[2]]];
      PickSingleton(x, p[0]);
      PickSingleton(x, p[1]);
      PickSingleton(x, p[2]);
    }
    PermSum(p, m0, m1, m2);
  }

  lemma PickSingleton<T>(x: seq<T>, k: nat)
    requires |x| == 3 && k < 3
    ensures multiset{x[k]} == Pick(k, multiset{x[0]}, multiset{x[1]}, multiset{x[2]})
  {
  }

  lemma PickBlock<T>(x: seq<T>, k: nat)
    requires |x| == 9 && k < 3
    ensures multiset(Block(x, k)) == Pick(k, multiset(Block(x, 0)), multiset(Block(x, 1)), multiset(Block(x, 2)))
  {
  }

  lemma PermuteBlocksMultiset<T>(x: seq<T>, p: seq<nat>)
    requires |x| == 9 && IsPerm3(p)
    ensures multiset(PermuteBlocks(x, p)) == multiset(x)
  {
    var b0, b1, b2 := multiset(Block(x, 0)), multiset(Block(x, 1)), multiset(Block(x, 2));
    Blocks(x);
    assert multiset(x) == b0 + b1 + b2;
    var r := Block(x, p[0]) + Block(x, p[1]) + Block(x, p[2]);
    assert PermuteBlocks(x, p) == r;
    assert multiset(r) == multiset(Block(x, p[0])) + multiset(Block(x, p[1])) + multiset(Block(x, p[2]));
    PickBlock(x, p[0]);
    PickBlock(x, p[1]);
    PickBlock(x, p[2]);
    PermSum(p, b0, b1, b2);
  }

  lemma PickBlockBag(g: Grid, k: nat)
    requires |g| == 9 && k < 3
    ensures Bag(Block(g, k)) == Pick(k, Bag(Block(g, 0)), Bag(Block(g, 1)), Bag(Block(g, 2)))
  {
  }

  /** The bag of three row blocks is the sum of their bags. */
  lemma Bag3(a: Grid, b: Grid, c: Grid)
    ensures Bag(a + b + c) == Bag(a) + Bag(b) + Bag(c)
  {
    FlattenConcat(a + b, c);
    FlattenConcat(a, b);
  }

  lemma PermuteBlocksBag(g: Grid, p: seq<nat>)
    requires IsGrid(g) && IsPerm3(p)
    ensures Bag(PermuteBlocks(g, p)) == Bag(g)
  {
    var f0, f1, f2 := Bag(Block(g, 0)), Bag(Block(g, 1)), Bag(Block(g, 2));
    Blocks(g);
    Bag3(Block(g, 0), Block(g, 1), Block(g, 2));
    var r := Block(g, p[0]) + Block(g, p[1]) + Block(g, p[2]);
    assert PermuteBlocks(g, p) == r;
    Bag3(Block(g, p[0]), Block(g, p[1]), Block(g, p[2]));
    PickBlockBag(g, p[0]);
    PickBlockBag(g, p[1]);
    PickBlockBag(g, p[2]);
    PermSum(p, f0, f1, f2);
  }

  lemma Flatten3<T>(a: seq<T>, b: seq<T>, c: seq<T>)
    ensures Flatten([a, b, c]) == a + b + c
  {
    assert [a, b, c][1..] == [b, c];
    assert [b, c][1..] == [c];
    FlattenSingle(c);
  }

  lemma Permute3Bag(x: Grid, p: seq<nat>)
    requires |x| == 3 && IsPerm3(p)
    ensures Bag(Permute3(x, p)) == Bag(x)
  {
    var m0, m1, m2 := multiset(x[0]), multiset(x[1]), multiset(x[2]);
    assert x == [x[0], x[1], x[2]];
    Flatten3(x[0], x[1], x[2]);
    Flatten3(x[p[0]], x[p[1]], x[p[2]]);
    assert multiset(x[p[0]]) == Pick(p[0], m0, m1, m2);
    assert multiset(x[p[1]]) == Pick(p[1], m0, m1, m2);
    assert multiset(x[p[2]]) == Pick(p[2], m0, m1, m2);
    PermSum(p, m0, m1, m2);
  }

  // ---------------------------------------------------------------------
  // Band, stack, row and column permutations

  /** `randomBandSwaps` with the shuffled band list `p`: band `i` of the
      result is band `p[i]` of the grid. */
  function BandSwaps(g: Grid, p: seq<nat>): (r: Grid)
    requires IsGrid(g) && IsPerm3(p)
    ensures IsGrid(r)
    ensures forall i :: 0 <= i < 3 ==> Block(r, i) == Block(g, p[i])
    ensures Bag(r) == Bag(g)
  {
    var r := PermuteBlocks(g, p);
    Blocks(r);
    assert forall i :: 0 <= i < 9 ==> |r[i]| == 9 by {
      forall i | 0 <= i < 9
        ensures |r[i]| == 9
      {
        assert r[i] == Block(r, i / 3)[i % 3];
      }
    }
    PermuteBlocksBag(g, p);
    forall i | 0 <= i < 3
      ensures Block(r, i) == Block(g, p[i])
    {
      PermuteBlocksAt(g, p, i);
    }
    r
  }

  /** `randomStackSwaps`: stack `j` of every row becomes stack `p[j]`. */
  function StackSwaps(g: Grid, p: seq<nat>): (r: Grid)
    requires IsGrid(g) && IsPerm3(p)
    ensures IsGrid(r)
    ensures forall i, j :: 0 <= i < 9 && 0 <= j < 3 ==> Block(r[i], j) == Block(g[i], p[j])
    ensures Bag(r) == Bag(g)
  {
    var r := seq(9, i requires 0 <= i < 9 => PermuteBlocks(g[i], p));
    forall i | 0 <= i < 9
      ensures multiset(r[i]) == multiset(g[i])
    {
      PermuteBlocksMultiset(g[i], p);
    }
    RowwiseBag(r, g);
    forall i, j | 0 <= i < 9 && 0 <= j < 3
      ensures Block(r[i], j) == Block(g[i], p[j])
    {
      PermuteBlocksAt(g[i], p, j);
    }
    r
  }

  /** `randomRowSwapsInBands` with one shuffled list per band: row `i` of
      band `b` becomes row `ps[b][i]` of that band. */
  function RowSwapsInBands(g: Grid, ps: seq<seq<nat>>): (r: Grid)
    requires IsGrid(g) && |ps| == 3 && forall b :: 0 <= b < 3 ==> IsPerm3(ps[b])
    ensures IsGrid(r)
    ensures forall b :: 0 <= b < 3 ==> Block(r, b) == Permute3(Block(g, b), ps[b])
    ensures Bag(r) == Bag(g)
  {
    BandRowsShape(g, ps);
    BandRowsBag(g, ps);
    BandRows(g, ps)
  }

  /** The three bands, each with its rows in its own shuffled order. */
  function BandRows(g: Grid, ps: seq<seq<nat>>): Grid
    requires IsGrid(g) && |ps| == 3 && forall b :: 0 <= b < 3 ==> IsPerm3(ps[b])
  {
    Permute3(Block(g, 0), ps[0]) + Permute3(Block(g, 1), ps[1]) + Permute3(Block(g, 2), ps[2])
  }

  lemma BandRowsShape(g: Grid, ps: seq<seq<nat>>)
    requires IsGrid(g) && |ps| == 3 && forall b :: 0 <= b < 3 ==> IsPerm3(ps[b])
    ensures IsGrid(BandRows(g, ps))
    ensures forall b :: 0 <= b < 3 ==> Block(BandRows(g, ps), b) == Permute3(Block(g, b), ps[b])
  {
    var x0, x1, x2 := Permute3(Block(g, 0), ps[0]), Permute3(Block(g, 1), ps[1]), Permute3(Block(g, 2), ps[2]);
    assert BandRows(g, ps) == x0 + x1 + x2;
    Concat3Blocks(x0, x1, x2);
    forall b | 0 <= b < 3
      ensures Block(BandRows(g, ps), b) == Permute3(Block(g, b), ps[b])
    {
      if b == 0 { assert Block(BandRows(g, ps), b) == x0; }
      else if b == 1 { assert Block(BandRows(g, ps), b) == x1; }
      else { assert Block(BandRows(g, ps), b) == x2; }
    }
    PermutedBandRows(g, 0, ps[0]);
    PermutedBandRows(g, 1, ps[1]);
    PermutedBandRows(g, 2, ps[2]);
    Concat3Grid(x0, x1, x2);
  }

  /** A band with its rows shuffled still has full-width rows. */
  lemma PermutedBandRows(g: Grid, b: nat, p: seq<nat>)
    requires IsGrid(g) && b < 3 && IsPerm3(p)
    ensures forall i :: 0 <= i < 3 ==> |Permute3(Block(g, b), p)[i]| == 9
  {
    BlockRows(g, b);
  }

  lemma BandRowsBag(g: Grid, ps: seq<seq<nat>>)
    requires IsGrid(g) && |ps| == 3 && forall b :: 0 <= b < 3 ==> IsPerm3(ps[b])
    ensures Bag(BandRows(g, ps)) == Bag(g)
  {
    var x0, x1, x2 := Permute3(Block(g, 0), ps[0]), Permute3(Block(g, 1), ps[1]), Permute3(Block(g, 2), ps[2]);
    Permute3Bag(Block(g, 0), ps[0]);
    Permute3Bag(Block(g, 1), ps[1]);
    Permute3Bag(Block(g, 2), ps[2]);
    Bag3(x0, x1, x2);
    Blocks(g);
    Bag3(Block(g, 0), Block(g, 1), Block(g, 2));
  }

  /** The text a cell adds to `originalCols[i] += cell`: a character, or
      the word `undefined`. */
  function ConcatText(x: Cell): (s: string)
    ensures |s| >= 1
    ensures x.Ch? ==> s == [x.c]
  {
    match x
    case Ch(c) => [c]
    case Undefined => "undefined"
  }

  /** One stack of one row after `randomColumnSwapsInStacks`: the stack's
      three cells are concatenated into a string and the new cells are its
      characters at the shuffled positions. */
  function StackColumns(row: seq<Cell>, s: nat, p: seq<nat>): (r: seq<Cell>)
    requires |row| == 9 && s < 3 && IsPerm3(p)
    ensures |r| == 3 && AllChars(r)
    ensures AllChars(Block(row, s)) ==> r == Permute3(Block(row, s), p)
  {
    var text := ConcatText(row[s * 3]) + ConcatText(row[s * 3 + 1]) + ConcatText(row[s * 3 + 2]);
    StackText(row, s, text);
    [Ch(text[p[0]]), Ch(text[p[1]]), Ch(text[p[2]])]
  }

  /** The stack's text is its three characters when the cells are characters. */
  lemma StackText(row: seq<Cell>, s: nat, text: string)
    requires |row| == 9 && s < 3
    requires text == ConcatText(row[s * 3]) + ConcatText(row[s * 3 + 1]) + ConcatText(row[s * 3 + 2])
    ensures |text| >= 3
    ensures AllChars(Block(row, s)) ==> text == [Block(row, s)[0].c, Block(row, s)[1].c, Block(row, s)[2].c]
  {
    if AllChars(Block(row, s)) {
      assert row[s * 3] == Block(row, s)[0] && row[s * 3 + 1] == Block(row, s)[1] && row[s * 3 + 2] == Block(row, s)[2];
    }
  }

  /** `randomColumnSwapsInStacks`: in every stack, column `j` becomes
      column `ps[s][j]` of that stack (when the cells are characters). */
  function ColumnSwapsInStacks(g: Grid, ps: seq<seq<nat>>): (r: Grid)
    requires IsGrid(g) && |ps| == 3 && forall b :: 0 <= b < 3 ==> IsPerm3(ps[b])
    ensures IsGrid(r) && Filled(r)
    ensures Filled(g) ==> forall i :: 0 <= i < 9 ==>
      r[i] == Permute3(Block(g[i], 0), ps[0]) + Permute3(Block(g[i], 1), ps[1]) + Permute3(Block(g[i], 2), ps[2])
    ensures Filled(g) ==> Bag(r) == Bag(g)
  {
    var r := seq(9, i requires 0 <= i < 9 =>
      StackColumns(g[i], 0, ps[0]) + StackColumns(g[i], 1, ps[1]) + StackColumns(g[i], 2, ps[2]));
    ColumnSwapsFill(g, ps, r);
    if Filled(g) then ColumnSwapsOfFilled(g, ps, r); r else r
  }

  lemma ColumnSwapsFill(g: Grid, ps: seq<seq<nat>>, r: Grid)
    requires IsGrid(g) && |ps| == 3 && forall b :: 0 <= b < 3 ==> IsPerm3(ps[b])
    requires |r| == 9 && forall i :: 0 <= i < 9 ==>
      r[i] == StackColumns(g[i], 0, ps[0]) + StackColumns(g[i], 1, ps[1]) + StackColumns(g[i], 2, ps[2])
    ensures IsGrid(r) && Filled(r)
  {
    forall i | 0 <= i < 9
      ensures |r[i]| == 9 && AllChars(r[i])
    {
      AllCharsConcat3(StackColumns(g[i], 0, ps[0]), StackColumns(g[i], 1, ps[1]), StackColumns(g[i], 2, ps[2]));
    }
    assert forall i, j :: 0 <= i < 9 && 0 <= j < 9 ==> r[i][j].Ch?;
  }

  lemma AllCharsConcat3(a: seq<Cell>, b: seq<Cell>, c: seq<Cell>)
    requires AllChars(a) && AllChars(b) && AllChars(c)
    ensures AllChars(a + b + c)
  {
    var r := a + b + c;
    forall k | 0 <= k < |r|
      ensures r[k].Ch?
    {
      if k < |a| { assert r[k] == a[k]; }
      else if k < |a| + |b| { assert r[k] == b[k - |a|]; }
      else { assert r[k] == c[k - |a| - |b|]; }
    }
  }

  lemma ColumnSwapsOfFilled(g: Grid, ps: seq<seq<nat>>, r: Grid)
    requires IsGrid(g) && Filled(g) && |ps| == 3 && forall b :: 0 <= b < 3 ==> IsPerm3(ps[b])
    requires |r| == 9 && forall i :: 0 <= i < 9 ==>
      r[i] == StackColumns(g[i], 0, ps[0]) + StackColumns(g[i], 1, ps[1]) + StackColumns(g[i], 2, ps[2])
    ensures forall i :: 0 <= i < 9 ==>
      r[i] == Permute3(Block(g[i], 0), ps[0]) + Permute3(Block(g[i], 1), ps[1]) + Permute3(Block(g[i], 2), ps[2])
    ensures Bag(r) == Bag(g)
  {
    forall i | 0 <= i < 9
      ensures multiset(r[i]) == multiset(g[i])
      ensures r[i] == Permute3(Block(g[i], 0), ps[0]) + Permute3(Block(g[i], 1), ps[1]) + Permute3(Block(g[i], 2), ps[2])
    {
      ColumnsOfFilledRow(g[i], ps, r[i]);
    }
    RowwiseBag(r, g);
  }

  lemma BlockChars(row: seq<Cell>, k: nat)
    requires |row| == 9 && AllChars(row) && k < 3
    ensures AllChars(Block(row, k))
  {
  }

  lemma ColumnsOfFilledRow(row: seq<Cell>, ps: seq<seq<nat>>, out: seq<Cell>)
    requires |row| == 9 && AllChars(row) && |ps| == 3 && forall b :: 0 <= b < 3 ==> IsPerm3(ps[b])
    requires out == StackColumns(row, 0, ps[0]) + StackColumns(row, 1, ps[1]) + StackColumns(row, 2, ps[2])
    ensures multiset(out) == multiset(row)
    ensures out == Permute3(Block(row, 0), ps[0]) + Permute3(Block(row, 1), ps[1]) + Permute3(Block(row, 2), ps[2])
  {
    var b0, b1, b2 := Block(row, 0), Block(row, 1), Block(row, 2);
    var c0, c1, c2 := StackColumns(row, 0, ps[0]), StackColumns(row, 1, ps[1]), StackColumns(row, 2, ps[2]);
    BlockChars(row, 0);
    BlockChars(row, 1);
    BlockChars(row, 2);
    assert c0 == Permute3(b0, ps[0]);
    assert c1 == Permute3(b1, ps[1]);
    assert c2 == Permute3(b2, ps[2]);
    Concat3Blocks(c0, c1, c2);
    Permute3Multiset(b0, ps[0]);
    Permute3Multiset(b1, ps[1]);
    Permute3Multiset(b2, ps[2]);
    Multiset3(c0, c1, c2);
    Blocks(row);
    Multiset3(b0, b1, b2);
  }

  // ---------------------------------------------------------------------
  // shuffle

  /** The draws `shuffle` makes on a list of `n` elements: one per index
      from `n - 1` down to 1, the draw for index `i` at most `i`
      (`Math.floor(Math.random() * (i + 1))`). */
  predicate Draws(js: seq<nat>, n: nat) {
    && |js| == (if n == 0 then 0 else n - 1)
    && forall k :: 0 <= k < |js| ==> js[k] <= n - 1 - k
  }

  lemma SwapMultiset<T>(arr: seq<T>, i: nat, j: nat)
    requires i < |arr| && j < |arr|
    ensures multiset(arr[i := arr[j]][j := arr[i]]) == multiset(arr)
  {
  }

  /** The Fisher-Yates loop from index `i` down to 1; `js[0]` is the draw
      for `i`. Each step swaps `arr[i]` and `arr[js[0]]`. */
  function ShuffleFrom<T>(arr: seq<T>, i: nat, js: seq<nat>): (r: seq<T>)
    requires i < |arr| && |js| == i
    requires forall k :: 0 <= k < i ==> js[k] <= i - k
    ensures |r| == |arr| && multiset(r) == multiset(arr)
    decreases i
  {
    if i == 0 then arr
    else
      var j := js[0];
      SwapMultiset(arr, i, j);
      ShuffleFrom(arr[i := arr[j]][j := arr[i]], i - 1, js[1..])
  }

  /** `shuffle`: a copy of the list rearranged by the draws. */
  function Shuffle<T>(a: seq<T>, js: seq<nat>): (r: seq<T>)
    requires Draws(js, |a|)
    ensures |r| == |a| && multiset(r) == multiset(a)
  {
    if |a| == 0 then a else ShuffleFrom(a, |a| - 1, js)
  }

  /** Drawing `i` for every index `i` swaps nothing. */
  lemma {:induction false} ShuffleFromIdentity<T>(arr: seq<T>, i: nat, js: seq<nat>)
    requires i < |arr| && |js| == i
    requires forall k :: 0 <= k < i ==> js[k] == i - k
    ensures ShuffleFrom(arr, i, js) == arr
    decreases i
  {
    if i > 0 {
      assert js[0] == i;
      assert arr[i := arr[i]][i := arr[i]] == arr;
      assert ShuffleFrom(arr, i, js) == ShuffleFrom(arr, i - 1, js[1..]);
      ShuffleFromIdentity(arr, i - 1, js[1..]);
    }
  }

  /** The draws that keep every element where it is. */
  function StayDraws(n: nat): (js: seq<nat>)
    ensures Draws(js, n)
    ensures forall k :: 0 <= k < |js| ==> js[k] == n - 1 - k
  {
    if n == 0 then [] else seq(n - 1, k requires 0 <= k < n - 1 => n - 1 - k)
  }

  lemma ShuffleIdentity<T>(a: seq<T>)
    ensures Shuffle(a, StayDraws(|a|)) == a
  {
    if |a| > 0 {
      ShuffleFromIdentity(a, |a| - 1, StayDraws(|a|));
    }
  }

  /** `shuffle([0, 1, 2])`: always an arrangement of the three indices. */
  function Perm3From(js: seq<nat>): (p: seq<nat>)
    requires Draws(js, 3)
    ensures IsPerm3(p)
  {
    var p := Shuffle([0, 1, 2], js);
    assert multiset([0, 1, 2]) == multiset{0, 1, 2};
    Perm3OfMultiset(p);
    p
  }

  // ---------------------------------------------------------------------
  // Digit relabelling

  const DigitOrder: string := "123456789"

  predicate IsDigitChar(c: char) {
    '1' <= c <= '9'
  }

  /** Place `i` of `DigitOrder` holds the digit `i + 1`. */
  lemma DigitOrderAt()
    ensures forall i :: 0 <= i < 9 ==> DigitOrder[i] as int == '1' as int + i
  {
    forall i | 0 <= i < 9
      ensures DigitOrder[i] as int == '1' as int + i
    {
      if i < 3 {
        assert i == 0 || i == 1 || i == 2;
      } else if i < 6 {
        assert i == 3 || i == 4 || i == 5;
      } else {
        assert i == 6 || i == 7 || i == 8;
      }
    }
  }

  /** A shuffle of `1`..`9`. */
  predicate IsDigitPerm(d: string) {
    |d| == 9 && multiset(d) == multiset(DigitOrder)
  }

  /** `mapping[cell]` for a cell that is not `.`: a digit goes to the
      digit at its place in the shuffled list, anything else to
      `undefined`. */
  function RelabelCell(x: Cell, d: string): (y: Cell)
    requires |d| == 9
    ensures x == Ch('.') ==> y == x
    ensures x.Ch? && IsDigitChar(x.c) ==> y == Ch(d[x.c as int - '1' as int])
    ensures x.Ch? && x.c != '.' && !IsDigitChar(x.c) ==> y == Undefined
    ensures x.Undefined? ==> y == Undefined
  {
    match x
    case Ch(c) =>
      if c == '.' then x
      else if IsDigitChar(c) then Ch(d[c as int - '1' as int])
      else Undefined
    case Undefined => Undefined
  }

  function MapCells(x: seq<Cell>, d: string): (r: seq<Cell>)
    requires |d| == 9
    ensures |r| == |x| && forall k :: 0 <= k < |x| ==> r[k] == RelabelCell(x[k], d)
  {
    seq(|x|, k requires 0 <= k < |x| => RelabelCell(x[k], d))
  }

  /** `randomDigitRelabeling` with the shuffled digit list `d`. */
  function Relabel(g: Grid, d: string): (r: Grid)
    requires IsGrid(g) && |d| == 9
    ensures IsGrid(r)
    ensures forall i, j :: 0 <= i < 9 && 0 <= j < 9 ==> r[i][j] == RelabelCell(g[i][j], d)
  {
    seq(9, i requires 0 <= i < 9 => MapCells(g[i], d))
  }

  /** The distinct characters of `1`..`9` occur once each. */
  lemma {:induction false} DistinctCount(e: string, v: char)
    requires forall a, b :: 0 <= a < b < |e| ==> e[a] != e[b]
    ensures multiset(e)[v] <= 1
    decreases |e|
  {
    if |e| > 0 {
      assert e == [e[0]] + e[1..];
      DistinctCount(e[1..], v);
      if e[0] == v {
        assert v !in e[1..] by {
          forall k | 0 <= k < |e[1..]|
            ensures e[1..][k] != v
          {
            assert e[1..][k] == e[k + 1];
          }
        }
      }
    }
  }

  /** A shuffle of the digits repeats none and holds only digits. */
  lemma DigitPermDistinct(d: string)
    requires IsDigitPerm(d)
    ensures forall a, b :: 0 <= a < b < 9 ==> d[a] != d[b]
    ensures forall k :: 0 <= k < 9 ==> IsDigitChar(d[k])
  {
    forall a, b | 0 <= a < b < 9
      ensures d[a] != d[b]
    {
      if d[a] == d[b] {
        DigitOrderAt();
        DistinctCount(DigitOrder, d[a]);
        RepeatCount(d, a, b);
        assert false;
      }
    }
    forall k | 0 <= k < 9
      ensures IsDigitChar(d[k])
    {
      DigitPermMember(d, k);
    }
  }

  lemma RepeatCount(d: string, a: nat, b: nat)
    requires a < b < |d| && d[a] == d[b]
    ensures multiset(d)[d[a]] >= 2
  {
    assert d == d[..b] + d[b..];
    assert d[..b][a] == d[a];
    assert d[b..][0] == d[b];
    assert d[a] in multiset(d[..b]);
    assert d[b] in multiset(d[b..]);
  }

  lemma DigitPermMember(d: string, k: nat)
    requires IsDigitPerm(d) && k < 9
    ensures IsDigitChar(d[k])
  {
    assert d[k] in multiset(DigitOrder);
    var i :| 0 <= i < 9 && DigitOrder[i] == d[k];
    DigitOrderAt();
  }

  /** `shuffle(digits)`. */
  function DigitsFrom(js: seq<nat>): (d: string)
    requires Draws(js, 9)
    ensures IsDigitPerm(d)
  {
    Shuffle(DigitOrder, js)
  }

  /** A cell of a well-formed puzzle: `.` or a digit. */
  predicate PuzzleCell(x: Cell) {
    x.Ch? && (x.c == '.' || IsDigitChar(x.c))
  }

  /** On puzzle cells relabelling is a bijection onto puzzle cells that
      fixes `.` and sends no digit to `.`. */
  lemma RelabelBijective(x: Cell, y: Cell, d: string)
    requires IsDigitPerm(d) && PuzzleCell(x) && PuzzleCell(y)
    ensures PuzzleCell(RelabelCell(x, d))
    ensures RelabelCell(x, d) == Ch('.') <==> x == Ch('.')
    ensures RelabelCell(x, d) == RelabelCell(y, d) <==> x == y
  {
    DigitPermDistinct(d);
    if x != Ch('.') && y != Ch('.') && RelabelCell(x, d) == RelabelCell(y, d) {
      var i, j := x.c as int - '1' as int, y.c as int - '1' as int;
      assert d[i] == d[j];
      assert i == j;
    }
  }

  /** Relabelling with the digits in their own order changes nothing. */
  lemma RelabelIdentity(x: Cell)
    requires PuzzleCell(x)
    ensures RelabelCell(x, DigitOrder) == x
  {
    if x.c != '.' {
      var k := x.c as int - '1' as int;
      assert DigitOrder[k] as int == '1' as int + k;
    }
  }

  lemma MapCellsConcat(a: seq<Cell>, b: seq<Cell>, d: string)
    requires |d| == 9
    ensures MapCells(a + b, d) == MapCells(a, d) + MapCells(b, d)
  {
  }

  lemma {:induction false} FlattenRelabel(g: seq<seq<Cell>>, d: string)
    requires |d| == 9
    ensures Flatten(seq(|g|, i requires 0 <= i < |g| => MapCells(g[i], d))) == MapCells(Flatten(g), d)
    decreases |g|
  {
    var m := seq(|g|, i requires 0 <= i < |g| => MapCells(g[i], d));
    if |g| > 0 {
      assert m[1..] == seq(|g[1..]|, i requires 0 <= i < |g[1..]| => MapCells(g[1..][i], d));
      FlattenRelabel(g[1..], d);
      MapCellsConcat(g[0], Flatten(g[1..]), d);
    }
  }

  const Dot: Cell := Ch('.')

  /** Relabelling keeps the number of `.` cells when no digit maps to `.`. */
  lemma {:induction false} RelabelDotCount(x: seq<Cell>, d: string)
    requires |d| == 9 && forall k :: 0 <= k < 9 ==> d[k] != '.'
    ensures multiset(MapCells(x, d))[Dot] == multiset(x)[Dot]
    decreases |x|
  {
    if |x| > 0 {
      var m := MapCells(x, d);
      var y := RelabelCell(x[0], d);
      assert x == [x[0]] + x[1..];
      MapCellsConcat([x[0]], x[1..], d);
      assert MapCells([x[0]], d) == [y];
      RelabelDotCount(x[1..], d);
      assert multiset(m)[Dot] == multiset([y])[Dot] + multiset(MapCells(x[1..], d))[Dot];
      assert multiset(x)[Dot] == multiset([x[0]])[Dot] + multiset(x[1..])[Dot];
      RelabelDot(x[0], d);
    }
  }

  lemma RelabelDot(x: Cell, d: string)
    requires |d| == 9 && forall k :: 0 <= k < 9 ==> d[k] != '.'
    ensures RelabelCell(x, d) == Dot <==> x == Dot
  {
  }

  // ---------------------------------------------------------------------
  // Puzzle grids

  /** Every cell of the grid is `.` or a digit. */
  predicate PuzzleGrid(g: Grid) {
    IsGrid(g) && forall x :: x in Bag(g) ==> PuzzleCell(x)
  }

  function DotCount(g: Grid): nat {
    Bag(g)[Dot]
  }

  /** The bag holds exactly the cells of the grid. */
  lemma BagCells(g: Grid)
    requires IsGrid(g)
    ensures forall i, j :: 0 <= i < 9 && 0 <= j < 9 ==> g[i][j] in Bag(g)
    ensures forall x :: x in Bag(g) ==> exists i, j :: 0 <= i < 9 && 0 <= j < 9 && g[i][j] == x
  {
    FlattenIndex(g);
    var f := Flatten(g);
    forall x | x in Bag(g)
      ensures exists i, j :: 0 <= i < 9 && 0 <= j < 9 && g[i][j] == x
    {
      var k :| 0 <= k < |f| && f[k] == x;
      var i, j := k / 9, k % 9;
      assert f[i * 9 + j] == g[i][j];
    }
  }

  lemma PuzzleIsFilled(g: Grid)
    requires PuzzleGrid(g)
    ensures Filled(g)
    ensures forall i, j :: 0 <= i < 9 && 0 <= j < 9 ==> PuzzleCell(g[i][j])
  {
    BagCells(g);
  }

  /** A grid with the same cells as a puzzle is a puzzle with as many blanks. */
  lemma SameBagPuzzle(g: Grid, h: Grid)
    requires PuzzleGrid(g) && IsGrid(h) && Bag(h) == Bag(g)
    ensures PuzzleGrid(h) && DotCount(h) == DotCount(g)
  {
  }

  lemma RelabelPuzzle(g: Grid, d: string)
    requires PuzzleGrid(g) && IsDigitPerm(d)
    ensures PuzzleGrid(Relabel(g, d)) && DotCount(Relabel(g, d)) == DotCount(g)
  {
    var r := Relabel(g, d);
    DigitPermDistinct(d);
    assert r == seq(|g|, i requires 0 <= i < |g| => MapCells(g[i], d));
    FlattenRelabel(g, d);
    RelabelDotCount(Flatten(g), d);
    forall x | x in Bag(r)
      ensures PuzzleCell(x)
    {
      var f := MapCells(Flatten(g), d);
      var k :| 0 <= k < |f| && f[k] == x;
      assert Flatten(g)[k] in Bag(g);
      RelabelBijective(Flatten(g)[k], Flatten(g)[k], d);
    }
  }

  // ---------------------------------------------------------------------
  // scramble

  /** The eight operations `scramble` shuffles and runs in turn. */
  datatype Op = Rotation | Mirror | BandSwap | StackSwap | RowSwap | ColumnSwap | DigitRelabel | MaybeTranspose

  const Operations: seq<Op> := [Rotation, Mirror, BandSwap, StackSwap, RowSwap, ColumnSwap, DigitRelabel, MaybeTranspose]

  /** Every random outcome of one `scramble` call. Each operation's draws
      are its own field; `rotations` is `random(0, 3)` and the booleans are
      the `Math.random() < 0.5` tests. */
  datatype Choices = Choices(
    order: seq<nat>,
    rotations: nat,
    mirrorRows: bool,
    mirrorGrid: bool,
    bands: seq<nat>,
    stacks: seq<nat>,
    rowsInBands: seq<seq<nat>>,
    colsInStacks: seq<seq<nat>>,
    digits: seq<nat>,
    transpose: bool)

  predicate ValidChoices(ch: Choices) {
    && Draws(ch.order, |Operations|)
    && ch.rotations <= 3
    && Draws(ch.bands, 3)
    && Draws(ch.stacks, 3)
    && |ch.rowsInBands| == 3 && (forall b :: 0 <= b < 3 ==> Draws(ch.rowsInBands[b], 3))
    && |ch.colsInStacks| == 3 && (forall b :: 0 <= b < 3 ==> Draws(ch.colsInStacks[b], 3))
    && Draws(ch.digits, 9)
  }

  /** `rotate90` applied `n` times. */
  function RotateTimes(g: Grid, n: nat): (r: Grid)
    requires IsGrid(g)
    ensures IsGrid(r) && Bag(r) == Bag(g)
    decreases n
  {
    if n == 0 then g
    else
      Rotate90Bag(g);
      RotateTimes(Rotate90(g), n - 1)
  }

  function Perms3From(jss: seq<seq<nat>>): (ps: seq<seq<nat>>)
    requires |jss| == 3 && forall b :: 0 <= b < 3 ==> Draws(jss[b], 3)
    ensures |ps| == 3 && forall b :: 0 <= b < 3 ==> IsPerm3(ps[b])
  {
    seq(3, b requires 0 <= b < 3 => Perm3From(jss[b]))
  }

  /** One operation with its draws. */
  function Apply(g: Grid, op: Op, ch: Choices): (r: Grid)
    requires IsGrid(g) && ValidChoices(ch)
    ensures IsGrid(r)
    ensures op != ColumnSwap && op != DigitRelabel ==> Bag(r) == Bag(g)
  {
    match op
    case Rotation => RotateTimes(g, ch.rotations)
    case Mirror =>
      var h := if ch.mirrorRows then MirrorHorizontal(g) else g;
      MirrorHorizontalBag(g);
      ReverseRowsBag(h);
      if ch.mirrorGrid then MirrorVertical(h) else h
    case BandSwap => BandSwaps(g, Perm3From(ch.bands))
    case StackSwap => StackSwaps(g, Perm3From(ch.stacks))
    case RowSwap => RowSwapsInBands(g, Perms3From(ch.rowsInBands))
    case ColumnSwap => ColumnSwapsInStacks(g, Perms3From(ch.colsInStacks))
    case DigitRelabel => Relabel(g, DigitsFrom(ch.digits))
    case MaybeTranspose =>
      TransposeBag(g);
      if ch.transpose then Transpose(g) else g
  }

  /** Every operation turns a puzzle into a puzzle with as many blanks. */
  lemma ApplyPuzzle(g: Grid, op: Op, ch: Choices)
    requires PuzzleGrid(g) && ValidChoices(ch)
    ensures PuzzleGrid(Apply(g, op, ch)) && DotCount(Apply(g, op, ch)) == DotCount(g)
  {
    if op == ColumnSwap {
      PuzzleIsFilled(g);
    } else if op == DigitRelabel {
      RelabelPuzzle(g, DigitsFrom(ch.digits));
    }
  }

  /** The operations run in order (`forEach`). */
  function ApplyAll(g: Grid, ops: seq<Op>, ch: Choices): (r: Grid)
    requires IsGrid(g) && ValidChoices(ch)
    ensures IsGrid(r)
    decreases |ops|
  {
    if |ops| == 0 then g else ApplyAll(Apply(g, ops[0], ch), ops[1..], ch)
  }

  lemma {:induction false} ApplyAllPuzzle(g: Grid, ops: seq<Op>, ch: Choices)
    requires PuzzleGrid(g) && ValidChoices(ch)
    ensures PuzzleGrid(ApplyAll(g, ops, ch)) && DotCount(ApplyAll(g, ops, ch)) == DotCount(g)
    decreases |ops|
  {
    if |ops| > 0 {
      ApplyPuzzle(g, ops[0], ch);
      ApplyAllPuzzle(Apply(g, ops[0], ch), ops[1..], ch);
    }
  }

  /** `scrambleSudoku`: parse, run the shuffled operations, print. */
  function Scramble(s: string, ch: Choices): (r: Result<string, Failure>)
    requires ValidChoices(ch)
    ensures r.Err? <==> |s| != 81
    ensures r.Err? ==> r.error == Thrown("Sudoku string must be exactly 81 characters long")
  {
    var g :- ParseString(s);
    Ok(GridToString(ApplyAll(g, Shuffle(Operations, ch.order), ch)))
  }

  /** An 81-character string of `.` and digits. */
  predicate IsPuzzleString(s: string) {
    |s| == 81 && forall k :: 0 <= k < |s| ==> s[k] == '.' || IsDigitChar(s[k])
  }

  /** The cells of a string count its characters. */
  lemma {:induction false} CellsCount(s: string, c: char)
    ensures multiset(CellsOf(s))[Ch(c)] == multiset(s)[c]
    decreases |s|
  {
    if |s| > 0 {
      CellsCount(s[1..], c);
      var one := if s[0] == c then 1 else 0;
      assert multiset(CellsOf(s))[Ch(c)] == multiset(CellsOf(s[1..]))[Ch(c)] + one by {
        CellsOfCons(s);
      }
      assert multiset(s)[c] == multiset(s[1..])[c] + one by {
        assert s == [s[0]] + s[1..];
      }
    }
  }

  lemma CellsOfCons(s: string)
    requires |s| > 0
    ensures CellsOf(s) == [Ch(s[0])] + CellsOf(s[1..])
  {
  }

  /** A grid read from a string holds that string's characters as cells. */
  lemma ParsedCells(s: string)
    requires |s| == 81
    ensures Flatten(ParseString(s).value) == CellsOf(s)
  {
    var g := ParseString(s).value;
    FlattenIndex(g);
    forall k | 0 <= k < 81
      ensures Flatten(g)[k] == CellsOf(s)[k]
    {
      var i, j := k / 9, k % 9;
      assert k == i * 9 + j;
      assert Flatten(g)[i * 9 + j] == g[i][j];
      assert g[i][j] == Ch(s[i * 9 + j]);
    }
  }

  /** A filled grid printed holds the grid's cells as characters. */
  lemma PrintedCells(g: Grid)
    requires IsGrid(g) && Filled(g)
    ensures CellsOf(GridToString(g)) == Flatten(g)
  {
    FlattenIndex(g);
    var s := GridToString(g);
    forall k | 0 <= k < 81
      ensures CellsOf(s)[k] == Flatten(g)[k]
    {
      var i, j := k / 9, k % 9;
      assert k == i * 9 + j;
      assert Flatten(g)[i * 9 + j] == g[i][j];
      assert s[i * 9 + j] == g[i][j].c;
    }
  }

  /** A puzzle string parses to a puzzle grid with as many blanks. */
  lemma ParsedPuzzle(s: string)
    requires IsPuzzleString(s)
    ensures PuzzleGrid(ParseString(s).value)
    ensures DotCount(ParseString(s).value) == multiset(s)['.']
  {
    var g := ParseString(s).value;
    ParsedCells(s);
    CellsCount(s, '.');
    forall x | x in Bag(g)
      ensures PuzzleCell(x)
    {
      var k :| 0 <= k < 81 && CellsOf(s)[k] == x;
    }
  }

  /** A puzzle grid prints as a puzzle string with as many blanks. */
  lemma PrintedPuzzle(h: Grid)
    requires PuzzleGrid(h)
    ensures IsPuzzleString(GridToString(h))
    ensures multiset(GridToString(h))['.'] == DotCount(h)
  {
    PuzzleIsFilled(h);
    var out := GridToString(h);
    PrintedCells(h);
    CellsCount(out, '.');
    forall k | 0 <= k < 81
      ensures out[k] == '.' || IsDigitChar(out[k])
    {
      assert CellsOf(out)[k] in Bag(h);
    }
  }

  /** Scrambling a puzzle yields a puzzle of the same length with the same
      number of blanks, whatever the random outcomes. */
  lemma ScramblePuzzle(s: string, ch: Choices)
    requires IsPuzzleString(s) && ValidChoices(ch)
    ensures Scramble(s, ch).Ok?
    ensures IsPuzzleString(Scramble(s, ch).value)
    ensures multiset(Scramble(s, ch).value)['.'] == multiset(s)['.']
  {
    var g := ParseString(s).value;
    ParsedPuzzle(s);
    var ops := Shuffle(Operations, ch.order);
    ApplyAllPuzzle(g, ops, ch);
    PrintedPuzzle(ApplyAll(g, ops, ch));
  }

  // ---------------------------------------------------------------------
  // Rows, columns and boxes

  predicate InGrid(i: int, j: int) {
    0 <= i < 9 && 0 <= j < 9
  }

  /** Two cells share a row, a column or a 3x3 box. */
  predicate SameUnit(i1: int, j1: int, i2: int, j2: int) {
    i1 == i2 || j1 == j2 || (i1 / 3 == i2 / 3 && j1 / 3 == j2 / 3)
  }

  /** No row, column or box holds the same digit twice: two different
      cells of one unit with equal contents are both `.`. */
  predicate NoClash(g: Grid)
    requires IsGrid(g)
  {
    forall i1, j1, i2, j2 ::
      (0 <= i1 < 9 && 0 <= j1 < 9 && 0 <= i2 < 9 && 0 <= j2 < 9 && (i1 != i2 || j1 != j2) &&
       SameUnit(i1, j1, i2, j2) && g[i1][j1] == g[i2][j2]) ==> g[i1][j1] == Dot
  }

  /** A rearrangement of the nine row (or column) indices that keeps
      indices of one band (or stack) together. */
  /** A table of nine lines, each naming one of the nine. */
  predicate LineRange(m: seq<nat>) {
    |m| == 9 && forall x :: 0 <= x < 9 ==> m[x] < 9
  }

  predicate LineMap(m: seq<nat>) {
    && |m| == 9
    && (forall x :: 0 <= x < 9 ==> m[x] < 9)
    && (forall x, y :: 0 <= x < 9 && 0 <= y < 9 && x != y ==> m[x] != m[y])
    && (forall x, y :: 0 <= x < 9 && 0 <= y < 9 && x / 3 == y / 3 ==> m[x] / 3 == m[y] / 3)
  }

  /** A grid whose cell (i, j) is the old cell (fr[i], fc[j]), or
      (fc[j], fr[i]) when `swap` exchanges rows and columns, keeps every
      unit free of repeats: the move sends the cells of one unit to
      different cells of one unit. */
  lemma {:induction false} MovedNoClash(g: Grid, r: Grid, fr: seq<nat>, fc: seq<nat>, swap: bool)
    requires IsGrid(g) && IsGrid(r) && LineMap(fr) && LineMap(fc) && NoClash(g)
    requires forall i, j :: InGrid(i, j) ==> r[i][j] == if swap then g[fc[j]][fr[i]] else g[fr[i]][fc[j]]
    ensures NoClash(r)
  {
    forall i1, j1, i2, j2 | InGrid(i1, j1) && InGrid(i2, j2) && (i1 != i2 || j1 != j2) &&
      SameUnit(i1, j1, i2, j2) && r[i1][j1] == r[i2][j2]
      ensures r[i1][j1] == Dot
    {
      var a1, b1 := if swap then fc[j1] else fr[i1], if swap then fr[i1] else fc[j1];
      var a2, b2 := if swap then fc[j2] else fr[i2], if swap then fr[i2] else fc[j2];
      assert r[i1][j1] == g[a1][b1] && r[i2][j2] == g[a2][b2];
      assert InGrid(a1, b1) && InGrid(a2, b2);
      assert a1 != a2 || b1 != b2;
      assert SameUnit(a1, b1, a2, b2);
    }
  }

  /** The place of line `x` in its block of three. */
  lemma DivMod3(a: int, b: int)
    requires 0 <= b < 3
    ensures (3 * a + b) / 3 == a && (3 * a + b) % 3 == b
  {
  }

  /** Line `k` of block `b`. */
  function Place(b: int, k: int): int {
    3 * b + k
  }

  /** Line `3b + k` goes to place `rs[b][k]` of block `q[b]`. */
  function LineAt(q: seq<nat>, rs: seq<seq<nat>>, x: nat): nat
    requires IsPerm3(q) && |rs| == 3 && forall b :: 0 <= b < 3 ==> IsPerm3(rs[b])
    requires x < 9
  {
    var b := x / 3;
    assert IsPerm3(rs[b]);
    3 * q[b] + rs[b][x % 3]
  }

  /** The block-wise rearrangement of the nine lines given by `q` for the
      blocks and `rs[b]` inside block `b`. */
  function Lines(q: seq<nat>, rs: seq<seq<nat>>): (m: seq<nat>)
    requires IsPerm3(q) && |rs| == 3 && forall b :: 0 <= b < 3 ==> IsPerm3(rs[b])
    ensures |m| == 9 && forall x :: 0 <= x < 9 ==> m[x] == LineAt(q, rs, x)
  {
    seq(9, x requires 0 <= x < 9 => LineAt(q, rs, x))
  }

  /** Where line `x` goes, in blocks and places. */
  lemma LineSplit(q: seq<nat>, rs: seq<seq<nat>>, x: nat)
    requires IsPerm3(q) && |rs| == 3 && (forall b :: 0 <= b < 3 ==> IsPerm3(rs[b])) && x < 9
    ensures x == 3 * (x / 3) + x % 3 && x / 3 < 3
    ensures LineAt(q, rs, x) < 9
    ensures LineAt(q, rs, x) / 3 == q[x / 3]
    ensures LineAt(q, rs, x) % 3 == rs[x / 3][x % 3]
  {
    assert IsPerm3(rs[x / 3]);
    DivMod3(q[x / 3], rs[x / 3][x % 3]);
  }

  /** Block-wise rearrangements keep bands together and lose no line. */
  lemma LinesMap(q: seq<nat>, rs: seq<seq<nat>>)
    requires IsPerm3(q) && |rs| == 3 && forall b :: 0 <= b < 3 ==> IsPerm3(rs[b])
    ensures LineMap(Lines(q, rs))
  {
    var m := Lines(q, rs);
    forall x | 0 <= x < 9
      ensures m[x] < 9
    {
      LineSplit(q, rs, x);
    }
    forall x, y | 0 <= x < 9 && 0 <= y < 9 && x != y
      ensures m[x] != m[y]
    {
      LineSplit(q, rs, x);
      LineSplit(q, rs, y);
      if x / 3 == y / 3 {
        assert IsPerm3(rs[x / 3]);
      }
    }
    forall x, y | 0 <= x < 9 && 0 <= y < 9 && x / 3 == y / 3
      ensures m[x] / 3 == m[y] / 3
    {
      LineSplit(q, rs, x);
      LineSplit(q, rs, y);
    }
  }

  const Keep: seq<nat> := [0, 1, 2]
  const Flip: seq<nat> := [2, 1, 0]

  lemma KeepFlipPerm3()
    ensures IsPerm3(Keep) && IsPerm3(Flip)
  {
  }

  /** Line `x` stays line `x`. */
  function IdLines(): (m: seq<nat>)
    ensures LineRange(m) && forall x :: 0 <= x < 9 ==> m[x] == x
  {
    KeepFlipPerm3();
    LinesMap(Keep, [Keep, Keep, Keep]);
    var m := Lines(Keep, [Keep, Keep, Keep]);
    forall x | 0 <= x < 9
      ensures m[x] == x
    {
      LineSplit(Keep, [Keep, Keep, Keep], x);
    }
    m
  }

  /** Line `x` goes to line `8 - x`. */
  function FlipLines(): (m: seq<nat>)
    ensures LineRange(m) && forall x :: 0 <= x < 9 ==> m[x] == 8 - x
  {
    KeepFlipPerm3();
    LinesMap(Flip, [Flip, Flip, Flip]);
    var m := Lines(Flip, [Flip, Flip, Flip]);
    forall x | 0 <= x < 9
      ensures m[x] == 8 - x
    {
      LineSplit(Flip, [Flip, Flip, Flip], x);
      DivMod3(m[x] / 3, m[x] % 3);
    }
    m
  }

  /** Line `3b + k` comes from line `k` of block `p[b]`. */
  function BlockLines(p: seq<nat>): (m: seq<nat>)
    requires IsPerm3(p)
    ensures LineRange(m) && forall b, k :: 0 <= b < 3 && 0 <= k < 3 ==> m[Place(b, k)] == Place(p[b], k)
  {
    KeepFlipPerm3();
    LinesMap(p, [Keep, Keep, Keep]);
    var m := Lines(p, [Keep, Keep, Keep]);
    forall b, k | 0 <= b < 3 && 0 <= k < 3
      ensures m[Place(b, k)] == Place(p[b], k)
    {
      DivMod3(b, k);
    }
    m
  }

  /** Line `3b + k` comes from line `ps[b][k]` of its own block. */
  function WithinLines(ps: seq<seq<nat>>): (m: seq<nat>)
    requires |ps| == 3 && forall b :: 0 <= b < 3 ==> IsPerm3(ps[b])
    ensures LineRange(m)
    ensures forall b, k :: 0 <= b < 3 && 0 <= k < 3 && IsPerm3(ps[b]) ==> m[Place(b, k)] == Place(b, ps[b][k])
  {
    KeepFlipPerm3();
    LinesMap(Keep, ps);
    var m := Lines(Keep, ps);
    forall b, k | 0 <= b < 3 && 0 <= k < 3 && IsPerm3(ps[b])
      ensures m[Place(b, k)] == Place(b, ps[b][k])
    {
      assert IsPerm3(ps[b]);
      DivMod3(b, k);
    }
    m
  }

  lemma IdLinesMap()
    ensures LineMap(IdLines())
  {
    KeepFlipPerm3();
    LinesMap(Keep, [Keep, Keep, Keep]);
  }

  lemma FlipLinesMap()
    ensures LineMap(FlipLines())
  {
    KeepFlipPerm3();
    LinesMap(Flip, [Flip, Flip, Flip]);
  }

  lemma BlockLinesMap(p: seq<nat>)
    requires IsPerm3(p)
    ensures LineMap(BlockLines(p))
  {
    KeepFlipPerm3();
    LinesMap(p, [Keep, Keep, Keep]);
  }

  lemma WithinLinesMap(ps: seq<seq<nat>>)
    requires |ps| == 3 && forall b :: 0 <= b < 3 ==> IsPerm3(ps[b])
    ensures LineMap(WithinLines(ps))
  {
    KeepFlipPerm3();
    LinesMap(Keep, ps);
  }

  /** Relabelling a puzzle with a shuffle of the digits keeps every unit
      free of repeats: it fixes `.` and never merges two cells. */
  lemma RelabelNoClash(g: Grid, d: string)
    requires PuzzleGrid(g) && IsDigitPerm(d) && NoClash(g)
    ensures NoClash(Relabel(g, d))
  {
    var r := Relabel(g, d);
    PuzzleIsFilled(g);
    forall i1, j1, i2, j2 | InGrid(i1, j1) && InGrid(i2, j2) && (i1 != i2 || j1 != j2) &&
      SameUnit(i1, j1, i2, j2) && r[i1][j1] == r[i2][j2]
      ensures r[i1][j1] == Dot
    {
      RelabelBijective(g[i1][j1], g[i2][j2], d);
    }
  }

  /** A quarter turn takes cell (i, j) from (8 - j, i). */
  lemma Rotate90Moves(g: Grid)
    requires IsGrid(g)
    ensures forall i, j :: InGrid(i, j) ==> Rotate90(g)[i][j] == g[FlipLines()[j]][IdLines()[i]]
  {
    var r := Rotate90(g);
    forall i, j | InGrid(i, j)
      ensures r[i][j] == g[FlipLines()[j]][IdLines()[i]]
    {
      assert r[i][8 - (8 - j)] == g[8 - j][i];
    }
  }

  lemma {:induction false} RotateTimesNoClash(g: Grid, n: nat)
    requires IsGrid(g) && NoClash(g)
    ensures NoClash(RotateTimes(g, n))
    decreases n
  {
    if n > 0 {
      var h := Rotate90(g);
      Rotate90NoClash(g);
      RotateTimesNoClash(h, n - 1);
      assert RotateTimes(g, n) == RotateTimes(h, n - 1);
    } else {
      assert RotateTimes(g, n) == g;
    }
  }

  lemma Rotate90NoClash(g: Grid)
    requires IsGrid(g) && NoClash(g)
    ensures NoClash(Rotate90(g))
  {
    Rotate90Moves(g);
    IdLinesMap();
    FlipLinesMap();
    MovedNoClash(g, Rotate90(g), IdLines(), FlipLines(), true);
  }

  lemma MirrorNoClash(g: Grid, rows: bool, grid: bool)
    requires IsGrid(g) && NoClash(g)
    ensures var h := if rows then MirrorHorizontal(g) else g;
      NoClash(h) && NoClash(if grid then MirrorVertical(h) else h)
  {
    var h := if rows then MirrorHorizontal(g) else g;
    if rows {
      IdLinesMap();
      FlipLinesMap();
      MovedNoClash(g, h, IdLines(), FlipLines(), false);
    }
    if grid {
      IdLinesMap();
      FlipLinesMap();
      MovedNoClash(h, MirrorVertical(h), FlipLines(), IdLines(), false);
    }
  }

  lemma TransposeNoClash(g: Grid)
    requires IsGrid(g) && NoClash(g)
    ensures NoClash(Transpose(g))
  {
    var r := Transpose(g);
    forall i, j | InGrid(i, j)
      ensures r[i][j] == g[IdLines()[j]][IdLines()[i]]
    {
      assert r[i][j] == g[j][i];
    }
    IdLinesMap();
    MovedNoClash(g, r, IdLines(), IdLines(), true);
  }

  /** After the band swap, cell (3b + k, j) comes from (3p[b] + k, j). */
  lemma BandSwapsMove(g: Grid, p: seq<nat>)
    requires IsGrid(g) && IsPerm3(p)
    ensures forall i, j :: InGrid(i, j) ==> BandSwaps(g, p)[i][j] == g[BlockLines(p)[i]][IdLines()[j]]
  {
    var r := BandSwaps(g, p);
    var m := BlockLines(p);
    forall i, j | InGrid(i, j)
      ensures r[i][j] == g[m[i]][IdLines()[j]]
    {
      var b, k := i / 3, i % 3;
      assert i == Place(b, k);
      assert r[i] == Block(r, b)[k];
      assert m[Place(b, k)] == Place(p[b], k);
      assert Block(g, p[b])[k] == g[Place(p[b], k)];
    }
  }

  lemma BandSwapsNoClash(g: Grid, p: seq<nat>)
    requires IsGrid(g) && IsPerm3(p) && NoClash(g)
    ensures NoClash(BandSwaps(g, p))
  {
    BandSwapsMove(g, p);
    IdLinesMap();
    BlockLinesMap(p);
    MovedNoClash(g, BandSwaps(g, p), BlockLines(p), IdLines(), false);
  }

  /** After the stack swap, cell (i, 3s + k) comes from (i, 3p[s] + k). */
  lemma StackSwapsMove(g: Grid, p: seq<nat>)
    requires IsGrid(g) && IsPerm3(p)
    ensures forall i, j :: InGrid(i, j) ==> StackSwaps(g, p)[i][j] == g[IdLines()[i]][BlockLines(p)[j]]
  {
    var r := StackSwaps(g, p);
    var m := BlockLines(p);
    forall i, j | InGrid(i, j)
      ensures r[i][j] == g[IdLines()[i]][m[j]]
    {
      var s, k := j / 3, j % 3;
      assert j == Place(s, k);
      assert r[i][j] == Block(r[i], s)[k];
      assert m[Place(s, k)] == Place(p[s], k);
      assert Block(g[i], p[s])[k] == g[i][Place(p[s], k)];
    }
  }

  lemma StackSwapsNoClash(g: Grid, p: seq<nat>)
    requires IsGrid(g) && IsPerm3(p) && NoClash(g)
    ensures NoClash(StackSwaps(g, p))
  {
    StackSwapsMove(g, p);
    IdLinesMap();
    BlockLinesMap(p);
    MovedNoClash(g, StackSwaps(g, p), IdLines(), BlockLines(p), false);
  }

  /** After the row swaps, row 3b + k comes from row 3b + ps[b][k]. */
  lemma RowSwapsMove(g: Grid, ps: seq<seq<nat>>)
    requires IsGrid(g) && |ps| == 3 && forall b :: 0 <= b < 3 ==> IsPerm3(ps[b])
    ensures forall i, j :: InGrid(i, j) ==> RowSwapsInBands(g, ps)[i][j] == g[WithinLines(ps)[i]][IdLines()[j]]
  {
    forall i, j | InGrid(i, j) {
      RowSwapsAt(g, ps, i, j);
    }
  }

  lemma RowSwapsAt(g: Grid, ps: seq<seq<nat>>, i: nat, j: nat)
    requires IsGrid(g) && |ps| == 3 && forall b :: 0 <= b < 3 ==> IsPerm3(ps[b])
    requires InGrid(i, j)
    ensures RowSwapsInBands(g, ps)[i][j] == g[WithinLines(ps)[i]][IdLines()[j]]
  {
    var m := WithinLines(ps);
    var b, k := i / 3, i % 3;
    assert i == Place(b, k);
    assert IsPerm3(ps[b]);
    PermutedBlockAt(g, RowSwapsInBands(g, ps), ps[b], b, k);
    assert m[Place(b, k)] == Place(b, ps[b][k]);
  }

  /** When block `b` of `y` is block `b` of `x` rearranged by `p`, place
      `k` of that block in `y` holds place `p[k]` of it in `x`. */
  lemma PermutedBlockAt<T>(x: seq<T>, y: seq<T>, p: seq<nat>, b: nat, k: nat)
    requires |x| == 9 && |y| == 9 && IsPerm3(p) && b < 3 && k < 3
    requires Block(y, b) == Permute3(Block(x, b), p)
    ensures y[Place(b, k)] == x[Place(b, p[k])]
  {
    assert y[Place(b, k)] == Block(y, b)[k];
    assert Block(x, b)[p[k]] == x[Place(b, p[k])];
  }

  lemma RowSwapsNoClash(g: Grid, ps: seq<seq<nat>>)
    requires IsGrid(g) && |ps| == 3 && (forall b :: 0 <= b < 3 ==> IsPerm3(ps[b])) && NoClash(g)
    ensures NoClash(RowSwapsInBands(g, ps))
  {
    RowSwapsMove(g, ps);
    IdLinesMap();
    WithinLinesMap(ps);
    MovedNoClash(g, RowSwapsInBands(g, ps), WithinLines(ps), IdLines(), false);
  }

  /** On a filled grid, after the column swaps, column 3s + k comes from
      column 3s + ps[s][k]. */
  lemma ColumnSwapsMove(g: Grid, ps: seq<seq<nat>>)
    requires IsGrid(g) && Filled(g) && |ps| == 3 && forall b :: 0 <= b < 3 ==> IsPerm3(ps[b])
    ensures forall i, j :: InGrid(i, j) ==> ColumnSwapsInStacks(g, ps)[i][j] == g[IdLines()[i]][WithinLines(ps)[j]]
  {
    forall i, j | InGrid(i, j) {
      ColumnSwapsAt(g, ps, i, j);
    }
  }

  lemma ColumnSwapsAt(g: Grid, ps: seq<seq<nat>>, i: nat, j: nat)
    requires IsGrid(g) && Filled(g) && |ps| == 3 && forall b :: 0 <= b < 3 ==> IsPerm3(ps[b])
    requires InGrid(i, j)
    ensures ColumnSwapsInStacks(g, ps)[i][j] == g[IdLines()[i]][WithinLines(ps)[j]]
  {
    var m := WithinLines(ps);
    var s, k := j / 3, j % 3;
    assert j == Place(s, k);
    assert IsPerm3(ps[s]);
    PermutedRowAt(g[i], ps, s, k);
    assert m[Place(s, k)] == Place(s, ps[s][k]);
  }

  /** Place `k` of stack `s` of a row whose stacks are each rearranged. */
  lemma PermutedRowAt(row: seq<Cell>, ps: seq<seq<nat>>, s: nat, k: nat)
    requires |row| == 9 && |ps| == 3 && (forall b :: 0 <= b < 3 ==> IsPerm3(ps[b]))
    requires s < 3 && k < 3
    ensures IsPerm3(ps[s])
    ensures (Permute3(Block(row, 0), ps[0]) + Permute3(Block(row, 1), ps[1]) + Permute3(Block(row, 2), ps[2]))[Place(s, k)]
      == row[Place(s, ps[s][k])]
  {
    var x0, x1, x2 := Permute3(Block(row, 0), ps[0]), Permute3(Block(row, 1), ps[1]), Permute3(Block(row, 2), ps[2]);
    assert IsPerm3(ps[s]);
    Concat3At(x0, x1, x2, s, k);
    var c := ps[s][k];
    if s == 0 {
      assert x0[k] == Block(row, 0)[c];
    } else if s == 1 {
      assert x1[k] == Block(row, 1)[c];
    } else {
      assert x2[k] == Block(row, 2)[c];
    }
    assert Block(row, s)[c] == row[s * 3 + c];
  }

  /** Place `k` of block `s` of three concatenated triples. */
  lemma Concat3At<T>(a: seq<T>, b: seq<T>, c: seq<T>, s: nat, k: nat)
    requires |a| == 3 && |b| == 3 && |c| == 3 && s < 3 && k < 3
    ensures (a + b + c)[Place(s, k)] == Pick(s, a, b, c)[k]
  {
  }

  lemma ColumnSwapsNoClash(g: Grid, ps: seq<seq<nat>>)
    requires IsGrid(g) && Filled(g) && |ps| == 3 && (forall b :: 0 <= b < 3 ==> IsPerm3(ps[b])) && NoClash(g)
    ensures NoClash(ColumnSwapsInStacks(g, ps))
  {
    ColumnSwapsMove(g, ps);
    IdLinesMap();
    WithinLinesMap(ps);
    MovedNoClash(g, ColumnSwapsInStacks(g, ps), IdLines(), WithinLines(ps), false);
  }

  /** Every operation keeps a puzzle's rows, columns and boxes free of
      repeated digits. */
  lemma ApplyNoClash(g: Grid, op: Op, ch: Choices)
    requires PuzzleGrid(g) && ValidChoices(ch) && NoClash(g)
    ensures NoClash(Apply(g, op, ch))
  {
    match op
    case Rotation => RotateTimesNoClash(g, ch.rotations);
    case Mirror => MirrorNoClash(g, ch.mirrorRows, ch.mirrorGrid);
    case BandSwap => BandSwapsNoClash(g, Perm3From(ch.bands));
    case StackSwap => StackSwapsNoClash(g, Perm3From(ch.stacks));
    case RowSwap => RowSwapsNoClash(g, Perms3From(ch.rowsInBands));
    case ColumnSwap =>
      PuzzleIsFilled(g);
      ColumnSwapsNoClash(g, Perms3From(ch.colsInStacks));
    case DigitRelabel => RelabelNoClash(g, DigitsFrom(ch.digits));
    case MaybeTranspose =>
      if ch.transpose {
        TransposeNoClash(g);
      }
  }

  lemma {:induction false} ApplyAllNoClash(g: Grid, ops: seq<Op>, ch: Choices)
    requires PuzzleGrid(g) && ValidChoices(ch) && NoClash(g)
    ensures NoClash(ApplyAll(g, ops, ch))
    decreases |ops|
  {
    if |ops| > 0 {
      ApplyPuzzle(g, ops[0], ch);
      ApplyNoClash(g, ops[0], ch);
      ApplyAllNoClash(Apply(g, ops[0], ch), ops[1..], ch);
    }
  }

  /** A puzzle string none of whose rows, columns or boxes repeats a digit. */
  predicate ValidPuzzleString(s: string) {
    IsPuzzleString(s) && NoClash(ParseString(s).value)
  }

  /** Scrambling keeps the puzzle's logical structure: a puzzle with no
      repeated digit in any row, column or box scrambles to one with the
      same property, whatever the random outcomes. */
  lemma ScrambleKeepsUnits(s: string, ch: Choices)
    requires ValidPuzzleString(s) && ValidChoices(ch)
    ensures Scramble(s, ch).Ok? && ValidPuzzleString(Scramble(s, ch).value)
  {
    var g := ParseString(s).value;
    ParsedPuzzle(s);
    var ops := Shuffle(Operations, ch.order);
    var h := ApplyAll(g, ops, ch);
    ApplyAllPuzzle(g, ops, ch);
    ApplyAllNoClash(g, ops, ch);
    ScramblePuzzle(s, ch);
    PuzzleIsFilled(h);
    PrintThenParse(h);
  }
}

=== FILE: seed_reader.dfy ===
/** The sudoku seed reader: tab-separated seed files with a header row,
    one puzzle per further non-blank line, and a random selection per
    difficulty following a fixed bell curve. The file system and
    `Math.random` are parameters: file contents (or the error reading
    them) and the drawn indices. */
module SeedReader {
  import opened Wrappers
  import opened Text

  const Tab: char := '\t'
  const Newline: char := '\n'

  // ---------------------------------------------------------------------
  // parseRow

  /** `values[index] || ''`: the value at that index, or the empty string
      when the row is too short (an empty value is `''` either way). */
  function ValueAt(values: seq<string>, i: nat): string {
    if i < |values| then values[i] else ""
  }

  /** No later header (before `n`) repeats the header at `k`: its value is
      the one that stays. */
  predicate LastOccurrence(headers: seq<string>, k: nat, n: nat)
    requires k < n <= |headers|
  {
    forall k' :: k < k' < n ==> headers[k'] != headers[k]
  }

  /** The object `forEach` has built after the first `n` headers. */
  function FieldsUpTo(headers: seq<string>, values: seq<string>, n: nat): map<string, string>
    requires n <= |headers|
    decreases n
  {
    if n == 0 then map[]
    else FieldsUpTo(headers, values, n - 1)[headers[n - 1] := ValueAt(values, n - 1)]
  }

  /** After `n` headers the object has exactly those headers as keys. */
  lemma {:induction false} FieldsUpToKeys(headers: seq<string>, values: seq<string>, n: nat)
    requires n <= |headers|
    ensures forall k :: 0 <= k < n ==> headers[k] in FieldsUpTo(headers, values, n)
    ensures forall h :: h in FieldsUpTo(headers, values, n) ==> h in headers[..n]
    decreases n
  {
    if n > 0 {
      FieldsUpToKeys(headers, values, n - 1);
      assert headers[..n] == headers[..n - 1] + [headers[n - 1]];
    }
  }

  /** A header that does not occur again holds the value at its position. */
  lemma {:induction false} FieldAt(headers: seq<string>, values: seq<string>, n: nat, k: nat)
    requires k < n <= |headers| && LastOccurrence(headers, k, n)
    ensures headers[k] in FieldsUpTo(headers, values, n) && FieldsUpTo(headers, values, n)[headers[k]] == ValueAt(values, k)
    decreases n
  {
    if k < n - 1 {
      assert headers[n - 1] != headers[k];
      FieldAt(headers, values, n - 1, k);
    }
  }

  /** `parseRow`: every header mapped to the tab-separated value at its
      position; a repeated header keeps its last value. */
  function ParseRow(row: string, headers: seq<string>): (m: map<string, string>)
    ensures forall k :: 0 <= k < |headers| ==> headers[k] in m
    ensures forall h :: h in m ==> h in headers
  {
    assert headers[..|headers|] == headers;
    FieldsUpToKeys(headers, Split(row, Tab), |headers|);
    FieldsUpTo(headers, Split(row, Tab), |headers|)
  }

  /** Only the values at header positions matter. */
  lemma {:induction false} FieldsAgree(headers: seq<string>, v1: seq<string>, v2: seq<string>, n: nat)
    requires n <= |headers|
    requires forall k :: 0 <= k < n ==> ValueAt(v1, k) == ValueAt(v2, k)
    ensures FieldsUpTo(headers, v1, n) == FieldsUpTo(headers, v2, n)
    decreases n
  {
    if n > 0 {
      FieldsAgree(headers, v1, v2, n - 1);
      var m, x := FieldsUpTo(headers, v1, n - 1), ValueAt(v1, n - 1);
      assert FieldsUpTo(headers, v1, n) == m[headers[n - 1] := x] by {
        FieldsUpToStep(headers, v1, n);
      }
      assert FieldsUpTo(headers, v2, n) == m[headers[n - 1] := x] by {
        FieldsUpToStep(headers, v2, n);
      }
    }
  }

  lemma FieldsUpToStep(headers: seq<string>, values: seq<string>, n: nat)
    requires 0 < n <= |headers|
    ensures FieldsUpTo(headers, values, n) == FieldsUpTo(headers, values, n - 1)[headers[n - 1] := ValueAt(values, n - 1)]
  {
  }

  /** Values beyond the last header are ignored. */
  lemma ExtraValuesIgnored(row: string, extra: string, headers: seq<string>)
    requires |Split(row, Tab)| >= |headers|
    ensures ParseRow(row + [Tab] + extra, headers) == ParseRow(row, headers)
  {
    SplitConcat(row, extra, Tab);
    var v1, v2 := Split(row + [Tab] + extra, Tab), Split(row, Tab);
    forall k | 0 <= k < |headers|
      ensures ValueAt(v1, k) == ValueAt(v2, k)
    {
      assert v1[k] == v2[k];
    }
    FieldsAgree(headers, v1, v2, |headers|);
  }

  /** A short row leaves the remaining headers empty. */
  lemma MissingValuesEmpty(row: string, headers: seq<string>, k: nat)
    requires k < |headers| && LastOccurrence(headers, k, |headers|)
    requires |Split(row, Tab)| <= k
    ensures ParseRow(row, headers)[headers[k]] == ""
  {
    FieldAt(headers, Split(row, Tab), |headers|, k);
  }

  /** Each header holds the value in its column, the last one when repeated. */
  lemma ParseRowValue(row: string, headers: seq<string>, k: nat)
    requires k < |headers| && LastOccurrence(headers, k, |headers|)
    ensures ParseRow(row, headers)[headers[k]] == ValueAt(Split(row, Tab), k)
  {
    FieldAt(headers, Split(row, Tab), |headers|, k);
  }

  // ---------------------------------------------------------------------
  // mapDifficulty

  /** `SudokuCoachPuzzleDifficulty`. */
  datatype Difficulty = VeryEasy | Easy | ModeratelyEasy | Moderate | ModeratelyHard | Hard
                      | Vicious | Fiendish | Devilish | Hell | BeyondHell

  /** The label the seed files use for each difficulty. */
  function Label(d: Difficulty): string {
    match d
    case VeryEasy => "Very Easy"
    case Easy => "Easy"
    case ModeratelyEasy => "Moderately Easy"
    case Moderate => "Moderate"
    case ModeratelyHard => "Moderately Hard"
    case Hard => "Hard"
    case Vicious => "Vicious"
    case Fiendish => "Fiendish"
    case Devilish => "Devilish"
    case Hell => "Hell"
    case BeyondHell => "Beyond Hell"
  }

  /** `mapDifficulty`: the difficulty whose label the text is, or
      MODERATE for anything else. A missing `Difficulty` column reads as
      `undefined`, which is no label. */
  function MapDifficulty(text: Option<string>): (d: Difficulty)
    ensures text.None? ==> d == Moderate
    ensures d != Moderate ==> text.Some? && Label(d) == text.value
    ensures forall e :: text == Some(Label(e)) ==> d == e
  {
    match text
    case None => Moderate
    case Some(s) =>
      if s == "Very Easy" then VeryEasy
      else if s == "Easy" then Easy
      else if s == "Moderately Easy" then ModeratelyEasy
      else if s == "Moderate" then Moderate
      else if s == "Moderately Hard" then ModeratelyHard
      else if s == "Hard" then Hard
      else if s == "Vicious" then Vicious
      else if s == "Fiendish" then Fiendish
      else if s == "Devilish" then Devilish
      else if s == "Hell" then Hell
      else if s == "Beyond Hell" then BeyondHell
      else Moderate
  }

  /** Reading a label back gives its difficulty, and a text that is no
      label gives MODERATE. */
  lemma MapDifficultyRoundTrip(d: Difficulty, s: string)
    ensures MapDifficulty(Some(Label(d))) == d
    ensures (forall e :: Label(e) != s) ==> MapDifficulty(Some(s)) == Moderate
  {
  }

  // ---------------------------------------------------------------------
  // mapRowToPuzzle (text fields) and readSeedFile (content part)

  /** The puzzle fields that are not numbers read with `parseInt`/`parseFloat`. */
  datatype Puzzle = Puzzle(initial: string, final: string, coach: Difficulty)

  /** `row[key] || ''`. */
  function Field(row: map<string, string>, key: string): string {
    if key in row then row[key] else ""
  }

  function MapRowToPuzzle(row: map<string, string>): (p: Puzzle)
    ensures "Sudoku" !in row ==> p.initial == ""
    ensures "Solution" !in row ==> p.final == ""
    ensures "Sudoku" in row ==> p.initial == row["Sudoku"]
    ensures "Solution" in row ==> p.final == row["Solution"]
    ensures "Difficulty" !in row ==> p.coach == Moderate
  {
    Puzzle(Field(row, "Sudoku"), Field(row, "Solution"),
           MapDifficulty(if "Difficulty" in row then Some(row["Difficulty"]) else None))
  }

  /** ECMAScript white space and line terminators, which `trim` removes. */
  predicate IsTrimmed(c: char) {
    || c == '\t' || c == '\n' || c == '\U{000B}' || c == '\U{000C}' || c == '\r' || c == ' '
    || c == '\U{00A0}' || c == '\U{1680}' || ('\U{2000}' <= c <= '\U{200A}')
    || c == '\U{2028}' || c == '\U{2029}' || c == '\U{202F}' || c == '\U{205F}'
    || c == '\U{3000}' || c == '\U{FEFF}'
  }

  /** `line.trim()` is falsy: the line is empty or all white space. */
  predicate IsBlank(line: string) {
    forall k :: 0 <= k < |line| ==> IsTrimmed(line[k])
  }

  /** `.filter((line) => line.trim())`. */
  function NonBlank(lines: seq<string>): (r: seq<string>)
    ensures |r| <= |lines|
    ensures forall i :: 0 <= i < |r| ==> !IsBlank(r[i])
  {
    if |lines| == 0 then []
    else
      var rest := NonBlank(lines[1..]);
      if IsBlank(lines[0]) then rest else [lines[0]] + rest
  }

  /** The filter keeps exactly the non-blank lines. */
  lemma {:induction false} NonBlankMembers(lines: seq<string>)
    ensures forall i :: 0 <= i < |NonBlank(lines)| ==> NonBlank(lines)[i] in lines
    ensures forall i :: 0 <= i < |lines| && !IsBlank(lines[i]) ==> lines[i] in NonBlank(lines)
    decreases |lines|
  {
    if |lines| > 0 {
      NonBlankMembers(lines[1..]);
      assert forall i :: 1 <= i < |lines| ==> lines[i] == lines[1..][i - 1];
    }
  }

  /** Filtering keeps a list whose lines are all non-blank. */
  lemma {:induction false} NonBlankKeepsAll(lines: seq<string>)
    requires forall i :: 0 <= i < |lines| ==> !IsBlank(lines[i])
    ensures NonBlank(lines) == lines
    decreases |lines|
  {
    if |lines| > 0 {
      NonBlankKeepsAll(lines[1..]);
    }
  }

  const TooShort: string := "Seed file must contain at least a header row and one data row"

  /** The part of `readSeedFile` after the file is read: fewer than two
      non-blank lines throw; otherwise the first gives the headers and
      every later one a puzzle, in order. */
  function ReadSeedContent(content: string): (r: Result<seq<Puzzle>, Failure>)
    ensures var lines := NonBlank(Split(content, Newline));
      && (r.Err? <==> |lines| < 2)
      && (r.Err? ==> r.error == Thrown(TooShort))
      && (r.Ok? ==> |r.value| == |lines| - 1)
  {
    var lines := NonBlank(Split(content, Newline));
    if |lines| < 2 then Err(Thrown(TooShort))
    else
      var headers := Split(lines[0], Tab);
      Ok(seq(|lines| - 1, i requires 0 <= i < |lines| - 1 => MapRowToPuzzle(ParseRow(lines[i + 1], headers))))
  }

  /** Reading a file written as a header line and one tab-separated line
      per row gives one puzzle per row, each with the value under its
      `Sudoku` and `Solution` headers. */
  lemma SeedFileRoundTrip(headers: seq<string>, rows: seq<seq<string>>, s: nat, f: nat)
    requires |headers| >= 1 && |rows| >= 1
    requires forall k :: 0 <= k < |headers| ==> Tab !in headers[k] && Newline !in headers[k]
    requires forall i, k :: 0 <= i < |rows| && 0 <= k < |rows[i]| ==> Tab !in rows[i][k] && Newline !in rows[i][k]
    requires forall i :: 0 <= i < |rows| ==> exists k :: 0 <= k < |rows[i]| && !IsBlank(rows[i][k])
    requires s < |headers| && headers[s] == "Sudoku" && LastOccurrence(headers, s, |headers|)
    requires f < |headers| && headers[f] == "Solution" && LastOccurrence(headers, f, |headers|)
    ensures var lines := [Join(headers, Tab)] + seq(|rows|, i requires 0 <= i < |rows| => Join(rows[i], Tab));
      var r := ReadSeedContent(Join(lines, Newline));
      && r.Ok? && |r.value| == |rows|
      && forall i :: 0 <= i < |rows| ==>
           r.value[i].initial == ValueAt(rows[i], s) && r.value[i].final == ValueAt(rows[i], f)
  {
    var lines := [Join(headers, Tab)] + seq(|rows|, i requires 0 <= i < |rows| => Join(rows[i], Tab));
    forall i | 0 <= i < |lines|
      ensures Newline !in lines[i] && !IsBlank(lines[i])
    {
      if i == 0 {
        JoinWithout(headers, Tab, Newline);
        assert !IsTrimmed(headers[s][0]);
        JoinNotBlank(headers, Tab, s);
      } else {
        JoinWithout(rows[i - 1], Tab, Newline);
        var k :| 0 <= k < |rows[i - 1]| && !IsBlank(rows[i - 1][k]);
        JoinNotBlank(rows[i - 1], Tab, k);
      }
    }
    SplitJoin(lines, Newline);
    NonBlankKeepsAll(lines);
    SplitJoin(headers, Tab);
    var r := ReadSeedContent(Join(lines, Newline));
    ContentRows(Join(lines, Newline), lines);
    forall i | 0 <= i < |rows|
      ensures r.value[i].initial == ValueAt(rows[i], s) && r.value[i].final == ValueAt(rows[i], f)
    {
      assert lines[i + 1] == Join(rows[i], Tab);
      RowFields(rows[i], headers, s, f);
    }
  }

  /** A line joined from cells is blank only when every cell is. */
  lemma {:induction false} JoinNotBlank(parts: seq<string>, c: char, k: nat)
    requires k < |parts| && !IsBlank(parts[k])
    ensures !IsBlank(Join(parts, c))
    decreases |parts|
  {
    if |parts| > 1 {
      var j := Join(parts, c);
      assert j == parts[0] + [c] + Join(parts[1..], c);
      if k == 0 {
        var w :| 0 <= w < |parts[0]| && !IsTrimmed(parts[0][w]);
        assert j[w] == parts[0][w];
      } else {
        JoinNotBlank(parts[1..], c, k - 1);
        var rest := Join(parts[1..], c);
        var w :| 0 <= w < |rest| && !IsTrimmed(rest[w]);
        assert j[|parts[0]| + 1 + w] == rest[w];
      }
    }
  }

  /** Each data line becomes the puzzle of its parsed row. */
  lemma ContentRows(content: string, lines: seq<string>)
    requires NonBlank(Split(content, Newline)) == lines && |lines| >= 2
    ensures ReadSeedContent(content).Ok?
    ensures forall i :: 0 <= i < |lines| - 1 ==>
      ReadSeedContent(content).value[i] == MapRowToPuzzle(ParseRow(lines[i + 1], Split(lines[0], Tab)))
  {
    var headers := Split(lines[0], Tab);
    var puzzles := seq(|lines| - 1, i requires 0 <= i < |lines| - 1 => MapRowToPuzzle(ParseRow(lines[i + 1], headers)));
    assert ReadSeedContent(content) == Ok(puzzles);
  }

  /** A line written from values reads back the values under the
      `Sudoku` and `Solution` headers. */
  lemma RowFields(values: seq<string>, headers: seq<string>, s: nat, f: nat)
    requires |values| >= 1 && forall k :: 0 <= k < |values| ==> Tab !in values[k]
    requires s < |headers| && headers[s] == "Sudoku" && LastOccurrence(headers, s, |headers|)
    requires f < |headers| && headers[f] == "Solution" && LastOccurrence(headers, f, |headers|)
    ensures MapRowToPuzzle(ParseRow(Join(values, Tab), headers)).initial == ValueAt(values, s)
    ensures MapRowToPuzzle(ParseRow(Join(values, Tab), headers)).final == ValueAt(values, f)
  {
    SplitJoin(values, Tab);
    ParseRowValue(Join(values, Tab), headers, s);
    ParseRowValue(Join(values, Tab), headers, f);
  }

  /** Joining strings without a character, on a different character,
      gives a string without it. */
  lemma {:induction false} JoinWithout(parts: seq<string>, sep: char, c: char)
    requires sep != c
    requires forall k :: 0 <= k < |parts| ==> c !in parts[k]
    ensures c !in Join(parts, sep)
    decreases |parts|
  {
    if |parts| > 1 {
      JoinWithout(parts[1..], sep, c);
    }
  }

  // ---------------------------------------------------------------------
  // DIFFICULTY_DISTRIBUTION and selectRandomPuzzles

  /** File name stem and number of puzzles to select, in order. */
  const Distribution: seq<(string, nat)> := [
    ("1-very-easy", 1), ("2-easy", 3), ("3-moderately-easy", 6), ("4-moderate", 10),
    ("5-moderately-hard", 12), ("6-hard", 10), ("7-vicious", 6), ("8-fiendish", 3),
    ("9-devilish", 2), ("10-hell", 1), ("11-beyond-hell", 1)]

  function Total(d: seq<(string, nat)>): nat {
    if |d| == 0 then 0 else d[0].1 + Total(d[1..])
  }

  /** The bell curve selects fifty-five puzzles in all (its comment says fifty). */
  lemma DistributionTotal()
    ensures |Distribution| == 11 && Total(Distribution) == 55
  {
    var d := Distribution;
    assert Total(d[11..]) == 0;
    assert Total(d[10..]) == 1 by { assert d[10..][1..] == d[11..]; }
    assert Total(d[9..]) == 2 by { assert d[9..][1..] == d[10..]; }
    assert Total(d[8..]) == 4 by { assert d[8..][1..] == d[9..]; }
    assert Total(d[7..]) == 7 by { assert d[7..][1..] == d[8..]; }
    assert Total(d[6..]) == 13 by { assert d[6..][1..] == d[7..]; }
    assert Total(d[5..]) == 23 by { assert d[5..][1..] == d[6..]; }
    assert Total(d[4..]) == 35 by { assert d[4..][1..] == d[5..]; }
    assert Total(d[3..]) == 45 by { assert d[3..][1..] == d[4..]; }
    assert Total(d[2..]) == 51 by { assert d[2..][1..] == d[3..]; }
    assert Total(d[1..]) == 54 by { assert d[1..][1..] == d[2..]; }
    assert d[0..] == d;
  }

  predicate Distinct(xs: seq<nat>) {
    forall a, b :: 0 <= a < b < |xs| ==> xs[a] != xs[b]
  }

  /** A list of distinct numbers has as many elements as its set. */
  lemma {:induction false} DistinctCard(xs: seq<nat>)
    requires Distinct(xs)
    ensures |set k | 0 <= k < |xs| :: xs[k]| == |xs|
    decreases |xs|
  {
    if |xs| > 0 {
      var n := |xs| - 1;
      var init := xs[..n];
      DistinctCard(init);
      var s := set k | 0 <= k < n :: init[k];
      assert (set k | 0 <= k < |xs| :: xs[k]) == s + {xs[n]};
      assert xs[n] !in s;
    }
  }

  function ValuesOf(xs: seq<nat>): set<nat> {
    set k | 0 <= k < |xs| :: xs[k]
  }

  /** The values of `xs` in the order they first occur, each once. */
  function FirstOccurrences(xs: seq<nat>): (r: seq<nat>)
    ensures Distinct(r) && ValuesOf(r) == ValuesOf(xs)
  {
    if |xs| == 0 then []
    else
      var init, last := xs[..|xs| - 1], xs[|xs| - 1];
      var d := FirstOccurrences(init);
      assert xs == init + [last];
      ValuesOfSnoc(init, last);
      ValuesOfSnoc(d, last);
      if last in d then d else d + [last]
  }

  /** `selectRandomPuzzles`. With `count >= items.length` it copies the
      items. Otherwise it keeps drawing indices (`draws`, each below the
      length) and takes each index the first time it comes up, until it
      has `count` elements; `None` means the draws ran out first (the
      source would draw again). `used` is how many draws were consumed. */
  method SelectRandomPuzzles(items: seq<Puzzle>, count: int, draws: seq<nat>)
    returns (r: Option<seq<Puzzle>>, indices: seq<nat>, used: nat)
    requires forall k :: 0 <= k < |draws| ==> draws[k] < |items|
    ensures count >= |items| ==> r == Some(items)
    ensures count < |items| ==> used <= |draws| && Distinct(indices) && ValuesOf(indices) == ValuesOf(draws[..used])
    ensures count < |items| ==> indices == FirstOccurrences(draws[..used])
    ensures count < |items| ==> forall k :: 0 <= k < |indices| ==> indices[k] < |items|
    ensures count < |items| && r.Some? ==>
      |r.value| == |indices| && (count <= 0 ==> |indices| == 0) && (count > 0 ==> |indices| == count) &&
      forall k :: 0 <= k < |indices| ==> r.value[k] == items[indices[k]]
    ensures count < |items| ==> (r.None? <==> |ValuesOf(draws)| < count)
  {
    if count >= |items| {
      return Some(items), [], 0;
    }
    var selected: seq<Puzzle> := [];
    indices, used := [], 0;
    while |selected| < count && used < |draws|
      invariant used <= |draws|
      invariant |selected| == |indices|
      invariant count > 0 ==> |indices| <= count
      invariant count <= 0 ==> |indices| == 0
      invariant Distinct(indices)
      invariant forall k :: 0 <= k < |indices| ==> indices[k] < |items|
      invariant forall k :: 0 <= k < |indices| ==> selected[k] == items[indices[k]]
      invariant ValuesOf(indices) == ValuesOf(draws[..used])
      invariant indices == FirstOccurrences(draws[..used])
    {
      var randomIndex := draws[used];
      ValuesOfSnoc(draws[..used], randomIndex);
      if randomIndex !in indices {
        ValuesOfSnoc(indices, randomIndex);
        selected := selected + [items[randomIndex]];
        indices := indices + [randomIndex];
      } else {
        assert randomIndex in ValuesOf(indices);
      }
      assert draws[..used + 1] == draws[..used] + [randomIndex];
      assert draws[..used + 1][..used] == draws[..used];
      used := used + 1;
    }
    DistinctCard(indices);
    assert draws[..|draws|] == draws;
    if |selected| < count {
      r := None;
    } else {
      r := Some(selected);
      SubsetCard(draws[..used], draws);
    }
  }

  lemma ValuesOfSnoc(xs: seq<nat>, v: nat)
    ensures ValuesOf(xs + [v]) == ValuesOf(xs) + {v}
    ensures v in xs <==> v in ValuesOf(xs)
  {
    var ys := xs + [v];
    assert forall k :: 0 <= k < |xs| ==> ys[k] == xs[k];
    assert ys[|xs|] == v;
  }

  /** The values of a prefix are among the values of the whole. */
  lemma SubsetCard(prefix: seq<nat>, xs: seq<nat>)
    requires prefix <= xs
    ensures |ValuesOf(prefix)| <= |ValuesOf(xs)|
  {
    assert ValuesOf(prefix) <= ValuesOf(xs) by {
      forall v | v in ValuesOf(prefix)
        ensures v in ValuesOf(xs)
      {
        var k :| 0 <= k < |prefix| && prefix[k] == v;
        assert xs[k] == v;
      }
    }
    Cardinality(ValuesOf(prefix), ValuesOf(xs));
  }

  lemma Cardinality(a: set<nat>, b: set<nat>)
    requires a <= b
    ensures |a| <= |b|
  {
    assert b == a + (b - a);
  }

  // ---------------------------------------------------------------------
  // generateSudokuSelection

  /** How many puzzles a difficulty contributes: none when its file could
      not be read, else its count or the whole file when that is smaller. */
  function Contribution(file: Result<seq<Puzzle>, Failure>, count: nat): nat {
    if file.Err? then 0 else if count >= |file.value| then |file.value| else count
  }

  function ExpectedUpTo(files: seq<Result<seq<Puzzle>, Failure>>, n: nat): nat
    requires n <= |files| && n <= |Distribution|
  {
    if n == 0 then 0 else ExpectedUpTo(files, n - 1) + Contribution(files[n - 1], Distribution[n - 1].1)
  }

  function TotalUpTo(n: nat): nat
    requires n <= |Distribution|
  {
    if n == 0 then 0 else TotalUpTo(n - 1) + Distribution[n - 1].1
  }

  /** `generateSudokuSelection`: for each difficulty in order, the puzzles
      read from its file (or the error that skipped it) and the draws
      selecting from them. `None` when some selection ran out of draws. */
  method GenerateSudokuSelection(files: seq<Result<seq<Puzzle>, Failure>>, draws: seq<seq<nat>>)
    returns (r: Option<seq<Puzzle>>)
    requires |files| == |Distribution| && |draws| == |Distribution|
    requires forall i, k :: 0 <= i < |files| && files[i].Ok? && 0 <= k < |draws[i]| ==> draws[i][k] < |files[i].value|
    ensures r.Some? ==> |r.value| == ExpectedUpTo(files, |files|)
    ensures r.Some? ==> forall p :: p in r.value ==> exists i :: 0 <= i < |files| && files[i].Ok? && p in files[i].value
    ensures (forall i :: 0 <= i < |files| ==> files[i].Err?) ==> r == Some([])
  {
    var all: seq<Puzzle> := [];
    var n := 0;
    while n < |Distribution|
      invariant n <= |Distribution|
      invariant |all| == ExpectedUpTo(files, n)
      invariant forall p :: p in all ==> exists i :: 0 <= i < n && files[i].Ok? && p in files[i].value
      invariant (forall i :: 0 <= i < |files| ==> files[i].Err?) ==> all == []
    {
      if files[n].Ok? {
        var puzzles := files[n].value;
        var selected, indices, used := SelectRandomPuzzles(puzzles, Distribution[n].1, draws[n]);
        if selected.None? {
          return None;
        }
        forall p | p in selected.value
          ensures p in puzzles
        {
          if Distribution[n].1 < |puzzles| {
            var k :| 0 <= k < |selected.value| && selected.value[k] == p;
            assert p == puzzles[indices[k]];
          }
        }
        all := all + selected.value;
      }
      n := n + 1;
    }
    r := Some(all);
  }

  /** At most the table's total is selected, and exactly it when every
      file holds at least its count. */
  lemma {:induction false} ExpectedBounds(files: seq<Result<seq<Puzzle>, Failure>>, n: nat)
    requires n <= |files| && n <= |Distribution|
    ensures ExpectedUpTo(files, n) <= TotalUpTo(n)
    ensures (forall i :: 0 <= i < n ==> files[i].Ok? && |files[i].value| >= Distribution[i].1) ==>
      ExpectedUpTo(files, n) == TotalUpTo(n)
    decreases n
  {
    if n > 0 {
      ExpectedBounds(files, n - 1);
    }
  }

  /** The selection holds at most fifty-five puzzles, and exactly that
      many when every file has enough. */
  lemma SelectionSize(files: seq<Result<seq<Puzzle>, Failure>>)
    requires |files| == |Distribution|
    ensures ExpectedUpTo(files, |files|) <= 55
    ensures (forall i :: 0 <= i < |files| ==> files[i].Ok? && |files[i].value| >= Distribution[i].1) ==>
      ExpectedUpTo(files, |files|) == 55
  {
    ExpectedBounds(files, |files|);
    TotalUpToIsTotal(|Distribution|);
    DistributionTotal();
  }

  lemma {:induction false} TotalUpToIsTotal(n: nat)
    requires n <= |Distribution|
    ensures TotalUpTo(n) + Total(Distribution[n..]) == Total(Distribution)
    decreases n
  {
    if n > 0 {
      TotalUpToIsTotal(n - 1);
      assert Distribution[n - 1..][1..] == Distribution[n..];
    } else {
      assert Distribution[0..] == Distribution;
    }
  }
}

=== FILE: sorting.dfy ===
/** `Array.prototype.sort`, modelled as insertion sort: with a numeric
    key comparator (`(a, b) => key(a) - key(b)`), which ECMAScript requires
    to be stable, and without a comparator on distinct strings. */
module Sorting {
  import opened Text

  predicate SortedBy<T>(s: seq<T>, key: T -> int) {
    forall i, j :: 0 <= i < j < |s| ==> key(s[i]) <= key(s[j])
  }

  /** Inserts `x` before the first element whose key is not smaller, so
      `x` stays ahead of the equal keys that followed it. */
  function InsertBy<T>(x: T, s: seq<T>, key: T -> int): (r: seq<T>)
    requires SortedBy(s, key)
    ensures SortedBy(r, key)
    ensures multiset(r) == multiset(s) + multiset{x}
    ensures |r| == |s| + 1
  {
    if |s| == 0 then [x]
    else if key(x) <= key(s[0]) then [x] + s
    else
      var rest := InsertBy(x, s[1..], key);
      assert s == [s[0]] + s[1..];
      InsertedKeysAtLeast(x, s[1..], key, rest, key(s[0]));
      [s[0]] + rest
  }

  /** Inserting keeps every key at least a bound the old keys and `x` respect. */
  lemma InsertedKeysAtLeast<T>(x: T, s: seq<T>, key: T -> int, r: seq<T>, lo: int)
    requires multiset(r) == multiset(s) + multiset{x}
    requires lo <= key(x) && forall i :: 0 <= i < |s| ==> lo <= key(s[i])
    ensures forall i :: 0 <= i < |r| ==> lo <= key(r[i])
  {
    forall i | 0 <= i < |r|
      ensures lo <= key(r[i])
    {
      assert r[i] in multiset(r);
      if r[i] in multiset(s) {
        var j :| 0 <= j < |s| && s[j] == r[i];
      }
    }
  }

  /** The elements of `s` whose key is `k`, in their order in `s`. */
  function WithKey<T>(s: seq<T>, key: T -> int, k: int): seq<T> {
    if |s| == 0 then []
    else (if key(s[0]) == k then [s[0]] else []) + WithKey(s[1..], key, k)
  }

  /** `WithKey` of a sequence with a given first element. */
  lemma WithKeyCons<T>(y: T, t: seq<T>, key: T -> int, k: int)
    ensures WithKey([y] + t, key, k) == (if key(y) == k then [y] else []) + WithKey(t, key, k)
  {
    assert ([y] + t)[1..] == t;
  }

  /** Inserting `x` puts it ahead of every element with its key. */
  lemma {:induction false} InsertByWithKey<T>(x: T, s: seq<T>, key: T -> int, k: int)
    requires SortedBy(s, key)
    ensures WithKey(InsertBy(x, s, key), key, k) == (if key(x) == k then [x] else []) + WithKey(s, key, k)
    decreases |s|, 1
  {
    if |s| == 0 {
      WithKeyCons(x, s, key, k);
      assert [x] + s == [x];
    } else if key(x) <= key(s[0]) {
      WithKeyCons(x, s, key, k);
    } else {
      InsertByWithKeyLater(x, s, key, k);
    }
  }

  /** `InsertByWithKey` when `x` goes after the first element: that
      element's key is smaller, so at most one of the two has key `k`. */
  lemma {:induction false} InsertByWithKeyLater<T>(x: T, s: seq<T>, key: T -> int, k: int)
    requires SortedBy(s, key) && |s| > 0 && key(x) > key(s[0])
    ensures WithKey(InsertBy(x, s, key), key, k) == (if key(x) == k then [x] else []) + WithKey(s, key, k)
    decreases |s|, 0
  {
    var hx: seq<T> := if key(x) == k then [x] else [];
    var h0: seq<T> := if key(s[0]) == k then [s[0]] else [];
    var rest := InsertBy(x, s[1..], key);
    assert InsertBy(x, s, key) == [s[0]] + rest;
    assert WithKey(rest, key, k) == hx + WithKey(s[1..], key, k) by {
      assert SortedBy(s[1..], key);
      InsertByWithKey(x, s[1..], key, k);
    }
    assert WithKey([s[0]] + rest, key, k) == h0 + WithKey(rest, key, k) by {
      WithKeyCons(s[0], rest, key, k);
    }
    assert WithKey(s, key, k) == h0 + WithKey(s[1..], key, k) by {
      WithKeyCons(s[0], s[1..], key, k);
      assert [s[0]] + s[1..] == s;
    }
    if key(x) == k {
      assert h0 == [];
    } else {
      assert hx == [];
    }
  }

  /** A stable sort by ascending key: a sorted rearrangement of the input
      in which the elements of each key keep their input order. */
  function SortBy<T>(s: seq<T>, key: T -> int): (r: seq<T>)
    ensures SortedBy(r, key)
    ensures multiset(r) == multiset(s)
    ensures |r| == |s|
    ensures forall k :: WithKey(r, key, k) == WithKey(s, key, k)
  {
    if |s| == 0 then []
    else
      assert s == [s[0]] + s[1..];
      var t := SortBy(s[1..], key);
      assert forall k :: WithKey(InsertBy(s[0], t, key), key, k) == WithKey(s, key, k) by {
        forall k
          ensures WithKey(InsertBy(s[0], t, key), key, k) == WithKey(s, key, k)
        {
          InsertByWithKey(s[0], t, key, k);
        }
      }
      InsertBy(s[0], t, key)
  }

  /** Sorting an already sorted sequence changes nothing. */
  lemma {:induction false} SortBySorted<T>(s: seq<T>, key: T -> int)
    requires SortedBy(s, key)
    ensures SortBy(s, key) == s
  {
    if |s| > 0 {
      assert SortedBy(s[1..], key);
      SortBySorted(s[1..], key);
      assert s == [s[0]] + s[1..];
    }
  }

  /** Sorting is idempotent. */
  lemma SortByIdempotent<T>(s: seq<T>, key: T -> int)
    ensures SortBy(SortBy(s, key), key) == SortBy(s, key)
  {
    SortBySorted(SortBy(s, key), key);
  }

  // ---------------------------------------------------------------------
  // `Array.prototype.sort` without a comparator, on distinct strings: the
  // default comparison orders strings code unit by code unit.

  predicate StrictlySorted(s: seq<string>) {
    forall i, j :: 0 <= i < j < |s| ==> LexLt(s[i], s[j])
  }

  lemma LexLtTransitive(a: string, b: string, c: string)
    requires LexLt(a, b) && LexLt(b, c)
    ensures LexLt(a, c)
  {
    LexLeTransitive(a, b, c);
    if a == c {
      LexLeAntisymmetric(a, b);
    }
  }

  /** Places a new string before the first larger one. */
  function InsertLex(x: string, s: seq<string>): (r: seq<string>)
    requires StrictlySorted(s) && x !in s
    ensures StrictlySorted(r)
    ensures forall y :: y in r <==> y in s || y == x
    ensures |r| == |s| + 1
  {
    if |s| == 0 then [x]
    else if LexLe(x, s[0]) then
      assert forall j :: 0 <= j < |s| ==> LexLt(x, s[j]) by {
        forall j | 0 <= j < |s|
          ensures LexLt(x, s[j])
        {
          if j > 0 {
            LexLtTransitive(x, s[0], s[j]);
          }
        }
      }
      [x] + s
    else
      LexLeTotal(x, s[0]);
      var rest := InsertLex(x, s[1..]);
      assert forall i :: 0 <= i < |rest| ==> LexLt(s[0], rest[i]) by {
        forall i | 0 <= i < |rest|
          ensures LexLt(s[0], rest[i])
        {
          assert rest[i] in rest;
          if rest[i] != x {
            var j :| 0 <= j < |s[1..]| && s[1..][j] == rest[i];
            assert s[j + 1] == rest[i];
          }
        }
      }
      assert s == [s[0]] + s[1..];
      [s[0]] + rest
  }

  /** `Array.from(map.keys()).sort()`: the keys of a map in ascending
      order, each once. */
  method SortedKeys<V>(m: map<string, V>) returns (ks: seq<string>)
    ensures StrictlySorted(ks)
    ensures forall k :: k in ks <==> k in m
    ensures |ks| == |m|
  {
    var rest := m.Keys;
    ks := [];
    while rest != {}
      invariant rest <= m.Keys
      invariant StrictlySorted(ks)
      invariant forall k :: k in ks <==> k in m && k !in rest
      invariant |ks| + |rest| == |m.Keys|
      decreases |rest|
    {
      var k :| k in rest;
      ks := InsertLex(k, ks);
      rest := rest - {k};
    }
  }
}

=== FILE: split_ids.dfy ===
/** Splitting composite identifiers back into their parts: `splitModelId`
    (a resource id such as `party-<id>`) and `splitSessionId`
    (`<app>-<appSessionId>`). */
module SplitIds {
  import opened Wrappers
  import opened Text
  import opened Keys

  /** `splitModelId`: the first `-` segment must be a model name; the id is
      every later segment re-joined with `-`. */
  function SplitModelId(s: string): (r: Result<(Model, string), Failure>)
    ensures r.Err? <==> ParseModel(Split(s, Sep)[0]).None?
    ensures r.Ok? ==> Name(r.value.0) == Split(s, Sep)[0]
  {
    var parts := Split(s, Sep);
    match ParseModel(parts[0])
    case None => Err(Thrown("Unsupported type " + parts[0]))
    case Some(m) => Ok((m, Join(parts[1..], Sep)))
  }

  /** On success the input is recovered from the type and id: as
      `type + '-' + id` when it held a separator, and as the bare type
      (with an empty id) when it did not. */
  lemma SplitModelIdRecompose(s: string)
    requires SplitModelId(s).Ok?
    ensures var (t, id) := SplitModelId(s).value;
      (Sep in s ==> ModelId(Name(t), id) == s) &&
      (Sep !in s ==> Name(t) == s && id == "")
  {
    var parts := Split(s, Sep);
    JoinSplit(s, Sep);
    SplitManyIffContains(s, Sep);
    if Sep in s {
      JoinCons(parts[0], parts[1..], Sep);
      assert [parts[0]] + parts[1..] == parts;
    } else {
      SplitNoSeparator(s, Sep);
    }
  }

  /** Splitting a composed resource id gives back its parts, for every
      model whose name holds no separator. */
  lemma SplitModelIdOfKey(m: Model, id: string)
    requires m != SudokuBook
    ensures SplitModelId(ModelId(Name(m), id)) == Ok((m, id))
  {
    NameSeparator(m);
    SplitAtFirst(Name(m), id, Sep);
    JoinSplit(id, Sep);
    ParseName(m);
  }

  /** `sudoku-book` is never the type returned, because the split happens
      at every `-`. */
  lemma SplitModelIdNeverSudokuBook(s: string)
    requires SplitModelId(s).Ok?
    ensures SplitModelId(s).value.0 != SudokuBook
  {
    NameSeparator(SudokuBook);
  }

  /** A `sudoku-book` resource id is read as a `sudoku` id. */
  lemma SplitSudokuBookId(id: string)
    ensures SplitModelId(ModelId(Name(SudokuBook), id)) == Ok((Sudoku, "book-" + id))
  {
    SudokuBookCollision(id);
    SplitModelIdOfKey(Sudoku, "book-" + id);
  }

  /** `validateApp`: membership in the `App` values, which are a parameter here. */
  predicate ValidateApp(app: string, apps: set<string>) {
    app in apps
  }

  datatype SessionId = SessionId(app: string, appSessionId: string)

  /** `splitSessionId`: the first segment must be a known app and the
      re-joined remainder must be non-empty, else BadRequest. */
  function SplitSessionId(s: string, apps: set<string>): (r: Result<SessionId, Failure>)
    ensures r.Ok? ==> ValidateApp(r.value.app, apps) && |r.value.appSessionId| > 0
    ensures r.Ok? ==> r.value.app == Split(s, Sep)[0]
    ensures r.Err? ==> r.error.BadRequest?
  {
    var parts := Split(s, Sep);
    var app := parts[0];
    var appSessionId := Join(parts[1..], Sep);
    if !ValidateApp(app, apps) then Err(BadRequest("Invalid app"))
    else if |appSessionId| == 0 then Err(BadRequest("Invalid app session"))
    else Ok(SessionId(app, appSessionId))
  }

  /** Success exactly when the first segment is an app and something
      follows it; the parts then recompose to the input. */
  lemma SplitSessionIdSpec(s: string, apps: set<string>)
    ensures var parts := Split(s, Sep);
      SplitSessionId(s, apps).Ok? <==>
        parts[0] in apps && |Join(parts[1..], Sep)| > 0
    ensures SplitSessionId(s, apps).Ok? ==>
      var r := SplitSessionId(s, apps).value;
      r.app + [Sep] + r.appSessionId == s
  {
    var parts := Split(s, Sep);
    if SplitSessionId(s, apps).Ok? {
      JoinSplit(s, Sep);
      assert |parts| >= 2;
      JoinCons(parts[0], parts[1..], Sep);
      assert [parts[0]] + parts[1..] == parts;
    }
  }

  /** Composing a valid app and a non-empty session part and splitting
      again gives them back when the app name holds no separator. */
  lemma SplitSessionIdOfComposed(app: string, rest: string, apps: set<string>)
    requires app in apps && Sep !in app && |rest| > 0
    ensures SplitSessionId(app + [Sep] + rest, apps) == Ok(SessionId(app, rest))
  {
    SplitAtFirst(app, rest, Sep);
    JoinSplit(rest, Sep);
    assert ([app] + Split(rest, Sep))[1..] == Split(rest, Sep);
  }
}

=== FILE: sudoku_book_repository.dfy ===
/** `SudokuBookRepository`: the sudoku book of the month (or of next
    month), keyed by a date and expiring on the first of a later month. The
    clock is the `now` argument. */
module SudokuBookRepository {
  import opened Wrappers
  import opened Text
  import opened Keys
  import opened Adapter
  import opened AdapterQueries
  import opened AdapterBatch
  import opened Calendar

  const SudokuBookModel: string := Name(SudokuBook)

  /** `{ id: 'ofthemonth', type: Model.SUDOKU_BOOK }`. */
  const MonthOwner: Owner := Owner(SudokuBook, "ofthemonth")

  /** The instant the id is taken from: now, or now moved on by
      `setMonth(getMonth() + 1)`, which keeps the day of month and lets it
      spill into the month after when the next month is shorter. */
  function IdInstant(now: DateTime, isNextMonth: bool): (t: DateTime)
    requires Valid(now.date)
    ensures Valid(t.date)
    ensures !isNextMonth ==> t == now
    ensures isNextMonth && now.date.day <= 28 ==> t.date == FirstOfNextMonth(now.date).(day := now.date.day)
  {
    if isNextMonth then SetMonth(now, now.date.month - 1 + 1) else now
  }

  /** `sudokuBookOfTheMonthId`: `ofthemonth-<YYYYMMDD>`, the full date
      including the day. */
  function SudokuBookOfTheMonthId(now: DateTime, isNextMonth: bool): (id: string)
    requires Valid(now.date)
    ensures var d := IdInstant(now, isNextMonth).date;
      FourDigitYear(d) ==> id == "ofthemonth-" + Digits(d.year, 4) + Digits(d.month, 2) + Digits(d.day, 2)
  {
    var d := IdInstant(now, isNextMonth).date;
    CompactDateShape(d);
    "ofthemonth-" + CompactDate(d)
  }

  /** How many months ahead the book expires: `isNextMonth ? 2 : 1`. */
  function MonthsAhead(isNextMonth: bool): nat {
    if isNextMonth then 2 else 1
  }

  /** The expiry as the source computes it: `setMonth(getMonth() + k)`
      first, `setDate(1)` after, so a day of month the target month lacks
      has already spilled into the following month. */
  function ExpiryAsWritten(now: DateTime, isNextMonth: bool): (e: DateTime)
    requires Valid(now.date)
    ensures Valid(e.date) && e.date.day == 1 && e.msOfDay == now.msOfDay
  {
    SetDate(SetMonth(now, now.date.month - 1 + MonthsAhead(isNextMonth)), 1)
  }

  /** The expiry as intended: the first of the month `k` months ahead, at
      the current time of day (`setDate(1)` before `setMonth`). */
  function ExpiryOfTheMonth(now: DateTime, isNextMonth: bool): (e: DateTime)
    requires Valid(now.date)
    ensures Valid(e.date) && e.msOfDay == now.msOfDay
    ensures var target := now.date.month - 1 + MonthsAhead(isNextMonth);
      e.date == Date(now.date.year + target / 12, target % 12 + 1, 1)
  {
    SetMonth(SetDate(now, 1), now.date.month - 1 + MonthsAhead(isNextMonth))
  }

  /** The intended expiry is one or two month starts ahead of now. */
  lemma ExpiryOfTheMonthSteps(now: DateTime, isNextMonth: bool)
    requires Valid(now.date)
    ensures !isNextMonth ==> ExpiryOfTheMonth(now, isNextMonth).date == FirstOfNextMonth(now.date)
    ensures isNextMonth ==> ExpiryOfTheMonth(now, isNextMonth).date == FirstOfNextMonth(FirstOfNextMonth(now.date))
  {
  }

  /** The two agree whenever the day of month exists in the target month,
      in particular on every day up to the 28th. */
  lemma ExpiryAgreesEarlyInMonth(now: DateTime, isNextMonth: bool)
    requires Valid(now.date)
    requires var target := now.date.month - 1 + MonthsAhead(isNextMonth);
      now.date.day <= DaysInMonth(now.date.year + target / 12, target % 12 + 1)
    ensures ExpiryAsWritten(now, isNextMonth) == ExpiryOfTheMonth(now, isNextMonth)
  {
  }

  /** On 31 January 2025 the source's expiry lands on 1 March instead of 1
      February: the current month's book is kept a month too long. */
  lemma ExpiryAsWrittenOverflows()
    ensures ExpiryAsWritten(DateTime(Date(2025, 1, 31), 0), false).date == Date(2025, 3, 1)
    ensures ExpiryOfTheMonth(DateTime(Date(2025, 1, 31), 0), false).date == Date(2025, 2, 1)
  {
  }

  /** The next-month id on 31 January 2025 is taken from 3 March, not from
      a February day (so it reads `ofthemonth-20250303`). */
  lemma NextMonthIdOverflows()
    ensures IdInstant(DateTime(Date(2025, 1, 31), 0), true).date == Date(2025, 3, 3)
  {
    assert !IsLeap(2025);
    assert MakeDay(2025, 1, 31) == AddDays(Date(2025, 2, 1), 30);
    assert AddDays(Date(2025, 2, 1), 30) == AddDays(Date(2025, 3, 1), 2);
  }

  /** The first of the next month is later than any day of this one. */
  lemma FirstOfNextMonthLater(d: Date)
    requires Valid(d)
    ensures EpochDay(FirstOfNextMonth(d)) > EpochDay(d)
  {
    var dim := DaysInMonth(d.year, d.month);
    SameMonthEpoch(d.year, d.month, d.day, dim);
    NextDayEpoch(Date(d.year, d.month, dim));
  }

  /** Moving a date on by whole days never moves it into an earlier month:
      the first of the month it lands in is no earlier than the first of the
      month it started in. */
  lemma {:induction false} AddDaysMonthNotEarlier(d: Date, k: nat)
    requires Valid(d)
    ensures var r := AddDays(d, k);
      EpochDay(Date(r.year, r.month, 1)) >= EpochDay(Date(d.year, d.month, 1))
    decreases k
  {
    var dim := DaysInMonth(d.year, d.month);
    if d.day + k > dim {
      var f := FirstOfNextMonth(d);
      AddDaysMonthNotEarlier(f, k - (dim - d.day + 1));
      FirstOfNextMonthLater(Date(d.year, d.month, 1));
    }
  }

  /** The source's expiry is never earlier than the intended one: it is the
      first of the intended month or of a later month. */
  lemma ExpiryAsWrittenNotEarlier(now: DateTime, isNextMonth: bool)
    requires Valid(now.date)
    ensures EpochDay(ExpiryAsWritten(now, isNextMonth).date) >= EpochDay(ExpiryOfTheMonth(now, isNextMonth).date)
  {
    var e := ExpiryOfTheMonth(now, isNextMonth).date;
    var m := SetMonth(now, now.date.month - 1 + MonthsAhead(isNextMonth)).date;
    assert m == AddDays(e, now.date.day - 1);
    MakeDayFirst(m.year, m.month - 1);
    assert ExpiryAsWritten(now, isNextMonth).date == Date(m.year, m.month, 1);
    AddDaysMonthNotEarlier(e, now.date.day - 1);
  }

  /** The intended expiry lies at least a day ahead. */
  lemma ExpiryAfterToday(now: DateTime, isNextMonth: bool)
    requires Valid(now.date)
    ensures EpochDay(ExpiryOfTheMonth(now, isNextMonth).date) >= EpochDay(now.date) + 1
  {
    ExpiryOfTheMonthSteps(now, isNextMonth);
    FirstOfNextMonthLater(now.date);
    if isNextMonth {
      FirstOfNextMonthLater(FirstOfNextMonth(now.date));
    }
  }

  function SudokuBookPayload(payload: Payload, sudokuBookId: string): Payload {
    payload["sudokuBookId" := sudokuBookId]
  }

  /** `insertSudokuBookOfTheMonth`, with the expiry as the source computes
      it (see `ExpiryAsWritten`). */
  function InsertSudokuBookOfTheMonth(store: Store, payload: Payload, isNextMonth: bool, now: DateTime, sendFails: bool)
    : (r: Result<(Store, Record), Failure>)
    requires Valid(now.date)
    ensures r.Err? <==> sendFails
    ensures r.Ok? ==>
      var k := KeyOf(SudokuBookModel, SudokuBookOfTheMonthId(now, isNextMonth), MonthOwner);
      && k in r.value.0
      && "sudokuBookId" in r.value.0[k].payload
      && r.value.0[k].payload["sudokuBookId"] == SudokuBookOfTheMonthId(now, isNextMonth)
      && r.value.0[k].expiresAt == Some(EpochSeconds(EpochMs(ExpiryAsWritten(now, isNextMonth))))
  {
    var id := SudokuBookOfTheMonthId(now, isNextMonth);
    assert "sudokuBookId" !in SystemFields;
    Upsert(store, SudokuBookModel, id, SudokuBookPayload(payload, id), MonthOwner,
           Some(EpochMs(ExpiryAsWritten(now, isNextMonth))), EpochMs(now), sendFails)
  }

  /** `findSudokuBookOfTheMonth`: the point read of the id for now. */
  function FindSudokuBookOfTheMonth(store: Store, isNextMonth: bool, now: DateTime, seen: seq<bool>): (r: Option<Record>)
    requires Valid(now.date)
    ensures var k := KeyOf(SudokuBookModel, SudokuBookOfTheMonthId(now, isNextMonth), MonthOwner);
      r.Some? ==> k in store && r.value == ResultToRecord(store[k]) && !IsExpired(store[k], EpochMs(now))
  {
    FindByIdAndOwner(store, SudokuBookModel, SudokuBookOfTheMonthId(now, isNextMonth), MonthOwner, false, seen, EpochMs(now)).record
  }

  /** Insert and find on the same UTC day with the same flag meet at one
      key, and a visible read returns what was inserted. */
  lemma InsertThenFindSameDay(store: Store, payload: Payload, isNextMonth: bool, t1: DateTime, t2: DateTime, seen: seq<bool>)
    requires ValidDateTime(t1) && ValidDateTime(t2) && t1.date == t2.date && t1.msOfDay <= t2.msOfDay
    requires |seen| > 0 && seen[0]
    ensures
      var (s', rec) := InsertSudokuBookOfTheMonth(store, payload, isNextMonth, t1, false).value;
      FindSudokuBookOfTheMonth(s', isNextMonth, t2, seen) == Some(rec)
  {
    var id := SudokuBookOfTheMonthId(t1, isNextMonth);
    var e := ExpiryAsWritten(t1, isNextMonth);
    var k := KeyOf(SudokuBookModel, id, MonthOwner);
    var r := InsertSudokuBookOfTheMonth(store, payload, isNextMonth, t1, false);
    assert r == Upsert(store, SudokuBookModel, id, SudokuBookPayload(payload, id), MonthOwner,
                       Some(EpochMs(e)), EpochMs(t1), false);
    var (s', rec) := r.value;
    UpsertThenFind(store, SudokuBookModel, id, MonthOwner, SudokuBookPayload(payload, id), Some(EpochMs(e)), EpochMs(t1),
                   seen, false, EpochMs(t2));
    assert IdInstant(t2, isNextMonth).date == IdInstant(t1, isNextMonth).date;
    assert SudokuBookOfTheMonthId(t2, isNextMonth) == id;
    assert !IsExpired(s'[k], EpochMs(t2)) by {
      ExpiryAfterToday(t1, isNextMonth);
      ExpiryAsWrittenNotEarlier(t1, isNextMonth);
      LaterDayNotExpired(s'[k], e, t2);
    }
  }

  /** A row that expires at some instant of a later UTC day is not expired
      at any instant of today. */
  lemma LaterDayNotExpired(row: Row, e: DateTime, now: DateTime)
    requires ValidDateTime(now) && Valid(e.date) && 0 <= e.msOfDay
    requires row.expiresAt == Some(EpochSeconds(EpochMs(e)))
    requires EpochDay(e.date) > EpochDay(now.date)
    ensures !IsExpired(row, EpochMs(now))
  {
    var day := EpochDay(e.date);
    assert day * MsPerDay == (day * 86_400) * 1000;
    assert EpochMs(now) < day * MsPerDay;
    assert day * MsPerDay <= EpochMs(e);
    assert EpochSeconds(EpochMs(e)) >= day * 86_400;
  }

  /** The id carries the day: for the current month, a find on another
      (four-digit-year) day addresses a different key from the insert. */
  lemma MonthIdsDifferByDay(t1: DateTime, t2: DateTime)
    requires Valid(t1.date) && Valid(t2.date) && FourDigitYear(t1.date) && FourDigitYear(t2.date)
    requires t1.date != t2.date
    ensures SudokuBookOfTheMonthId(t1, false) != SudokuBookOfTheMonthId(t2, false)
    ensures KeyOf(SudokuBookModel, SudokuBookOfTheMonthId(t1, false), MonthOwner)
         != KeyOf(SudokuBookModel, SudokuBookOfTheMonthId(t2, false), MonthOwner)
  {
    var a, b := CompactDate(t1.date), CompactDate(t2.date);
    CompactDateDigits(t1.date);
    CompactDateDigits(t2.date);
    if SudokuBookOfTheMonthId(t1, false) == SudokuBookOfTheMonthId(t2, false) {
      assert ("ofthemonth-" + a)[11..] == a;
      assert ("ofthemonth-" + b)[11..] == b;
      CompactDateInjective(t1.date, t2.date);
    }
    var i1, i2 := SudokuBookOfTheMonthId(t1, false), SudokuBookOfTheMonthId(t2, false);
    assert ModelId(SudokuBookModel, i1)[|SudokuBookModel| + 1..] == i1;
    assert ModelId(SudokuBookModel, i2)[|SudokuBookModel| + 1..] == i2;
  }
}

=== FILE: sudoku_repository.dfy ===
/** `SudokuRepository`: one sudoku of the day per difficulty, keyed by the
    UTC date and kept for a year. The clock is the `now` argument. */
module SudokuRepository {
  import opened Wrappers
  import opened Text
  import opened Keys
  import opened Adapter
  import opened AdapterQueries
  import opened AdapterBatch
  import opened Calendar

  const SudokuModel: string := Name(Sudoku)

  /** `{ id: 'oftheday', type: Model.SUDOKU }`, the owner of every daily sudoku. */
  const DayOwner: Owner := Owner(Sudoku, "oftheday")

  /** `sudokuOfTheDayId`: `oftheday-<YYYYMMDD>-<difficulty>`. */
  function SudokuOfTheDayId(now: DateTime, difficulty: string): (id: string)
    requires Valid(now.date)
    ensures FourDigitYear(now.date) ==>
      id == "oftheday-" + Digits(now.date.year, 4) + Digits(now.date.month, 2) + Digits(now.date.day, 2) + "-" + difficulty
  {
    CompactDateShape(now.date);
    "oftheday-" + CompactDate(now.date) + "-" + difficulty
  }

  /** The expiry `insertSudokuOfTheDay` computes: `setUTCFullYear(year + 1)`. */
  function ExpiryOfTheDay(now: DateTime): (e: DateTime)
    requires Valid(now.date)
    ensures Valid(e.date) && e.msOfDay == now.msOfDay
    ensures var d := now.date;
      e.date == if d.month == 2 && d.day == 29 && !IsLeap(d.year + 1) then Date(d.year + 1, 3, 1)
                else Date(d.year + 1, d.month, d.day)
  {
    SetUtcFullYear(now, now.date.year + 1)
  }

  /** The expiry is one calendar year ahead: 365 or 366 days later, at the
      same time of day. */
  lemma ExpiryIsOneYear(now: DateTime)
    requires Valid(now.date)
    ensures var days := EpochDay(ExpiryOfTheDay(now).date) - EpochDay(now.date);
      days == 365 || days == 366
    ensures EpochMs(ExpiryOfTheDay(now)) - EpochMs(now) >= 365 * MsPerDay
  {
    var d := now.date;
    var e := ExpiryOfTheDay(now);
    if d.month == 2 && d.day == 29 && !IsLeap(d.year + 1) {
      LeapDayNextYear(d.year);
    } else {
      SameDayNextYear(d.year, d.month, d.day);
    }
    EpochMsSameTime(e, now);
  }

  /** The stored payload: the caller's fields plus `sudokuId`. */
  function SudokuPayload(payload: Payload, sudokuId: string): Payload {
    payload["sudokuId" := sudokuId]
  }

  /** `payload.difficulty` in a template literal: the payload's field, or
      `undefined` when a caller left it out. */
  function PayloadDifficulty(payload: Payload): string {
    if "difficulty" in payload then payload["difficulty"] else "undefined"
  }

  /** `insertSudokuOfTheDay`: one upsert at today's key, named after the
      payload's difficulty, with a one-year expiry. */
  function InsertSudokuOfTheDay(store: Store, payload: Payload, now: DateTime, sendFails: bool)
    : (r: Result<(Store, Record), Failure>)
    requires Valid(now.date)
    ensures r.Err? <==> sendFails
    ensures r.Ok? ==>
      var k := KeyOf(SudokuModel, SudokuOfTheDayId(now, PayloadDifficulty(payload)), DayOwner);
      && k in r.value.0
      && "sudokuId" in r.value.0[k].payload
      && r.value.0[k].payload["sudokuId"] == SudokuOfTheDayId(now, PayloadDifficulty(payload))
      && r.value.0[k].expiresAt == Some(EpochSeconds(EpochMs(ExpiryOfTheDay(now))))
  {
    var id := SudokuOfTheDayId(now, PayloadDifficulty(payload));
    assert "sudokuId" !in SystemFields;
    Upsert(store, SudokuModel, id, SudokuPayload(payload, id), DayOwner,
           Some(EpochMs(ExpiryOfTheDay(now))), EpochMs(now), sendFails)
  }

  /** `findSudokuOfTheDay`: the point read of today's key. */
  function FindSudokuOfTheDay(store: Store, difficulty: string, now: DateTime, seen: seq<bool>): (r: Option<Record>)
    requires Valid(now.date)
    ensures var k := KeyOf(SudokuModel, SudokuOfTheDayId(now, difficulty), DayOwner);
      r.Some? ==> k in store && r.value == ResultToRecord(store[k]) && !IsExpired(store[k], EpochMs(now))
  {
    FindByIdAndOwner(store, SudokuModel, SudokuOfTheDayId(now, difficulty), DayOwner, false, seen, EpochMs(now)).record
  }

  /** Insert and find on the same UTC day with the same difficulty meet at
      one key, and a visible read returns what was inserted. */
  lemma InsertThenFindSameDay(store: Store, payload: Payload, t1: DateTime, t2: DateTime, seen: seq<bool>)
    requires ValidDateTime(t1) && ValidDateTime(t2) && t1.date == t2.date && t1.msOfDay <= t2.msOfDay
    requires |seen| > 0 && seen[0]
    ensures
      var (s', rec) := InsertSudokuOfTheDay(store, payload, t1, false).value;
      FindSudokuOfTheDay(s', PayloadDifficulty(payload), t2, seen) == Some(rec)
  {
    var id := SudokuOfTheDayId(t1, PayloadDifficulty(payload));
    var e := ExpiryOfTheDay(t1);
    ExpiryIsOneYear(t1);
    UpsertThenFind(store, SudokuModel, id, DayOwner, SudokuPayload(payload, id), Some(EpochMs(e)), EpochMs(t1),
                   seen, false, EpochMs(t2));
    var s' := InsertSudokuOfTheDay(store, payload, t1, false).value.0;
    var row := s'[KeyOf(SudokuModel, id, DayOwner)];
    assert row.expiresAt == Some(EpochSeconds(EpochMs(e)));
    assert EpochMs(t2) < EpochMs(t1) + MsPerDay;
  }

  /** Different four-digit-year days give different ids, so yesterday's
      sudoku is never served as today's. */
  lemma DayIdsDiffer(t1: DateTime, t2: DateTime, difficulty: string)
    requires Valid(t1.date) && Valid(t2.date) && FourDigitYear(t1.date) && FourDigitYear(t2.date)
    requires t1.date != t2.date
    ensures SudokuOfTheDayId(t1, difficulty) != SudokuOfTheDayId(t2, difficulty)
  {
    if SudokuOfTheDayId(t1, difficulty) == SudokuOfTheDayId(t2, difficulty) {
      DayIdDate(t1, difficulty);
      DayIdDate(t2, difficulty);
      CompactDateInjective(t1.date, t2.date);
    }
  }

  /** Characters 9 to 16 of the id are the compact date. */
  lemma DayIdDate(t: DateTime, difficulty: string)
    requires Valid(t.date) && FourDigitYear(t.date)
    ensures SudokuOfTheDayId(t, difficulty)[9..17] == CompactDate(t.date)
  {
    var a := CompactDate(t.date);
    assert |a| == 8 by {
      CompactDateDigits(t.date);
    }
    var id := "oftheday-" + a + ("-" + difficulty);
    assert SudokuOfTheDayId(t, difficulty) == id;
    assert id[9..17] == a;
  }
}

=== FILE: text.dfy ===
/** String primitives with JavaScript semantics: `split` on one separator
    character, `join`, `startsWith`, `replaceAll` of one character, the
    relational string comparison `<=`, and decimal rendering of numbers. */
module Text {

  /** `s.split(c)` for a one-character separator: the maximal
      separator-free segments, in order (an empty input gives `['']`). */
  function Split(s: string, c: char): (parts: seq<string>)
    ensures |parts| >= 1
    ensures forall i :: 0 <= i < |parts| ==> c !in parts[i]
    decreases |s|
  {
    if |s| == 0 then [""]
    else
      var rest := Split(s[1..], c);
      if s[0] == c then [""] + rest
      else [[s[0]] + rest[0]] + rest[1..]
  }

  /** `parts.join(c)`. */
  function Join(parts: seq<string>, c: char): string
  {
    if |parts| == 0 then ""
    else if |parts| == 1 then parts[0]
    else parts[0] + [c] + Join(parts[1..], c)
  }

  /** `parts.join(sep)` for a separator of any length. */
  function JoinWith(parts: seq<string>, sep: string): string
  {
    if |parts| == 0 then ""
    else if |parts| == 1 then parts[0]
    else parts[0] + sep + JoinWith(parts[1..], sep)
  }

  lemma JoinCons(p: string, rest: seq<string>, c: char)
    requires |rest| >= 1
    ensures Join([p] + rest, c) == p + [c] + Join(rest, c)
  {
    assert ([p] + rest)[1..] == rest;
  }

  /** Joining the segments of a split restores the input. */
  lemma {:induction false} JoinSplit(s: string, c: char)
    ensures Join(Split(s, c), c) == s
    decreases |s|
  {
    if |s| == 0 {
    } else {
      var rest := Split(s[1..], c);
      JoinSplit(s[1..], c);
      if s[0] == c {
        JoinCons("", rest, c);
        assert s == [c] + s[1..];
      } else if |rest| == 1 {
        assert Split(s, c) == [[s[0]] + rest[0]];
        assert s == [s[0]] + s[1..];
      } else {
        assert Split(s, c) == [[s[0]] + rest[0]] + rest[1..];
        JoinCons([s[0]] + rest[0], rest[1..], c);
        JoinCons(rest[0], rest[1..], c);
        assert rest == [rest[0]] + rest[1..];
        assert s == [s[0]] + s[1..];
      }
    }
  }

  /** A string without the separator splits into itself. */
  lemma {:induction false} SplitNoSeparator(s: string, c: char)
    requires c !in s
    ensures Split(s, c) == [s]
    decreases |s|
  {
    if |s| > 0 {
      assert c !in s[1..];
      SplitNoSeparator(s[1..], c);
      assert [s[0]] + s[1..] == s;
    }
  }

  /** Splitting at the first separator: a separator-free prefix becomes the
      first segment and the rest is split independently. */
  lemma {:induction false} SplitAtFirst(a: string, b: string, c: char)
    requires c !in a
    ensures Split(a + [c] + b, c) == [a] + Split(b, c)
    decreases |a|
  {
    if |a| == 0 {
      assert a + [c] + b == [c] + b;
      assert ([c] + b)[1..] == b;
    } else {
      var s := a + [c] + b;
      assert s[1..] == a[1..] + [c] + b;
      assert c !in a[1..];
      SplitAtFirst(a[1..], b, c);
      assert [a[0]] + a[1..] == a;
    }
  }

  lemma SeqAssoc<T>(a: seq<T>, b: seq<T>, c: seq<T>)
    ensures a + (b + c) == (a + b) + c
  {
  }

  /** A separator between two strings splits them independently. */
  lemma {:induction false} SplitConcat(a: string, b: string, c: char)
    ensures Split(a + [c] + b, c) == Split(a, c) + Split(b, c)
    decreases |a|
  {
    var s := a + [c] + b;
    if |a| == 0 {
      assert s == [c] + b;
      assert s[1..] == b;
    } else {
      assert s[0] == a[0] && s[1..] == a[1..] + [c] + b;
      SplitConcat(a[1..], b, c);
      var x, y := Split(a[1..], c), Split(b, c);
      if a[0] == c {
        assert Split(s, c) == [""] + (x + y);
        assert Split(a, c) == [""] + x;
        SeqAssoc([""], x, y);
      } else {
        var h := [[a[0]] + x[0]];
        assert Split(s, c) == h + (x + y)[1..];
        assert (x + y)[1..] == x[1..] + y;
        assert Split(a, c) == h + x[1..];
        SeqAssoc(h, x[1..], y);
      }
    }
  }

  /** A string splits into two or more segments exactly when it contains the separator. */
  lemma {:induction false} SplitManyIffContains(s: string, c: char)
    ensures |Split(s, c)| >= 2 <==> c in s
    decreases |s|
  {
    if c !in s {
      SplitNoSeparator(s, c);
    } else if s[0] != c {
      assert c in s[1..];
      SplitManyIffContains(s[1..], c);
    }
  }

  /** Joining separator-free segments and splitting again gives the segments back. */
  lemma {:induction false} SplitJoin(parts: seq<string>, c: char)
    requires |parts| >= 1
    requires forall i :: 0 <= i < |parts| ==> c !in parts[i]
    ensures Split(Join(parts, c), c) == parts
    decreases |parts|
  {
    if |parts| == 1 {
      SplitNoSeparator(parts[0], c);
    } else {
      JoinCons(parts[0], parts[1..], c);
      assert [parts[0]] + parts[1..] == parts;
      SplitAtFirst(parts[0], Join(parts[1..], c), c);
      SplitJoin(parts[1..], c);
    }
  }

  /** `s.startsWith(p)`. */
  predicate StartsWith(s: string, p: string) {
    |p| <= |s| && s[..|p|] == p
  }

  lemma StartsWithConcat(p: string, q: string)
    ensures StartsWith(p + q, p)
  {
    assert (p + q)[..|p|] == p;
  }

  /** `s.replace(p, q)` with a string pattern: only the first occurrence
      of `p` is replaced (an empty `p` occurs at the start). */
  function ReplaceFirst(s: string, p: string, q: string): (r: string)
    decreases |s|
  {
    if StartsWith(s, p) then q + s[|p|..]
    else if |s| == 0 then s
    else [s[0]] + ReplaceFirst(s[1..], p, q)
  }

  /** `s.replaceAll(c, '')`. */
  function RemoveAll(s: string, c: char): (r: string)
    ensures c !in r
    ensures |r| <= |s|
  {
    if |s| == 0 then ""
    else (if s[0] == c then "" else [s[0]]) + RemoveAll(s[1..], c)
  }

  lemma RemoveAllConcat(a: string, b: string, c: char)
    ensures RemoveAll(a + b, c) == RemoveAll(a, c) + RemoveAll(b, c)
    decreases |a|
  {
    if |a| > 0 {
      assert (a + b)[1..] == a[1..] + b;
      RemoveAllConcat(a[1..], b, c);
    } else {
      assert a + b == b;
    }
  }

  lemma RemoveAllAbsent(s: string, c: char)
    requires c !in s
    ensures RemoveAll(s, c) == s
    decreases |s|
  {
    if |s| > 0 {
      assert c !in s[1..];
      RemoveAllAbsent(s[1..], c);
      assert [s[0]] + s[1..] == s;
    }
  }

  // ---------------------------------------------------------------------
  // String order: JavaScript's relational operators on strings compare
  // code unit by code unit, and a proper prefix is smaller.

  predicate LexLe(a: string, b: string)
    decreases |a|
  {
    |a| == 0 || (|b| > 0 && (a[0] < b[0] || (a[0] == b[0] && LexLe(a[1..], b[1..]))))
  }

  predicate LexLt(a: string, b: string) {
    LexLe(a, b) && a != b
  }

  lemma {:induction false} LexLeReflexive(a: string)
    ensures LexLe(a, a)
    decreases |a|
  {
    if |a| > 0 {
      LexLeReflexive(a[1..]);
    }
  }

  lemma {:induction false} LexLeTotal(a: string, b: string)
    ensures LexLe(a, b) || LexLe(b, a)
    decreases |a|
  {
    if |a| > 0 && |b| > 0 && a[0] == b[0] {
      LexLeTotal(a[1..], b[1..]);
    }
  }

  lemma {:induction false} LexLeAntisymmetric(a: string, b: string)
    requires LexLe(a, b) && LexLe(b, a)
    ensures a == b
    decreases |a|
  {
    if |a| > 0 {
      LexLeAntisymmetric(a[1..], b[1..]);
      assert a == [a[0]] + a[1..];
      assert b == [b[0]] + b[1..];
    }
  }

  lemma {:induction false} LexLeTransitive(a: string, b: string, c: string)
    requires LexLe(a, b) && LexLe(b, c)
    ensures LexLe(a, c)
    decreases |a|
  {
    if |a| > 0 && a[0] == b[0] && b[0] == c[0] {
      LexLeTransitive(a[1..], b[1..], c[1..]);
    }
  }

  /** Comparing two concatenations whose first parts have equal length:
      the first parts decide unless they are equal. */
  lemma {:induction false} LexLeConcat(a: string, x: string, b: string, y: string)
    requires |a| == |b|
    ensures LexLe(a + x, b + y) <==> LexLt(a, b) || (a == b && LexLe(x, y))
    decreases |a|
  {
    if |a| == 0 {
      assert a + x == x;
      assert b + y == y;
      assert a == b;
      LexLeReflexive(a);
    } else {
      assert (a + x)[0] == a[0];
      assert (b + y)[0] == b[0];
      assert (a + x)[1..] == a[1..] + x;
      assert (b + y)[1..] == b[1..] + y;
      LexLeConcat(a[1..], x, b[1..], y);
      if a[0] == b[0] {
        if a[1..] == b[1..] {
          assert a == [a[0]] + a[1..];
          assert b == [b[0]] + b[1..];
        } else {
          assert a != b by {
            assert a[1..] != b[1..];
          }
        }
        if a == b {
          assert a[1..] == b[1..];
        }
      } else {
        assert a != b;
      }
    }
  }

  // ---------------------------------------------------------------------
  // Decimal rendering.

  predicate IsDigit(ch: char) {
    '0' <= ch <= '9'
  }

  function DigitChar(d: nat): (ch: char)
    requires d < 10
    ensures IsDigit(ch)
  {
    (48 + d) as char
  }

  function DigitValue(ch: char): nat
    requires IsDigit(ch)
  {
    (ch as int) - 48
  }

  function Pow10(k: nat): (p: nat)
    ensures p >= 1
  {
    if k == 0 then 1 else 10 * Pow10(k - 1)
  }

  /** `String(n)` for a non-negative integer: shortest decimal form. */
  function NatToString(n: nat): (s: string)
    ensures |s| >= 1
    ensures forall i :: 0 <= i < |s| ==> IsDigit(s[i])
  {
    if n < 10 then [DigitChar(n)] else NatToString(n / 10) + [DigitChar(n % 10)]
  }

  /** `String(i)` for any integer. */
  function IntToString(i: int): (s: string)
    ensures |s| >= 1 && (s[0] == '-' <==> i < 0)
  {
    if i < 0 then "-" + NatToString(-i) else NatToString(i)
  }

  /** The last `k` decimal digits of `n`, zero-padded to width `k`. */
  function Digits(n: nat, k: nat): (s: string)
    ensures |s| == k
    ensures forall i :: 0 <= i < |s| ==> IsDigit(s[i])
  {
    if k == 0 then "" else Digits(n / 10, k - 1) + [DigitChar(n % 10)]
  }

  /** The number a digit string denotes. */
  function ValueOf(s: string): nat
    requires forall i :: 0 <= i < |s| ==> IsDigit(s[i])
  {
    if |s| == 0 then 0 else ValueOf(s[..|s| - 1]) * 10 + DigitValue(s[|s| - 1])
  }

  lemma {:induction false} ValueOfDigits(n: nat, k: nat)
    requires n < Pow10(k)
    ensures ValueOf(Digits(n, k)) == n
  {
    if k > 0 {
      var s := Digits(n, k);
      assert s[..|s| - 1] == Digits(n / 10, k - 1);
      ValueOfDigits(n / 10, k - 1);
    }
  }

  /** Reading `String(n)` back as a number gives `n`. */
  lemma {:induction false} ValueOfNatToString(n: nat)
    ensures ValueOf(NatToString(n)) == n
    decreases n
  {
    if n >= 10 {
      var s := NatToString(n);
      assert s[..|s| - 1] == NatToString(n / 10);
      ValueOfNatToString(n / 10);
    }
  }

  /** So different numbers render differently. */
  lemma NatToStringInjective(n: nat, m: nat)
    requires NatToString(n) == NatToString(m)
    ensures n == m
  {
    ValueOfNatToString(n);
    ValueOfNatToString(m);
  }

  /** ... and so do different integers, signed or not. */
  lemma IntToStringInjective(i: int, j: int)
    requires IntToString(i) == IntToString(j)
    ensures i == j
  {
    var s := IntToString(i);
    if i < 0 && j < 0 {
      assert s[1..] == NatToString(-i) && s[1..] == NatToString(-j);
      NatToStringInjective(-i, -j);
    } else if i >= 0 && j >= 0 {
      NatToStringInjective(i, j);
    }
  }

  /** Fixed-width renderings of different numbers differ. */
  lemma DigitsInjective(n: nat, m: nat, k: nat)
    requires n < Pow10(k) && m < Pow10(k)
    requires Digits(n, k) == Digits(m, k)
    ensures n == m
  {
    ValueOfDigits(n, k);
    ValueOfDigits(m, k);
  }

  /** On fixed-width renderings the string order is the numeric order. */
  lemma {:induction false} DigitsOrder(n: nat, m: nat, k: nat)
    requires n < Pow10(k) && m < Pow10(k)
    ensures LexLe(Digits(n, k), Digits(m, k)) <==> n <= m
  {
    if k == 0 {
    } else {
      var a, b := Digits(n / 10, k - 1), Digits(m / 10, k - 1);
      DigitsOrder(n / 10, m / 10, k - 1);
      LexLeConcat(a, [DigitChar(n % 10)], b, [DigitChar(m % 10)]);
      if a == b {
        DigitsInjective(n / 10, m / 10, k - 1);
      } else {
        assert n / 10 != m / 10;
      }
    }
  }

  /** `String(n)` is the fixed-width rendering at its own width. */
  lemma {:induction false} NatToStringIsDigits(n: nat, k: nat)
    requires k >= 1 && Pow10(k - 1) <= n < Pow10(k)
    ensures NatToString(n) == Digits(n, k)
  {
    if k > 1 {
      NatToStringIsDigits(n / 10, k - 1);
    }
  }

  /** `s.padStart(w, ch)`. */
  function PadStart(s: string, w: nat, ch: char): (r: string)
    ensures |r| == if |s| >= w then |s| else w
    decreases w - |s|
  {
    if |s| >= w then s else PadStart([ch] + s, w, ch)
  }

  /** `String(n).padStart(2, '0')` for a number below 100 is its two-digit rendering. */
  lemma PadTwoDigits(n: nat)
    requires n < 100
    ensures PadStart(NatToString(n), 2, '0') == Digits(n, 2)
  {
    if n < 10 {
      assert NatToString(n) == [DigitChar(n)];
      assert Digits(n, 2) == Digits(0, 1) + [DigitChar(n)];
    } else {
      NatToStringIsDigits(n, 2);
    }
  }
}

=== FILE: wrappers.dfy ===
/** Failure-compatible wrappers used across the model: `Option` for the
    source's `undefined`/`null` results and `Result` for thrown errors. */
module Wrappers {

  datatype Option<+T> = None | Some(value: T) {
    predicate IsFailure() { None? }

    function PropagateFailure<U>(): Option<U>
      requires None?
    {
      None
    }

    function Extract(): T
      requires Some?
    {
      value
    }

    function GetOr(default: T): T {
      match this
      case Some(v) => v
      case None => default
    }
  }

  datatype Result<+R, +E> = Ok(value: R) | Err(error: E) {
    predicate IsFailure() { Err? }

    function PropagateFailure<U>(): Result<U, E>
      requires Err?
    {
      Err(error)
    }

    function Extract(): R
      requires Ok?
    {
      value
    }
  }

  /** What a call can throw: NestJS HTTP exceptions by status, and a plain
      `Error` with its message. */
  datatype Failure =
    | BadRequest(message: string)
    | Unauthorized(message: string)
    | Forbidden(message: string)
    | NotFound(message: string)
    | Thrown(message: string)

  /** JavaScript truthiness of an optional string: `undefined` and `''` are falsy. */
  predicate Truthy(s: Option<string>) {
    s.Some? && |s.value| > 0
  }
}
